=== FILE: README.md ===
# Smart Billing and Inventory Management — a Dafny model of the core logic

The Smart Billing and Inventory Management System is a retail application with four parts:

- a Spring backend over MongoDB that creates bills, keeps customers and products, and produces reports;
- a Python analytics service that flattens stored bills into sales records;
- a React front end with a cart, list pages, forms and a token-refreshing HTTP client;
- a few older demo pages.

This project models the discrete logic underneath the presentation and I/O.
Each piece is a pure function over immutable datatypes, with contracts and lemmas that state what the code promises.

Conventions:

- Time is an integer count of milliseconds since the epoch, and the current time `now` is always a parameter.
- Document stores are sequences kept in insertion order (module `Repos`), so "the first match" and "repository order" mean what they mean in the code.
- A Java `null` or a JavaScript `undefined` is `None`. A thrown exception or an error response is `Err`, carrying its message or its message-source key.
- These are parameters of the model rather than part of it:
  - the password encoder and the JWT generator and decoder;
  - the random UUID;
  - the fuzzy search;
  - JavaScript's `Number` conversion of text (`None` for NaN);
  - local date formatting;
  - the browser's time-zone offset;
  - the mail server's failures.
- Java, JavaScript and Python library behaviour the code relies on is written out in `Text`, `Dates` and `Json`. This covers `String.split`, `trim`, `parseInt`, `Long.parseLong`, `SimpleDateFormat`'s non-lenient `yyyy-MM-dd` parsing, Python truthiness and `dict.get`.

Bill creation can fail after it has stored everything. The audit entry at BillServiceImpl.java:159-162 is built with `Map.of`, which throws a `NullPointerException` without a message when the charged customer's e-mail is null. No transaction manager is configured, so the stock updates, the customer and the bill stay stored. The model keeps this: `BillService.CreateBill` returns the stores together with the result, and the bulk upload and the synchronisation endpoint report such a bill as failed although it is stored.

Modules, one per file:

| module | what it covers |
|---|---|
| `Wrappers`, `Text`, `Seqs`, `Json`, `Dates`, `Sorting` | shared primitives: Option/Result, runtime string functions, order-preserving selection, loosely typed values, calendar arithmetic, stable sorting |
| `Models`, `Repos` | the persisted records and the stores |
| `BillService`, `PdfToken`, `BillBulk` | bill creation, the PDF access token and its gate, the bulk bill upload |
| `CustomerService`, `CustomerApi`, `Locales` | customers, their endpoints, the `Accept-Language` reading |
| `ProductStore`, `ProductApi` | the list-backed product service and the product controller's parsing and bulk upload |
| `Sync` | the offline synchronisation endpoint and service |
| `Reminders`, `Reports`, `ReportPdf` | the scheduled reminder selection, the sales and inventory reports, the PDF report's data helpers |
| `Auth`, `JwtFilter` | accounts and refresh tokens, the request authentication filter |
| `Analytics`, `LegacyAnalytics`, `Translations` | the analytics service, its older copy, and its message tables |
| `ApiClient`, `AuthService`, `RouteGuard` | the browser's HTTP client with its 401 refresh protocol, token storage, the role guard |
| `Cart`, `ProductList`, `BillList`, `CustomerList` | the cart and the list pages |
| `Checkout`, `BillForm`, `SendEmail`, `ProductForm`, `ReportGenerator`, `UiErrors` | the forms and how they report failures |
| `DemoPages` | the demo login, role-gated routes and navigation, the in-memory inventory |

## Model

| member | source | states |
|---|---|---|
| Models.BlankCustomer | backend/src/main/java/com/smartretail/backend/models/Customer.java:34-37 | The no-argument constructor leaves every field unset (id, name, e-mail, mobile, creation and last-purchase dates) and starts with an empty purchase history and no purchases. |
| Models.NewCustomer | backend/src/main/java/com/smartretail/backend/models/Customer.java:39-45 | The four-argument constructor stores exactly the given name, e-mail, mobile and creation date, with no id and an empty history. |
| Models.AddBillIdRaw | backend/src/main/java/com/smartretail/backend/models/Customer.java:47 | The record-level append adds the bill id at the end whether or not it is already listed; nothing else in the record changes. |
| Models.AddBillIdRawKeepsDuplicates | backend/src/main/java/com/smartretail/backend/models/Customer.java:47 | Appending the same bill id twice lists it twice, unlike the service-level append. |
| Models.ConstructorsStartEmpty | backend/src/main/java/com/smartretail/backend/models/Customer.java:34-45 | Both constructors start with an empty purchase history. |
| Models.NewCustomerValid | backend/src/main/java/com/smartretail/backend/models/Customer.java:21-32 | A freshly constructed customer meets the declared field constraints exactly when its name is non-blank with 2 to 100 characters, its e-mail is null, empty or a well-formed address, its mobile is null or ten digits, and it has a creation date. |
| Models.FindByBillId | backend/src/main/java/com/smartretail/backend/repository/BillRepository.java:11-12 | The lookup finds a stored bill with that business id exactly when one exists. |
| Repos.FindByMobile | backend/src/main/java/com/smartretail/backend/repository/CustomerRepository.java:10 | The lookup returns the first customer with that mobile, and none only when no stored customer has it. |
| Repos.SaveCustomer | backend/src/main/java/com/smartretail/backend/service/BillServiceImpl.java:147 | Saving a customer without an id appends it with the next fresh id; one whose id is stored replaces that record in place; one with an unknown id is appended as given. The saved record is the given one plus its id. |
| Repos.SaveBill | backend/src/main/java/com/smartretail/backend/service/BillServiceImpl.java:150-154 | Saving always yields a bill with an id that is otherwise the given bill, and stores it. A bill without an id is appended under a fresh id. A bill with an id replaces the stored bill with that id, or is appended when there is none. |
| BillService.PriceItems | backend/src/main/java/com/smartretail/backend/service/BillServiceImpl.java:88-110 | Items with a blank product id or an unknown product are kept unchanged and cause no stock update. Every other item takes the catalogue's name and price and causes exactly one stock update, in item order. |
| BillService.EffectiveBillId | backend/src/main/java/com/smartretail/backend/service/BillServiceImpl.java:63-66 | A null or blank bill id becomes "B" followed by the current milliseconds; any other id is kept. |
| BillService.EffectiveAddedBy | backend/src/main/java/com/smartretail/backend/service/BillServiceImpl.java:69-71 | A blank author becomes the authenticated name, or "system" when there is none; a given author is kept. |
| BillService.RecordPurchase | backend/src/main/java/com/smartretail/backend/service/BillServiceImpl.java:137-145 | The purchase count grows by exactly one and the last purchase is now. The bill id ends up listed, and is appended only when it was absent. Nothing else changes. |
| BillService.CustomerFor | backend/src/main/java/com/smartretail/backend/service/BillServiceImpl.java:128-135 | The bill is charged to the stored customer with its mobile, or else to a new record built from the bill's customer details. |
| BillService.Prepared | backend/src/main/java/com/smartretail/backend/service/BillServiceImpl.java:62-124 | The bill as prepared for saving keeps its database id and customer details. It carries the defaulted bill id and author, the priced items and the creation time. |
| BillService.Saved | backend/src/main/java/com/smartretail/backend/service/BillServiceImpl.java:109-154 | What creation stores: the prepared bill with an id (its own, or appended under a fresh one), the stock updates of its priced items appended in order, and the charged customer with the recorded purchase. |
| BillService.CreateBill | backend/src/main/java/com/smartretail/backend/service/BillServiceImpl.java:57-182 | Creation is refused, storing nothing, exactly on a duplicate id outside sync mode ("Bill already exists: id") or a missing customer or mobile ("Customer details are required"). Otherwise the stock updates, the charged customer and the prepared bill are all stored. The call then succeeds with the stored bill exactly when the charged customer has an e-mail, and otherwise fails with the message "null" while keeping everything it stored. |
| BillService.FailsAfterSaving | backend/src/main/java/com/smartretail/backend/service/BillServiceImpl.java:128-162 | Once both checks pass, creation fails exactly when the customer found by mobile (or, when none is found, the bill's own customer details) has no e-mail. A bill without a database id is appended even then, under its effective bill id. |
| BillService.GetBillById | backend/src/main/java/com/smartretail/backend/service/BillServiceImpl.java:184-188 | The lookup succeeds exactly when a stored bill has that id, and otherwise fails with "Bill not found: id". |
| BillService.EffectiveBillIdNotBlank | backend/src/main/java/com/smartretail/backend/service/BillServiceImpl.java:63-66 | After defaulting, the bill id never trims to nothing. |
| BillService.TokenOnlyWhenMissing | backend/src/main/java/com/smartretail/backend/service/BillServiceImpl.java:120-124 | A bill with a token keeps it; a bill without one gets a freshly generated token for its own id. |
| BillService.CustomerStatistics | backend/src/main/java/com/smartretail/backend/service/BillServiceImpl.java:128-147 | The charged customer is stored with the recorded purchase. The customer store grows by one record exactly when no customer had the bill's mobile. |
| BillService.SyncModeStoresDuplicates | backend/src/main/java/com/smartretail/backend/service/BillServiceImpl.java:73-76 | With an already-used bill id, normal mode fails while sync mode stores a second bill with the same id. |
| PdfToken.Validate | backend/src/main/java/com/smartretail/backend/service/BillServiceImpl.java:201-220 | An accepted token splits on '\|' into exactly three parts, the first is the bill id, the third parses as a long, and now is not past that many seconds. |
| PdfToken.ValidateComplete | backend/src/main/java/com/smartretail/backend/service/BillServiceImpl.java:201-220 | The converse: a token that passes all three checks is accepted. |
| PdfToken.GenerateIsJoin | backend/src/main/java/com/smartretail/backend/service/BillServiceImpl.java:226-230 | A generated token is the bill id, the UUID and the expiry second joined by '\|'. |
| PdfToken.GenerateThenValidate | backend/src/main/java/com/smartretail/backend/service/BillServiceImpl.java:201-230 | Round trip: a token issued for a bill id without '\|' validates for that bill id at any moment up to its expiry. |
| PdfToken.FreshTokenValidForAnHour | backend/src/main/java/com/smartretail/backend/service/BillServiceImpl.java:226-230 | A freshly issued token stays valid for the next 3599 seconds. |
| PdfToken.PipeInBillIdBreaksToken | backend/src/main/java/com/smartretail/backend/service/BillServiceImpl.java:204-206 | A bill id containing '\|' makes its own token split into more than three parts, so the token is refused. |
| PdfToken.GetBillPdf | backend/src/main/java/com/smartretail/backend/controller/BillController.java:62-74 | The answer is 403 exactly when no token is given or the token does not validate for that bill. A valid token for an unknown bill fails with "Bill not found: id"; a valid token for a stored bill returns that bill as "bill_id.pdf". |
| CustomerService.MergeInfo | backend/src/main/java/com/smartretail/backend/service/CustomerServiceImpl.java:44-55 | An existing customer takes the given name and e-mail only when they are non-empty; every other field is kept. |
| CustomerService.FreshCustomer | backend/src/main/java/com/smartretail/backend/service/CustomerServiceImpl.java:59-65 | A new customer has the given mobile and e-mail, the name or "Customer" when it is null, a creation time of now, and an empty history. |
| CustomerService.FindOrCreate | backend/src/main/java/com/smartretail/backend/service/CustomerServiceImpl.java:37-72 | A null or blank mobile is refused with "customer.mobile.required". A known mobile gives the stored record with the non-empty details merged in. An unknown mobile adds exactly one new record. |
| CustomerService.FindOrCreateExistingKeepsCount | backend/src/main/java/com/smartretail/backend/service/CustomerServiceImpl.java:43-58 | Finding an existing customer never adds a record to the store. |
| CustomerService.FindOrCreateTwiceAddsOnce | backend/src/main/java/com/smartretail/backend/service/CustomerServiceImpl.java:37-72 | After a first call the mobile is known, so a second call with the same details adds no record. |
| CustomerService.AddBillId | backend/src/main/java/com/smartretail/backend/service/CustomerServiceImpl.java:75-89 | An unknown mobile is refused with "customer.not.found". Otherwise the record is saved exactly when the bill id was absent, and an already-listed id leaves the store as it was. |
| CustomerService.AddBillIdAppendsOnce | backend/src/main/java/com/smartretail/backend/service/CustomerServiceImpl.java:81-88 | Afterwards the customer's history holds the id: appended when absent and untouched when present. No other record changes. |
| CustomerService.AddBillIdIdempotent | backend/src/main/java/com/smartretail/backend/service/CustomerServiceImpl.java:84-88 | Adding the same bill id a second time saves nothing and changes nothing. |
| CustomerService.CreateCustomer | backend/src/main/java/com/smartretail/backend/service/CustomerServiceImpl.java:92-103 | An already-used mobile is refused with "customer.exists". Otherwise the customer is stored as given, stamped with the creation time. |
| CustomerService.CreateCustomerTwiceFails | backend/src/main/java/com/smartretail/backend/service/CustomerServiceImpl.java:94-98 | Once created, the same customer cannot be created again, because its mobile is now taken. |
| CustomerService.GetCustomerById | backend/src/main/java/com/smartretail/backend/service/CustomerServiceImpl.java:106-113 | The lookup succeeds exactly when a stored customer has that id, and otherwise fails with "customer.not.found". |
| CustomerService.UpdateCustomer | backend/src/main/java/com/smartretail/backend/service/CustomerServiceImpl.java:124-135 | An unknown id is refused. Otherwise the stored record at that id's position becomes the old one with name, e-mail and mobile overwritten by the given values, nulls included; every other record and the store's size are unchanged. |
| CustomerService.DeleteCustomer | backend/src/main/java/com/smartretail/backend/service/CustomerServiceImpl.java:138-147 | An unknown id is refused. Otherwise no record with that id remains, the store shrinks, and every other record is kept. |
| CustomerService.HistoryCheck | backend/src/main/java/com/smartretail/backend/service/CustomerServiceImpl.java:166-177 | The checks run in order: an empty id first, then a start after the end, then an unknown customer. Each error is reported exactly when its check is the first to fail. |
| CustomerService.PurchaseHistoryAsWritten | backend/src/main/java/com/smartretail/backend/service/CustomerServiceImpl.java:163-200 | The query as written fails exactly when a check fails. It resolves the history's bill ids against the store's document ids. |
| CustomerService.PurchaseHistory | backend/src/main/java/com/smartretail/backend/service/CustomerServiceImpl.java:163-200 | The corrected query fails exactly when a check fails. Otherwise it returns, in store order, exactly the customer's bills that have a creation time within [start, end of the end day]; a missing bound is open. |
| CustomerService.EndDayIncluded | backend/src/main/java/com/smartretail/backend/service/CustomerServiceImpl.java:149-160 | A bill stamped at any moment of the end day lies before the shifted end bound. |
| CustomerService.PurchaseHistoryMissesBusinessIds | backend/src/main/java/com/smartretail/backend/service/CustomerServiceImpl.java:178-189 | A stored bill whose business id is in the history but whose document id differs is missed as written and found by the corrected query. |
| CustomerService.Personalize | backend/src/main/java/com/smartretail/backend/service/CustomerServiceImpl.java:216-218 | A body is personalised exactly when it is present; a null body fails for every recipient. What the substitution produces is stated by the two rows that follow. |
| CustomerService.PersonalizePlainBody | backend/src/main/java/com/smartretail/backend/service/CustomerServiceImpl.java:216-218 | A body without either placeholder is sent unchanged. |
| CustomerService.PersonalizePlaceholder | backend/src/main/java/com/smartretail/backend/service/CustomerServiceImpl.java:216-218 | A body that is just the name placeholder becomes the customer's name, or "Customer" for a null name, unless that name itself contains the second placeholder. |
| CustomerService.SendCustomEmail | backend/src/main/java/com/smartretail/backend/service/CustomerServiceImpl.java:203-232 | A null body sends nothing. A message goes exactly to the selected customers with a non-blank address whose send succeeds: every such customer receives their personalised message, and every message sent is one of those. |
| CustomerService.Deliver | backend/src/main/java/com/smartretail/backend/service/CustomerServiceImpl.java:209-229 | A failed send does not stop the loop: the messages delivered are exactly those of the customers with a non-blank address whose send succeeds, in customer order. |
| CustomerService.MailsTo | backend/src/main/java/com/smartretail/backend/service/CustomerServiceImpl.java:215-221 | one personalised message per customer, in order, addressed to that customer |
| CustomerService.FindInactive | backend/src/main/java/com/smartretail/backend/service/CustomerServiceImpl.java:236-245 | A null threshold gives no customers. Otherwise the result is exactly the customers who never bought or last bought before the threshold, in store order. |
| CustomerApi.CreateEndpoint | backend/src/main/java/com/smartretail/backend/controller/CustomerController.java:35-44 | A body breaking the customer's declared constraints is refused before the header or the service is looked at; a valid one with a readable header succeeds exactly when the service creates the customer, and then answers 201 with the saved record. |
| CustomerApi.FormBodyRefused | frontend/src/components/customers/CustomerForm.jsx:16 | Every body the customer form posts (name, e-mail and mobile, no creation date) is refused by the create endpoint as written. |
| CustomerApi.FixedCreateEndpoint | backend/src/main/java/com/smartretail/backend/controller/CustomerController.java:35-44 | The create endpoint with the creation date left to the service: the other constraints refuse a body first, then the header and the service decide as before. |
| CustomerApi.FixedCreateAgrees | backend/src/main/java/com/smartretail/backend/service/CustomerServiceImpl.java:92-103 | The correction answers exactly as the endpoint as written for every body that carries a creation date. |
| CustomerApi.FixedAcceptsFormBody | frontend/src/components/customers/CustomerForm.jsx:16 | The corrected endpoint creates a well-formed form body under a new mobile, answering 201 with the record stamped with the current time. |
| CustomerApi.DeleteEndpoint | backend/src/main/java/com/smartretail/backend/controller/CustomerController.java:79-88 | The delete endpoint succeeds exactly when the service deletes, and then answers 204 with no body. |
| CustomerApi.GetEndpoint | backend/src/main/java/com/smartretail/backend/controller/CustomerController.java:46-55 | The fetch endpoint answers 200 with the customer exactly when the service finds it. |
| CustomerApi.RemindersEndpoint | backend/src/main/java/com/smartretail/backend/controller/CustomerController.java:127-135 | The manual trigger runs the monthly job inside the request: it fails exactly when the job aborts, with the job's error, and otherwise answers 200 with the fixed message after exactly the job's mails. |
| CustomerApi.UpdateEndpoint | backend/src/main/java/com/smartretail/backend/controller/CustomerController.java:67-77 | A body breaking the customer's declared constraints is refused first; otherwise, with a readable header, the endpoint answers 200 with the updated record exactly when the service updates it. |
| CustomerApi.InitiatedMessageCount | backend/src/main/java/com/smartretail/backend/controller/CustomerController.java:122-124 | The e-mail answer reads "Email sending process initiated for N customers.", and N can be read back from it. |
| CustomerApi.SendEmailEndpoint | backend/src/main/java/com/smartretail/backend/controller/CustomerController.java:104-125 | An empty id list or a blank subject or body is refused first; otherwise, with a readable header, the e-mail endpoint answers 200 with a message counting the requested ids, before any mail is sent. |
| CustomerApi.SendEmailAnswerDependsOnCountOnly | backend/src/main/java/com/smartretail/backend/controller/CustomerController.java:122-124 | Two requests with the same subject, body and number of ids get the same answer, and an empty id list is refused. |
| CustomerApi.DeleteTwiceFails | backend/src/main/java/com/smartretail/backend/controller/CustomerController.java:79-88 | Deleting the same id a second time is refused. |
| Locales.PrimaryTag | backend/src/main/java/com/smartretail/backend/controller/CustomerController.java:141 | The first entry before ',' and then before ';', trimmed: it holds neither separator, and the reading fails exactly when the header has no such entry, as indexing an empty split throws. |
| Locales.LocaleOfTag | backend/src/main/java/com/smartretail/backend/controller/CustomerController.java:142-146 | Exactly two '-' pieces give language and country; any other number of pieces gives the language alone; a tag with no piece throws. |
| Locales.ParseLocaleCustomer | backend/src/main/java/com/smartretail/backend/controller/CustomerController.java:137-147 | Only a null or empty header means English; otherwise the locale of the first entry's tag. |
| Locales.ParseLocaleProduct | backend/src/main/java/com/smartretail/backend/controller/ProductController.java:262-267 | A null or blank header means English; any other header is read exactly as the customer controller reads it. |
| Locales.PrimaryTagOfPlain | backend/src/main/java/com/smartretail/backend/controller/CustomerController.java:141 | A plain language-country first entry is picked out whole, whatever entries follow it. |
| Locales.LocaleOfPlainTag | backend/src/main/java/com/smartretail/backend/controller/CustomerController.java:142-144 | A plain language-country tag becomes that language and country, lower- and upper-cased. |
| Locales.LanguageCountryTag | backend/src/main/java/com/smartretail/backend/controller/CustomerController.java:137-147 | A header whose first entry is a plain language-country tag is read as that locale. |
| Locales.LanguageCountryTagProduct | backend/src/main/java/com/smartretail/backend/controller/ProductController.java:262-267 | The product controller reads such a header to the same locale. |
| Locales.LanguageOnlyTag | backend/src/main/java/com/smartretail/backend/controller/CustomerController.java:146 | A tag without '-' gives the language alone. |
| Locales.BlankHeaderDiffers | backend/src/main/java/com/smartretail/backend/controller/CustomerController.java:138 | A whitespace-only header is English for the product controller but a locale with an empty language for the customer controller. |
| Locales.SeparatorHeaderThrows | backend/src/main/java/com/smartretail/backend/controller/CustomerController.java:141-146 | A header of separators only, such as "," or "-", makes the controller throw. |
| ProductApi.ParseDate | backend/src/main/java/com/smartretail/backend/controller/ProductController.java:306-313 | A null or blank text is no date. Any other text is parsed strictly as yyyy-MM-dd, and a failure reports "Invalid date format, expected yyyy-MM-dd: " with the text. |
| ProductApi.ParseDateOfFormatted | backend/src/main/java/com/smartretail/backend/controller/ProductController.java:38-39 | The canonical text of a valid date parses back to that day's local midnight. |
| ProductApi.ValidateCsvFile | backend/src/main/java/com/smartretail/backend/controller/ProductController.java:269-276 | A missing or empty file is refused first with "file.missing", then a name not ending in ".csv" in any case with "file.invalid.format"; only a present CSV name passes. |
| ProductApi.FromCsvRow | backend/src/main/java/com/smartretail/backend/controller/ProductController.java:286-304 | The product copies the row's fields, leaves the product id unset, defaults the author to "system" and the supplier to "default@supplier.com", and fails exactly when the expiry date does not parse. |
| ProductApi.GeneratedIdsDistinct | backend/src/main/java/com/smartretail/backend/controller/ProductController.java:226-229 | Two rows of one upload never get the same generated id. |
| ProductApi.ProductRow | backend/src/main/java/com/smartretail/backend/controller/ProductController.java:211-246 | Each row lands in exactly one list. A blank name gives exactly "Row n: Product name missing" with n = i+2. An existing supplied id gives the skip entry "Row n: Product ID X already exists". Only a created row changes the store. |
| ProductApi.CreatedWithId | backend/src/main/java/com/smartretail/backend/controller/ProductController.java:226-241 | A row without a product id is created under "P-<millis>-<index>". |
| ProductApi.ProductRows | backend/src/main/java/com/smartretail/backend/controller/ProductController.java:211-246 | Every row from the given index on lands in exactly one list, and the successful ids are those of the created products, in row order. |
| ProductApi.BulkUpload | backend/src/main/java/com/smartretail/backend/controller/ProductController.java:190-259 | The upload fails exactly when the file check or the CSV reading fails. Otherwise the successful, skipped and error counts add up to the number of rows. |
| ProductApi.JavaString | backend/src/main/java/com/smartretail/backend/controller/ProductController.java:315 | Strings render as themselves, null as "null", integers in decimal. |
| ProductApi.SafeString | backend/src/main/java/com/smartretail/backend/controller/ProductController.java:315 | The text of a value is missing exactly when the value is null. |
| ProductApi.SafeInt | backend/src/main/java/com/smartretail/backend/controller/ProductController.java:317 | Null reads as 0. Only an integer within the 32-bit range, or a string of one, converts; fractions, booleans and collections throw. |
| ProductApi.SafeDouble | backend/src/main/java/com/smartretail/backend/controller/ProductController.java:316 | Null reads as 0.0 and numbers as themselves; booleans and collections throw. |
| ProductApi.ApplyField | backend/src/main/java/com/smartretail/backend/controller/ProductController.java:131-140 | Only the eight known keys set their field, each to its converted value (the three integer fields fail exactly when the conversion fails); any other key leaves the patch unchanged. |
| ProductApi.PatchFrom | backend/src/main/java/com/smartretail/backend/controller/ProductController.java:129-144 | Building the patch fails exactly when some entry's value does not convert, and the error is "Invalid value for field 'k': v" for the first such entry. |
| ProductApi.ConversionIndependent | backend/src/main/java/com/smartretail/backend/controller/ProductController.java:129-144 | Whether an entry converts depends only on its key and value, not on the patch built so far. |
| ProductApi.Patch | backend/src/main/java/com/smartretail/backend/controller/ProductController.java:127-144 | The patch starts from an empty product and fails exactly when some entry does not convert. |
| ProductApi.UnknownKeysIgnored | backend/src/main/java/com/smartretail/backend/controller/ProductController.java:131-140 | A request holding only unknown keys changes nothing. |
| ProductApi.NullNumberIsZero | backend/src/main/java/com/smartretail/backend/controller/ProductController.java:141-142 | With only null values on number keys the patch succeeds, and price, quantity, minimum quantity and reorder level are each 0 when named and otherwise unchanged. |
| ProductApi.FirstBadEntryNamed | backend/src/main/java/com/smartretail/backend/controller/ProductController.java:129-144 | With a bad price and a bad quantity, the error names the price, the first bad entry. |
| ProductStore.NewRecord | backend/src/main/java/com/smartretail/backend/service/ProductServiceImpl.java:37-45 | A created record takes the fresh id and exactly the product id, name, category, price and quantity of the request; every other field keeps its constructor default. |
| ProductStore.FirstWithId | backend/src/main/java/com/smartretail/backend/service/ProductServiceImpl.java:54-55 | The position of the first record with that id, and none only when no record has it. |
| ProductStore.GetProductById | backend/src/main/java/com/smartretail/backend/service/ProductServiceImpl.java:24-31 | The lookup returns a stored record with that id, and null exactly when no record has it. |
| ProductStore.CreateProduct | backend/src/main/java/com/smartretail/backend/service/ProductServiceImpl.java:34-49 | Creation appends exactly one record under the fresh id and reports "Product created successfully. ID: " with that id. |
| ProductStore.Merge | backend/src/main/java/com/smartretail/backend/service/ProductServiceImpl.java:56-60 | Strings are taken over when not null, and price and quantity when not zero; every other field is kept. |
| ProductStore.UpdateProduct | backend/src/main/java/com/smartretail/backend/service/ProductServiceImpl.java:52-68 | Only the first record with the id is merged. An unknown id leaves the list unchanged and reports "Error: Product not found". |
| ProductStore.DeleteProduct | backend/src/main/java/com/smartretail/backend/service/ProductServiceImpl.java:71-81 | Every record with the id is removed, and success is reported exactly when the list shrank. |
| ProductStore.CreateThenGet | backend/src/main/java/com/smartretail/backend/service/ProductServiceImpl.java:24-49 | A record created under an unused id is found by that id. |
| ProductStore.UpdateTouchesOne | backend/src/main/java/com/smartretail/backend/service/ProductServiceImpl.java:52-68 | An update keeps the list's length and changes only a record with the id. |
| ProductStore.DeleteRemovesAll | backend/src/main/java/com/smartretail/backend/service/ProductServiceImpl.java:71-81 | Deletion reports success exactly when some record had the id, and afterwards no record has it. |
| BillBulk.ParseItem | backend/src/main/java/com/smartretail/backend/controller/BillController.java:157-177 | An item object is accepted exactly when it has both a productId (a string or null) and a numeric qty; anything else throws. |
| BillBulk.ParseItems | backend/src/main/java/com/smartretail/backend/controller/BillController.java:154-177 | The items column converts exactly when every element converts, one item per element, in order. |
| BillBulk.ItemsOf | backend/src/main/java/com/smartretail/backend/controller/BillController.java:154 | The items column yields items only when it parses as a JSON array. |
| BillBulk.ItemNotes | backend/src/main/java/com/smartretail/backend/controller/BillController.java:185-194 | The item loop as written gives exactly one note per bad item (as many notes as bad items). |
| BillBulk.NoNotesIffClean | backend/src/main/java/com/smartretail/backend/controller/BillController.java:185-194 | The loop as written reports nothing exactly when the search for a first bad item finds none, so the two loops agree on clean rows. |
| BillBulk.CheckRow | backend/src/main/java/com/smartretail/backend/controller/BillController.java:123-183 | The required columns are checked in order (bill id, mobile, items, author), each refusal giving one error. An already-stored trimmed id is skipped, not an error. A row is ready exactly when it is complete, new, and its items parse into a non-empty list. Nothing is stored on any early exit. |
| BillBulk.BillOf | backend/src/main/java/com/smartretail/backend/controller/BillController.java:202-212 | The bill built from a row carries the trimmed bill id, the trimmed mobile as its only customer detail, and the parsed items. |
| BillBulk.RowDate | backend/src/main/java/com/smartretail/backend/controller/BillController.java:215-226 | A blank creation date means now; any other text is parsed strictly as yyyy-MM-dd. |
| BillBulk.Finish | backend/src/main/java/com/smartretail/backend/controller/BillController.java:215-243 | From the date check on, a row either creates one bill or records one error, in addition to the item notes collected before. An invalid date stores nothing. Otherwise the stores are those bill creation leaves, and a failed creation is recorded as "bill.add.failed" with its message. |
| BillBulk.RowAsWritten | backend/src/main/java/com/smartretail/backend/controller/BillController.java:119-244 | A row as written creates at most one bill. Its item notes do not stop the row. |
| BillBulk.Row | backend/src/main/java/com/smartretail/backend/controller/BillController.java:119-244 | The corrected row lands in exactly one of created, skipped or errors. A row with a bad item creates nothing. |
| BillBulk.RowsAsWritten | backend/src/main/java/com/smartretail/backend/controller/BillController.java:119-244 | The rows as written create at most one bill each. |
| BillBulk.Rows | backend/src/main/java/com/smartretail/backend/controller/BillController.java:119-244 | Every row appears exactly once across the successful, skipped and error lists. |
| BillBulk.CheckFile | backend/src/main/java/com/smartretail/backend/controller/BillController.java:81-113 | The request is refused exactly for a missing or empty part, a null or non-".csv" name (in any case), or an unreadable CSV. |
| BillBulk.BulkUploadAsWritten | backend/src/main/java/com/smartretail/backend/controller/BillController.java:76-267 | The upload as written fails exactly when the file checks fail, and creates at most one bill per row. |
| BillBulk.BulkUpload | backend/src/main/java/com/smartretail/backend/controller/BillController.java:76-267 | The upload fails exactly when the file checks fail. An empty file gives the single "file.empty" error and stores nothing. Otherwise every row is counted exactly once, so each count equals its list's length. |
| BillBulk.RowCreation | backend/src/main/java/com/smartretail/backend/controller/BillController.java:202-230 | A complete row whose trimmed id is new is never refused by bill creation, which appends its bill under that id. The creation succeeds exactly when the row's mobile belongs to a stored customer with an e-mail. |
| BillBulk.UnknownMobileFailsAfterStoring | backend/src/main/java/com/smartretail/backend/controller/BillController.java:202-241 | A clean row whose mobile no customer has is reported as "bill.add.failed" with the message "null", yet its bill is stored. |
| BillBulk.RowAppends | backend/src/main/java/com/smartretail/backend/controller/BillController.java:119-244 | A row leaves the bills unchanged or appends one bill. That bill carries the row's trimmed id, which was not stored before. A created bill is exactly the appended one. |
| BillBulk.RowKeepsIdsDistinct | backend/src/main/java/com/smartretail/backend/controller/BillController.java:143-146 | A row keeps the stored bill ids distinct. |
| BillBulk.RowsAppend | backend/src/main/java/com/smartretail/backend/controller/BillController.java:119-244 | The corrected upload only appends: the bills before are a prefix of those after, and the successful bills appear, in order, among the appended ones. |
| BillBulk.RowsKeepIdsDistinct | backend/src/main/java/com/smartretail/backend/controller/BillController.java:143-146 | The corrected upload keeps the stored bill ids distinct, so a bill id repeated within the file is stored once. |
| BillBulk.RowAsWrittenAppends | backend/src/main/java/com/smartretail/backend/controller/BillController.java:119-244 | A row as written, bad items and all, leaves the bills unchanged or appends one bill under the row's trimmed id, not stored before; a created bill is exactly the appended one. |
| BillBulk.RowAsWrittenKeepsIdsDistinct | backend/src/main/java/com/smartretail/backend/controller/BillController.java:143-146 | A row as written keeps the stored bill ids distinct. |
| BillBulk.RowsAsWrittenAppend | backend/src/main/java/com/smartretail/backend/controller/BillController.java:119-244 | The upload as written only appends: the bills before are a prefix of those after, and the successful bills appear, in order, among the appended ones. |
| BillBulk.RowsAsWrittenKeepIdsDistinct | backend/src/main/java/com/smartretail/backend/controller/BillController.java:143-146 | The upload as written keeps the stored bill ids distinct too, so a bill id repeated within the file is stored once. |
| BillBulk.RowsStep | backend/src/main/java/com/smartretail/backend/controller/BillController.java:119-121 | Row i is processed as row number i+2 before the rows after it. |
| BillBulk.CleanRowsAgree | backend/src/main/java/com/smartretail/backend/controller/BillController.java:185-194 | On a row whose items are all good, the written and the corrected item loops agree. |
| BillBulk.BlankItemRowChecks | backend/src/main/java/com/smartretail/backend/controller/BillController.java:157-183 | The example row, whose single item has an empty product id, passes the column checks with that one item. |
| BillBulk.BadItemRowBothFailsAndSucceeds | backend/src/main/java/com/smartretail/backend/controller/BillController.java:185-194 | As written, a row whose only item names no product, charged to a stored customer with an e-mail, both reports "bill.item.product.missing" and creates its bill; the corrected row only reports the error. |
| Sync.SyncBill | backend/src/main/java/com/smartretail/backend/service/SyncService.java:21-32 | A bill whose id is already stored is not created again, and its id is returned as given. Otherwise creation runs in normal mode, and whatever it stored stays stored. The call fails exactly when creation fails, and otherwise returns the created bill's id. |
| Sync.SyncBillTwice | backend/src/main/java/com/smartretail/backend/service/SyncService.java:21-31 | A bill with customer details and a non-blank id, synced a second time, changes nothing and returns its id, even when the first sync failed after storing the bill. |
| Sync.DefaultIdsDiffer | backend/src/main/java/com/smartretail/backend/service/BillServiceImpl.java:63-66 | Default bill ids drawn at different milliseconds differ. |
| Sync.HasBillIdAppend | backend/src/main/java/com/smartretail/backend/service/SyncService.java:23-24 | Appending one bill adds only that bill's id to the stored ids. |
| Sync.SyncBlankIdNotIdempotent | backend/src/main/java/com/smartretail/backend/service/SyncService.java:21-31 | A bill without an id gets a fresh id on every sync, so syncing it twice stores it twice, whether or not either call reports success. |
| Sync.OrEmpty | backend/src/main/java/com/smartretail/backend/controller/SyncController.java:84-90 | A missing list reads as empty, a present one as itself. |
| Sync.SyncBills | backend/src/main/java/com/smartretail/backend/controller/SyncController.java:44-53 | Each bill is created in sync mode. Only bills with customer details can succeed. Every failure leaves one "Bill id: message" error, with the id that creation gave the bill, and the loop goes on with whatever was stored. |
| Sync.SyncProducts | backend/src/main/java/com/smartretail/backend/controller/SyncController.java:56-66 | Every product is either processed or leaves one "Product id: message" error. |
| Sync.SyncPending | backend/src/main/java/com/smartretail/backend/controller/SyncController.java:33-76 | All bills are processed, in order, before any product. Every item lands in exactly one list, and only bills with customer details can be processed. The message is "Sync completed successfully" exactly when there are no errors, and "Sync completed with errors" otherwise. |
| Sync.EmptyRequestSucceeds | backend/src/main/java/com/smartretail/backend/controller/SyncController.java:84-90 | A request with both lists missing succeeds with nothing processed. |
| Sync.SyncStoresEveryBill | backend/src/main/java/com/smartretail/backend/controller/SyncController.java:44-51 | Sync mode stores every bill with customer details, duplicates included. Its errors are after-save failures ("Bill id: null") of some of these bills, in batch order. |
| Sync.SyncOneBill | backend/src/main/java/com/smartretail/backend/controller/SyncController.java:44-51 | One bill with customer details syncs without error exactly when the customer it is charged to has an e-mail; otherwise the error is "Bill id: null" under its effective id. |
| Sync.AfterSaveErrors | backend/src/main/java/com/smartretail/backend/controller/SyncController.java:51 | The list holds one after-save error per bill, in order, each naming that bill's effective id. |
| Reminders.FrequentItems | backend/src/main/java/com/smartretail/backend/service/ReminderService.java:56-67 | a product is frequent exactly when its name appears on at least two bill items of the history; a null product name makes the grouping fail (None) |
| Reminders.FrequentNamesExact | backend/src/main/java/com/smartretail/backend/service/ReminderService.java:64-67 | the kept names are exactly those counted two or more times |
| Reminders.FrequentIffTwoItems | backend/src/main/java/com/smartretail/backend/service/ReminderService.java:56-67 | a name is frequent iff two different item positions carry it |
| Reminders.ItemsNotQuantities | backend/src/main/java/com/smartretail/backend/service/ReminderService.java:57-62 | items are counted, not quantities: one item in each of two bills is frequent, one item of quantity 5 is not |
| Reminders.ReminderItems | backend/src/main/java/com/smartretail/backend/service/ReminderService.java:43-72 | A blank or missing address is skipped before the history is read. The history is the query as written, which looks business bill ids up as document ids. An empty history or no frequent item sends nothing; a failed history query or a null name aborts the job; a mail carries the non-empty frequent set. |
| Reminders.MonthlyReminders | backend/src/main/java/com/smartretail/backend/service/ReminderService.java:42-88 | At most one mail per customer, every one to a non-blank address the server accepted, with a non-empty item set; a failed send is skipped and the loop continues. |
| Reminders.RunComplete | backend/src/main/java/com/smartretail/backend/service/ReminderService.java:41-87 | Up to the first customer whose decision fails (all of them when none does), every due customer gets exactly their reminder, in order, and nobody else gets one. The run aborts exactly when some decision fails, with that failure. |
| Reminders.MonthlyRemindersComplete | backend/src/main/java/com/smartretail/backend/service/ReminderService.java:36-91 | The same completeness for the job's own decisions: the history query as written and the frequent items. |
| Reminders.RunReminders | backend/src/main/java/com/smartretail/backend/service/ReminderService.java:41-87 | at most one mail per customer |
| Reminders.NoAddressNoMail | backend/src/main/java/com/smartretail/backend/service/ReminderService.java:43-46 | customers without an address neither receive mail nor stop the job |
| Reminders.SendMonthlyPurchaseReminders | backend/src/main/java/com/smartretail/backend/service/ReminderService.java:36-91 | The job aborts exactly when some customer's decision fails. Otherwise every stored customer with a non-blank address, frequent items and a send that succeeds receives their reminder, and every mail has a non-empty item set. |
| Reminders.ReEngagementThreshold | backend/src/main/java/com/smartretail/backend/service/ReminderService.java:101-104 | the inactivity threshold lies exactly thirty days before now |
| Reminders.SendReEngagementReminders | backend/src/main/java/com/smartretail/backend/service/ReminderService.java:98-135 | exactly the customers inactive since the threshold with a working address get one mail each, greeting them by name or as Valued Customer |
| Reminders.RecentBuyerNotReEngaged | backend/src/main/java/com/smartretail/backend/service/CustomerServiceImpl.java:236-245 | a customer who bought after the threshold is never sent a re-engagement mail |
| Reports.InRange | backend/src/main/java/com/smartretail/backend/service/ReportServiceImpl.java:64-66 | keeps, in order, exactly the bills stamped within the inclusive range |
| Reports.GetSalesReport | backend/src/main/java/com/smartretail/backend/service/ReportServiceImpl.java:36-107 | a start after the end is refused with report.date.range.invalid; otherwise the count is that of the bills in range, at most 100 of them are listed, all of them when there are no more than 100, and an empty range lists none |
| Reports.GetInventoryReport | backend/src/main/java/com/smartretail/backend/service/ReportServiceImpl.java:110-150 | a negative threshold, then negative days, then an empty catalogue are refused in that order; otherwise low-stock and expiring lists hold exactly the products meeting each test, in catalogue order, with matching counts |
| Reports.ThresholdMonotone | backend/src/main/java/com/smartretail/backend/service/ReportServiceImpl.java:137-139 | raising the low-stock threshold never drops a product from the low-stock list |
| Reports.SalesFor | backend/src/main/java/com/smartretail/backend/controller/ReportController.java:50-61 | an unparsable date gives report.date.invalid; the end is widened to the last millisecond of its day before the range check |
| Reports.SalesEndpoint | backend/src/main/java/com/smartretail/backend/controller/ReportController.java:41-62 | both dates are read as strict yyyy-MM-dd UTC midnights and every failure, including the range check, becomes report.date.invalid |
| Reports.SalesAcceptsOrderedDays | backend/src/main/java/com/smartretail/backend/controller/ReportController.java:50-56 | with two well-formed dates the request succeeds iff the end day is not before the start day |
| Reports.EndDayCovered | backend/src/main/java/com/smartretail/backend/controller/ReportController.java:53-54 | every moment of the end day falls inside the range |
| Reports.InventoryEndpoint | backend/src/main/java/com/smartretail/backend/controller/ReportController.java:64-72 | missing parameters default to threshold 10 and 30 days, given ones pass through |
| Reports.DefaultsAccepted | backend/src/main/java/com/smartretail/backend/controller/ReportController.java:66-67 | without parameters a non-empty catalogue always yields a report |
| Reports.ReportFilename | backend/src/main/java/com/smartretail/backend/controller/ReportController.java:109-110 | the download name wraps the two dates in 27 fixed characters |
| Reports.ReportFilenameDeterminesDates | backend/src/main/java/com/smartretail/backend/controller/ReportController.java:109 | for ten-character dates the file name determines both dates |
| ReportPdf.GetIntValue | backend/src/main/java/com/smartretail/backend/service/ReportPdfServiceImpl.java:600-605 | any number reads as its 32-bit int value, a value already in range as itself, and a non-number as 0 |
| ReportPdf.GetDoubleValue | backend/src/main/java/com/smartretail/backend/service/ReportPdfServiceImpl.java:593-598 | any number reads as its value and a non-number as 0.0 |
| ReportPdf.GetStringValue | backend/src/main/java/com/smartretail/backend/service/ReportPdfServiceImpl.java:607-612 | a string reads as itself, null as "N/A" |
| ReportPdf.IntMetric | backend/src/main/java/com/smartretail/backend/service/ReportPdfServiceImpl.java:189-200 | the alternate key is read only when the primary value reads as 0 |
| ReportPdf.RealMetric | backend/src/main/java/com/smartretail/backend/service/ReportPdfServiceImpl.java:188-195 | the alternate key is read only when the primary revenue reads as 0.0 |
| ReportPdf.AlternateOnlyForZero | backend/src/main/java/com/smartretail/backend/service/ReportPdfServiceImpl.java:193-200 | a non-zero primary makes the alternate irrelevant, while a stated primary 0 is overridden by the alternate |
| ReportPdf.KeyMetricsOf | backend/src/main/java/com/smartretail/backend/service/ReportPdfServiceImpl.java:188-201 | the orders figure is total_orders, else totalOrders; with no total_orders key it is totalOrders |
| ReportPdf.InventoryAlertsOf | backend/src/main/java/com/smartretail/backend/service/ReportPdfServiceImpl.java:250-258 | the two alert counts prefer the camel-case key and fall back to the snake-case one on 0 |
| ReportPdf.ExtractAISummary | backend/src/main/java/com/smartretail/backend/service/ReportPdfServiceImpl.java:147-171 | the map summary's "report" string, else a string summary, else the sales report's "aiSummary" string, else the fixed sentence, in that priority |
| ReportPdf.TextSummaryFirst | backend/src/main/java/com/smartretail/backend/service/ReportPdfServiceImpl.java:149-170 | a string summary beats the sales report's; a non-string "report" falls through to the fixed sentence |
| ReportPdf.ExtractSalesSummary | backend/src/main/java/com/smartretail/backend/service/ReportPdfServiceImpl.java:224-235 | present exactly when the sales report is a map; its "summary" map when there is one, else the report itself |
| ReportPdf.ExtractTopProducts | backend/src/main/java/com/smartretail/backend/service/ReportPdfServiceImpl.java:326-335 | present exactly when "top_products" holds a list, and then that list |
| ReportPdf.TopProductsSection | backend/src/main/java/com/smartretail/backend/service/ReportPdfServiceImpl.java:278-324 | a missing or empty list shows the no-data paragraph; a non-empty list of maps gives one row per map, in order; a list with any other element makes the section fail |
| ReportPdf.ConvertToListOfMaps | backend/src/main/java/com/smartretail/backend/service/ReportPdfServiceImpl.java:511-521 | keeps exactly the map elements, in order |
| ReportPdf.ConvertKeepsMaps | backend/src/main/java/com/smartretail/backend/service/ReportPdfServiceImpl.java:511-521 | a list of maps converts to the same number of rows, a list without maps to none |
| ReportPdf.ExtractLowStockProducts | backend/src/main/java/com/smartretail/backend/service/ReportPdfServiceImpl.java:406-508 | the first of the sixteen keys whose list holds a map wins; otherwise the maps of the first entry, in iteration order, whose list starts with a product-like map; nothing is found without such a key or entry |
| ReportPdf.FirstKeyWins | backend/src/main/java/com/smartretail/backend/service/ReportPdfServiceImpl.java:430-458 | the earlier key in the fixed order wins over a later one |
| ReportPdf.ColorFromHex | backend/src/main/java/com/smartretail/backend/service/ReportPdfServiceImpl.java:578-590 | after an optional '#', fewer than six characters give black |
| ReportPdf.ColorRoundTrip | backend/src/main/java/com/smartretail/backend/service/ReportPdfServiceImpl.java:578-590 | "#rrggbb" written from any three bytes reads back as that colour, whatever follows |
| ReportPdf.BadColoursAreBlack | backend/src/main/java/com/smartretail/backend/service/ReportPdfServiceImpl.java:587-589 | a short or non-hexadecimal name gives black |
| ReportPdf.StockStatus | backend/src/main/java/com/smartretail/backend/service/ReportPdfServiceImpl.java:531-536 | out of stock iff quantity <= 0, critical iff 1..2, below reorder level iff above 2 and at or under a positive level |
| ReportPdf.StockStatusOrder | backend/src/main/java/com/smartretail/backend/service/ReportPdfServiceImpl.java:531-536 | a reorder level of 2 or less never shows "Below Reorder Level", and more stock never makes "Low Stock" more urgent |
| Auth.FindByEmail | backend/src/main/java/com/smartretail/backend/service/AuthServiceImpl.java:57-58 | finds an account with exactly that e-mail, and finds none only when no account has it |
| Auth.FindUserById | backend/src/main/java/com/smartretail/backend/service/AuthServiceImpl.java:135-136 | finds an account with that document id, none for a null id or an id no account has |
| Auth.SaveUser | backend/src/main/java/com/smartretail/backend/service/AuthServiceImpl.java:52 | the saved account always has an id; a new one gets a fresh id and is appended, one with a known id replaces that account in place; tokens are untouched |
| Auth.SaveToken | backend/src/main/java/com/smartretail/backend/service/AuthServiceImpl.java:68-71 | a new refresh token with a fresh id is appended and the accounts are untouched |
| Auth.Signup | backend/src/main/java/com/smartretail/backend/service/AuthServiceImpl.java:43-53 | refused iff the e-mail is taken; otherwise exactly one account is appended, with the encoded password and the requested name, e-mail and role, and no token is issued |
| Auth.Login | backend/src/main/java/com/smartretail/backend/service/AuthServiceImpl.java:56-74 | an unknown e-mail, then a mismatched password, is refused with nothing stored; a success appends one refresh token for the account, issued now and expiring at twice the access lifetime, and returns both tokens |
| Auth.LoginTokenIsFound | backend/src/main/java/com/smartretail/backend/service/AuthServiceImpl.java:126-132 | a login token that differs from every stored one is found as the newest record, and is refused as expired exactly when its own lifetime is over |
| Auth.LoginKeepsOlderTokens | backend/src/main/java/com/smartretail/backend/service/AuthServiceImpl.java:68-71 | a password login adds one token and keeps every older token in place |
| Auth.ClockUserId | backend/src/main/java/com/smartretail/backend/service/AuthServiceImpl.java:101 | The display id is "u" followed by the decimal text of the clock's remainder by 10000 with Java's sign rule: that text reads back as the remainder, which is the plain remainder for a non-negative clock and is never positive for a negative one. |
| Auth.OAuthAccount | backend/src/main/java/com/smartretail/backend/service/AuthServiceImpl.java:79-103 | an existing account only gets a non-null new name and a fresh last-login; a new one is a password-less CASHIER stamped now with a clock display id |
| Auth.OAuthLogin | backend/src/main/java/com/smartretail/backend/service/AuthServiceImpl.java:78-117 | the account is saved, every token it owned is deleted, and one new token for it is appended after the other accounts' tokens |
| Auth.OAuthLeavesOneToken | backend/src/main/java/com/smartretail/backend/service/AuthServiceImpl.java:110-114 | afterwards the account owns exactly one token, the last, and every other account's token survives |
| Auth.OAuthKeepsExistingAccount | backend/src/main/java/com/smartretail/backend/service/AuthServiceImpl.java:82-89 | an existing account keeps its id, role, password, display id and creation date; a null name keeps its name |
| Auth.Refresh | backend/src/main/java/com/smartretail/backend/service/AuthServiceImpl.java:126-139 | an unknown token is refused; an expired one is deleted and refused; a token of a vanished account is refused; otherwise a new access token for its account, and only the expired case changes the store |
| Auth.RefreshOkMeansLiveToken | backend/src/main/java/com/smartretail/backend/service/AuthServiceImpl.java:126-139 | a successful exchange changes nothing and implies a stored, unexpired token of an existing account |
| Auth.ExpiredTokenIsForgotten | backend/src/main/java/com/smartretail/backend/service/AuthServiceImpl.java:130-133 | after an expired token is refused, trying it again reports an invalid token |
| Auth.GetUserById | backend/src/main/java/com/smartretail/backend/service/UserServiceImpl.java:25-28 | found iff some account has that id, and then it is such an account; otherwise "User not found: " and the id |
| Auth.GetUserByEmail | backend/src/main/java/com/smartretail/backend/service/AuthServiceImpl.java:120-123 | found iff some account has that e-mail, and then it is such an account |
| Auth.CreateUser | backend/src/main/java/com/smartretail/backend/service/UserServiceImpl.java:31-54 | a taken e-mail is refused before a null or blank role; otherwise one account is appended with the encoded password, the upper-cased role and a clock display id |
| Auth.ClockUserIdRepeats | backend/src/main/java/com/smartretail/backend/service/UserServiceImpl.java:43 | accounts created ten seconds apart get the same display id |
| Auth.DeleteUser | backend/src/main/java/com/smartretail/backend/service/UserServiceImpl.java:62-67 | refused iff no account has the id; otherwise no account with the id remains, every other account stays, and the tokens are untouched |
| Auth.DeletedUserNotFound | backend/src/main/java/com/smartretail/backend/service/UserServiceImpl.java:62-67 | looking up a deleted id reports it missing |
| JwtFilter.BearerToken | backend/src/main/java/com/smartretail/backend/security/JwtAuthenticationFilter.java:42-43 | a token is read iff the header starts with "Bearer ", and the header is that prefix followed by the token |
| JwtFilter.BearerRoundTrip | backend/src/main/java/com/smartretail/backend/security/JwtAuthenticationFilter.java:42-43 | a header built from any token gives the token back |
| JwtFilter.LowerCaseSchemeIgnored | backend/src/main/java/com/smartretail/backend/security/JwtAuthenticationFilter.java:42 | a lower-case "bearer" scheme is not read |
| JwtFilter.ExtractedEmail | backend/src/main/java/com/smartretail/backend/security/JwtAuthenticationFilter.java:42-50 | an e-mail is extracted only from a bearer token that validates, and it is the token's subject |
| JwtFilter.Filter | backend/src/main/java/com/smartretail/backend/security/JwtAuthenticationFilter.java:55-81 | the chain runs iff nothing escapes; authentication is only ever added to an unauthenticated request with an extracted e-mail, naming a stored account with that e-mail and the authority ROLE_ plus its role; an unknown e-mail escapes as "User not found" |
| JwtFilter.InvalidTokenPassesThrough | backend/src/main/java/com/smartretail/backend/security/JwtAuthenticationFilter.java:44-50 | a missing or invalid token leaves the request unchanged and runs the chain |
| JwtFilter.NotFoundBranchUnreachable | backend/src/main/java/com/smartretail/backend/security/JwtAuthenticationFilter.java:56-78 | with an extracted e-mail, the request is either authenticated with the chain running or the exception escapes, never both and never neither |
| JwtFilter.AuthenticatedRequestUntouched | backend/src/main/java/com/smartretail/backend/security/JwtAuthenticationFilter.java:55 | an existing authentication is never replaced |
| Analytics.Or | analytics/app.py:92 | Python's `or`: the first operand when truthy, else the second |
| Analytics.GetOr | analytics/app.py:97-98 | `dict.get` with a default: the stored value when the key is present, the default otherwise |
| Analytics.Positive | analytics/app.py:106 | comparing with 0 succeeds exactly on numbers (booleans included) and is true iff the value is positive; anything else raises TypeError |
| Analytics.Elements | analytics/app.py:98-99 | iterating a list yields its elements; only an empty dict or string also iterates without the item `.get` raising |
| Analytics.UnwrapDate | analytics/app.py:93-94 | an exported `{"$date": v}` becomes v, anything else is kept |
| Analytics.ItemProductId | analytics/app.py:102-109 | a truthy string productId is used as is; with none of productId, product_id, id truthy the id is "unknown" |
| Analytics.ItemRecord | analytics/app.py:99-115 | a non-dict item raises; a non-numeric quantity raises; a record is kept exactly when quantity and price are positive, with revenue price times quantity and the bill's date and total |
| Analytics.ItemRecords | analytics/app.py:99-115 | at most one record per item, every one well formed |
| Analytics.NormalizeBills | analytics/app.py:87-121 | Every record kept has positive quantity and price and revenue their product. A bill whose date `pd.to_datetime` rejects raises before its items are read, and success means every bill's date converted. |
| Analytics.QuantityFallsBackOnZero | analytics/app.py:92-103 | a quantity of 0 under "quantity" falls back to "qty"; createdAt wins over date and its $date is unwrapped |
| Analytics.ZeroPriceDropped | analytics/app.py:106 | a zero price drops the item; the price is compared only after a positive quantity |
| Analytics.SumQtyPositive | analytics/app.py:431-435 | kept records always sum to positive quantity and revenue |
| Analytics.ReportOf | analytics/app.py:346-439 | A normalisation error is a 500 with that error. No kept record gives the fixed zero summary with 200 before the products are read. Kept records with a product table lacking one of the merge's columns give 500 KeyError. Otherwise orders count every fetched bill and revenue is positive. |
| Analytics.EmptyProductsFailReport | analytics/app.py:366-403 | With kept records and an empty product collection the report fails with KeyError. |
| Analytics.BadBillDateFailsReport | analytics/app.py:95 | A bill whose date does not convert fails the report with the conversion's exception. |
| Analytics.DateFilter | analytics/app.py:123-137 | the range applies only when both dates are non-empty; it runs from the start midnight to 23:59:59 of the end day; an unparsable date is a format error |
| Analytics.Fetch | analytics/app.py:139 | fetches exactly the stored bills whose createdAt lies in the range (all of them without one), in store order: the store filtered by the query |
| Analytics.LastSecondFractionExcluded | analytics/app.py:132-133 | a bill stamped after 23:59:59 of the end day is not fetched |
| Analytics.ReportEndpointAsWritten | analytics/app.py:346-350 | a bad date's (error, 400) pair is iterated as bills and the request fails with 500 AttributeError; otherwise the report of the fetched bills |
| Analytics.ReportEndpoint | analytics/app.py:135-137 | a bad date answers 400 with the format message and nothing else does; otherwise as written |
| Analytics.BadDateBecomesServerError | analytics/app.py:135-137 | an impossible month reaches the client as 500 where 400 was meant |
| Analytics.NoRangeFetchesAll | analytics/app.py:128-139 | without both dates every stored bill is fetched |
| Analytics.ReportLanguage | analytics/app.py:445 | the language is the text before the first comma and then before the first hyphen, "en" without a header |
| Analytics.RegionalEntryPicksLanguage | analytics/app.py:444-445 | "hi-IN,hi;q=0.9" selects Hindi |
| Analytics.LanguageOfRegionalEntry | analytics/app.py:444-445 | a first entry "language-region", whatever entries follow, selects the table of its language |
| Analytics.MissingHeaderIsEnglish | analytics/app.py:445 | no header reads as "en" |
| Analytics.QualityValueFallsBackToEnglish | analytics/app.py:445 | a first entry with a quality value names no table and the report comes out in English |
| LegacyAnalytics.Mul | backend/src/main/java/com/smartretail/backend/analytics/app.py:54 | Python `*`: two integers multiply exactly, numbers give a number, a string or a list times an integer repeats it (nothing for a negative count), and None or a dict on either side raises TypeError. |
| LegacyAnalytics.RepeatList | backend/src/main/java/com/smartretail/backend/analytics/app.py:54 | A list repeated n times has n times its length, starts with the list and repeats with the list's length as period. |
| LegacyAnalytics.ListPriceRepeats | backend/src/main/java/com/smartretail/backend/analytics/app.py:54 | A list price times a quantity of 2 gives the list twice, not an error. |
| LegacyAnalytics.ItemRecord | backend/src/main/java/com/smartretail/backend/analytics/app.py:42-56 | a non-dict item raises; otherwise a record copying productId and name with revenue the product of price and quantity |
| LegacyAnalytics.ItemRecords | backend/src/main/java/com/smartretail/backend/analytics/app.py:42-56 | exactly one record per item |
| LegacyAnalytics.NormalizeBills | backend/src/main/java/com/smartretail/backend/analytics/app.py:28-58 | Exactly one record per item of every bill, zero quantities included. A bill whose date `pd.to_datetime` rejects raises before its items are read. |
| LegacyAnalytics.Endpoint | backend/src/main/java/com/smartretail/backend/analytics/app.py:68-87 | An exception while the bills are normalised, an unconvertible date included, is a 500; no record is a 404 "No billing data"; otherwise 200 over all the records. |
| LegacyAnalytics.ServicesDisagree | backend/src/main/java/com/smartretail/backend/analytics/app.py:33-56 | on one bill the older service reads "date" and keeps a zero-quantity item while the newer reads createdAt and reports no data |
| LegacyAnalytics.EmptyStoreAnswers | backend/src/main/java/com/smartretail/backend/analytics/app.py:74-75 | no bills give 404 in the older service and 200 with zeros in the newer |
| Translations.Translate | analytics/translations.py:49-66 | a known language's entry; an unknown language reads English; a key missing everywhere is echoed |
| Translations.TablesShareKeys | analytics/translations.py:2-47 | the four tables en, hi, mr, te define exactly the same nine keys |
| Translations.ReportKeysNeverFallBack | analytics/translations.py:55-64 | a report key always comes from the chosen (or English) table and any other key is echoed |
| Translations.UnknownCodeIsEnglish | analytics/translations.py:55 | a region-qualified or unknown code reads as English |
| ApiClient.Decorate | frontend/src/api/apiClient.js:13-24 | a non-empty stored token sets "Authorization: Bearer <token>", an empty or missing one leaves it as it was; the language is the interface's, else the stored one, else "en"; every other header is kept and none is added |
| ApiClient.DecorateIdempotent | frontend/src/api/apiClient.js:13-24 | decorating an already decorated request changes nothing |
| ApiClient.DecoratedTokenReachesFilter | frontend/src/api/apiClient.js:18-20 | the server's bearer filter reads back exactly the token the client stored |
| ApiClient.OnError | frontend/src/api/apiClient.js:36-50 | a request without config, one already retried, or any answer but 401 is rejected unchanged; a 401 marks the request retried and either starts the one refresh or queues behind it |
| ApiClient.RetriedAtMostOnce | frontend/src/api/apiClient.js:39-42 | a request that went through a 401 once is rejected unchanged on its next failure |
| ApiClient.OneRefreshAtATime | frontend/src/api/apiClient.js:45-59 | while a refresh is in progress a 401 starts no second refresh and queues at the back |
| ApiClient.ProcessQueue | frontend/src/api/apiClient.js:29-32 | every queued request is settled, in queue order, by the same outcome |
| ApiClient.RefreshSucceeded | frontend/src/api/apiClient.js:47-59 | As written, a successful refresh clears the flag, re-sends every queued request with the new token in queue order, and leaves only the initiator's ticket queued. |
| ApiClient.RefreshFailed | frontend/src/api/apiClient.js:61-65 | As written, a failed refresh rejects every queued request with the refresh error, then the initiator with the translated message, and leaves the flag as it was. |
| ApiClient.Next | frontend/src/api/apiClient.js:36-65 | A failure always goes through the interceptor; a completion can happen only while a refresh is awaited; no step takes a settlement back. |
| ApiClient.Run | frontend/src/api/apiClient.js:26-65 | No sequence of steps takes a settlement back. |
| ApiClient.FixedNext | frontend/src/api/apiClient.js:36-65 | With the correction, failures are handled as written and a completion leaves neither the flag nor a ticket behind. |
| ApiClient.FixedRun | frontend/src/api/apiClient.js:26-65 | With the correction too, no sequence of steps takes a settlement back. |
| ApiClient.Completion | frontend/src/services/authService.js:74-89 | the awaited refresh resolves with the new access token exactly when the token service's refresh succeeds, and rejects with its error otherwise |
| ApiClient.MissingRefreshTokenSticks | frontend/src/services/authService.js:75-76 | a 401 with no stored refresh token fails the refresh at once and leaves the client stuck |
| ApiClient.FailedRefreshSticks | frontend/src/api/apiClient.js:61-65 | as written, a failed refresh leaves the flag set with nobody awaiting, so the client is stuck |
| ApiClient.StuckForever | frontend/src/api/apiClient.js:45-60 | once stuck, no sequence of events settles anything again, and every queued request stays queued |
| ApiClient.FailedRefreshDeadlocks | frontend/src/api/apiClient.js:45-65 | concrete trace: after one failed refresh, a second request's 401 is queued and never settled |
| ApiClient.InitiatorLeftWaiting | frontend/src/api/apiClient.js:47-59 | as written, after a successful refresh the initiating request is queued into the emptied queue and no settlement names it |
| ApiClient.LoneRequestNeverRetried | frontend/src/api/apiClient.js:45-60 | concrete trace: a single 401 with a successful refresh leaves that request waiting, never re-sent |
| ApiClient.FixedRunStaysHealthy | frontend/src/api/apiClient.js:26-65 | with the correction, the flag is set exactly while a refresh is awaited and a request waits only then, after any sequence of events |
| ApiClient.FixedCompletionReleasesEveryone | frontend/src/api/apiClient.js:47-59 | with the correction, a successful refresh re-sends every queued request in order and then the initiator, all with the new token, leaving nobody waiting |
| ApiClient.AsWrittenSuccessIsUnhealthy | frontend/src/api/apiClient.js:47-59 | as written, one successful refresh step from a healthy state breaks the invariant |
| AuthService.Lookup | frontend/src/services/authService.js:20-25 | a stored key reads back its value, a missing key reads as null |
| AuthService.SaveTokens | frontend/src/services/authService.js:12-15 | each token is written only when non-empty, otherwise the stored value stays; other keys are untouched |
| AuthService.Logout | frontend/src/services/authService.js:30-33 | both token keys are removed and nothing else changes |
| AuthService.IssuedToken | frontend/src/services/authService.js:43-56 | the answer's accessToken, else its token; none when both are empty or the answer is missing |
| AuthService.Login | frontend/src/services/authService.js:39-59 | an answer without a token is refused with errors.noToken and nothing stored; otherwise the issued token is stored, the refresh token too when non-empty, else the old one stays |
| AuthService.LoginKeepsStaleRefreshToken | frontend/src/services/authService.js:46-47 | an answer without a refresh token keeps the previous session's refresh token beside the new access token |
| AuthService.Refresh | frontend/src/services/authService.js:74-89 | no stored refresh token fails with errors.noRefresh before any request; a request error passes through; an answer without an access token fails with errors.refreshFailed; success stores and returns the new access token and changes nothing else |
| AuthService.NoRefreshTokenSendsNothing | frontend/src/services/authService.js:75-76 | without a refresh token the outcome does not depend on the server |
| AuthService.LogoutEndsSession | frontend/src/services/authService.js:131-133 | after logout a refresh fails and neither a user nor a role can be read |
| AuthService.RoleClaim | frontend/src/services/authService.js:101 | a non-empty role claim wins; with no roles array the role is "CUSTOMER"; an empty roles array gives none |
| AuthService.StoredClaims | frontend/src/services/authService.js:95-99 | claims exist exactly when a non-empty access token is stored and decodes |
| AuthService.GetUserFromToken | frontend/src/services/authService.js:94-114 | a user exists iff the token decodes and a role is found; the e-mail is sub, else email, else the fixed address; the name is the e-mail before its first '@'; the role is upper-cased |
| AuthService.GetUserRole | frontend/src/services/authService.js:116-126 | A role is read only from decodable claims. A non-empty role claim is returned as is; otherwise the first entry of a non-empty roles list, and null when there is neither. Any role returned is the one the user info uses, before upper-casing. |
| AuthService.RoleReadersAgree | frontend/src/services/authService.js:94-126 | a role found by the role reader is the user object's role before upper-casing; a user without one is a customer |
| AuthService.EmptyRolesListMeansNoUser | frontend/src/services/authService.js:101-113 | an empty roles array without a role claim makes both readers return null |
| AuthService.NameIsLocalPart | frontend/src/services/authService.js:105 | the name of an ordinary address is its local part |
| AuthService.LoginThenReadUser | frontend/src/services/authService.js:43-99 | after a successful login the user is read from the token that login stored |
| RouteGuard.UserRoles | frontend/src/PrivateRoute.jsx:17-21 | a non-empty roles array, else the single non-empty role, else no role |
| RouteGuard.Guard | frontend/src/PrivateRoute.jsx:9-41 | nobody signed in or a throwing read goes to login, and only the throwing read signs out; a page renders exactly when no role is required or a required role is held; otherwise it is denied |
| RouteGuard.UnrestrictedRouteAdmitsAnyUser | frontend/src/PrivateRoute.jsx:23-25 | a route without required roles admits any signed-in user, even one without a role |
| RouteGuard.DecodedUserChecksItsRole | frontend/src/PrivateRoute.jsx:17-25 | the token service's user is admitted exactly when its upper-cased role is required |
| RouteGuard.LowerCaseRequirementNeverMatches | frontend/src/PrivateRoute.jsx:23-25 | a requirement with a lower-case letter never admits a decoded user |
| DemoPages.DemoLogin | frontend/src/pages/Login.jsx:12-31 | only admin, manager and cashier with password 1234 log in; admin becomes owner, the others keep their name as role |
| DemoPages.RoutesFollowRoles | frontend/src/App.js:35-50 | each guarded page is reached exactly by its admitted roles, and owner reaches everything manager does, manager everything cashier does |
| DemoPages.DemoLoginLandsOnAdmittedPage | frontend/src/pages/Login.jsx:16-27 | every demo account lands on a page its role may see |
| DemoPages.SyncRole | frontend/src/App.js:17-20 | a non-empty stored role replaces the current one, otherwise the current role stays |
| DemoPages.NavLinks | frontend/src/pages/Navbar.js:51-77 | the login link always comes first |
| DemoPages.LinksMirrorRoutes | frontend/src/pages/Navbar.js:55-77 | a guarded link is shown exactly when following it is not denied |
| DemoPages.Greeting | frontend/src/pages/Navbar.js:79 | The greeting exists iff a role is set. It has the role's length, contains no lower-case ASCII letter, keeps every other character, and shifts each lower-case letter to its capital. |
| DemoPages.DemoLogout | frontend/src/pages/Navbar.js:11-16 | logout empties storage, forgets the role and shows the login page |
| DemoPages.LogoutLocksEverything | frontend/src/pages/Navbar.js:11-16 | after logout every guarded page is denied and the bar disappears |
| DemoPages.AddProduct | frontend/src/pages/Inventory.jsx:19-28 | an empty id, name or stock is refused; otherwise exactly one product with the parsed stock is appended and the form is emptied and hidden |
| DemoPages.DeleteProduct | frontend/src/pages/Inventory.jsx:30-34 | without confirmation nothing changes; with it exactly the products with other ids remain |
| DemoPages.AddThenDelete | frontend/src/pages/Inventory.jsx:19-34 | an added product can be deleted again, leaving none with its id |
| DemoPages.StockStatus | frontend/src/pages/Inventory.jsx:74-80 | restock iff the stock is exactly 0, low iff it is a non-zero number below 3, otherwise in stock |
| DemoPages.StatusOfUnusualStock | frontend/src/pages/Inventory.jsx:25-80 | an unparsable stock shows in stock and a negative one low |
| DemoPages.InitialStatuses | frontend/src/pages/Inventory.jsx:7-12 | the starting list shows one product of each status |
| Cart.AddToCart | frontend/src/context/CartContext.jsx:24-40 | a product whose id is already in the cart has the quantity added to each of its entries in place, every other entry unchanged and the length kept; a new id is appended as one entry with the product's name and price and the given quantity |
| Cart.UpdateQuantity | frontend/src/context/CartContext.jsx:42-51 | Afterwards every entry has a positive quantity, and a value of 0 or less removes the id. With a positive value every entry of the id is kept with the new quantity; every other entry with a positive quantity survives. The result keeps the cart's order. |
| Cart.RemoveFromCart | frontend/src/context/CartContext.jsx:53-55 | no entry of the id remains, the rest keep their order (the result is a subsequence), and every entry of another id is kept |
| Cart.CartTotal | frontend/src/context/CartContext.jsx:62 | The total is a number exactly when every entry has a price; one missing price makes it NaN. Its value is the sum of price times quantity, stated through Cart.CartTotalIsReduce. |
| Cart.CartCount | frontend/src/context/CartContext.jsx:61 | The badge count is at least the number of entries when every quantity is positive. |
| Cart.CartCountIsReduce | frontend/src/context/CartContext.jsx:61 | The code's left fold from any start adds exactly the cart's count. |
| Cart.CartTotalIsReduce | frontend/src/context/CartContext.jsx:62 | The code's left fold is NaN exactly when the total is, and otherwise adds exactly the total, the sum of price times quantity. |
| Cart.CountAppend | frontend/src/context/CartContext.jsx:61 | the item count of two carts joined is the sum of their counts |
| Cart.QuantityOfAppend | frontend/src/context/CartContext.jsx:61 | the quantity held under one id is additive over joined carts |
| Cart.AddToCartCounts | frontend/src/context/CartContext.jsx:24-61 | with unique ids, adding q of a product raises the badge count by q and that product's quantity by q, and ids stay unique |
| Cart.QuantityOfUntouched | frontend/src/context/CartContext.jsx:24-40 | an id with no entry holds quantity 0 |
| Cart.RemoveFromCartCounts | frontend/src/context/CartContext.jsx:53-61 | removing an id lowers the count by exactly that id's quantity and leaves it none |
| Cart.FilterKeepsUnique | frontend/src/context/CartContext.jsx:50-54 | dropping entries from a cart with unique ids keeps them unique |
| Cart.UpdateAndRemoveKeepUnique | frontend/src/context/CartContext.jsx:42-55 | updating and removing keep ids unique, and an update to 0 or less removes the id |
| Cart.RemainingStock | frontend/src/components/products/ProductList.jsx:61-62 | the remaining stock is NaN exactly when the product has no stock figure; a product not in the cart has its whole stock remaining |
| Cart.QuantityInput | frontend/src/components/products/ProductList.jsx:168 | the quantity field is always at least 1 and keeps any typed whole number of 1 or more |
| Cart.HandleAddToCart | frontend/src/components/products/ProductList.jsx:65-76 | more than the remaining stock is refused with a stock error and no change; otherwise a positive amount is added, reported and the field reset to 1; zero or less does nothing |
| Cart.CardKeepsWithinStock | frontend/src/components/products/ProductList.jsx:61-76 | with unique ids and a stock figure, a cart within the stock stays within it whatever the card is asked to add |
| Cart.UniqueQuantityAt | frontend/src/context/CartContext.jsx:25-61 | with unique ids the quantity under an id is that of its single entry, the one `find` returns |
| Cart.MissingStockHasNoLimit | frontend/src/components/products/ProductList.jsx:62-67 | a product without a stock figure lets any positive amount into the cart, since comparisons with NaN are false |
| Sorting.Insert | frontend/src/components/products/ProductList.jsx:241-263 | inserting keeps every element and adds exactly the new one (as multisets) |
| Sorting.SortBy | frontend/src/components/products/ProductList.jsx:241-263 | sorting is a permutation of its input |
| Sorting.InsertSorted | frontend/src/components/products/ProductList.jsx:241-263 | inserting into a list ordered by a total preorder keeps it ordered |
| Sorting.SortBySorted | frontend/src/components/products/ProductList.jsx:241-263 | the sorted list is ordered by any total preorder |
| Sorting.NoneEquivalentAfter | frontend/src/components/products/ProductList.jsx:241-263 | in an ordered list whose first element cannot precede y, no element is equivalent to y |
| Sorting.InsertStable | frontend/src/components/products/ProductList.jsx:241-263 | inserting places the new element after every element equivalent to it |
| Sorting.SortByStable | frontend/src/components/products/ProductList.jsx:241-263 | the sort is stable: elements the order cannot tell apart leave in the order they came in, as ECMAScript requires of Array.prototype.sort |
| Sorting.InsertAfterAll | frontend/src/components/products/ProductList.jsx:261-262 | an element every other may precede is inserted last |
| Sorting.AllEquivalentUnchanged | frontend/src/components/products/ProductList.jsx:261-262 | when no two elements are ordered apart, sorting leaves the list as it is |
| Sorting.FilterNone | frontend/src/components/products/ProductList.jsx:238-240 | a filter no element passes gives the empty list |
| Sorting.FilterAll | frontend/src/components/products/ProductList.jsx:238-240 | a filter every element passes gives the list back |
| Sorting.LexLeTotal | frontend/src/components/products/ProductList.jsx:244 | of two strings one always comes first in code-point order |
| Sorting.LexLeTransitive | frontend/src/components/products/ProductList.jsx:244 | code-point order is transitive |
| Sorting.LexLeAntisymmetric | frontend/src/components/products/ProductList.jsx:244 | two strings each ordered before the other are equal |
| Sorting.ByTextIsPreorder | frontend/src/components/products/ProductList.jsx:244-247 | ordering by a text key is a total preorder |
| Sorting.ByNumberIsPreorder | frontend/src/components/products/ProductList.jsx:250-259 | ordering by a numeric key is a total preorder |
| Sorting.FlipIsPreorder | frontend/src/components/products/ProductList.jsx:247-259 | the reverse of a total preorder is one too |
| ProductList.OrderIsPreorder | frontend/src/components/products/ProductList.jsx:242-263 | every sort mode of the select orders products by a total preorder |
| ProductList.DisplayIsSortedSelection | frontend/src/components/products/ProductList.jsx:234-265 | the displayed products are exactly the search hits (low-stock ones only, when that filter is on), in the mode's order, ties in search order, and the server's order untouched with no term, no filter and the default mode |
| ProductList.RenderedCards | frontend/src/components/products/ProductList.jsx:421-426 | a card is drawn for every displayed product with a non-empty id and for nothing else |
| ProductList.HandleDelete | frontend/src/components/products/ProductList.jsx:309-318 | a delete is sent exactly for a product with an id whose deletion is confirmed, to that id; a missing id is reported without asking |
| ProductList.IdlessProductIsInert | frontend/src/components/products/ProductList.jsx:421-426 | a product without an id is neither drawn nor deleted |
| ProductList.ParseSortMode | frontend/src/components/products/ProductList.jsx:242-263 | A select value names a sort mode exactly when it is that mode's option value; any other value keeps the order. |
| ProductList.SortValueRoundTrip | frontend/src/components/products/ProductList.jsx:361-367 | Every option of the select reads back as its own mode. |
| ProductList.ManagementAgrees | frontend/src/components/products/ProductList.jsx:227 | The product page grants editing to exactly the signed-in owners and managers, as the bill page does (BillList.jsx:254); a cashier or a signed-out user gets nothing. |
| BillList.Initials | frontend/src/components/bills/BillList.jsx:74 | the avatar shows at most two characters, "WI" for a walk-in customer without a name |
| BillList.InitialsOfFullName | frontend/src/components/bills/BillList.jsx:74 | a first and a last name show their two initials upper-cased |
| BillList.InitialsIgnoreThirdWord | frontend/src/components/bills/BillList.jsx:74 | of three words only the first two give initials |
| BillList.BlankNameHasNoInitials | frontend/src/components/bills/BillList.jsx:74 | a name of spaces alone is truthy yet shows no initials |
| BillList.ColorIndex | frontend/src/components/bills/BillList.jsx:82 | the avatar colour is one of the five, chosen by the first character's code, the first colour without a name |
| BillList.OrderIsPreorder | frontend/src/components/bills/BillList.jsx:273-278 | each value of the sort select orders bills by a total preorder |
| BillList.DisplayBills | frontend/src/components/bills/BillList.jsx:261-279 | the displayed list has as many bills as pass the search and date range |
| BillList.DisplayIsSortedSelection | frontend/src/components/bills/BillList.jsx:261-279 | the displayed bills are exactly those passing the search and, when a bound is picked, dated within the range; in the select's order, ties in search order |
| BillList.NoFilterShowsAll | frontend/src/components/bills/BillList.jsx:262-264 | with no search term and no range every bill is displayed |
| BillList.TotalPages | frontend/src/components/bills/BillList.jsx:281 | the page count is the least number of ten-row pages that hold the list |
| BillList.SliceIndex | frontend/src/components/bills/BillList.jsx:284 | a slice bound lands within the list, a non-negative one clamped to the length |
| BillList.JsSlice | frontend/src/components/bills/BillList.jsx:284 | a slice is never longer than the list |
| BillList.PageShape | frontend/src/components/bills/BillList.jsx:282-285 | a page is the run of at most ten rows starting at its first index, and it is non-empty exactly on the counted pages |
| BillList.LabelDescribesPage | frontend/src/components/bills/BillList.jsx:627-631 | on a counted page the "showing a to b of n" label names exactly the rows displayed |
| BillList.EveryElementOnItsPage | frontend/src/components/bills/BillList.jsx:281-285 | every bill appears on page i/10+1 at position i%10, and that page is counted |
| BillList.PagesUpToPrefix | frontend/src/components/bills/BillList.jsx:282-285 | the first k pages together are the list's first 10k rows |
| BillList.PagesPartitionList | frontend/src/components/bills/BillList.jsx:281-285 | the counted pages read in order are the whole list: nothing skipped, nothing twice |
| BillList.NavigationStaysInRange | frontend/src/components/bills/BillList.jsx:635-646 | from a counted page, previous and next stay on counted pages, are no-ops exactly where disabled, and undo each other |
| BillList.Step | frontend/src/components/bills/BillList.jsx:446-484 | as written, a new search term or sort order keeps the current page while a picked range returns to page 1 |
| BillList.SearchStrandsLaterPage | frontend/src/components/bills/BillList.jsx:446-447 | a search typed on page 2 or later that leaves one page of results shows the empty state with matches counted, and no control is drawn to go back |
| BillList.SearchStrandsThirdPage | frontend/src/components/bills/BillList.jsx:446-447 | concretely: 25 bills on page 3, a search keeping five shows none of them |
| BillList.FixedStep | frontend/src/components/bills/BillList.jsx:461-465 | with the correction a new search term returns to page 1, as a picked range does |
| BillList.FixedStepStaysOnCountedPage | frontend/src/components/bills/BillList.jsx:446-484 | with the correction every event keeps the page counted, so a non-empty list always shows rows |
| BillList.StepKeepsPagePositive | frontend/src/components/bills/BillList.jsx:635-646 | no event takes the page below 1 |
| BillList.CsvCells | frontend/src/components/bills/BillList.jsx:369-377 | each CSV row has one cell per header |
| BillList.CsvLines | frontend/src/components/bills/BillList.jsx:369-378 | one line per displayed bill, in display order |
| BillList.ExportCsv | frontend/src/components/bills/BillList.jsx:366-378 | the export is refused with the export-error key exactly when no bill is displayed |
| BillList.CsvHasOneLinePerBill | frontend/src/components/bills/BillList.jsx:366-378 | without line breaks in cells the file reads back as the header line and one line per displayed bill, in order |
| BillList.CleanLineReadsBack | frontend/src/components/bills/BillList.jsx:378 | a row whose cells hold no comma splits back into its seven cells |
| BillList.CommaInCellShiftsColumns | frontend/src/components/bills/BillList.jsx:371-378 | cells are not quoted, so a comma inside one splits the row into more than seven columns |
| CustomerList.BillMap | frontend/src/components/customers/CustomerList.jsx:119-120 | the map holds exactly the non-empty bill ids that occur, each under its own id |
| CustomerList.BillMapKeepsLast | frontend/src/components/customers/CustomerList.jsx:120 | a bill id that occurs more than once maps to its last bill |
| CustomerList.LatestFromDate | frontend/src/components/customers/CustomerList.jsx:126-132 | folding from a date ends on the largest of it and the history's valid dates |
| CustomerList.LatestFromNothing | frontend/src/components/customers/CustomerList.jsx:123-132 | the fold yields nothing when no history bill is dated, an invalid date exactly when the first dated bill's date is invalid, and otherwise the largest valid date |
| CustomerList.InvalidSticks | frontend/src/components/customers/CustomerList.jsx:130 | once the latest date is invalid no later bill replaces it, since an invalid date compares neither way |
| CustomerList.Process | frontend/src/components/customers/CustomerList.jsx:121-139 | a processed customer keeps its record and counts its whole history, matched to a bill or not |
| CustomerList.ProcessAll | frontend/src/components/customers/CustomerList.jsx:121-139 | the whole list succeeds exactly when every customer does, customer by customer in order |
| CustomerList.LoadCustomers | frontend/src/components/customers/CustomerList.jsx:112-140 | a non-array answer fails with "Invalid data from server"; a loaded list has one entry per customer |
| CustomerList.LoadedCustomer | frontend/src/components/customers/CustomerList.jsx:119-139 | each loaded customer has its history's length as count, and as last purchase the latest valid date among its bills, or none when none is dated |
| CustomerList.LoadedIsProcessed | frontend/src/components/customers/CustomerList.jsx:121 | the loaded list is the customers processed one by one |
| CustomerList.ProcessedCustomer | frontend/src/components/customers/CustomerList.jsx:122-138 | one customer's last purchase date is the latest valid date of its bills, none when none is dated |
| CustomerList.InvalidFirstDateFailsLoad | frontend/src/components/customers/CustomerList.jsx:128-145 | an invalid first-dated bill in any customer's history fails the whole load with "Invalid time value" |
| CustomerList.ProcessAllFirstError | frontend/src/components/customers/CustomerList.jsx:137 | a failed load always fails with "Invalid time value" |
| CustomerList.InactiveMeansNoRecentBill | frontend/src/components/customers/CustomerList.jsx:81-84 | A loaded customer with a valid bill date in the last thirty days is not inactive. |
| CustomerList.UndatedIsInactive | frontend/src/components/customers/CustomerList.jsx:81-84 | A loaded customer none of whose history ids has a dated bill is inactive. |
| CustomerList.CompareAsWritten | frontend/src/components/customers/CustomerList.jsx:100 | the comparator as written never answers 0 |
| CustomerList.AsWrittenIsInconsistent | frontend/src/components/customers/CustomerList.jsx:86-101 | as written, two customers with the same sort value are each said to come after the other, and a customer compares unequal to itself |
| CustomerList.AsWrittenTieExample | frontend/src/components/customers/CustomerList.jsx:97-100 | concretely, "Asha" and "asha" by name each compare after the other |
| CustomerList.CompareFixed | frontend/src/components/customers/CustomerList.jsx:100 | the corrected comparator answers -1, 0 or 1 |
| CustomerList.LessTrichotomy | frontend/src/components/customers/CustomerList.jsx:100 | two sort values of one kind are less, equal or greater, exactly one of them |
| CustomerList.LessTransitive | frontend/src/components/customers/CustomerList.jsx:100 | JavaScript `<` on sort values of one kind is transitive |
| CustomerList.FixedIsConsistent | frontend/src/components/customers/CustomerList.jsx:86-101 | the corrected comparator is antisymmetric, answers 0 exactly on ties, and "not after" is transitive |
| CustomerList.FixedAgreesOffTies | frontend/src/components/customers/CustomerList.jsx:100 | the correction changes the answer only on ties |
| CustomerList.FixedOrderIsPreorder | frontend/src/components/customers/CustomerList.jsx:86-101 | the corrected comparator's "may come before" is a total preorder |
| CustomerList.DisplayCustomers | frontend/src/components/customers/CustomerList.jsx:76-102 | With the corrected comparator, the displayed list has as many customers as pass the search and filter. |
| CustomerList.DisplayIsSortedSelection | frontend/src/components/customers/CustomerList.jsx:76-102 | With the corrected comparator, the displayed customers are exactly the searched ones (inactive only, when so filtered), in comparator order, ties in search order. |
| CustomerList.HandleDelete | frontend/src/components/customers/CustomerList.jsx:173-180 | a delete is sent exactly for a customer with an id whose deletion is confirmed, to that id; a missing id is reported without asking |
| Checkout.ItemsOf | frontend/src/components/checkout/CheckoutPage.jsx:54-59 | the request has one line per cart entry, in cart order |
| Checkout.AddedBy | frontend/src/components/checkout/CheckoutPage.jsx:60 | the author is never empty: the user's e-mail, else "system" |
| Checkout.Prepare | frontend/src/components/checkout/CheckoutPage.jsx:30-61 | the bill is refused exactly when the mobile is empty or the cart is empty, the mobile reported first; otherwise it carries the typed mobile and e-mail, the name or "Customer", and "B" followed by the current milliseconds |
| Checkout.RequestMatchesCart | frontend/src/components/checkout/CheckoutPage.jsx:54-59 | the request asks for exactly the cart, line by line, so its total equals the cart total the page shows |
| Checkout.BillIdIsKept | frontend/src/components/checkout/CheckoutPage.jsx:48 | the generated id is kept by the backend's bill-id defaulting, and its digits read back as the moment of the request |
| Checkout.AuthorIsSignedInUser | frontend/src/components/checkout/CheckoutPage.jsx:60 | the bill is attributed to the signed-in user's e-mail, or to "system" when nobody is signed in |
| Checkout.EnabledIffRequest | frontend/src/components/checkout/CheckoutPage.jsx:174 | the generate button is enabled exactly when a click would send a request |
| Checkout.Submit | frontend/src/components/checkout/CheckoutPage.jsx:30-47 | a refused bill shows its key and sends nothing; an accepted one starts loading, clears the error and sends the prepared request; the cart and inputs are untouched |
| Checkout.Finish | frontend/src/components/checkout/CheckoutPage.jsx:63-75 | success empties the cart and the inputs and opens the bills list; failure keeps both and shows the server's error, else the exception's message; loading ends either way |
| Checkout.FailureAllowsRetry | frontend/src/components/checkout/CheckoutPage.jsx:63-75 | after a failure the same request can be sent again at once (with a new id); after success nothing can be submitted |
| Checkout.EditQuantity | frontend/src/components/checkout/CheckoutPage.jsx:103 | a quantity text that is not a number removes the line |
| Checkout.EditQuantityEffect | frontend/src/components/checkout/CheckoutPage.jsx:103 | clearing the field removes the line; typing a positive number sets the line to it |
| BillForm.AddRow | frontend/src/components/bills/BillForm.jsx:40-42 | one fresh row (no product, quantity 1) is appended and the others kept |
| BillForm.UpdateRow | frontend/src/components/bills/BillForm.jsx:44-48 | only the named field of the one row changes |
| BillForm.RemoveRow | frontend/src/components/bills/BillForm.jsx:50-54 | the row at the index goes and the later rows move up; an index past the end removes nothing |
| BillForm.RemoveUndoesAdd | frontend/src/components/bills/BillForm.jsx:40-54 | removing the row just added gives the rows back |
| BillForm.ProductOf | frontend/src/components/bills/BillForm.jsx:34 | the row's product is a listed product with that id, and none is found exactly when no product has the id |
| BillForm.TotalAppend | frontend/src/components/bills/BillForm.jsx:31-38 | the running total is additive over rows, NaN when either part is |
| BillForm.UnknownRowsCostNothing | frontend/src/components/bills/BillForm.jsx:35 | rows without a known product leave the total at zero |
| BillForm.AddRowKeepsTotal | frontend/src/components/bills/BillForm.jsx:15-41 | adding a row leaves the total unchanged unless some product has the empty id |
| BillForm.FindCustomer | frontend/src/components/bills/BillForm.jsx:58-60 | the selected customer is a listed one any of whose three ids is the selected value, and none is found exactly when no customer has it |
| BillForm.ChosenOptionFindsCustomer | frontend/src/components/bills/BillForm.jsx:58-111 | choosing any customer's option always finds a customer |
| BillForm.MobileOf | frontend/src/components/bills/BillForm.jsx:73 | the mobile is the first non-empty of mobile, phone and contact number |
| BillForm.Submit | frontend/src/components/bills/BillForm.jsx:56-80 | an unknown customer is refused with the customer-error key; otherwise the request carries that customer's name, e-mail and mobile, a "B"-prefixed millisecond id, "system" as author, and one line per row with the row's product |
| BillForm.SentQuantity | frontend/src/components/bills/BillForm.jsx:77 | a whole number typed as quantity is sent as that number; an empty field is sent as NaN |
| BillForm.AfterSubmit | frontend/src/components/bills/BillForm.jsx:82-88 | success opens the bills list; failure shows the server's error, else its message, else the form's own text |
| BillForm.FailureAlwaysExplained | frontend/src/components/bills/BillForm.jsx:86 | a failure always shows some text, the fallback when the server gives none |
| SendEmail.RecipientText | frontend/src/components/customers/SendEmailModal.jsx:42-49 | no recipient, one recipient named with a non-empty name and address, or the count of two or more, according to the selection's size |
| SendEmail.SingleRecipientShown | frontend/src/components/customers/SendEmailModal.jsx:44-47 | a single recipient is shown by its own name and address, "Unknown" and "No email" standing in for missing ones |
| SendEmail.IdsOf | frontend/src/components/customers/SendEmailModal.jsx:72 | one id per selected customer, in order |
| SendEmail.Prepare | frontend/src/components/customers/SendEmailModal.jsx:51-75 | refused exactly when nobody is selected or the subject or body trims to nothing, the missing recipients reported first; otherwise the request names every selected customer with the trimmed texts |
| SendEmail.BlankFieldsRefused | frontend/src/components/customers/SendEmailModal.jsx:61-75 | a subject of white space alone is refused; a sent subject has no white space at either end; the request lists the selected ids |
| SendEmail.EnabledIffSends | frontend/src/components/customers/SendEmailModal.jsx:201 | the send button is enabled exactly when a click would send |
| SendEmail.Submit | frontend/src/components/customers/SendEmailModal.jsx:51-76 | a refused request shows its key in the modal and as an error toast; otherwise loading starts, the error clears and the prepared request goes |
| SendEmail.Finish | frontend/src/components/customers/SendEmailModal.jsx:77-89 | success empties the texts and closes with the server's message or a fixed one; failure keeps the texts and shows a non-empty error in the modal and as a toast |
| SendEmail.ClosingCountsRecipients | frontend/src/components/customers/SendEmailModal.jsx:72-79 | against the backend's e-mail endpoint, the closing message counts exactly the selected customers |
| ProductForm.ApiBase | frontend/src/components/products/ProductForm.jsx:44 | the configured API base when set, else the local backend |
| ProductForm.Prefill | frontend/src/components/products/ProductForm.jsx:68-75 | with the correction, a stored reorder level, 0 included, is opened as is, and 10 stands only for a missing one |
| ProductForm.Open | frontend/src/components/products/ProductForm.jsx:64-95 | Opening never keeps a picked file or an error. Add mode shows the blank values without a preview. Edit mode shows the product's values as written, so a stored reorder level of 0 opens as 10, and its stored image behind the API base. |
| ProductForm.PrefillAsWritten | frontend/src/components/products/ProductForm.jsx:68-75 | Every field is filled with `||`, so a missing or zero reorder level opens as 10, and every other value is opened as stored. |
| ProductForm.FixedOpen | frontend/src/components/products/ProductForm.jsx:64-95 | With the correction the modal is the same, except that a stored reorder level of 0 opens as 0. |
| ProductForm.IdEditableOnlyWhenAdding | frontend/src/components/products/ProductForm.jsx:239 | The id can be typed only in an idle add form; an edit form never allows it. |
| ProductForm.PickImage | frontend/src/components/products/ProductForm.jsx:97-103 | a picked file is kept and previewed at once; cancelling the picker changes nothing |
| ProductForm.Change | frontend/src/components/products/ProductForm.jsx:105-111 | Typing replaces exactly the one field named, for each of the six fields, and leaves the other five as they were. |
| ProductForm.Submit | frontend/src/components/products/ProductForm.jsx:113-142 | exactly one request goes: an update exactly in edit mode, multipart exactly when a file is picked, carrying that file and the fields' values |
| ProductForm.UpdateAddressesTarget | frontend/src/components/products/ProductForm.jsx:128-133 | an update addresses the product being edited, whatever the id field holds |
| ProductForm.Finish | frontend/src/components/products/ProductForm.jsx:143-151 | success closes asking the list to reload; failure keeps the fields and the image and shows the error; loading ends either way |
| ProductForm.FailedSaveCanRepeat | frontend/src/components/products/ProductForm.jsx:113-151 | after a failed save the same request is sent again on the next click |
| ProductForm.UntouchedSaveAsWritten | frontend/src/components/products/ProductForm.jsx:74-132 | As written, opening a product whose reorder level is 0 and saving it untouched sends 10. |
| ProductForm.UntouchedSaveKeepsValues | frontend/src/components/products/ProductForm.jsx:68-125 | With the corrected opening, saving an untouched product sends back exactly its stored numbers. |
| ProductForm.PrefillsAgreeOffZero | frontend/src/components/products/ProductForm.jsx:74 | the written and corrected prefills differ only on a stored reorder level of 0 |
| ReportGenerator.DayText | frontend/src/components/reports/summary/ReportGenerator.jsx:55 | a day in the years 1 to 9999 is written as ten characters |
| ReportGenerator.FormatApi | frontend/src/components/reports/summary/ReportGenerator.jsx:55 | no date is written as the empty text |
| ReportGenerator.DayTextReadsBack | frontend/src/components/reports/summary/ReportGenerator.jsx:55 | the text of a day reads back as that day |
| ReportGenerator.DayBounds | frontend/src/components/reports/summary/ReportGenerator.jsx:55 | an instant lies within its UTC day |
| ReportGenerator.FormatApiReadsBack | frontend/src/components/reports/summary/ReportGenerator.jsx:55 | the request's date reads back as the UTC day holding the instant |
| ReportGenerator.MidnightDay | frontend/src/components/reports/summary/ReportGenerator.jsx:55 | local midnight falls in the previous UTC day east of UTC and in the same one otherwise |
| ReportGenerator.PickedDaySentAsPreviousDay | frontend/src/components/reports/summary/ReportGenerator.jsx:55-76 | east of UTC a picked day is requested as the day before |
| ReportGenerator.PickedDaySentWestOfUtc | frontend/src/components/reports/summary/ReportGenerator.jsx:55-76 | at UTC or west of it the picked day is requested unchanged |
| ReportGenerator.FormatLocal | frontend/src/components/reports/summary/ReportGenerator.jsx:55 | with the correction, no date is still written as the empty text |
| ReportGenerator.FormatLocalSendsPickedDay | frontend/src/components/reports/summary/ReportGenerator.jsx:55 | with the correction a picked day is written as itself in any zone |
| ReportGenerator.WholeDays | frontend/src/components/reports/summary/ReportGenerator.jsx:55 | a whole number of days divides back exactly |
| ReportGenerator.Initial | frontend/src/components/reports/summary/ReportGenerator.jsx:47-52 | the page opens on the thirty days up to now, with no report, no error and nothing loading |
| ReportGenerator.Generate | frontend/src/components/reports/summary/ReportGenerator.jsx:61-77 | no fetch exactly when a date is missing or the start is after the end, reported in that order; otherwise the old report and error clear, loading starts and the two dates are requested |
| ReportGenerator.FetchDone | frontend/src/components/reports/summary/ReportGenerator.jsx:78-85 | the answer is shown, or the error's message, else a fixed text; the range stays and loading ends |
| ReportGenerator.GenerateThenFetch | frontend/src/components/reports/summary/ReportGenerator.jsx:61-85 | a successful generation shows exactly the fetched report with no error left from before |
| ReportGenerator.Clear | frontend/src/components/reports/summary/ReportGenerator.jsx:115-118 | clearing removes the report and the error and keeps the range |
| ReportGenerator.PickRange | frontend/src/components/reports/summary/ReportGenerator.jsx:162-166 | picking sets the new range and clears the error, keeping any report |
| ReportGenerator.ReportPinsRange | frontend/src/components/reports/summary/ReportGenerator.jsx:173 | a shown report disables the picker until it is cleared; clearing frees it when nothing loads |
| ReportGenerator.Download | frontend/src/components/reports/summary/ReportGenerator.jsx:88-101 | nothing happens without a report; otherwise the download asks for the fetch's dates under the file name built from them |
| ReportGenerator.FileNameReadsBack | frontend/src/components/reports/summary/ReportGenerator.jsx:101 | both requested dates read back from fixed places of the file name |
| ReportGenerator.FileNameFields | frontend/src/components/reports/summary/ReportGenerator.jsx:101 | the file name holds the two dates between its fixed parts |
| ReportGenerator.MiddleOf | frontend/src/components/reports/summary/ReportGenerator.jsx:101 | the middle of a joined text is found again at its offset |
| ReportGenerator.DownloadDone | frontend/src/components/reports/summary/ReportGenerator.jsx:107-112 | a failed download shows the error's message, else a fixed text; the report stays and downloading ends |
| ReportGenerator.FixedGenerate | frontend/src/components/reports/summary/ReportGenerator.jsx:61-77 | with the correction, the same checks and state, with the dates written in the browser's zone |
| ReportGenerator.FixedGenerateAsksPickedDays | frontend/src/components/reports/summary/ReportGenerator.jsx:61-77 | with the correction, a range picked on the calendar is requested exactly as picked |
| UiErrors.Describe | frontend/src/components/products/ProductForm.jsx:146 | the server's error when non-empty, else the second message when non-empty, else the page's fallback |
| Dates.StartOfDay | frontend/src/components/bills/BillList.jsx:265 | the start of the local day is at or before the instant, less than a day earlier, on a local midnight |
| Dates.EndOfDay | backend/src/main/java/com/smartretail/backend/service/CustomerServiceImpl.java:153-158 | the end of the local day is at or after the instant, less than a day later, the last millisecond of the same local day |
| Dates.CivilOf | frontend/src/components/reports/summary/ReportGenerator.jsx:55 | a day number within the years 1 to 9999 gives the valid date with that day number |
| Dates.CivilOfDayNumber | frontend/src/components/reports/summary/ReportGenerator.jsx:55 | a valid date with a four-digit year is found again from its day number |
| Dates.DayNumberMonotone | backend/src/main/java/com/smartretail/backend/controller/ReportController.java:51-54 | calendar order of valid dates is the order of their day numbers |
| Dates.ParseYmd | backend/src/main/java/com/smartretail/backend/controller/ReportController.java:47-52 | The parse skips leading blanks in each field, reads any number of digits and ignores trailing text, as a non-lenient SimpleDateFormat does; it yields only valid calendar dates. |
| Dates.ParseDate | backend/src/main/java/com/smartretail/backend/controller/ReportController.java:47-52 | a text parses to an instant exactly when it reads as a valid date, and the instant is that date's midnight in the zone |
| Dates.FormatYmd | frontend/src/components/reports/summary/ReportGenerator.jsx:55 | a date is written as ten characters with dashes at places 4 and 7 |
| Dates.ParseFormatYmd | backend/src/main/java/com/smartretail/backend/controller/ReportController.java:47-52 | the canonical text of a valid date parses back to it |

## Left out

- PDF rendering: building the bill PDF and the report PDF documents with iText (BillPdfService.java, PdfServiceImpl.java, and the layout in ReportPdfServiceImpl.java). This is layout over a foreign library; only the data helpers of the report PDF are modelled.
- Mail, push, proxy and storage I/O are left out as input and output. This covers NotificationServiceImpl, EmailService, PushNotificationService, AnalyticsService, AnalyticsProxyService, AnalyticsController, FileServiceImpl (GridFS), AuditLogServiceImpl and PaymentServiceImpl.
- The MongoDB repository interfaces: they become sequences in insertion order (`Repos`) rather than maps, so that first-match look-ups are modelled. Query methods become filters over those sequences.
- Floating-point money is left out: bill subtotals, tax and totals, the report's revenue sums and average, customer history totals, and the analytics category percentages. Java `double`, JavaScript numbers and Python floats have rounding that `real` does not. Money values are carried through unchanged; where the browser sums them (cart total, bill form total) the sum is taken in `real`, and NaN is `None`.
- Currency and date formatting with `toLocaleString` and `NumberFormat`: the formatted texts are parameters.
- The pandas grouping of sales by day, week and month, the top-product merge, and the analytics service's self-ping thread are left out as numeric library work and a background thread. Whether `pd.to_datetime` accepts a bill's date is a parameter (`dateError`, the exception it raises, if any); a converted date is carried as the stored value, since only the grouping would read it.
- The background thread of the custom e-mail endpoint is left out: the endpoint answers before any mail is sent, and the mail loop is modelled as a separate function.
- The HTTP client's refresh protocol is modelled as discrete event-loop steps. Real promise scheduling and interleaving between steps are not modelled.
- Framework configuration is left out: SecurityConfig path matching, GlobalExceptionHandler's choice of answer, and I18nConfig. A service failure reaches the model as `Err`.
- JwtUtil and JJWT, the password encoder, and the browser's `jwtDecode`: these are parameters (`jwtDecode` returns `None` where it throws).
- Message-source texts and the browser's translation tables: messages are their keys.
- Fuse.js fuzzy search: a parameter returning the hits.
- React rendering, animation and Tailwind styling are presentation and are left out. Toasts, navigation and reloads are returned as values.
- Native form validation (`required`, `min` on inputs) happens in the browser before the handlers run, so it is left out. The handlers' own checks are modelled.
- The static demo pages Dashboard.jsx, Billing.jsx and Customers.jsx show only hard-coded data and alerts.
- Unit tests that contradict the code are left out, because the code is modelled and they are not: BillServiceTest, ProductServiceTest, ReportServiceTest.java:58-72 and ReportControllerTest.java:86-102.
- Unicode: case conversion and white space cover ASCII only, strings are sequences of code units with no normalisation, and Java's `Character.isWhitespace` is read on ASCII.
- ProductList.DisplayIsSortedSelection: the name sort uses `localeCompare`, whose collation depends on the browser's locale. The model orders names by code point, which agrees with it on plain ASCII letters of one case.
- BillList.DisplayIsSortedSelection: a stored date that does not parse gives the comparator NaN, which makes `Array.prototype.sort` inconsistent. The model reads such a date as 0, the epoch.
- Dates: a time zone is a fixed offset in milliseconds. Daylight-saving changes are left out, so "thirty days before" is 30 × 86 400 000 ms (`Reminders.ReEngagementThreshold`, `ReportGenerator.Initial`), where `setDate` would follow the local calendar.
- ReportGenerator.FormatApi: it is stated only for years 1 to 9999. Outside that range `toISOString` writes a six-digit year or throws.
- Dates.ParseYmd: like `SimpleDateFormat`, each field skips leading blanks, reads any number of ASCII digits, and text after the day is ignored. A sign before a field and non-ASCII digits, which the Java parser also reads, are refused by the model.
- Dates: the calendar is the proleptic Gregorian one. Java's `GregorianCalendar` counts days before 15 October 1582 in the Julian calendar, so dates before then are left out.
- ProductApi.SafeDouble: integers beyond 2^53 convert exactly in the model, whereas `double` rounds them.
- ProductApi.JavaString: `Double.toString` and the collections' `toString` are a parameter.
- JavaScript's `Number` conversion of typed text is a parameter, returning `None` for NaN. `parseInt` is written out.
- Sync.SyncBills: the number of processed bills is bounded by the number of bills with customer details, not equal to it, because a bill whose charged customer has no e-mail fails after being stored. `Sync.SyncOneBill` and `Sync.SyncStoresEveryBill` state when that happens.
- The CSV export of the bill list writes cells without quoting. A comma inside a cell shifts the columns; this is kept as a lemma (`BillList.CommaInCellShiftsColumns`) rather than a finding.
- DisplayCustomers: the list is sorted with the corrected comparator `CustomerList.CompareFixed`. The comparator as written (CustomerList.jsx:86-101) never returns 0, so the order it gives to ties depends on the engine's sort and is not modelled; the Findings table records the discrepancy.
- DisplayIsSortedSelection: the order proved is that of the corrected comparator, for the reason in the line above; the as-written comparator's inconsistency is proved by `CustomerList.AsWrittenIsInconsistent`.
- Personalize: what the two `replace` calls produce is stated only for a body without placeholders and for a body that is just the name placeholder (`CustomerService.PersonalizePlainBody`, `CustomerService.PersonalizePlaceholder`), not for every body.
- Repos.FindByMobile: Spring's derived query returning an `Optional` throws `IncorrectResultSizeDataAccessException` when two or more documents match; the model returns the first match. Sync mode can store such duplicates (`BillService.SyncModeStoresDuplicates`).
- Models.FindByBillId: the same simplification as `Repos.FindByMobile`: with two stored bills sharing a billId the source's query throws, and the model returns the first.
- Auth.FindByEmail: the same simplification: two users with one e-mail make the source's query throw; the model takes the first.
- Auth.Refresh: the token is looked up with `findByToken`, whose `Optional` result throws when two stored records carry the same token string; the model takes the first. Tokens stamp their issue second, so this happens only for two logins of one account within the same second (`Auth.LoginTokenIsFound` states the distinct case). The account is then read by `findById`, which cannot see duplicates.
- LegacyAnalytics.Endpoint: the pandas grouping, summing and JSON encoding after normalisation are not modelled, so their failures (a revenue column mixing a repeated string with numbers makes `sum` raise TypeError) are answered 200 by the model where the source answers 500. The 500 body carries the exception's type name where the source sends `str(e)`, the library's own text.
- CustomerApi: a body that fails bean validation is refused with the message key of the catch-all handler; the status it gets (the handler answers 500) is not modelled, like every other choice of that handler. The `@Email` address grammar is a parameter.
- BillService.CreateBill: the stock update of each priced item is assumed never to refuse; it is only recorded in `stockUpdates`. The method called does not exist, and the source also ships an `InsufficientStockException` ("Insufficient stock for product: " + id) that its unit test expects for an oversized quantity, so a refusal before the saves is a plausible reading that the model does not take. `BillService.FailsAfterSaving`, `BillBulk.RowCreation`, `Sync.SyncOneBill` and `Sync.SyncStoresEveryBill` hold under that assumption.
- Sync.SyncBill: its duplicate check uses the billId query, so with two stored bills of that id the source throws where the model answers with the existing id.
- Several source files do not compile as written, and the model gives each the meaning its callers evidently rely on: `User` has no `id` field and no five-argument constructor; `Customer` has no three-argument constructor and no `totalPurchaseCount` or `lastPurchaseDate` fields; `Bill` is read through `total` in some places and `totalAmount` in others (the stored `totalAmount` is used); `ProductRequest` has no `id`; the `BillService` interface declares a two-argument `createBill` that the implementation does not provide; `SyncController` calls a four-argument `updateProduct`; `findInactive` queries a field that does not exist; and `createBill` calls `productService.getProductById(id, locale)` expecting a `Product` and `productService.updateProductQuantity(id, qty, locale)`, neither of which `ProductService` declares (it has only a one-argument `getProductById` returning a `ProductRequest`). These members follow the implementation classes; the two product calls, which have none, are read as a catalogue look-up whose miss is null (the null check at BillServiceImpl.java:95) and as a recorded stock update (see the next line).
- ProductApi.GeneratedIdsDistinct: one `now` serves a whole upload, whereas ProductController.java:228 reads the clock for each row, so two rows can get the same time-based id in the source; the lemma holds under the model's single clock reading.
- ProductApi: the date formatter at ProductController.java:38-39 is a shared static `SimpleDateFormat`, which is not thread-safe; concurrent uploads are left out with the rest of concurrency.
- Analytics.ReportOf: the merge's other failures (a product id column of an incompatible type) and every other pandas error in the grouping are not modelled; only the missing-column KeyError is.

## Findings

| source | as written | input that shows it | evidently intended | confidence | as-written member | corrected member |
|---|---|---|---|---|---|---|
| frontend/src/api/apiClient.js:47-59 | the request that starts a refresh pushes its own waiting ticket after `processQueue` has already settled and emptied the queue | one request answered 401, then the refresh succeeds | the initiating request is retried with the new token | not executed | ApiClient.InitiatorLeftWaiting, ApiClient.LoneRequestNeverRetried, ApiClient.AsWrittenSuccessIsUnhealthy | ApiClient.FixedCompletionReleasesEveryone, ApiClient.FixedRunStaysHealthy |
| frontend/src/api/apiClient.js:61-65 | a failed refresh rejects the queue but never sets `isRefreshing` back to false | a refresh that fails, then any later 401 | a failed refresh ends the refreshing state so that a later 401 can refresh again | not executed | ApiClient.FailedRefreshSticks, ApiClient.StuckForever, ApiClient.FailedRefreshDeadlocks, ApiClient.MissingRefreshTokenSticks | ApiClient.FixedRunStaysHealthy |
| frontend/src/components/customers/CustomerList.jsx:86-101 | the sort comparator returns -1 or 1 and never 0 | two customers with the same sort value, or a customer compared with itself | equal values compare as 0, giving a consistent comparator | not executed | CustomerList.CompareAsWritten, CustomerList.AsWrittenIsInconsistent, CustomerList.AsWrittenTieExample | CustomerList.CompareFixed, CustomerList.FixedIsConsistent |
| backend/src/main/java/com/smartretail/backend/controller/BillController.java:185-194 | the `continue` after a bad item leaves only the item loop, so the row's bill is still created | a row whose only item has no product id | a row with a bad item is reported as an error and not created | not executed | BillBulk.RowAsWritten, BillBulk.BulkUploadAsWritten, BillBulk.BadItemRowBothFailsAndSucceeds | BillBulk.Row, BillBulk.BulkUpload |
| backend/src/main/java/com/smartretail/backend/models/Customer.java:31-32 | the creation date is declared `@NotNull` and the create endpoint validates the body, but the form sends no creation date and the service sets it itself | a create request from the customer form with a valid name, e-mail and new mobile | the service's own timestamp satisfies the requirement, so the form's body is accepted | not executed | CustomerApi.CreateEndpoint, CustomerApi.FormBodyRefused | CustomerApi.FixedCreateEndpoint, CustomerApi.FixedAcceptsFormBody |
| backend/src/main/java/com/smartretail/backend/service/CustomerServiceImpl.java:178-189 | the purchase history's business bill ids are looked up as document ids | a bill whose `billId` differs from its document id | the history's bills are found by their business id | not executed | CustomerService.PurchaseHistoryAsWritten, CustomerService.PurchaseHistoryMissesBusinessIds | CustomerService.PurchaseHistory |
| analytics/app.py:135-137 | the `(response, 400)` tuple returned for a bad date is iterated as the bill list, and the endpoint fails with 500 | a start date of 2024-13-01 | a bad date is answered with 400 | not executed | Analytics.ReportEndpointAsWritten, Analytics.BadDateBecomesServerError | Analytics.ReportEndpoint |
| frontend/src/components/bills/BillList.jsx:446-447 | a new search term keeps the current page | 25 bills on page 3, then a search matching five | the page goes back to the first one, as it does for a new date range | not executed | BillList.Step, BillList.SearchStrandsLaterPage, BillList.SearchStrandsThirdPage | BillList.FixedStep, BillList.FixedStepStaysOnCountedPage |
| frontend/src/components/reports/summary/ReportGenerator.jsx:55-76 | `formatAPI` writes the UTC date of the picked day's local midnight | a browser east of UTC picking any day | the request names the day that was picked | not executed | ReportGenerator.FormatApi, ReportGenerator.PickedDaySentAsPreviousDay | ReportGenerator.FormatLocal, ReportGenerator.FormatLocalSendsPickedDay, ReportGenerator.FixedGenerate, ReportGenerator.FixedGenerateAsksPickedDays |
| frontend/src/components/products/ProductForm.jsx:68-75 | the edit prefill uses `||`, so a stored reorder level of 0 opens as 10 | editing a product whose reorder level is 0 and saving it untouched | only a missing value takes the default | not executed | ProductForm.PrefillAsWritten, ProductForm.Open, ProductForm.UntouchedSaveAsWritten | ProductForm.Prefill, ProductForm.FixedOpen, ProductForm.UntouchedSaveKeepsValues |

=== FILE: analytics.dfy ===
/** The analytics service: bill documents are flattened into one record
    per sold item, the optional date range narrows the documents fetched,
    and the report endpoints answer with a fixed zero summary when nothing
    is left. Python's dynamic typing is modelled on `JValue`: truthiness,
    `dict.get` with a default, `or`, comparison with 0 and iteration, each
    raising where Python raises (the `Err` carries the exception's type
    name). The pandas grouping by day, week and month and the top-product
    merge are not modelled; the summary totals are. */
module Analytics {
  import opened Wrappers
  import opened Text
  import opened Json
  import Translations
  import Seqs

  type Doc = map<string, JValue>

  // ---------------------------------------------------------------------
  // Python values
  // ---------------------------------------------------------------------

  /** Python truthiness. */
  predicate Truthy(v: JValue) {
    match v
    case JNull => false
    case JBool(b) => b
    case JInt(i) => i != 0
    case JReal(r) => r != 0.0
    case JStr(s) => s != ""
    case JArr(e) => e != []
    case JObj(f) => f != map[]
  }

  /** `a or b`. */
  function Or(a: JValue, b: JValue): (r: JValue)
    ensures Truthy(a) ==> r == a
    ensures !Truthy(a) ==> r == b
  {
    if Truthy(a) then a else b
  }

  /** `d.get(key, default)`. */
  function GetOr(d: Doc, key: string, default: JValue): (r: JValue)
    ensures key in d ==> r == d[key]
    ensures key !in d ==> r == default
  {
    if key in d then d[key] else default
  }

  /** Booleans are integers in Python. */
  predicate IsPyNumber(v: JValue) {
    v.JInt? || v.JReal? || v.JBool?
  }

  function NumValue(v: JValue): real
    requires IsPyNumber(v)
  {
    match v
    case JInt(i) => i as real
    case JReal(r) => r
    case JBool(b) => if b then 1.0 else 0.0
  }

  /** `v > 0`: numbers compare, anything else raises. */
  function Positive(v: JValue): (r: Result<bool>)
    ensures r.Ok? <==> IsPyNumber(v)
    ensures r.Ok? ==> (r.value <==> NumValue(v) > 0.0)
    ensures r.Err? ==> r.error == "TypeError"
  {
    if IsPyNumber(v) then Ok(NumValue(v) > 0.0) else Err("TypeError")
  }

  /** `for x in v`: a list yields its elements, an empty dict or string
      yields nothing; a non-empty dict or string yields strings, on which
      the loop body's `.get` then fails; anything else is not iterable. */
  function Elements(v: JValue): (r: Result<seq<JValue>>)
    ensures v.JArr? ==> r == Ok(v.elems)
    ensures r.Ok? ==> v.JArr? || v == JObj(map[]) || v == JStr("")
  {
    match v
    case JArr(e) => Ok(e)
    case JObj(f) => if f == map[] then Ok([]) else Err("AttributeError")
    case JStr(s) => if s == "" then Ok([]) else Err("AttributeError")
    case _ => Err("TypeError")
  }

  /** `{"$date": v}` as exported by MongoDB is unwrapped to `v`. */
  function UnwrapDate(v: JValue): (r: JValue)
    ensures v.JObj? && "$date" in v.fields ==> r == v.fields["$date"]
    ensures !(v.JObj? && "$date" in v.fields) ==> r == v
  {
    if v.JObj? && "$date" in v.fields then v.fields["$date"] else v
  }

  // ---------------------------------------------------------------------
  // normalize_bills
  // ---------------------------------------------------------------------

  datatype Record = Record(
    date: JValue, productId: string, name: JValue,
    qty: real, price: real, revenue: real, total: JValue)

  /** The bill's date: `createdAt` when truthy, else `date`. */
  function BillDate(bill: Doc): JValue {
    UnwrapDate(Or(Json.Get(bill, "createdAt"), Json.Get(bill, "date")))
  }

  function BillTotal(bill: Doc): JValue {
    Or(Json.Get(bill, "totalAmount"), GetOr(bill, "total", JInt(0)))
  }

  function ItemQty(item: Doc): JValue {
    Or(Json.Get(item, "quantity"), GetOr(item, "qty", JInt(0)))
  }

  function ItemPrice(item: Doc): JValue {
    GetOr(item, "price", JInt(0))
  }

  /** `productId`, then `product_id`, then `id`, stringified; "unknown"
      when none is truthy. `render` is `str` on non-strings. */
  function ItemProductId(item: Doc, render: JValue -> string): (r: string)
    ensures Truthy(Json.Get(item, "productId")) && Json.Get(item, "productId").JStr? ==>
      r == Json.Get(item, "productId").s
    ensures (!Truthy(Json.Get(item, "productId")) && !Truthy(Json.Get(item, "product_id"))
             && !Truthy(Json.Get(item, "id"))) ==> r == "unknown"
  {
    var v := Or(Or(Json.Get(item, "productId"), Json.Get(item, "product_id")), Json.Get(item, "id"));
    if !Truthy(v) then "unknown"
    else if v.JStr? then v.s
    else render(v)
  }

  function ItemName(item: Doc): JValue {
    Or(Or(Json.Get(item, "name"), Json.Get(item, "productName")), JStr("Unknown Product"))
  }

  /** One item: a record when both the quantity and the price are
      positive, nothing when either is not; the price is only compared
      when the quantity is positive. */
  function ItemRecord(date: JValue, total: JValue, item: JValue, render: JValue -> string)
    : (r: Result<Option<Record>>)
    ensures !item.JObj? ==> r == Err("AttributeError")
    ensures item.JObj? && !IsPyNumber(ItemQty(item.fields)) ==> r == Err("TypeError")
    ensures item.JObj? && IsPyNumber(ItemQty(item.fields)) && NumValue(ItemQty(item.fields)) <= 0.0 ==>
      r == Ok(None)
    ensures r.Ok? && r.value.Some? ==>
      var rec := r.value.value;
      item.JObj? && IsPyNumber(ItemQty(item.fields)) && IsPyNumber(ItemPrice(item.fields))
      && rec.qty > 0.0 && rec.price > 0.0 && rec.revenue == rec.price * rec.qty
      && rec.qty == NumValue(ItemQty(item.fields)) && rec.price == NumValue(ItemPrice(item.fields))
      && rec.date == date && rec.total == total
      && rec.productId == ItemProductId(item.fields, render) && rec.name == ItemName(item.fields)
    ensures r.Ok? && r.value.None? ==>
      item.JObj? && IsPyNumber(ItemQty(item.fields))
      && (NumValue(ItemQty(item.fields)) <= 0.0
          || (IsPyNumber(ItemPrice(item.fields)) && NumValue(ItemPrice(item.fields)) <= 0.0))
  {
    if !item.JObj? then Err("AttributeError")
    else
      var f := item.fields;
      var q := ItemQty(f);
      var qPositive :- Positive(q);
      if !qPositive then Ok(None)
      else
        var p := ItemPrice(f);
        var pPositive :- Positive(p);
        if !pPositive then Ok(None)
        else
          var qty, price := NumValue(q), NumValue(p);
          Ok(Some(Record(date, ItemProductId(f, render), ItemName(f), qty, price, price * qty, total)))
  }

  /** A record is well formed: what `normalize_bills` keeps. */
  predicate Kept(rec: Record) {
    rec.qty > 0.0 && rec.price > 0.0 && rec.revenue == rec.price * rec.qty
  }

  function ItemRecords(date: JValue, total: JValue, items: seq<JValue>, render: JValue -> string)
    : (r: Result<seq<Record>>)
    ensures r.Ok? ==> |r.value| <= |items|
    ensures r.Ok? ==> forall i :: 0 <= i < |r.value| ==> Kept(r.value[i])
    decreases |items|
  {
    if |items| == 0 then Ok([])
    else
      var first :- ItemRecord(date, total, items[0], render);
      var rest :- ItemRecords(date, total, items[1..], render);
      match first
      case None => Ok(rest)
      case Some(rec) => Ok([rec] + rest)
  }

  /** `normalize_bills`: every bill's items in order, each kept exactly
      when its quantity and price are positive; the first malformed value
      raises. Each bill's date goes through `pd.to_datetime` before its
      items are read: `dateError` is the exception that conversion raises
      on a value (`None` when it converts), and a converted date is kept
      as the stored value. */
  function NormalizeBills(bills: seq<Doc>, render: JValue -> string, dateError: JValue -> Option<string>)
    : (r: Result<seq<Record>>)
    ensures r.Ok? ==> forall i :: 0 <= i < |r.value| ==> Kept(r.value[i])
    ensures r.Ok? ==> forall i :: 0 <= i < |bills| ==> dateError(BillDate(bills[i])).None?
    ensures |bills| > 0 && dateError(BillDate(bills[0])).Some? ==> r == Err(dateError(BillDate(bills[0])).value)
    decreases |bills|
  {
    if |bills| == 0 then Ok([])
    else if dateError(BillDate(bills[0])).Some? then Err(dateError(BillDate(bills[0])).value)
    else
      var items :- Elements(GetOr(bills[0], "items", JArr([])));
      var first :- ItemRecords(BillDate(bills[0]), BillTotal(bills[0]), items, render);
      var rest :- NormalizeBills(bills[1..], render, dateError);
      assert forall i :: 1 <= i < |bills| ==> bills[i] == bills[1..][i - 1];
      Ok(first + rest)
  }

  /** A quantity of 0 under "quantity" is falsy, so "qty" is read instead;
      the date prefers `createdAt` and unwraps `$date`. */
  lemma QuantityFallsBackOnZero(render: JValue -> string, dateError: JValue -> Option<string>)
    requires dateError(JStr("2024-01-02")).None?
    ensures var item := JObj(map["quantity" := JInt(0), "qty" := JInt(3), "price" := JInt(5),
                                 "name" := JStr("Milk")]);
      var bill := map["createdAt" := JObj(map["$date" := JStr("2024-01-02")]),
                      "date" := JStr("2023-12-31"), "items" := JArr([item])];
      NormalizeBills([bill], render, dateError)
        == Ok([Record(JStr("2024-01-02"), "unknown", JStr("Milk"), 3.0, 5.0, 15.0, JInt(0))])
  {
    var item := JObj(map["quantity" := JInt(0), "qty" := JInt(3), "price" := JInt(5),
                         "name" := JStr("Milk")]);
    var bill := map["createdAt" := JObj(map["$date" := JStr("2024-01-02")]),
                    "date" := JStr("2023-12-31"), "items" := JArr([item])];
    var d := JStr("2024-01-02");
    assert BillDate(bill) == d by {
      assert "$date" in bill["createdAt"].fields;
      assert Truthy(Json.Get(bill, "createdAt"));
    }
    assert BillTotal(bill) == JInt(0);
    MilkItem(d, JInt(0), render);
    SingleItemRecords(d, JInt(0), item, render, Record(d, "unknown", JStr("Milk"), 3.0, 5.0, 15.0, JInt(0)));
    SingleBillRecords(bill, [item], render, dateError);
  }

  lemma MilkItem(d: JValue, t: JValue, render: JValue -> string)
    ensures ItemRecord(d, t, JObj(map["quantity" := JInt(0), "qty" := JInt(3), "price" := JInt(5),
                                      "name" := JStr("Milk")]), render)
      == Ok(Some(Record(d, "unknown", JStr("Milk"), 3.0, 5.0, 15.0, t)))
  {
    var f := map["quantity" := JInt(0), "qty" := JInt(3), "price" := JInt(5), "name" := JStr("Milk")];
    assert ItemQty(f) == JInt(3);
    assert ItemProductId(f, render) == "unknown";
  }

  /** One item's record is the whole list's. */
  lemma SingleItemRecords(d: JValue, t: JValue, item: JValue, render: JValue -> string, rec: Record)
    requires ItemRecord(d, t, item, render) == Ok(Some(rec))
    ensures ItemRecords(d, t, [item], render) == Ok([rec])
  {
    assert [item][1..] == [] && [item][0] == item;
    assert ItemRecords(d, t, [], render) == Ok([]);
    assert [rec] + [] == [rec];
  }

  /** One bill with a convertible date: its records are its items'. */
  lemma SingleBillRecords(bill: Doc, items: seq<JValue>, render: JValue -> string, dateError: JValue -> Option<string>)
    requires "items" in bill && bill["items"] == JArr(items)
    requires dateError(BillDate(bill)).None?
    ensures NormalizeBills([bill], render, dateError) == ItemRecords(BillDate(bill), BillTotal(bill), items, render)
  {
    assert [bill][1..] == [] && [bill][0] == bill;
    assert NormalizeBills([], render, dateError) == Ok([]);
    match ItemRecords(BillDate(bill), BillTotal(bill), items, render)
    case Err(e) =>
    case Ok(first) => assert first + [] == first;
  }

  /** An item with a zero price is dropped, and a non-numeric price is
      never compared when the quantity is not positive. */
  lemma ZeroPriceDropped(date: JValue, total: JValue, render: JValue -> string)
    ensures ItemRecord(date, total, JObj(map["qty" := JInt(2), "price" := JInt(0)]), render) == Ok(None)
    ensures ItemRecord(date, total, JObj(map["qty" := JInt(0), "price" := JStr("x")]), render) == Ok(None)
    ensures ItemRecord(date, total, JObj(map["qty" := JInt(1), "price" := JStr("x")]), render) == Err("TypeError")
  {
    assert ItemQty(map["qty" := JInt(2), "price" := JInt(0)]) == JInt(2);
    assert ItemQty(map["qty" := JInt(0), "price" := JStr("x")]) == JInt(0);
    assert ItemQty(map["qty" := JInt(1), "price" := JStr("x")]) == JInt(1);
  }

  // ---------------------------------------------------------------------
  // The summary
  // ---------------------------------------------------------------------

  function SumRevenue(rs: seq<Record>): real decreases |rs| {
    if |rs| == 0 then 0.0 else rs[0].revenue + SumRevenue(rs[1..])
  }

  function SumQty(rs: seq<Record>): real decreases |rs| {
    if |rs| == 0 then 0.0 else rs[0].qty + SumQty(rs[1..])
  }

  lemma {:induction false} SumQtyPositive(rs: seq<Record>)
    requires rs != [] && forall i :: 0 <= i < |rs| ==> Kept(rs[i])
    ensures SumQty(rs) > 0.0 && SumRevenue(rs) > 0.0
  {
    assert Kept(rs[0]);
    assert rs[0].price * rs[0].qty > 0.0;
    if |rs| > 1 {
      SumQtyPositive(rs[1..]);
    }
  }

  datatype Summary = Summary(totalRevenue: real, totalOrders: nat, totalProductsSold: int)

  const ZeroSummary: Summary := Summary(0.0, 0, 0)

  datatype Answer =
    | NoBillingData(summary: Summary)
    | Report(summary: Summary)
    | BadRequest(error: string)
    | ServerError(exception: string)

  datatype Response = Response(status: nat, answer: Answer)

  /** A column of the product table: pandas makes one for every key that
      at least one product document has. */
  predicate HasColumn(products: seq<Doc>, key: string) {
    exists i :: 0 <= i < |products| && key in products[i]
  }

  /** The three columns the top-product merge selects; a missing one
      raises KeyError. */
  predicate MergeColumnsPresent(products: seq<Doc>) {
    HasColumn(products, "productId") && HasColumn(products, "name") && HasColumn(products, "category")
  }

  /** `/analytics/report` on the fetched documents and the product
      collection: the totals count every fetched bill as an order, even one
      without kept items, and sum the quantity of the kept records; with no
      kept record the fixed zero summary is answered with 200 before the
      products are looked at. An exception gives 500: one from
      `normalize_bills`, or KeyError when the product table lacks a column
      the merge selects. */
  function ReportOf(bills: seq<Doc>, products: seq<Doc>, render: JValue -> string,
                    dateError: JValue -> Option<string>): (r: Response)
    ensures NormalizeBills(bills, render, dateError).Err? ==>
      r == Response(500, ServerError(NormalizeBills(bills, render, dateError).error))
    ensures r.status == 500 <==>
      NormalizeBills(bills, render, dateError).Err?
      || (NormalizeBills(bills, render, dateError).Ok? && NormalizeBills(bills, render, dateError).value != []
          && !MergeColumnsPresent(products))
    ensures NormalizeBills(bills, render, dateError) == Ok([]) ==> r == Response(200, NoBillingData(ZeroSummary))
    ensures r.answer.Report? ==> r.status == 200 && r.answer.summary.totalOrders == |bills|
                                 && r.answer.summary.totalProductsSold >= 0
                                 && r.answer.summary.totalRevenue > 0.0
                                 && MergeColumnsPresent(products)
    ensures r.status == 200 || r.status == 500
  {
    match NormalizeBills(bills, render, dateError)
    case Err(e) => Response(500, ServerError(e))
    case Ok(records) =>
      if records == [] then Response(200, NoBillingData(ZeroSummary))
      else if !MergeColumnsPresent(products) then Response(500, ServerError("KeyError"))
      else
        SumQtyPositive(records);
        Response(200, Report(Summary(SumRevenue(records), |bills|, TruncReal(SumQty(records)))))
  }

  /** With kept records and an empty product collection the report fails:
      the product table has no columns at all. */
  lemma EmptyProductsFailReport(bills: seq<Doc>, render: JValue -> string, dateError: JValue -> Option<string>)
    requires NormalizeBills(bills, render, dateError).Ok? && NormalizeBills(bills, render, dateError).value != []
    ensures ReportOf(bills, [], render, dateError) == Response(500, ServerError("KeyError"))
  {
  }

  /** A bill whose date does not convert fails the report with the
      conversion's exception, whatever its items. */
  lemma BadBillDateFailsReport(bill: Doc, products: seq<Doc>, render: JValue -> string,
                               dateError: JValue -> Option<string>)
    requires dateError(BillDate(bill)).Some?
    ensures ReportOf([bill], products, render, dateError)
              == Response(500, ServerError(dateError(BillDate(bill)).value))
  {
  }

  // ---------------------------------------------------------------------
  // get_filtered_bills
  // ---------------------------------------------------------------------

  /** 23:59:59 after midnight, in milliseconds: the last second's fraction
      is outside the range. */
  const EndOfDayOffset: int := 23 * 3_600_000 + 59 * 60_000 + 59 * 1000

  datatype DateQuery = AllBills | Between(start: int, end: int) | BadFormat

  /** The date filter applies only when both parameters are non-empty;
      `parseDay` is `strptime(s, "%Y-%m-%d")` as a midnight in
      milliseconds. */
  function DateFilter(startDate: Option<string>, endDate: Option<string>, parseDay: string -> Option<int>)
    : (q: DateQuery)
    ensures !(Text.Truthy(startDate) && Text.Truthy(endDate)) ==> q == AllBills
    ensures q.Between? ==> parseDay(endDate.value).Some? && parseDay(startDate.value).Some?
                           && q.end == parseDay(endDate.value).value + EndOfDayOffset
                           && q.start == parseDay(startDate.value).value
    ensures q == BadFormat <==>
      Text.Truthy(startDate) && Text.Truthy(endDate)
      && (parseDay(startDate.value).None? || parseDay(endDate.value).None?)
  {
    if Text.Truthy(startDate) && Text.Truthy(endDate) then
      match (parseDay(startDate.value), parseDay(endDate.value))
      case (Some(s), Some(e)) => Between(s, e + EndOfDayOffset)
      case _ => BadFormat
    else AllBills
  }

  predicate InQuery(q: DateQuery, stamp: Option<int>)
    requires !q.BadFormat?
  {
    q.AllBills? || (stamp.Some? && q.start <= stamp.value <= q.end)
  }

  function MatchesQuery(q: DateQuery, stamp: Doc -> Option<int>): Doc -> bool {
    (d: Doc) => !q.BadFormat? && InQuery(q, stamp(d))
  }

  /** `db.bills.find(query)`: `stamp` reads a document's stored `createdAt`
      instant; a document without one matches only the empty query. The
      matches come back in store order, none dropped or repeated. */
  function Fetch(store: seq<Doc>, q: DateQuery, stamp: Doc -> Option<int>): (r: seq<Doc>)
    requires !q.BadFormat?
    ensures |r| <= |store|
    ensures forall i :: 0 <= i < |r| ==> r[i] in store && InQuery(q, stamp(r[i]))
    ensures forall i :: 0 <= i < |store| && InQuery(q, stamp(store[i])) ==> store[i] in r
    ensures r == Seqs.Filter(store, MatchesQuery(q, stamp))
    decreases |store|
  {
    if |store| == 0 then []
    else if InQuery(q, stamp(store[0])) then [store[0]] + Fetch(store[1..], q, stamp)
    else Fetch(store[1..], q, stamp)
  }

  /** A bill stamped in the final second of the end day, after 23:59:59
      exactly, is not fetched. */
  lemma LastSecondFractionExcluded(store: seq<Doc>, s: int, e: int, stamp: Doc -> Option<int>, d: Doc)
    requires stamp(d) == Some(e + EndOfDayOffset + 500)
    ensures !InQuery(Between(s, e + EndOfDayOffset), stamp(d))
  {
  }

  /** A report endpoint as written: on a bad date the filter hands back its
      (error response, 400) pair, and the caller iterates over it as if it
      were the bill list, so the first element's `.get` raises and the
      answer is a 500. */
  function ReportEndpointAsWritten(store: seq<Doc>, startDate: Option<string>, endDate: Option<string>,
                                   parseDay: string -> Option<int>, stamp: Doc -> Option<int>,
                                   products: seq<Doc>, render: JValue -> string,
                                   dateError: JValue -> Option<string>): (r: Response)
    ensures DateFilter(startDate, endDate, parseDay) == BadFormat ==> r == Response(500, ServerError("AttributeError"))
    ensures DateFilter(startDate, endDate, parseDay) != BadFormat ==>
      r == ReportOf(Fetch(store, DateFilter(startDate, endDate, parseDay), stamp), products, render, dateError)
  {
    match DateFilter(startDate, endDate, parseDay)
    case BadFormat => Response(500, ServerError("AttributeError"))
    case q => ReportOf(Fetch(store, q, stamp), products, render, dateError)
  }

  const BadDateMessage: string := "Invalid date format. Use YYYY-MM-DD"

  /** The same endpoint with the filter's 400 answer passed through. */
  function ReportEndpoint(store: seq<Doc>, startDate: Option<string>, endDate: Option<string>,
                          parseDay: string -> Option<int>, stamp: Doc -> Option<int>,
                          products: seq<Doc>, render: JValue -> string,
                          dateError: JValue -> Option<string>): (r: Response)
    ensures r.status == 400 <==> DateFilter(startDate, endDate, parseDay) == BadFormat
    ensures r.status == 400 ==> r.answer == BadRequest(BadDateMessage)
    ensures r.status != 400 ==> r == ReportEndpointAsWritten(store, startDate, endDate, parseDay, stamp, products, render, dateError)
  {
    match DateFilter(startDate, endDate, parseDay)
    case BadFormat => Response(400, BadRequest(BadDateMessage))
    case q =>
      ReportOf(Fetch(store, q, stamp), products, render, dateError)
  }

  /** The discrepancy: a malformed date that the filter rejects with 400
      reaches the client as a 500. */
  lemma BadDateBecomesServerError(store: seq<Doc>, parseDay: string -> Option<int>,
                                  stamp: Doc -> Option<int>, products: seq<Doc>, render: JValue -> string,
                                  dateError: JValue -> Option<string>)
    requires parseDay("2024-13-01").None?
    ensures ReportEndpointAsWritten(store, Some("2024-13-01"), Some("2024-12-31"), parseDay, stamp, products, render, dateError).status == 500
    ensures ReportEndpoint(store, Some("2024-13-01"), Some("2024-12-31"), parseDay, stamp, products, render, dateError)
              == Response(400, BadRequest(BadDateMessage))
  {
  }

  /** Without both dates every stored bill is fetched. */
  lemma NoRangeFetchesAll(store: seq<Doc>, endDate: Option<string>, parseDay: string -> Option<int>,
                          stamp: Doc -> Option<int>)
    ensures DateFilter(None, endDate, parseDay) == AllBills
    ensures Fetch(store, AllBills, stamp) == store
  {
    if |store| > 0 {
      NoRangeFetchesAll(store[1..], endDate, parseDay, stamp);
    }
  }

  // ---------------------------------------------------------------------
  // The text report's language
  // ---------------------------------------------------------------------

  /** The text before the first ',' and then before the first '-'; a
      missing header reads as "en". Quality values are not removed. */
  function ReportLanguage(header: Option<string>): (lang: string)
    ensures ',' !in lang && '-' !in lang
  {
    var h := header.GetOr("en");
    FirstPiece(FirstPiece(h, ','), '-')
  }

  /** The title line of the text report in the header's language. */
  function ReportTitle(header: Option<string>): string {
    Translations.Translate(ReportLanguage(header), "report_title")
  }

  /** The primary subtag of the first entry picks the table. */
  lemma RegionalEntryPicksLanguage()
    ensures ReportLanguage(Some("hi-IN,hi;q=0.9")) == "hi"
  {
    assert "hi-IN,hi;q=0.9" == "hi" + "-" + "IN" + ",hi;q=0.9";
    LanguageOfRegionalEntry("hi", "IN", ",hi;q=0.9");
  }

  /** A first entry "language-region" reads as its language, whatever
      entries follow. */
  lemma LanguageOfRegionalEntry(lang: string, region: string, rest: string)
    requires ',' !in lang && '-' !in lang && ',' !in region
    requires rest == [] || rest[0] == ','
    ensures ReportLanguage(Some(lang + "-" + region + rest)) == lang
  {
    var entry := lang + "-" + region;
    assert ',' !in entry by {
      assert forall i :: 0 <= i < |entry| ==> entry[i] in lang || entry[i] == '-' || entry[i] in region by {
        forall i | 0 <= i < |entry| ensures entry[i] in lang || entry[i] == '-' || entry[i] in region {
          if i < |lang| { assert entry[i] == lang[i]; }
          else if i > |lang| { assert entry[i] == region[i - |lang| - 1]; }
        }
      }
    }
    FirstPieceOfPrefix(entry, ',', rest);
    assert entry == lang + ("-" + region);
    FirstPieceOfPrefix(lang, '-', "-" + region);
  }

  lemma MissingHeaderIsEnglish()
    ensures ReportLanguage(None) == "en"
  {
    FirstPieceOfPrefix("en", ',', "");
    FirstPieceOfPrefix("en", '-', "");
  }

  /** A first entry carrying a quality value names no table, so the
      report comes out in English. */
  lemma QualityValueFallsBackToEnglish()
    ensures ReportLanguage(Some("te;q=0.9")) == "te;q=0.9"
    ensures ReportTitle(Some("te;q=0.9")) == "📊 Sales Analysis Report"
  {
    assert ',' !in "te;q=0.9" && '-' !in "te;q=0.9";
    LanguageOfPlainEntry("te;q=0.9");
    assert "te;q=0.9" !in Translations.Tables;
    Translations.UnknownCodeTitle("te;q=0.9");
  }

  /** A header of one entry with no region reads as itself. */
  lemma LanguageOfPlainEntry(entry: string)
    requires ',' !in entry && '-' !in entry
    ensures ReportLanguage(Some(entry)) == entry
  {
    assert entry + "" == entry;
    FirstPieceOfPrefix(entry, ',', "");
    FirstPieceOfPrefix(entry, '-', "");
  }
}

=== FILE: api_client.dfy ===
/** The browser's HTTP client: every request is decorated with the stored
    access token and the interface language, and a 401 answer triggers one
    token refresh that the other failing requests wait for. The refresh
    protocol is a state machine whose transitions are the event-loop steps
    of the response interceptor: a request fails, the awaited refresh
    resolves, or it rejects. The refresh call itself and the re-sent
    requests are outside the model; a settlement records what a waiting
    request was told. */
module ApiClient {
  import opened Wrappers
  import opened Text
  import JwtFilter
  import AuthService

  type Headers = map<string, string>

  // ---------------------------------------------------------------------
  // Request decoration
  // ---------------------------------------------------------------------

  /** The request interceptor: "Authorization: Bearer <token>" only when a
      non-empty token is stored, and the language of the interface, else
      the stored one, else English. Every other header is kept. */
  function Decorate(headers: Headers, token: Option<string>, language: Option<string>,
                    storedLanguage: Option<string>): (r: Headers)
    ensures ("Authorization" in r) <==> (Truthy(token) || "Authorization" in headers)
    ensures Truthy(token) ==> r["Authorization"] == "Bearer " + token.value
    ensures !Truthy(token) && "Authorization" in headers ==> r["Authorization"] == headers["Authorization"]
    ensures "Accept-Language" in r
    ensures Truthy(language) ==> r["Accept-Language"] == language.value
    ensures !Truthy(language) && Truthy(storedLanguage) ==> r["Accept-Language"] == storedLanguage.value
    ensures !Truthy(language) && !Truthy(storedLanguage) ==> r["Accept-Language"] == "en"
    ensures forall k :: k in headers && k != "Authorization" && k != "Accept-Language" ==>
                          k in r && r[k] == headers[k]
    ensures forall k :: k in r ==> k in headers || k == "Authorization" || k == "Accept-Language"
  {
    var withToken := if Truthy(token) then headers["Authorization" := "Bearer " + token.value] else headers;
    withToken["Accept-Language" := OrElse(language, OrElse(storedLanguage, "en"))]
  }

  /** Decorating twice is decorating once. */
  lemma DecorateIdempotent(headers: Headers, token: Option<string>, language: Option<string>,
                           storedLanguage: Option<string>)
    ensures var once := Decorate(headers, token, language, storedLanguage);
      Decorate(once, token, language, storedLanguage) == once
  {
    var once := Decorate(headers, token, language, storedLanguage);
    var twice := Decorate(once, token, language, storedLanguage);
    assert twice.Keys == once.Keys;
  }

  /** The header the client sends is the one the server's filter reads the
      same token back from. */
  lemma DecoratedTokenReachesFilter(headers: Headers, token: Option<string>, language: Option<string>,
                                    storedLanguage: Option<string>)
    requires Truthy(token)
    ensures JwtFilter.BearerToken(Some(Decorate(headers, token, language, storedLanguage)["Authorization"]))
            == token
  {
    JwtFilter.BearerRoundTrip(token.value);
  }

  // ---------------------------------------------------------------------
  // The refresh protocol
  // ---------------------------------------------------------------------

  /** A failed request as the interceptor sees it: whether it still has
      its configuration, and its `_retry` mark. */
  datatype Request = Request(id: nat, hasConfig: bool, retry: bool)

  /** What the interceptor does with one failure. */
  datatype Verdict =
    | RejectUnchanged   // the original error is passed on
    | StartRefresh      // this request starts the refresh and awaits it
    | Enqueue           // this request waits for the refresh in progress

  /** What a waiting request is told when the queue is processed: re-send
      with the new token, or give up with the error. */
  datatype Settlement =
    | Retried(id: nat, token: string)
    | Rejected(id: nat, error: string)

  /** The module-level state: the refresh flag, the waiting tickets in
      arrival order, the request whose refresh is being awaited, and every
      settlement so far. */
  datatype Client = Client(isRefreshing: bool, queue: seq<nat>, awaiting: Option<nat>,
                           settled: seq<Settlement>)

  const Initial: Client := Client(false, [], None, [])

  /** A failure reaches the response interceptor. A request without
      configuration, one already retried, or any answer but 401 is
      rejected as it is. A 401 marks the request retried; it then starts
      the refresh when none is in progress and otherwise joins the queue. */
  function OnError(c: Client, req: Request, status: Option<int>): (r: (Client, Request, Verdict))
    ensures r.2 == RejectUnchanged <==> (!req.hasConfig || req.retry || status != Some(401))
    ensures r.2 == RejectUnchanged ==> r.0 == c && r.1 == req
    ensures r.2 != RejectUnchanged ==> r.1 == req.(retry := true) && r.0.settled == c.settled
    ensures r.2 == StartRefresh <==> (r.2 != RejectUnchanged && !c.isRefreshing)
    ensures r.2 == StartRefresh ==> r.0 == c.(isRefreshing := true, awaiting := Some(req.id))
    ensures r.2 == Enqueue ==> r.0 == c.(queue := c.queue + [req.id])
  {
    if !req.hasConfig || req.retry then (c, req, RejectUnchanged)
    else if status == Some(401) then
      var marked := req.(retry := true);
      if !c.isRefreshing then (c.(isRefreshing := true, awaiting := Some(req.id)), marked, StartRefresh)
      else (c.(queue := c.queue + [req.id]), marked, Enqueue)
    else (c, req, RejectUnchanged)
  }

  /** A request that has been through a 401 once is rejected unchanged the
      next time it fails, whatever the answer: at most one retry each. */
  lemma RetriedAtMostOnce(c: Client, c': Client, req: Request, status: Option<int>, status': Option<int>)
    requires OnError(c, req, status).2 != RejectUnchanged
    ensures var req' := OnError(c, req, status).1;
      OnError(c', req', status') == (c', req', RejectUnchanged)
  {
  }

  /** While a refresh is in progress a 401 only waits: no second refresh
      starts, and the new ticket goes to the back of the queue. */
  lemma OneRefreshAtATime(c: Client, req: Request)
    requires c.isRefreshing && req.hasConfig && !req.retry
    ensures OnError(c, req, Some(401)).2 == Enqueue
    ensures OnError(c, req, Some(401)).0.queue == c.queue + [req.id]
    ensures OnError(c, req, Some(401)).0.isRefreshing
  {
  }

  /** The settlement of one ticket by an outcome. */
  function Settle(id: nat, outcome: Result<string>): Settlement {
    if outcome.Ok? then Retried(id, outcome.value) else Rejected(id, outcome.error)
  }

  /** `processQueue`: every ticket is settled by the same outcome, in the
      order the tickets were queued. */
  function ProcessQueue(queue: seq<nat>, outcome: Result<string>): (r: seq<Settlement>)
    ensures |r| == |queue|
    ensures forall i :: 0 <= i < |r| ==>
      r[i].id == queue[i] && (r[i].Retried? <==> outcome.Ok?)
      && (outcome.Ok? ==> r[i].token == outcome.value)
      && (outcome.Err? ==> r[i].error == outcome.error)
    decreases |queue|
  {
    if |queue| == 0 then []
    else [Settle(queue[0], outcome)] + ProcessQueue(queue[1..], outcome)
  }

  /** The awaited refresh resolves, as written: the flag is cleared, the
      queue is released with the new token, and only then does the
      initiator push its own ticket, into the emptied queue. */
  function RefreshSucceeded(c: Client, token: string): (r: Client)
    requires c.awaiting.Some?
    ensures !r.isRefreshing && r.awaiting.None? && r.queue == [c.awaiting.value]
    ensures c.settled <= r.settled && |r.settled| == |c.settled| + |c.queue|
    ensures forall i :: 0 <= i < |c.queue| ==> r.settled[|c.settled| + i] == Retried(c.queue[i], token)
  {
    Client(false, [c.awaiting.value], None, c.settled + ProcessQueue(c.queue, Ok(token)))
  }

  /** The awaited refresh rejects, as written: the queue is released with
      the refresh error and the initiator is rejected with the translated
      message, but the flag is left set. */
  function RefreshFailed(c: Client, error: string): (r: Client)
    requires c.awaiting.Some?
    ensures r.isRefreshing == c.isRefreshing && r.awaiting.None? && r.queue == []
    ensures c.settled <= r.settled && |r.settled| == |c.settled| + |c.queue| + 1
    ensures forall i :: 0 <= i < |c.queue| ==> r.settled[|c.settled| + i] == Rejected(c.queue[i], error)
    ensures r.settled[|r.settled| - 1] == Rejected(c.awaiting.value, AuthService.RefreshFailedKey)
  {
    Client(c.isRefreshing, [], None,
           c.settled + ProcessQueue(c.queue, Err(error)) + [Rejected(c.awaiting.value, AuthService.RefreshFailedKey)])
  }

  datatype Event =
    | Failure(req: Request, status: Option<int>)
    | RefreshResolved(token: string)
    | RefreshRejected(error: string)

  /** One step of the client as written; `None` when the event cannot
      happen (a refresh completes only while one is awaited). */
  function Next(c: Client, e: Event): (r: Option<Client>)
    ensures r.None? <==> !e.Failure? && c.awaiting.None?
    ensures e.Failure? ==> r == Some(OnError(c, e.req, e.status).0)
    ensures r.Some? ==> c.settled <= r.value.settled
  {
    match e
    case Failure(req, status) => Some(OnError(c, req, status).0)
    case RefreshResolved(token) => if c.awaiting.Some? then Some(RefreshSucceeded(c, token)) else None
    case RefreshRejected(error) => if c.awaiting.Some? then Some(RefreshFailed(c, error)) else None
  }

  /** The completion event of the refresh the initiator awaits. */
  function Completion(outcome: Result<(AuthService.Storage, string)>): (e: Event)
    ensures e.RefreshResolved? <==> outcome.Ok?
    ensures outcome.Ok? ==> e == RefreshResolved(outcome.value.1)
    ensures outcome.Err? ==> e == RefreshRejected(outcome.error)
  {
    if outcome.Ok? then RefreshResolved(outcome.value.1) else RefreshRejected(outcome.error)
  }

  /** A session without a refresh token (after logout in another tab, say)
      turns the first 401 into a stuck client. */
  lemma MissingRefreshTokenSticks(c: Client, req: Request, st: AuthService.Storage,
                                  post: string -> Result<Option<string>>)
    requires !c.isRefreshing && req.hasConfig && !req.retry
    requires !Truthy(AuthService.Lookup(st, AuthService.RefreshKey))
    ensures var started := OnError(c, req, Some(401)).0;
      var done := Next(started, Completion(AuthService.Refresh(st, post)));
      done.Some? && Stuck(done.value)
      && done.value.settled == c.settled + ProcessQueue(c.queue, Err(AuthService.NoRefreshKey))
                               + [Rejected(req.id, AuthService.RefreshFailedKey)]
  {
  }

  /** A sequence of steps; `None` once an event cannot happen. */
  function Run(c: Client, events: seq<Event>): (r: Option<Client>)
    ensures r.Some? ==> c.settled <= r.value.settled
    decreases |events|
  {
    if |events| == 0 then Some(c)
    else match Next(c, events[0])
      case None => None
      case Some(c') => Run(c', events[1..])
  }

  /** The flag is set but nobody awaits a refresh: nothing can clear it. */
  predicate Stuck(c: Client) {
    c.isRefreshing && c.awaiting.None?
  }

  /** A failed refresh leaves the client stuck. */
  lemma FailedRefreshSticks(c: Client, error: string)
    requires c.awaiting.Some? && c.isRefreshing
    ensures Stuck(RefreshFailed(c, error))
    ensures RefreshFailed(c, error).queue == []
  {
  }

  /** Once stuck, always stuck: no step settles anything again, and every
      ticket queued so far stays queued. */
  lemma {:induction false} StuckForever(c: Client, events: seq<Event>)
    requires Stuck(c)
    ensures Run(c, events).Some? ==>
      Stuck(Run(c, events).value) && Run(c, events).value.settled == c.settled
      && c.queue <= Run(c, events).value.queue
    decreases |events|
  {
    if |events| > 0 {
      match Next(c, events[0])
      case None =>
      case Some(c') =>
        StuckForever(c', events[1..]);
    }
  }

  /** The deadlock in one trace: request 1 starts a refresh that fails,
      after which request 2's 401 is queued, and no later steps ever settle
      it. */
  lemma FailedRefreshDeadlocks(more: seq<Event>)
    ensures var stuck := Client(true, [2], None, [Rejected(1, AuthService.RefreshFailedKey)]);
      Run(Initial, [Failure(Request(1, true, false), Some(401)), RefreshRejected("Network Error"),
                    Failure(Request(2, true, false), Some(401))]) == Some(stuck)
      && (Run(stuck, more).Some? ==>
            2 in Run(stuck, more).value.queue
            && forall s :: s in Run(stuck, more).value.settled ==> s.id != 2)
  {
    var e1 := Failure(Request(1, true, false), Some(401));
    var e2 := RefreshRejected("Network Error");
    var e3 := Failure(Request(2, true, false), Some(401));
    var c1 := Client(true, [], Some(1), []);
    var c2 := Client(true, [], None, [Rejected(1, AuthService.RefreshFailedKey)]);
    var stuck := Client(true, [2], None, [Rejected(1, AuthService.RefreshFailedKey)]);
    assert Next(Initial, e1) == Some(c1);
    assert ProcessQueue([], Err("Network Error")) == [];
    assert RefreshFailed(c1, "Network Error") == c2;
    assert Next(c1, e2) == Some(c2);
    assert OnError(c2, Request(2, true, false), Some(401)).0 == stuck;
    assert Next(c2, e3) == Some(stuck);
    assert [e1, e2, e3][1..] == [e2, e3] && [e2, e3][1..] == [e3] && [e3][1..] == [];
    assert Run(stuck, []) == Some(stuck);
    StuckForever(stuck, more);
    if Run(stuck, more).Some? {
      assert Run(stuck, more).value.queue[0] == 2;
    }
  }

  /** As written, the initiator's ticket outlives its own refresh: it is
      the only ticket left, nothing is refreshing, and no settlement of
      this step names it. */
  lemma InitiatorLeftWaiting(c: Client, token: string)
    requires c.awaiting.Some? && c.awaiting.value !in c.queue
    ensures var r := RefreshSucceeded(c, token);
      r.queue == [c.awaiting.value] && !r.isRefreshing
      && forall i :: |c.settled| <= i < |r.settled| ==> r.settled[i].id != c.awaiting.value
  {
  }

  /** In the smallest trace request 1 starts a refresh that succeeds, and
      is left waiting with nothing in progress. */
  lemma LoneRequestNeverRetried()
    ensures Run(Initial, [Failure(Request(1, true, false), Some(401)), RefreshResolved("fresh")])
            == Some(Client(false, [1], None, []))
  {
    var e1 := Failure(Request(1, true, false), Some(401));
    var e2 := RefreshResolved("fresh");
    var c1 := Client(true, [], Some(1), []);
    assert Next(Initial, e1) == Some(c1);
    assert ProcessQueue([], Ok("fresh")) == [];
    assert RefreshSucceeded(c1, "fresh") == Client(false, [1], None, []);
    assert Next(c1, e2) == Some(Client(false, [1], None, []));
    assert [e1, e2][1..] == [e2] && [e2][1..] == [];
  }

  // ---------------------------------------------------------------------
  // The protocol as intended
  // ---------------------------------------------------------------------

  /** The corrected success step: the initiator's ticket joins the queue
      before it is processed, so every waiting request, the initiator last,
      is re-sent with the new token. */
  function FixedRefreshSucceeded(c: Client, token: string): Client
    requires c.awaiting.Some?
  {
    Client(false, [], None, c.settled + ProcessQueue(c.queue + [c.awaiting.value], Ok(token)))
  }

  /** The corrected failure step: the flag is cleared on failure too. */
  function FixedRefreshFailed(c: Client, error: string): Client
    requires c.awaiting.Some?
  {
    Client(false, [], None,
           c.settled + ProcessQueue(c.queue, Err(error)) + [Rejected(c.awaiting.value, AuthService.RefreshFailedKey)])
  }

  /** One corrected step: failures are handled as written, and a
      completion leaves neither the flag nor a ticket behind. */
  function FixedNext(c: Client, e: Event): (r: Option<Client>)
    ensures e.Failure? ==> r == Next(c, e)
    ensures r.None? <==> Next(c, e).None?
    ensures !e.Failure? && r.Some? ==> !r.value.isRefreshing && r.value.queue == [] && r.value.awaiting.None?
    ensures r.Some? ==> c.settled <= r.value.settled
  {
    match e
    case Failure(req, status) => Some(OnError(c, req, status).0)
    case RefreshResolved(token) => if c.awaiting.Some? then Some(FixedRefreshSucceeded(c, token)) else None
    case RefreshRejected(error) => if c.awaiting.Some? then Some(FixedRefreshFailed(c, error)) else None
  }

  function FixedRun(c: Client, events: seq<Event>): (r: Option<Client>)
    ensures r.Some? ==> c.settled <= r.value.settled
    decreases |events|
  {
    if |events| == 0 then Some(c)
    else match FixedNext(c, events[0])
      case None => None
      case Some(c') => FixedRun(c', events[1..])
  }

  /** The intended invariant: the flag is set exactly while a refresh is
      awaited, and a ticket waits only while one is. */
  predicate Healthy(c: Client) {
    (c.isRefreshing <==> c.awaiting.Some?) && (c.queue != [] ==> c.isRefreshing)
  }

  /** Every corrected step keeps the client healthy, so it is never stuck
      and never leaves a ticket behind with nothing to release it. */
  lemma {:induction false} FixedRunStaysHealthy(c: Client, events: seq<Event>)
    requires Healthy(c)
    ensures FixedRun(c, events).Some? ==>
      (Healthy(FixedRun(c, events).value) && !Stuck(FixedRun(c, events).value))
    decreases |events|
  {
    if |events| > 0 {
      match FixedNext(c, events[0])
      case None =>
      case Some(c') =>
        assert Healthy(c');
        FixedRunStaysHealthy(c', events[1..]);
    }
  }

  /** Under the correction, the completion of the awaited refresh settles
      every queued request in order and then the initiator, with the same
      outcome, and leaves nobody waiting. */
  lemma FixedCompletionReleasesEveryone(c: Client, token: string)
    requires Healthy(c) && c.awaiting.Some?
    ensures var r := FixedRefreshSucceeded(c, token);
      Healthy(r) && r.queue == [] && |r.settled| == |c.settled| + |c.queue| + 1
      && (forall i :: 0 <= i < |c.queue| ==> r.settled[|c.settled| + i] == Retried(c.queue[i], token))
      && r.settled[|r.settled| - 1] == Retried(c.awaiting.value, token)
  {
    var all := c.queue + [c.awaiting.value];
    var p := ProcessQueue(all, Ok(token));
    assert forall i :: 0 <= i < |p| ==> p[i] == Retried(all[i], token);
  }

  /** The as-written machine breaks the invariant in one success step:
      the initiator waits while nothing refreshes. */
  lemma AsWrittenSuccessIsUnhealthy(c: Client, token: string)
    requires Healthy(c) && c.awaiting.Some?
    ensures !Healthy(RefreshSucceeded(c, token))
  {
  }
}

=== FILE: auth.dfy ===
/** Accounts and refresh tokens: sign-up, password login, OAuth login, the
    refresh-token exchange, and the user administration service. The user
    and token collections are sequences in insertion order; the password
    encoder and the JWT generator are parameters (`Services`), and `now` is
    the clock in milliseconds. */
module Auth {
  import opened Wrappers
  import opened Text
  import opened Models
  import opened Seqs
  import opened Repos

  /** A stored account. `id` is the document key that the services read
      back after saving; `userId` is the short display id. */
  datatype User = User(
    id: Option<string>,
    userId: Option<string>,
    name: Option<string>,
    email: Option<string>,
    password: Option<string>,
    role: Option<string>,
    createdAt: Option<int>,
    lastLogin: Option<int>)

  datatype RefreshToken = RefreshToken(id: Option<string>, userId: Option<string>, token: string, expiry: int)

  datatype AuthStore = AuthStore(users: seq<User>, tokens: seq<RefreshToken>, nextId: nat)

  datatype LoginResponse = LoginResponse(accessToken: string, refreshToken: string)

  datatype SignupRequest = SignupRequest(
    email: Option<string>, name: Option<string>, password: Option<string>, role: Option<string>)

  /** The collaborators the services call: the password encoder and
      matcher, the access- and refresh-token generators, and the configured
      access-token lifetime in milliseconds. A token carries its issue and
      expiry times, so each generator is given the clock. */
  datatype Services = Services(
    encode: Option<string> -> string,
    matches: (Option<string>, Option<string>) -> bool,
    accessToken: (Option<string>, Option<string>, int) -> string,
    refreshToken: (Option<string>, int) -> string,
    expiration: int)

  // ---------------------------------------------------------------------
  // The two collections
  // ---------------------------------------------------------------------

  /** `findByEmail`: the first account with that e-mail. */
  function FindByEmail(users: seq<User>, email: Option<string>): (r: Option<nat>)
    ensures r.Some? ==> r.value < |users| && users[r.value].email == email
    ensures r.None? <==> forall j :: 0 <= j < |users| ==> users[j].email != email
  {
    if |users| == 0 then None
    else if users[0].email == email then Some(0)
    else match FindByEmail(users[1..], email)
      case None =>
        assert forall j :: 1 <= j < |users| ==> users[j] == users[1..][j - 1];
        None
      case Some(k) => Some(k + 1)
  }

  function UserDocId(u: User): Option<string> { u.id }
  function TokenDocId(t: RefreshToken): Option<string> { t.id }

  /** `findById` on accounts. */
  function FindUserById(users: seq<User>, id: Option<string>): (r: Option<nat>)
    ensures r.Some? ==> r.value < |users| && id.Some? && users[r.value].id == id
    ensures r.None? <==> id.None? || forall j :: 0 <= j < |users| ==> users[j].id != id
  {
    if id.None? then None else IndexOfId(users, UserDocId, id.value)
  }

  /** `userRepository.save`: replaces the account with the same id, or
      inserts it, drawing a fresh id when it has none. */
  function SaveUser(st: AuthStore, u: User): (r: (AuthStore, User))
    ensures r.1.id.Some? && r.1 == u.(id := r.1.id)
    ensures u.id.Some? ==> r.1.id == u.id
    ensures r.0.tokens == st.tokens
    ensures u.id.None? ==> r.1.id == Some(FreshId(st.nextId))
                           && r.0.users == st.users + [r.1] && r.0.nextId == st.nextId + 1
    ensures u.id.Some? && FindUserById(st.users, u.id).Some? ==>
      r.0.users == st.users[FindUserById(st.users, u.id).value := u]
  {
    match u.id
    case None =>
      var saved := u.(id := Some(FreshId(st.nextId)));
      (st.(users := st.users + [saved], nextId := st.nextId + 1), saved)
    case Some(key) =>
      match IndexOfId(st.users, UserDocId, key)
      case Some(k) => (st.(users := st.users[k := u]), u)
      case None => (st.(users := st.users + [u]), u)
  }

  /** `refreshTokenRepository.save` of a new token: it gets a fresh id. */
  function SaveToken(st: AuthStore, userId: Option<string>, token: string, expiry: int): (r: AuthStore)
    ensures r.users == st.users && r.nextId == st.nextId + 1
    ensures r.tokens == st.tokens + [RefreshToken(Some(FreshId(st.nextId)), userId, token, expiry)]
  {
    st.(tokens := st.tokens + [RefreshToken(Some(FreshId(st.nextId)), userId, token, expiry)],
        nextId := st.nextId + 1)
  }

  function NotOwnedBy(userId: Option<string>): RefreshToken -> bool {
    (t: RefreshToken) => t.userId != userId
  }

  function NotWithId(id: Option<string>): RefreshToken -> bool {
    (t: RefreshToken) => t.id != id
  }

  /** The refresh tokens stored for an account. */
  predicate OwnsToken(tokens: seq<RefreshToken>, userId: Option<string>, i: int) {
    0 <= i < |tokens| && tokens[i].userId == userId
  }

  // ---------------------------------------------------------------------
  // Sign-up and password login
  // ---------------------------------------------------------------------

  /** `signup`: an e-mail already in use is refused; otherwise the account
      is stored with the encoded password and the requested name and role,
      and no token is issued. */
  function Signup(st: AuthStore, req: SignupRequest, svc: Services): (r: Result<(AuthStore, User)>)
    ensures r.Err? <==> FindByEmail(st.users, req.email).Some?
    ensures r.Err? ==> r.error == "User already exists: " + Show(req.email)
    ensures r.Ok? ==> var (st', u) := r.value;
      st'.users == st.users + [u] && st'.tokens == st.tokens
      && u.email == req.email && u.name == req.name && u.role == req.role
      && u.password == Some(svc.encode(req.password))
      && u.userId.None? && u.createdAt.None? && u.lastLogin.None?
  {
    if FindByEmail(st.users, req.email).Some? then Err("User already exists: " + Show(req.email))
    else
      var u := User(None, None, req.name, req.email, Some(svc.encode(req.password)), req.role, None, None);
      Ok(SaveUser(st, u))
  }

  /** `login`: an unknown e-mail, then a password the encoder does not
      match, is refused with nothing stored; otherwise a new refresh token
      lasting twice the access-token lifetime is added next to any older
      ones. */
  function Login(st: AuthStore, email: Option<string>, password: Option<string>, now: int, svc: Services)
    : (r: Result<(AuthStore, LoginResponse)>)
    ensures FindByEmail(st.users, email).None? ==> r == Err("User not found: " + Show(email))
    ensures FindByEmail(st.users, email).Some? ==>
      var u := st.users[FindByEmail(st.users, email).value];
      (r.Err? <==> !svc.matches(password, u.password))
      && (r.Err? ==> r.error == "Invalid password")
      && (r.Ok? ==>
            r.value.0.users == st.users
            && r.value.0.tokens == st.tokens + [RefreshToken(Some(FreshId(st.nextId)), u.id,
                                                             svc.refreshToken(u.email, now),
                                                             now + svc.expiration * 2)]
            && r.value.1 == LoginResponse(svc.accessToken(u.email, u.role, now), svc.refreshToken(u.email, now)))
  {
    match FindByEmail(st.users, email)
    case None => Err("User not found: " + Show(email))
    case Some(k) =>
      var u := st.users[k];
      if !svc.matches(password, u.password) then Err("Invalid password")
      else
        var refresh := svc.refreshToken(u.email, now);
        var st' := SaveToken(st, u.id, refresh, now + svc.expiration * 2);
        Ok((st', LoginResponse(svc.accessToken(u.email, u.role, now), refresh)))
  }

  /** Password logins accumulate tokens: every token stored before is
      still there afterwards, in the same place. */
  lemma LoginKeepsOlderTokens(st: AuthStore, email: Option<string>, password: Option<string>,
                              now: int, svc: Services, i: nat)
    requires Login(st, email, password, now, svc).Ok? && i < |st.tokens|
    ensures var st' := Login(st, email, password, now, svc).value.0;
      |st'.tokens| == |st.tokens| + 1 && st'.tokens[i] == st.tokens[i]
  {
  }

  // ---------------------------------------------------------------------
  // OAuth login
  // ---------------------------------------------------------------------

  /** Java's `%` on a non-negative modulus: the remainder takes the sign
      of the dividend. */
  function JavaRem(a: int, b: int): (r: int)
    requires b > 0
    ensures a >= 0 ==> 0 <= r < b && r == a % b
    ensures a < 0 ==> -b < r <= 0
    ensures a == JavaDiv(a, b) * b + r
  {
    a - JavaDiv(a, b) * b
  }

  /** The short display id drawn from the clock. */
  function ClockUserId(now: int): (r: string)
    ensures |r| >= 2 && r[0] == 'u'
    ensures ParseLong(r[1..]) == Some(JavaRem(now, 10000))
    ensures now >= 0 ==> ParseLong(r[1..]) == Some(now % 10000)
    ensures now < 0 ==> ParseLong(r[1..]).value <= 0
  {
    var rem := JavaRem(now, 10000);
    ParseLongOfIntToString(rem);
    assert ("u" + IntToString(rem))[1..] == IntToString(rem);
    "u" + IntToString(rem)
  }

  /** The account an OAuth login leaves behind, before it is saved. */
  function OAuthAccount(st: AuthStore, email: Option<string>, name: Option<string>, now: int): (u: User)
    ensures FindByEmail(st.users, email).Some? ==>
      var prev := st.users[FindByEmail(st.users, email).value];
      u == prev.(name := (if name.Some? then name else prev.name), lastLogin := Some(now))
    ensures FindByEmail(st.users, email).None? ==>
      u.id.None? && u.email == email && u.name == name && u.role == Some("CASHIER")
      && u.password.None? && u.createdAt == Some(now) && u.lastLogin == Some(now)
      && u.userId == Some(ClockUserId(now))
  {
    match FindByEmail(st.users, email)
    case Some(k) =>
      var prev := st.users[k];
      var renamed := if name.Some? && name != prev.name then prev.(name := name) else prev;
      renamed.(lastLogin := Some(now))
    case None =>
      User(None, Some(ClockUserId(now)), name, email, None, Some("CASHIER"), Some(now), Some(now))
  }

  /** `processOAuth2Login`: finds or creates the account, then deletes
      every refresh token of that account before storing the new one. */
  function OAuthLogin(st: AuthStore, email: Option<string>, name: Option<string>, now: int, svc: Services)
    : (r: (AuthStore, LoginResponse, User))
    ensures r.2 == OAuthAccount(st, email, name, now).(id := r.2.id) && r.2.id.Some?
    ensures r.0.users == SaveUser(st, OAuthAccount(st, email, name, now)).0.users
    ensures r.1 == LoginResponse(svc.accessToken(r.2.email, r.2.role, now), svc.refreshToken(r.2.email, now))
    ensures |r.0.tokens| >= 1
    ensures r.0.tokens[|r.0.tokens| - 1].userId == r.2.id
    ensures r.0.tokens[|r.0.tokens| - 1].token == svc.refreshToken(r.2.email, now)
    ensures r.0.tokens[|r.0.tokens| - 1].expiry == now + svc.expiration * 2
    ensures r.0.tokens[..|r.0.tokens| - 1] == Filter(st.tokens, NotOwnedBy(r.2.id))
  {
    var (st1, saved) := SaveUser(st, OAuthAccount(st, email, name, now));
    var refresh := svc.refreshToken(saved.email, now);
    var kept := st1.(tokens := Filter(st1.tokens, NotOwnedBy(saved.id)));
    var st2 := SaveToken(kept, saved.id, refresh, now + svc.expiration * 2);
    assert st2.tokens[..|st2.tokens| - 1] == kept.tokens;
    (st2, LoginResponse(svc.accessToken(saved.email, saved.role, now), refresh), saved)
  }

  /** After an OAuth login the account holds exactly one refresh token,
      the one just issued; tokens of other accounts are untouched. */
  lemma {:induction false} OAuthLeavesOneToken(st: AuthStore, email: Option<string>, name: Option<string>,
                                               now: int, svc: Services)
    ensures var (st', _, u) := OAuthLogin(st, email, name, now, svc);
      (forall i :: OwnsToken(st'.tokens, u.id, i) ==> i == |st'.tokens| - 1)
      && (forall i :: 0 <= i < |st.tokens| && st.tokens[i].userId != u.id ==> st.tokens[i] in st'.tokens)
  {
    var (st', _, u) := OAuthLogin(st, email, name, now, svc);
    var kept := Filter(st.tokens, NotOwnedBy(u.id));
    assert st'.tokens == kept + [st'.tokens[|st'.tokens| - 1]];
  }

  /** An existing account keeps its role, password and display id through
      an OAuth login; its name changes only to a non-null new one. */
  lemma OAuthKeepsExistingAccount(st: AuthStore, email: Option<string>, name: Option<string>, now: int)
    requires FindByEmail(st.users, email).Some?
    ensures var prev := st.users[FindByEmail(st.users, email).value];
      var u := OAuthAccount(st, email, name, now);
      u.role == prev.role && u.password == prev.password && u.userId == prev.userId
      && u.id == prev.id && u.createdAt == prev.createdAt
      && (name.None? ==> u.name == prev.name)
  {
  }

  // ---------------------------------------------------------------------
  // Refresh-token exchange
  // ---------------------------------------------------------------------

  function WithToken(token: string): RefreshToken -> bool {
    (t: RefreshToken) => t.token == token
  }

  /** `refreshToken`: an unknown token is refused; an expired one is
      deleted and then refused; a token of a vanished account is refused;
      otherwise a new access token for that account. Only the expired case
      changes the store. */
  function Refresh(st: AuthStore, token: string, now: int, svc: Services): (r: (AuthStore, Result<string>))
    ensures FirstIndex(st.tokens, WithToken(token)).None? ==> r == (st, Err("Invalid refresh token"))
    ensures FirstIndex(st.tokens, WithToken(token)).Some? ==>
      var t := st.tokens[FirstIndex(st.tokens, WithToken(token)).value];
      (t.expiry < now ==>
         r == (st.(tokens := Filter(st.tokens, NotWithId(t.id))), Err("Refresh token expired")))
      && (t.expiry >= now && FindUserById(st.users, t.userId).None? ==>
            r == (st, Err("User not found: " + Show(t.userId))))
      && (t.expiry >= now && FindUserById(st.users, t.userId).Some? ==>
            var u := st.users[FindUserById(st.users, t.userId).value];
            r == (st, Ok(svc.accessToken(u.email, u.role, now))))
  {
    match FirstIndex(st.tokens, WithToken(token))
    case None => (st, Err("Invalid refresh token"))
    case Some(k) =>
      var t := st.tokens[k];
      if t.expiry < now then
        (st.(tokens := Filter(st.tokens, NotWithId(t.id))), Err("Refresh token expired"))
      else
        match FindUserById(st.users, t.userId)
        case None => (st, Err("User not found: " + Show(t.userId)))
        case Some(j) =>
          var u := st.users[j];
          (st, Ok(svc.accessToken(u.email, u.role, now)))
  }

  /** A login whose token differs from every stored one (a generator that
      stamps the issue time gives that to logins in distinct seconds) is
      found by the exchange: the new record is the one looked at, so the
      token is refused as expired only once its own lifetime is over. */
  lemma {:induction false} LoginTokenIsFound(st: AuthStore, email: Option<string>, password: Option<string>,
                                             now: int, later: int, svc: Services)
    requires Login(st, email, password, now, svc).Ok?
    requires forall i :: 0 <= i < |st.tokens| ==>
      st.tokens[i].token != Login(st, email, password, now, svc).value.1.refreshToken
    ensures var (st', resp) := Login(st, email, password, now, svc).value;
      FirstIndex(st'.tokens, WithToken(resp.refreshToken)) == Some(|st'.tokens| - 1)
      && (Refresh(st', resp.refreshToken, later, svc).1 == Err("Refresh token expired")
          <==> now + svc.expiration * 2 < later)
  {
    var (st', resp) := Login(st, email, password, now, svc).value;
    var tok := resp.refreshToken;
    assert st'.tokens == st.tokens + [st'.tokens[|st.tokens|]];
    var t := st'.tokens[|st'.tokens| - 1];
    assert ("User not found: " + Show(t.userId))[0] == 'U';
    assert "Refresh token expired"[0] == 'R';
  }

  /** A successful exchange means the token is stored, unexpired, and
      belongs to an existing account; nothing is changed. */
  lemma RefreshOkMeansLiveToken(st: AuthStore, token: string, now: int, svc: Services)
    requires Refresh(st, token, now, svc).1.Ok?
    ensures Refresh(st, token, now, svc).0 == st
    ensures exists i :: 0 <= i < |st.tokens| && st.tokens[i].token == token && st.tokens[i].expiry >= now
                        && FindUserById(st.users, st.tokens[i].userId).Some?
  {
    var k := FirstIndex(st.tokens, WithToken(token)).value;
    assert st.tokens[k].token == token;
  }

  /** Each stored token string appears once. */
  predicate TokenUnique(tokens: seq<RefreshToken>, token: string) {
    forall i, j :: (0 <= i < |tokens| && 0 <= j < |tokens| && tokens[i].token == token
                    && tokens[j].token == token) ==> i == j
  }

  /** An expired token is gone after the refused exchange: trying it again
      reports an invalid token. */
  lemma {:induction false} ExpiredTokenIsForgotten(st: AuthStore, token: string, now: int, later: int, svc: Services)
    requires TokenUnique(st.tokens, token)
    requires Refresh(st, token, now, svc).1 == Err("Refresh token expired")
    ensures Refresh(Refresh(st, token, now, svc).0, token, later, svc).1 == Err("Invalid refresh token")
  {
    var k := FirstIndex(st.tokens, WithToken(token)).value;
    var t := st.tokens[k];
    var rest := Filter(st.tokens, NotWithId(t.id));
    forall i | 0 <= i < |rest|
      ensures !WithToken(token)(rest[i])
    {
      assert rest[i] in st.tokens && NotWithId(t.id)(rest[i]);
      var j :| 0 <= j < |st.tokens| && st.tokens[j] == rest[i];
      if rest[i].token == token {
        assert false;
      }
    }
    assert FirstIndex(rest, WithToken(token)).None?;
    assert ("User not found: " + Show(t.userId))[0] == 'U';
    assert Refresh(st, token, now, svc).0 == st.(tokens := rest);
  }

  // ---------------------------------------------------------------------
  // User administration
  // ---------------------------------------------------------------------

  /** `getUserById`. */
  function GetUserById(users: seq<User>, id: string): (r: Result<User>)
    ensures r.Ok? <==> exists j :: 0 <= j < |users| && users[j].id == Some(id)
    ensures r.Ok? ==> r.value in users && r.value.id == Some(id)
    ensures r.Err? ==> r.error == "User not found: " + id
  {
    match FindUserById(users, Some(id))
    case Some(k) => Ok(users[k])
    case None => Err("User not found: " + id)
  }

  /** `getUserByEmail`, in both services. */
  function GetUserByEmail(users: seq<User>, email: Option<string>): (r: Result<User>)
    ensures r.Ok? <==> exists j :: 0 <= j < |users| && users[j].email == email
    ensures r.Ok? ==> r.value in users && r.value.email == email
    ensures r.Err? ==> r.error == "User not found: " + Show(email)
  {
    match FindByEmail(users, email)
    case Some(k) => Ok(users[k])
    case None => Err("User not found: " + Show(email))
  }

  /** `createUser`: a taken e-mail is refused before the role is looked
      at, then a null or blank role; the account stores the encoded
      password, the upper-cased role and a display id from the clock. */
  function CreateUser(st: AuthStore, req: SignupRequest, now: int, svc: Services): (r: Result<(AuthStore, User)>)
    ensures FindByEmail(st.users, req.email).Some? ==> r == Err("User with this email already exists")
    ensures FindByEmail(st.users, req.email).None? ==>
      (r.Err? <==> NullOrTrimEmpty(req.role)) && (r.Err? ==> r.error == "Role is required")
    ensures r.Ok? ==> var (st', u) := r.value;
      st'.users == st.users + [u] && st'.tokens == st.tokens
      && u.email == req.email && u.name == req.name
      && u.password == Some(svc.encode(req.password))
      && u.role == Some(ToUpper(req.role.value))
      && u.userId == Some(ClockUserId(now))
  {
    if FindByEmail(st.users, req.email).Some? then Err("User with this email already exists")
    else if req.role.None? || JavaTrim(req.role.value) == "" then Err("Role is required")
    else
      var u := User(None, Some(ClockUserId(now)), req.name, req.email,
                    Some(svc.encode(req.password)), Some(ToUpper(req.role.value)), None, None);
      Ok(SaveUser(st, u))
  }

  /** The display id is not unique: two accounts created ten seconds apart
      get the same one. */
  lemma ClockUserIdRepeats(now: int)
    requires now >= 0
    ensures ClockUserId(now) == ClockUserId(now + 10000)
  {
    assert JavaRem(now, 10000) == JavaRem(now + 10000, 10000);
  }

  function WithoutUserId(id: string): User -> bool {
    (u: User) => u.id != Some(id)
  }

  /** `deleteUser`: an unknown id is refused; otherwise the account with
      that id is removed and every other account stays, in order. */
  function DeleteUser(st: AuthStore, id: string): (r: Result<AuthStore>)
    ensures r.Err? <==> forall j :: 0 <= j < |st.users| ==> st.users[j].id != Some(id)
    ensures r.Err? ==> r.error == "User not found"
    ensures r.Ok? ==> r.value.tokens == st.tokens && |r.value.users| < |st.users|
    ensures r.Ok? ==> forall j :: 0 <= j < |r.value.users| ==> r.value.users[j].id != Some(id)
    ensures r.Ok? ==> forall j :: 0 <= j < |st.users| && st.users[j].id != Some(id) ==>
      st.users[j] in r.value.users
  {
    if FindUserById(st.users, Some(id)).None? then Err("User not found")
    else
      var k := FindUserById(st.users, Some(id)).value;
      var kept := Filter(st.users, WithoutUserId(id));
      FilterLength(st.users, WithoutUserId(id));
      CountAllIffLength(st.users, WithoutUserId(id));
      assert !WithoutUserId(id)(st.users[k]);
      Ok(st.(users := kept))
  }

  /** Deleting an account and then looking it up reports it missing. */
  lemma DeletedUserNotFound(st: AuthStore, id: string)
    requires DeleteUser(st, id).Ok?
    ensures GetUserById(DeleteUser(st, id).value.users, id) == Err("User not found: " + id)
  {
  }
}

=== FILE: auth_service.dfy ===
/** The browser's token service: the access and refresh tokens live in
    local storage under two keys, login and refresh write them, and the
    signed-in user is read back by decoding the access token's claims.
    Local storage is a map; the HTTP calls and the JWT decoder are
    parameters (the decoder returns `None` where it throws), and a
    translated error is its message key. */
module AuthService {
  import opened Wrappers
  import opened Text

  type Storage = map<string, string>

  const AccessKey: string := "sr_access"
  const RefreshKey: string := "sr_refresh"

  const NoTokenKey: string := "errors.noToken"
  const NoRefreshKey: string := "errors.noRefresh"
  const RefreshFailedKey: string := "errors.refreshFailed"

  /** `localStorage.getItem`. */
  function Lookup(st: Storage, key: string): (r: Option<string>)
    ensures r.Some? <==> key in st
    ensures r.Some? ==> r.value == st[key]
  {
    if key in st then Some(st[key]) else None
  }

  /** `saveTokens`: each token is written only when it is non-empty, so an
      empty or missing one leaves the stored value in place. */
  function SaveTokens(st: Storage, access: Option<string>, refresh: Option<string>): (r: Storage)
    ensures Truthy(access) ==> Lookup(r, AccessKey) == access
    ensures !Truthy(access) ==> Lookup(r, AccessKey) == Lookup(st, AccessKey)
    ensures Truthy(refresh) ==> Lookup(r, RefreshKey) == refresh
    ensures !Truthy(refresh) ==> Lookup(r, RefreshKey) == Lookup(st, RefreshKey)
    ensures forall k :: k != AccessKey && k != RefreshKey ==> Lookup(r, k) == Lookup(st, k)
  {
    var a := if Truthy(access) then st[AccessKey := access.value] else st;
    if Truthy(refresh) then a[RefreshKey := refresh.value] else a
  }

  /** `clearTokens`, which is also `logout`: both keys go, nothing else. */
  function Logout(st: Storage): (r: Storage)
    ensures Lookup(r, AccessKey).None? && Lookup(r, RefreshKey).None?
    ensures forall k :: k != AccessKey && k != RefreshKey ==> Lookup(r, k) == Lookup(st, k)
  {
    st - {AccessKey, RefreshKey}
  }

  /** The body of the login answer, as far as the client reads it. */
  datatype LoginReply = LoginReply(accessToken: Option<string>, token: Option<string>,
                                   refreshToken: Option<string>)

  /** The access token a login answer carries: `accessToken`, else
      `token`. */
  function IssuedToken(payload: Option<LoginReply>): (r: Option<string>)
    ensures r.Some? ==> r.value != ""
    ensures r.None? <==> payload.None? || (!Truthy(payload.value.accessToken) && !Truthy(payload.value.token))
  {
    if payload.None? then None
    else if Truthy(payload.value.accessToken) then payload.value.accessToken
    else if Truthy(payload.value.token) then payload.value.token
    else None
  }

  /** `login` after a successful request: an answer without a token is
      refused with nothing stored; otherwise the token is stored and the
      refresh token too when the answer has a non-empty one. */
  function Login(st: Storage, payload: Option<LoginReply>): (r: Result<Storage>)
    ensures r.Err? <==> IssuedToken(payload).None?
    ensures r.Err? ==> r.error == NoTokenKey
    ensures r.Ok? ==> Lookup(r.value, AccessKey) == IssuedToken(payload)
    ensures r.Ok? && Truthy(payload.value.refreshToken) ==> Lookup(r.value, RefreshKey) == payload.value.refreshToken
    ensures r.Ok? && !Truthy(payload.value.refreshToken) ==> Lookup(r.value, RefreshKey) == Lookup(st, RefreshKey)
    ensures r.Ok? ==> forall k :: k != AccessKey && k != RefreshKey ==> Lookup(r.value, k) == Lookup(st, k)
  {
    match IssuedToken(payload)
    case None => Err(NoTokenKey)
    case Some(t) => Ok(SaveTokens(st, Some(t), Some(OrElse(payload.value.refreshToken, ""))))
  }

  /** A login answer without a refresh token keeps the previous session's
      refresh token beside the new access token. */
  lemma LoginKeepsStaleRefreshToken(st: Storage, access: string, stale: string)
    requires access != "" && Lookup(st, RefreshKey) == Some(stale)
    ensures var r := Login(st, Some(LoginReply(Some(access), None, None)));
      r.Ok? && Lookup(r.value, AccessKey) == Some(access) && Lookup(r.value, RefreshKey) == Some(stale)
  {
  }

  /** `refresh`: with no stored refresh token it fails before any request;
      otherwise the token is posted, a failed request's error passes
      through, and an answer with a non-empty access token stores it and
      returns it. The refresh token itself is never replaced. */
  function Refresh(st: Storage, post: string -> Result<Option<string>>): (r: Result<(Storage, string)>)
    ensures !Truthy(Lookup(st, RefreshKey)) ==> r == Err(NoRefreshKey)
    ensures Truthy(Lookup(st, RefreshKey)) && post(st[RefreshKey]).Err? ==> r == Err(post(st[RefreshKey]).error)
    ensures Truthy(Lookup(st, RefreshKey)) && post(st[RefreshKey]).Ok? && !Truthy(post(st[RefreshKey]).value) ==>
      r == Err(RefreshFailedKey)
    ensures r.Ok? ==> Truthy(Lookup(st, RefreshKey)) && post(st[RefreshKey]) == Ok(Some(r.value.1))
                      && r.value.1 != ""
                      && Lookup(r.value.0, AccessKey) == Some(r.value.1)
                      && forall k :: k != AccessKey ==> Lookup(r.value.0, k) == Lookup(st, k)
  {
    var stored := Lookup(st, RefreshKey);
    if !Truthy(stored) then Err(NoRefreshKey)
    else
      var reply :- post(stored.value);
      if Truthy(reply) then Ok((SaveTokens(st, reply, None), reply.value))
      else Err(RefreshFailedKey)
  }

  /** Without a stored refresh token the answer does not depend on the
      server at all: no request is sent. */
  lemma NoRefreshTokenSendsNothing(st: Storage, post: string -> Result<Option<string>>,
                                   post': string -> Result<Option<string>>)
    requires !Truthy(Lookup(st, RefreshKey))
    ensures Refresh(st, post) == Refresh(st, post') == Err(NoRefreshKey)
  {
  }

  /** After logout neither a refresh nor a login state survives. */
  lemma LogoutEndsSession(st: Storage, post: string -> Result<Option<string>>, decode: string -> Option<Claims>)
    ensures Refresh(Logout(st), post) == Err(NoRefreshKey)
    ensures GetUserFromToken(Logout(st), decode).None?
    ensures GetUserRole(Logout(st), decode).None?
  {
  }

  // ---------------------------------------------------------------------
  // Reading the signed-in user
  // ---------------------------------------------------------------------

  /** The claims the client reads; `None` stands for a missing or null
      claim. */
  datatype Claims = Claims(sub: Option<string>, email: Option<string>, role: Option<string>,
                           roles: Option<seq<Option<string>>>, exp: Option<int>, iat: Option<int>)

  datatype UserInfo = UserInfo(email: string, name: string, role: string, exp: Option<int>, iat: Option<int>)

  const UnknownEmail: string := "unknown@domain.com"

  /** The role before upper-casing: `role` when non-empty; else, when a
      `roles` array is present (an empty one included, since JavaScript
      arrays are truthy), its first element, which is missing for an empty
      array; else "CUSTOMER". */
  function RoleClaim(c: Claims): (r: Option<string>)
    ensures Truthy(c.role) ==> r == c.role
    ensures !Truthy(c.role) && c.roles.None? ==> r == Some("CUSTOMER")
    ensures !Truthy(c.role) && c.roles == Some([]) ==> r.None?
  {
    if Truthy(c.role) then c.role
    else if c.roles.Some? then (if |c.roles.value| > 0 then c.roles.value[0] else None)
    else Some("CUSTOMER")
  }

  /** The decoded claims of the stored access token, when there is a
      non-empty one and it decodes. */
  function StoredClaims(st: Storage, decode: string -> Option<Claims>): (r: Option<Claims>)
    ensures r.Some? <==> Truthy(Lookup(st, AccessKey)) && decode(st[AccessKey]).Some?
    ensures r.Some? ==> r == decode(st[AccessKey])
  {
    var token := Lookup(st, AccessKey);
    if !Truthy(token) then None else decode(token.value)
  }

  /** `getUserFromToken`: null without a token, when decoding throws, or
      when upper-casing a missing role throws; otherwise the e-mail is
      `sub`, else `email`, else a fixed address, the name is the e-mail's
      text before its first '@', and the role is upper-cased. */
  function GetUserFromToken(st: Storage, decode: string -> Option<Claims>): (r: Option<UserInfo>)
    ensures r.Some? <==> StoredClaims(st, decode).Some? && RoleClaim(StoredClaims(st, decode).value).Some?
    ensures r.Some? ==> var c := StoredClaims(st, decode).value;
      r.value.email == OrElse(c.sub, OrElse(c.email, UnknownEmail))
      && r.value.role == ToUpper(RoleClaim(c).value)
      && r.value.exp == c.exp && r.value.iat == c.iat
    ensures r.Some? ==> '@' !in r.value.name && StartsWith(r.value.email, r.value.name)
                        && (|r.value.name| < |r.value.email| ==> r.value.email[|r.value.name|] == '@')
  {
    match StoredClaims(st, decode)
    case None => None
    case Some(c) =>
      var email := OrElse(c.sub, OrElse(c.email, UnknownEmail));
      match RoleClaim(c)
      case None => None
      case Some(role) => Some(UserInfo(email, FirstPiece(email, '@'), ToUpper(role), c.exp, c.iat))
  }

  /** `getUserRole`: the same claims read without upper-casing and with
      null, not "CUSTOMER", as the last resort. */
  function GetUserRole(st: Storage, decode: string -> Option<Claims>): (r: Option<string>)
    ensures r.Some? ==> StoredClaims(st, decode).Some?
    ensures StoredClaims(st, decode).Some? && Truthy(StoredClaims(st, decode).value.role) ==>
      r == StoredClaims(st, decode).value.role
    ensures StoredClaims(st, decode).Some? && !Truthy(StoredClaims(st, decode).value.role) ==>
      var roles := StoredClaims(st, decode).value.roles;
      r == (if roles.Some? && |roles.value| > 0 then roles.value[0] else None)
    ensures r.Some? ==> r == RoleClaim(StoredClaims(st, decode).value)
  {
    match StoredClaims(st, decode)
    case None => None
    case Some(c) =>
      if Truthy(c.role) then c.role
      else if c.roles.Some? && |c.roles.value| > 0 then c.roles.value[0]
      else None
  }

  /** The two readers agree: whenever `getUserRole` finds a role, the
      user object carries it upper-cased; where it finds none but the
      user object exists, the token has no role claims and the user is a
      customer. */
  lemma RoleReadersAgree(st: Storage, decode: string -> Option<Claims>)
    ensures GetUserRole(st, decode).Some? ==>
      GetUserFromToken(st, decode).Some? && GetUserFromToken(st, decode).value.role == ToUpper(GetUserRole(st, decode).value)
    ensures GetUserRole(st, decode).None? && GetUserFromToken(st, decode).Some? ==>
      GetUserFromToken(st, decode).value.role == "CUSTOMER"
  {
    if GetUserRole(st, decode).None? && GetUserFromToken(st, decode).Some? {
      assert ToUpper("CUSTOMER") == "CUSTOMER";
    }
  }

  /** A token whose `roles` array is empty and that has no `role` makes
      the user unreadable: the first element is missing and upper-casing
      it throws. */
  lemma EmptyRolesListMeansNoUser(st: Storage, decode: string -> Option<Claims>)
    requires StoredClaims(st, decode).Some?
    requires !Truthy(StoredClaims(st, decode).value.role) && StoredClaims(st, decode).value.roles == Some([])
    ensures GetUserFromToken(st, decode).None? && GetUserRole(st, decode).None?
  {
  }

  /** The name of an ordinary address is its local part. */
  lemma NameIsLocalPart(st: Storage, decode: string -> Option<Claims>, local: string, domain: string)
    requires StoredClaims(st, decode).Some? && '@' !in local
    requires StoredClaims(st, decode).value.sub == Some(local + "@" + domain)
    requires GetUserFromToken(st, decode).Some?
    ensures GetUserFromToken(st, decode).value.name == local
  {
    assert local + "@" + domain != "";
    FirstPieceOfPrefix(local, '@', "@" + domain);
    assert local + "@" + domain == local + ("@" + domain);
  }

  /** After a successful login, the user is read from the token the login
      answer carried. */
  lemma LoginThenReadUser(st: Storage, payload: Option<LoginReply>, decode: string -> Option<Claims>)
    requires Login(st, payload).Ok?
    ensures StoredClaims(Login(st, payload).value, decode) == decode(IssuedToken(payload).value)
  {
  }
}

=== FILE: bill_bulk.dfy ===
/** The bulk bill upload of the bill controller: the file checks, then one
    row of the CSV at a time — the required columns, the duplicate check,
    the items column read as a JSON list of objects, the item checks, the
    optional creation date, and the call to bill creation. Rows are
    numbered from 2, the header being row 1. */
module BillBulk {
  import opened Wrappers
  import opened Text
  import opened Models
  import opened Json
  import Dates
  import opened BillService
  import opened Repos
  import opened Seqs

  /** One CSV row; a missing column is `None`. */
  datatype BillRow = BillRow(
    billId: Option<string>,
    customerMobile: Option<string>,
    items: Option<string>,
    addedBy: Option<string>,
    createdAt: Option<string>)

  /** The uploaded part: whether it is absent or empty, its file name, and
      the rows the CSV reader produced (`None` when the reader failed). */
  datatype Upload = Upload(missing: bool, filename: Option<string>, rows: Option<seq<BillRow>>)

  /** A message of the report: its message key, the row, the bill id as
      read from the row, and for a failed creation the exception's text. */
  datatype Note = Note(key: string, row: int, billId: Option<string>, cause: string)

  /** The response body: the counts are the lengths of the three lists. */
  datatype Report = Report(successful: seq<Bill>, skipped: seq<Note>, errors: seq<Note>)

  /** What one row contributes. */
  datatype RowOutcome = RowOutcome(st: Stores, created: seq<Bill>, skipped: seq<Note>, errors: seq<Note>)

  // ---------------------------------------------------------------------
  // The items column
  // ---------------------------------------------------------------------

  /** One JSON object as an item: both keys must be present; `productId`
      must be a string or null and `qty` a number, whose `intValue` is
      taken. Anything else throws. The price is left at zero. */
  function ParseItem(v: JValue): (r: Option<BillItem>)
    ensures r.Some? <==>
      v.JObj? && "productId" in v.fields && "qty" in v.fields
      && (v.fields["productId"].JStr? || v.fields["productId"].JNull?)
      && v.fields["qty"].IsNumber()
    ensures r.Some? ==>
      r.value.productId == (if v.fields["productId"].JStr? then Some(v.fields["productId"].s) else None)
      && r.value.qty == IntValue(v.fields["qty"]) && r.value.price == 0.0
  {
    match v
    case JObj(f) =>
      if "productId" !in f || "qty" !in f then None
      else
        var pid := f["productId"];
        var qty := f["qty"];
        if !(pid.JStr? || pid.JNull?) || !qty.IsNumber() then None
        else Some(BillItem(if pid.JStr? then Some(pid.s) else None, None, IntValue(qty), 0.0))
    case _ => None
  }

  /** The items column read as `List<Map<String, Object>>`: a JSON array of
      objects, each of which must make an item. */
  function ParseItems(elems: seq<JValue>): (r: Option<seq<BillItem>>)
    ensures r.Some? <==> forall i :: 0 <= i < |elems| ==> ParseItem(elems[i]).Some?
    ensures r.Some? ==> |r.value| == |elems|
    ensures r.Some? ==> forall i :: 0 <= i < |elems| ==> r.value[i] == ParseItem(elems[i]).value
  {
    if |elems| == 0 then Some([])
    else
      match ParseItem(elems[0])
      case None => None
      case Some(item) =>
        match ParseItems(elems[1..])
        case None => None
        case Some(rest) => Some([item] + rest)
  }

  function ItemsOf(json: Option<JValue>): (r: Option<seq<BillItem>>)
    ensures r.Some? ==> json.Some? && json.value.JArr?
  {
    if json.Some? && json.value.JArr? then ParseItems(json.value.elems) else None
  }

  /** An item the controller reports: no product id, a blank one, or a
      quantity that is not positive. */
  predicate BadItem(item: BillItem) {
    NullOrTrimEmpty(item.productId) || item.qty <= 0
  }

  /** The report for one bad item: the product check comes first. */
  function ItemNote(item: BillItem, row: int, billId: Option<string>): Note
    requires BadItem(item)
  {
    if NullOrTrimEmpty(item.productId) then Note("bill.item.product.missing", row, billId, "")
    else Note("bill.item.quantity.invalid", row, billId, "")
  }

  /** The item loop as written: one note per bad item, after which the
      loop goes on to the next item and the row goes on to creation. */
  function ItemNotes(items: seq<BillItem>, row: int, billId: Option<string>): (r: seq<Note>)
    ensures |r| == Seqs.Count(items, BadItem)
  {
    if |items| == 0 then []
    else
      var rest := ItemNotes(items[1..], row, billId);
      if BadItem(items[0]) then [ItemNote(items[0], row, billId)] + rest
      else rest
  }

  /** The loop reports nothing exactly when the corrected search finds no
      bad item. */
  lemma {:induction false} NoNotesIffClean(items: seq<BillItem>, row: int, billId: Option<string>)
    ensures ItemNotes(items, row, billId) == [] <==> Seqs.FirstIndex(items, BadItem).None?
  {
    if |items| > 0 {
      NoNotesIffClean(items[1..], row, billId);
    }
  }

  // ---------------------------------------------------------------------
  // One row
  // ---------------------------------------------------------------------

  /** The row's fate before the item checks: either an early outcome or
      the parsed items. */
  datatype Checked = Early(outcome: RowOutcome) | Ready(items: seq<BillItem>)

  function Only(st: Stores, key: string, row: int, billId: Option<string>): RowOutcome {
    RowOutcome(st, [], [], [Note(key, row, billId, "")])
  }

  /** A row carries every required column with some text in it. */
  predicate Complete(r: BillRow) {
    !NullOrTrimEmpty(r.billId) && !NullOrTrimEmpty(r.customerMobile)
    && !NullOrTrimEmpty(r.items) && !NullOrTrimEmpty(r.addedBy)
  }

  /** The checks up to the non-empty item list, in the controller's order.
      `parseJson` is the JSON reader; `None` means it threw. */
  function CheckRow(st: Stores, r: BillRow, row: int, parseJson: string -> Option<JValue>)
    : (c: Checked)
    ensures c.Early? ==> c.outcome.st == st && c.outcome.created == []
    ensures c.Early? ==> |c.outcome.skipped| + |c.outcome.errors| == 1
    ensures c.Early? && c.outcome.skipped != [] <==>
      Complete(r) && HasBillId(st.bills, Some(JavaTrim(r.billId.value)))
    ensures c.Ready? <==>
      Complete(r) && !HasBillId(st.bills, Some(JavaTrim(r.billId.value)))
      && ItemsOf(parseJson(JavaTrim(r.items.value))).Some?
      && ItemsOf(parseJson(JavaTrim(r.items.value))).value != []
    ensures c.Ready? ==> c.items == ItemsOf(parseJson(JavaTrim(r.items.value))).value
  {
    if NullOrTrimEmpty(r.billId) then Early(Only(st, "bill.id.missing", row, None))
    else if NullOrTrimEmpty(r.customerMobile) then Early(Only(st, "bill.customer.missing", row, None))
    else if NullOrTrimEmpty(r.items) then Early(Only(st, "bill.items.missing", row, None))
    else if NullOrTrimEmpty(r.addedBy) then Early(Only(st, "bill.addedBy.missing", row, None))
    else if HasBillId(st.bills, Some(JavaTrim(r.billId.value))) then
      Early(RowOutcome(st, [], [Note("bill.skipped", row, r.billId, "")], []))
    else
      match ItemsOf(parseJson(JavaTrim(r.items.value)))
      case None => Early(Only(st, "bill.items.invalid", row, r.billId))
      case Some(items) =>
        if items == [] then Early(Only(st, "bill.items.empty", row, r.billId))
        else Ready(items)
  }

  /** The bill built from a complete row: trimmed id, author and mobile. */
  function BillOf(r: BillRow, items: seq<BillItem>, createdAt: int): (b: Bill)
    requires Complete(r)
    ensures b.id.None? && b.billId == Some(JavaTrim(r.billId.value))
    ensures b.customer == Some(CustomerInfo(Some(JavaTrim(r.customerMobile.value)), None, None))
    ensures b.items == items
  {
    Bill(None, Some(JavaTrim(r.billId.value)), items,
         Some(CustomerInfo(Some(JavaTrim(r.customerMobile.value)), None, None)),
         Some(JavaTrim(r.addedBy.value)), Some(createdAt), None)
  }

  /** The creation date column, read with a non-lenient "yyyy-MM-dd"
      format in the time zone `zone`; an absent or blank column means now. */
  function RowDate(r: BillRow, now: int, zone: int): (d: Option<int>)
    ensures NullOrTrimEmpty(r.createdAt) ==> d == Some(now)
    ensures !NullOrTrimEmpty(r.createdAt) ==> d == Dates.ParseDate(JavaTrim(r.createdAt.value), zone)
  {
    if NullOrTrimEmpty(r.createdAt) then Some(now)
    else Dates.ParseDate(JavaTrim(r.createdAt.value), zone)
  }

  /** From the date check to the creation call, with the notes the item
      loop left (`pending`). */
  function Finish(st: Stores, r: BillRow, row: int, items: seq<BillItem>, env: Env, zone: int,
                  pending: seq<Note>): (o: RowOutcome)
    requires Complete(r)
    ensures o.skipped == [] && |o.created| <= 1
    ensures |o.created| + |o.errors| == |pending| + 1
    ensures RowDate(r, env.now, zone).None? ==> o.st == st && o.created == []
    ensures RowDate(r, env.now, zone).Some? ==>
      var c := CreateBill(st, BillOf(r, items, RowDate(r, env.now, zone).value), env, false);
      o.st == c.0 && (c.1.Ok? ==> o.created == [c.1.value] && o.errors == pending)
      && (c.1.Err? ==> o.created == [] && o.errors == pending + [Note("bill.add.failed", row, r.billId, c.1.error)])
  {
    match RowDate(r, env.now, zone)
    case None => RowOutcome(st, [], [], pending + [Note("bill.date.invalid", row, r.billId, "")])
    case Some(date) =>
      var (st', res) := CreateBill(st, BillOf(r, items, date), env, false);
      match res
      case Err(e) => RowOutcome(st', [], [], pending + [Note("bill.add.failed", row, r.billId, e)])
      case Ok(saved) => RowOutcome(st', [saved], [], pending)
  }

  /** One row as written: an item check reports the item but does not stop
      the row, so a row can both report errors and create its bill. */
  function RowAsWritten(st: Stores, r: BillRow, row: int, env: Env, zone: int,
                        parseJson: string -> Option<JValue>): (o: RowOutcome)
    ensures |o.created| <= 1
  {
    match CheckRow(st, r, row, parseJson)
    case Early(o) => o
    case Ready(items) => Finish(st, r, row, items, env, zone, ItemNotes(items, row, r.billId))
  }

  /** One row with the item check leaving the row at the first bad item,
      as the `continue` in the item loop is evidently meant to: every row
      ends in exactly one of created, skipped or one error. */
  function Row(st: Stores, r: BillRow, row: int, env: Env, zone: int,
               parseJson: string -> Option<JValue>): (o: RowOutcome)
    ensures |o.created| + |o.skipped| + |o.errors| == 1
    ensures (CheckRow(st, r, row, parseJson).Ready?
             && FirstIndex(CheckRow(st, r, row, parseJson).items, BadItem).Some?) ==> o.created == []
  {
    match CheckRow(st, r, row, parseJson)
    case Early(o) => o
    case Ready(items) =>
      match FirstIndex(items, BadItem)
      case Some(k) => RowOutcome(st, [], [], [ItemNote(items[k], row, r.billId)])
      case None => Finish(st, r, row, items, env, zone, [])
  }

  // ---------------------------------------------------------------------
  // The upload
  // ---------------------------------------------------------------------

  /** The rows from index `i` on, threading the stores through. */
  function RowsAsWritten(st: Stores, rows: seq<BillRow>, i: nat, env: Env, zone: int,
                         parseJson: string -> Option<JValue>): (r: (Stores, Report))
    requires i <= |rows|
    ensures |r.1.successful| <= |rows| - i
    decreases |rows| - i
  {
    if i == |rows| then (st, Report([], [], []))
    else
      var o := RowAsWritten(st, rows[i], i + 2, env, zone, parseJson);
      var (st', rest) := RowsAsWritten(o.st, rows, i + 1, env, zone, parseJson);
      (st', Report(o.created + rest.successful, o.skipped + rest.skipped, o.errors + rest.errors))
  }

  function Rows(st: Stores, rows: seq<BillRow>, i: nat, env: Env, zone: int,
                parseJson: string -> Option<JValue>): (r: (Stores, Report))
    requires i <= |rows|
    ensures |r.1.successful| + |r.1.skipped| + |r.1.errors| == |rows| - i
    decreases |rows| - i
  {
    if i == |rows| then (st, Report([], [], []))
    else
      var o := Row(st, rows[i], i + 2, env, zone, parseJson);
      var (st', rest) := Rows(o.st, rows, i + 1, env, zone, parseJson);
      (st', Report(o.created + rest.successful, o.skipped + rest.skipped, o.errors + rest.errors))
  }

  /** The checks on the part itself, which reject the whole request. */
  function CheckFile(up: Upload): (r: Result<seq<BillRow>>)
    ensures r.Err? <==>
      (up.missing || up.filename.None? || !EndsWith(ToLower(up.filename.value), ".csv")
       || up.rows.None?)
    ensures r.Ok? ==> r.value == up.rows.value
  {
    if up.missing then Err("file.missing")
    else if up.filename.None? || !EndsWith(ToLower(up.filename.value), ".csv") then
      Err("file.invalid.format")
    else if up.rows.None? then Err("file.parse.error")
    else Ok(up.rows.value)
  }

  function EmptyFile(st: Stores): (Stores, Report) {
    (st, Report([], [], [Note("file.empty", 0, None, "")]))
  }

  function BulkUploadAsWritten(st: Stores, up: Upload, env: Env, zone: int,
                               parseJson: string -> Option<JValue>): (r: Result<(Stores, Report)>)
    ensures r.Err? <==> CheckFile(up).Err?
    ensures r.Ok? ==> |r.value.1.successful| <= |up.rows.value|
  {
    var rows :- CheckFile(up);
    if rows == [] then Ok(EmptyFile(st))
    else Ok(RowsAsWritten(st, rows, 0, env, zone, parseJson))
  }

  /** The upload: a request that passes the file checks is answered with
      201 and the report, in which every row appears exactly once; an
      empty file gives the single "file.empty" error. */
  function BulkUpload(st: Stores, up: Upload, env: Env, zone: int,
                      parseJson: string -> Option<JValue>): (r: Result<(Stores, Report)>)
    ensures r.Err? <==> CheckFile(up).Err?
    ensures r.Ok? && up.rows.value != [] ==>
      |r.value.1.successful| + |r.value.1.skipped| + |r.value.1.errors| == |up.rows.value|
    ensures r.Ok? && up.rows.value == [] ==>
      r.value.1 == Report([], [], [Note("file.empty", 0, None, "")]) && r.value.0 == st
  {
    var rows :- CheckFile(up);
    if rows == [] then Ok(EmptyFile(st))
    else Ok(Rows(st, rows, 0, env, zone, parseJson))
  }

  // ---------------------------------------------------------------------
  // Properties
  // ---------------------------------------------------------------------

  /** No two stored bills share a business id. */
  predicate DistinctBillIds(bills: seq<Bill>) {
    forall i, j :: 0 <= i < j < |bills| ==> bills[i].billId != bills[j].billId
  }

  /** The charged customer of a row is a stored one with an e-mail: a row
      carries no e-mail, so a new customer would have none. */
  predicate KnownWithEmail(customers: seq<Customer>, mobile: string) {
    match FindByMobile(customers, Some(mobile))
    case Some(k) => customers[k].email.Some?
    case None => false
  }

  /** A row that passes its checks is never refused by bill creation: its
      trimmed id is not blank, is not stored yet, and the mobile is set.
      The bill is stored under that id, and the call succeeds exactly when
      the mobile belongs to a stored customer with an e-mail. */
  lemma {:induction false} RowCreation(st: Stores, r: BillRow, items: seq<BillItem>, date: int, env: Env)
    requires Complete(r) && !HasBillId(st.bills, Some(JavaTrim(r.billId.value)))
    ensures !Refused(st, BillOf(r, items, date), env, false)
    ensures var c := CreateBill(st, BillOf(r, items, date), env, false);
      |c.0.bills| == |st.bills| + 1 && c.0.bills[..|st.bills|] == st.bills
      && c.0.bills[|st.bills|].billId == Some(JavaTrim(r.billId.value))
    ensures var c := CreateBill(st, BillOf(r, items, date), env, false);
      c.1.Ok? <==> KnownWithEmail(st.customers, JavaTrim(r.customerMobile.value))
    ensures var c := CreateBill(st, BillOf(r, items, date), env, false);
      c.1.Ok? ==> c.0.bills == st.bills + [c.1.value]
  {
    var b := BillOf(r, items, date);
    var id := JavaTrim(r.billId.value);
    assert EffectiveBillId(b.billId, env.now) == id by {
      JavaTrimIdempotent(r.billId.value);
    }
    assert b.id.None? && b.customer.Some? && b.customer.value.mobile.Some?;
    FailsAfterSaving(st, b, env, false);
  }

  /** One row stores at most its own bill, under the row's trimmed id, not
      stored before; a created bill is that stored bill. */
  lemma {:induction false} RowAppends(st: Stores, r: BillRow, row: int, env: Env, zone: int,
                                      parseJson: string -> Option<JValue>)
    ensures var o := Row(st, r, row, env, zone, parseJson);
      o.st.bills == st.bills
      || (Complete(r) && !HasBillId(st.bills, Some(JavaTrim(r.billId.value)))
          && |o.st.bills| == |st.bills| + 1 && st.bills <= o.st.bills
          && o.st.bills[|st.bills|].billId == Some(JavaTrim(r.billId.value)))
    ensures var o := Row(st, r, row, env, zone, parseJson);
      o.created == [] || (|o.created| == 1 && o.st.bills == st.bills + o.created)
    ensures var o := Row(st, r, row, env, zone, parseJson);
      o.created != [] ==> Complete(r) && o.created[0].billId == Some(JavaTrim(r.billId.value))
                          && !HasBillId(st.bills, Some(JavaTrim(r.billId.value)))
  {
    var c := CheckRow(st, r, row, parseJson);
    if c.Ready? && FirstIndex(c.items, BadItem).None? && RowDate(r, env.now, zone).Some? {
      var date := RowDate(r, env.now, zone).value;
      RowCreation(st, r, c.items, date, env);
    }
  }

  /** The same for a row as written, whose bad items do not stop it: it
      stores at most its own bill, under its trimmed id, not stored
      before. */
  lemma {:induction false} RowAsWrittenAppends(st: Stores, r: BillRow, row: int, env: Env, zone: int,
                                               parseJson: string -> Option<JValue>)
    ensures var o := RowAsWritten(st, r, row, env, zone, parseJson);
      o.st.bills == st.bills
      || (Complete(r) && !HasBillId(st.bills, Some(JavaTrim(r.billId.value)))
          && |o.st.bills| == |st.bills| + 1 && st.bills <= o.st.bills
          && o.st.bills[|st.bills|].billId == Some(JavaTrim(r.billId.value)))
    ensures var o := RowAsWritten(st, r, row, env, zone, parseJson);
      o.created == [] || (|o.created| == 1 && o.st.bills == st.bills + o.created)
  {
    var c := CheckRow(st, r, row, parseJson);
    if c.Ready? && RowDate(r, env.now, zone).Some? {
      var date := RowDate(r, env.now, zone).value;
      RowCreation(st, r, c.items, date, env);
    }
  }

  lemma {:induction false} RowAsWrittenKeepsIdsDistinct(st: Stores, r: BillRow, row: int, env: Env, zone: int,
                                                        parseJson: string -> Option<JValue>)
    requires DistinctBillIds(st.bills)
    ensures DistinctBillIds(RowAsWritten(st, r, row, env, zone, parseJson).st.bills)
  {
    RowAsWrittenAppends(st, r, row, env, zone, parseJson);
    GrowKeepsIdsDistinct(st.bills, RowAsWritten(st, r, row, env, zone, parseJson).st.bills);
  }

  /** A clean row for a mobile no customer has is reported as failed, with
      the exception's missing message, and yet its bill is stored. */
  lemma UnknownMobileFailsAfterStoring(st: Stores, r: BillRow, row: int, env: Env, zone: int,
                                       parseJson: string -> Option<JValue>)
    requires CheckRow(st, r, row, parseJson).Ready?
    requires FirstIndex(CheckRow(st, r, row, parseJson).items, BadItem).None?
    requires RowDate(r, env.now, zone).Some?
    requires FindByMobile(st.customers, Some(JavaTrim(r.customerMobile.value))).None?
    ensures var o := Row(st, r, row, env, zone, parseJson);
      o.created == [] && o.errors == [Note("bill.add.failed", row, r.billId, NullMessage)]
      && |o.st.bills| == |st.bills| + 1
  {
    var c := CheckRow(st, r, row, parseJson);
    RowCreation(st, r, c.items, RowDate(r, env.now, zone).value, env);
  }

  /** One row keeps the business ids distinct. */
  lemma {:induction false} RowKeepsIdsDistinct(st: Stores, r: BillRow, row: int, env: Env, zone: int,
                                               parseJson: string -> Option<JValue>)
    requires DistinctBillIds(st.bills)
    ensures DistinctBillIds(Row(st, r, row, env, zone, parseJson).st.bills)
  {
    RowAppends(st, r, row, env, zone, parseJson);
    GrowKeepsIdsDistinct(st.bills, Row(st, r, row, env, zone, parseJson).st.bills);
  }

  /** A store that is unchanged, or grows by one bill whose id it did not
      hold, keeps the ids distinct. */
  lemma GrowKeepsIdsDistinct(before: seq<Bill>, after: seq<Bill>)
    requires DistinctBillIds(before)
    requires after == before
          || (|after| == |before| + 1 && before <= after
              && !HasBillId(before, after[|before|].billId))
    ensures DistinctBillIds(after)
  {
    if after != before {
      assert after == before + [after[|before|]];
      AppendNewIdDistinct(before, after[|before|]);
    }
  }

  /** Appending a bill whose id is not stored keeps the ids distinct. */
  lemma AppendNewIdDistinct(bills: seq<Bill>, saved: Bill)
    requires DistinctBillIds(bills) && !HasBillId(bills, saved.billId)
    ensures DistinctBillIds(bills + [saved])
  {
    var all := bills + [saved];
    forall i, j | 0 <= i < j < |all| ensures all[i].billId != all[j].billId {
      if j == |bills| {
        assert all[j] == saved && all[i] == bills[i];
      }
    }
  }

  /** The upload only appends: the stored bills before are a prefix of
      those after, and the successful bills appear, in order, among the
      appended ones (which also hold the bills whose creation failed after
      storing). */
  lemma {:induction false} RowsAppend(st: Stores, rows: seq<BillRow>, i: nat, env: Env, zone: int,
                                      parseJson: string -> Option<JValue>)
    requires i <= |rows|
    ensures var all := Rows(st, rows, i, env, zone, parseJson);
      st.bills <= all.0.bills && Subsequence(all.1.successful, all.0.bills[|st.bills|..])
    decreases |rows| - i
  {
    if i < |rows| {
      var o := Row(st, rows[i], i + 2, env, zone, parseJson);
      RowAppends(st, rows[i], i + 2, env, zone, parseJson);
      RowsAppend(o.st, rows, i + 1, env, zone, parseJson);
      RowsStep(st, rows, i, env, zone, parseJson);
      var rest := Rows(o.st, rows, i + 1, env, zone, parseJson);
      AppendStep(st.bills, o.st.bills, rest.0.bills, o.created, rest.1.successful);
    }
  }

  /** The whole upload keeps the business ids distinct: a bill id already
      stored, or repeated further down the file, is skipped. */
  lemma {:induction false} RowsKeepIdsDistinct(st: Stores, rows: seq<BillRow>, i: nat, env: Env, zone: int,
                                               parseJson: string -> Option<JValue>)
    requires i <= |rows| && DistinctBillIds(st.bills)
    ensures DistinctBillIds(Rows(st, rows, i, env, zone, parseJson).0.bills)
    decreases |rows| - i
  {
    if i < |rows| {
      var o := Row(st, rows[i], i + 2, env, zone, parseJson);
      RowKeepsIdsDistinct(st, rows[i], i + 2, env, zone, parseJson);
      RowsKeepIdsDistinct(o.st, rows, i + 1, env, zone, parseJson);
      RowsStep(st, rows, i, env, zone, parseJson);
    }
  }

  /** The upload as written only appends too, and its successful bills
      appear, in order, among the appended ones. */
  lemma {:induction false} RowsAsWrittenAppend(st: Stores, rows: seq<BillRow>, i: nat, env: Env, zone: int,
                                               parseJson: string -> Option<JValue>)
    requires i <= |rows|
    ensures var all := RowsAsWritten(st, rows, i, env, zone, parseJson);
      st.bills <= all.0.bills && Subsequence(all.1.successful, all.0.bills[|st.bills|..])
    decreases |rows| - i
  {
    if i < |rows| {
      var o := RowAsWritten(st, rows[i], i + 2, env, zone, parseJson);
      RowAsWrittenAppends(st, rows[i], i + 2, env, zone, parseJson);
      RowsAsWrittenAppend(o.st, rows, i + 1, env, zone, parseJson);
      var rest := RowsAsWritten(o.st, rows, i + 1, env, zone, parseJson);
      AppendStep(st.bills, o.st.bills, rest.0.bills, o.created, rest.1.successful);
    }
  }

  /** The upload as written keeps the business ids distinct as well. */
  lemma {:induction false} RowsAsWrittenKeepIdsDistinct(st: Stores, rows: seq<BillRow>, i: nat, env: Env,
                                                        zone: int, parseJson: string -> Option<JValue>)
    requires i <= |rows| && DistinctBillIds(st.bills)
    ensures DistinctBillIds(RowsAsWritten(st, rows, i, env, zone, parseJson).0.bills)
    decreases |rows| - i
  {
    if i < |rows| {
      var o := RowAsWritten(st, rows[i], i + 2, env, zone, parseJson);
      RowAsWrittenKeepsIdsDistinct(st, rows[i], i + 2, env, zone, parseJson);
      RowsAsWrittenKeepIdsDistinct(o.st, rows, i + 1, env, zone, parseJson);
    }
  }

  lemma RowsStep(st: Stores, rows: seq<BillRow>, i: nat, env: Env, zone: int,
                 parseJson: string -> Option<JValue>)
    requires i < |rows|
    ensures var o := Row(st, rows[i], i + 2, env, zone, parseJson);
      var rest := Rows(o.st, rows, i + 1, env, zone, parseJson);
      var all := Rows(st, rows, i, env, zone, parseJson);
      all.0 == rest.0 && all.1.successful == o.created + rest.1.successful
  {
  }

  /** On a row whose items are all good the two item loops agree. */
  lemma CleanRowsAgree(st: Stores, r: BillRow, row: int, env: Env, zone: int,
                       parseJson: string -> Option<JValue>)
    requires CheckRow(st, r, row, parseJson).Ready?
    requires forall i :: 0 <= i < |CheckRow(st, r, row, parseJson).items| ==>
      !BadItem(CheckRow(st, r, row, parseJson).items[i])
    ensures RowAsWritten(st, r, row, env, zone, parseJson) == Row(st, r, row, env, zone, parseJson)
  {
    var items := CheckRow(st, r, row, parseJson).items;
    NoNotesIffClean(items, row, r.billId);
  }

  /** The example row: one item naming no product. */
  const BlankItem: JValue := JObj(map["productId" := JStr(""), "qty" := JInt(1)])
  const BlankItemRow: BillRow := BillRow(Some("B1"), Some("9876543210"), Some("x"), Some("alice"), None)

  function BlankItemJson(s: string): Option<JValue> {
    Some(JArr([BlankItem]))
  }

  lemma BlankItemRowChecks(st: Stores)
    requires st.bills == []
    ensures CheckRow(st, BlankItemRow, 2, BlankItemJson) == Ready([BillItem(Some(""), None, 1, 0.0)])
  {
    BlankItemRowComplete();
    BlankItemParses();
  }

  lemma BlankItemRowComplete()
    ensures Complete(BlankItemRow) && JavaTrim("B1") == "B1" && JavaTrim("x") == "x"
  {
    TrimmedRowComplete(BlankItemRow);
  }

  /** Nothing to trim at either end of a non-empty text. */
  predicate Untrimmed(s: string) {
    s != "" && !IsJavaTrimmable(s[0]) && !IsJavaTrimmable(s[|s| - 1])
  }

  /** A row whose four required texts have nothing to trim is complete,
      and its texts are used as they are. */
  lemma TrimmedRowComplete(r: BillRow)
    requires r.billId.Some? && Untrimmed(r.billId.value)
    requires r.customerMobile.Some? && Untrimmed(r.customerMobile.value)
    requires r.items.Some? && Untrimmed(r.items.value)
    requires r.addedBy.Some? && Untrimmed(r.addedBy.value)
    ensures Complete(r)
    ensures JavaTrim(r.billId.value) == r.billId.value && JavaTrim(r.items.value) == r.items.value
  {
    TrimNoop(r.billId.value, IsJavaTrimmable);
    TrimNoop(r.customerMobile.value, IsJavaTrimmable);
    TrimNoop(r.items.value, IsJavaTrimmable);
    TrimNoop(r.addedBy.value, IsJavaTrimmable);
  }

  lemma BlankItemParses()
    ensures ItemsOf(BlankItemJson("x")) == Some([BillItem(Some(""), None, 1, 0.0)])
  {
    var item := BillItem(Some(""), None, 1, 0.0);
    assert ParseItem(BlankItem) == Some(item);
    assert [BlankItem][0] == BlankItem;
    var r := ParseItems([BlankItem]);
    assert r.Some? && |r.value| == 1 && r.value[0] == item;
    assert r.value == [item];
  }

  /** A row whose only item names no product, charged to a stored customer
      with an e-mail, as written: the row reports the missing product and
      still creates its bill; the corrected row reports the error alone. */
  lemma BadItemRowBothFailsAndSucceeds(st: Stores, env: Env, zone: int)
    requires st.bills == [] && KnownWithEmail(st.customers, "9876543210")
    ensures var o := RowAsWritten(st, BlankItemRow, 2, env, zone, BlankItemJson);
      var o' := Row(st, BlankItemRow, 2, env, zone, BlankItemJson);
      |o.created| == 1 && o.errors == [Note("bill.item.product.missing", 2, Some("B1"), "")]
      && o'.created == [] && o'.errors == o.errors
  {
    BadItemRowAsWritten(st, env, zone);
    BadItemRowCorrected(st, env, zone);
  }

  /** The as-written half: the error is reported and the bill is created. */
  lemma BadItemRowAsWritten(st: Stores, env: Env, zone: int)
    requires st.bills == [] && KnownWithEmail(st.customers, "9876543210")
    ensures var o := RowAsWritten(st, BlankItemRow, 2, env, zone, BlankItemJson);
      |o.created| == 1 && o.errors == [Note("bill.item.product.missing", 2, Some("B1"), "")]
  {
    BlankItemRowChecks(st);
    BlankItemRowComplete();
    var items := [BillItem(Some(""), None, 1, 0.0)];
    var notes := [Note("bill.item.product.missing", 2, Some("B1"), "")];
    assert ItemNotes(items, 2, Some("B1")) == notes by {
      assert JavaTrim("") == [];
      assert ItemNotes(items[1..], 2, Some("B1")) == [];
    }
    assert RowAsWritten(st, BlankItemRow, 2, env, zone, BlankItemJson)
        == Finish(st, BlankItemRow, 2, items, env, zone, notes);
    assert RowDate(BlankItemRow, env.now, zone) == Some(env.now);
    assert JavaTrim("9876543210") == "9876543210" by {
      TrimNoop("9876543210", IsJavaTrimmable);
    }
    RowCreation(st, BlankItemRow, items, env.now, env);
  }


  /** The corrected half: the same error is reported and nothing is created. */
  lemma BadItemRowCorrected(st: Stores, env: Env, zone: int)
    requires st.bills == [] && KnownWithEmail(st.customers, "9876543210")
    ensures var o' := Row(st, BlankItemRow, 2, env, zone, BlankItemJson);
      o'.created == [] && o'.errors == [Note("bill.item.product.missing", 2, Some("B1"), "")]
  {
    BlankItemRowChecks(st);
    assert JavaTrim("") == [];
  }

}

=== FILE: bill_form.dfy ===
/** The manual bill form: rows of a product choice and a quantity text,
    the running total over the rows whose product is known, and the
    request sent for the chosen customer. The total converts the quantity
    text the way JavaScript's `*` does, a conversion given as a parameter
    (`None` for NaN); the request reads it with `parseInt`. */
module BillForm {
  import opened Wrappers
  import opened Text
  import Seqs
  import Cart
  import UiErrors

  /** One row: the chosen product id ('' for none) and the quantity as
      the input holds it. */
  datatype Row = Row(productId: string, quantity: string)

  /** A fresh row: no product, quantity 1. */
  const NewRow: Row := Row("", "1")

  const InitialRows: seq<Row> := [NewRow]

  /** `addItem`. */
  function AddRow(rows: seq<Row>): (r: seq<Row>)
    ensures |r| == |rows| + 1 && r[..|rows|] == rows && r[|rows|] == NewRow
  {
    rows + [NewRow]
  }

  datatype Field = ProductField | QuantityField

  /** `updateItem`: the one field of the one row changes. */
  function UpdateRow(rows: seq<Row>, index: nat, field: Field, value: string): (r: seq<Row>)
    requires index < |rows|
    ensures |r| == |rows|
    ensures forall i :: 0 <= i < |rows| && i != index ==> r[i] == rows[i]
    ensures field == ProductField ==> r[index] == rows[index].(productId := value)
    ensures field == QuantityField ==> r[index] == rows[index].(quantity := value)
  {
    var row := if field == ProductField then rows[index].(productId := value)
               else rows[index].(quantity := value);
    rows[index := row]
  }

  /** `removeItem`: `splice(index, 1)`, which past the end removes
      nothing. */
  function RemoveRow(rows: seq<Row>, index: nat): (r: seq<Row>)
    ensures index < |rows| ==> |r| == |rows| - 1
    ensures index >= |rows| ==> r == rows
    ensures forall i :: 0 <= i < |r| ==> r[i] == (if i < index then rows[i] else rows[i + 1])
  {
    if index < |rows| then rows[..index] + rows[index + 1..] else rows
  }

  /** Removing the row just added gives the rows back. */
  lemma RemoveUndoesAdd(rows: seq<Row>)
    ensures RemoveRow(AddRow(rows), |rows|) == rows
  {
  }

  // ---------------------------------------------------------------------
  // The running total
  // ---------------------------------------------------------------------

  function HasProductId(id: string): Cart.ProductView -> bool {
    (p: Cart.ProductView) => p.productId == Some(id)
  }

  /** `products.find`: the first product with the row's id. */
  function ProductOf(products: seq<Cart.ProductView>, id: string): (r: Option<Cart.ProductView>)
    ensures r.Some? ==> r.value in products && r.value.productId == Some(id)
    ensures r.None? <==> forall i :: 0 <= i < |products| ==> products[i].productId != Some(id)
  {
    match Seqs.FirstIndex(products, HasProductId(id))
    case None => None
    case Some(k) => Some(products[k])
  }

  /** What a row adds: nothing when its product is unknown, otherwise
      price times quantity, NaN (`None`) when either is not a number. */
  function RowAmount(row: Row, products: seq<Cart.ProductView>, toNumber: string -> Option<real>): Option<real> {
    match ProductOf(products, row.productId)
    case None => Some(0.0)
    case Some(p) =>
      if p.price.Some? && toNumber(row.quantity).Some? then Some(p.price.value * toNumber(row.quantity).value)
      else None
  }

  /** The total effect: the rows' amounts summed, NaN once any is NaN. */
  function Total(rows: seq<Row>, products: seq<Cart.ProductView>, toNumber: string -> Option<real>): Option<real> {
    if |rows| == 0 then Some(0.0)
    else
      var rest := Total(rows[1..], products, toNumber);
      var here := RowAmount(rows[0], products, toNumber);
      if here.None? || rest.None? then None else Some(here.value + rest.value)
  }

  /** The total of a concatenation adds up. */
  lemma {:induction false} TotalAppend(a: seq<Row>, b: seq<Row>, products: seq<Cart.ProductView>,
                                       toNumber: string -> Option<real>)
    ensures Total(a + b, products, toNumber).Some? <==>
      Total(a, products, toNumber).Some? && Total(b, products, toNumber).Some?
    ensures Total(a + b, products, toNumber).Some? ==>
      Total(a + b, products, toNumber).value
      == Total(a, products, toNumber).value + Total(b, products, toNumber).value
  {
    if |a| > 0 {
      assert (a + b)[1..] == a[1..] + b && (a + b)[0] == a[0];
      TotalAppend(a[1..], b, products, toNumber);
    } else {
      assert a + b == b;
    }
  }

  /** Rows without a known product leave the total at zero; a new row
      changes nothing unless some product has the empty id. */
  lemma {:induction false} UnknownRowsCostNothing(rows: seq<Row>, products: seq<Cart.ProductView>,
                                                  toNumber: string -> Option<real>)
    requires forall i :: 0 <= i < |rows| ==> ProductOf(products, rows[i].productId).None?
    ensures Total(rows, products, toNumber) == Some(0.0)
  {
    if |rows| > 0 {
      UnknownRowsCostNothing(rows[1..], products, toNumber);
    }
  }

  lemma {:induction false} AddRowKeepsTotal(rows: seq<Row>, products: seq<Cart.ProductView>, toNumber: string -> Option<real>)
    requires forall i :: 0 <= i < |products| ==> products[i].productId != Some("")
    ensures Total(AddRow(rows), products, toNumber) == Total(rows, products, toNumber)
  {
    UnknownRowsCostNothing([NewRow], products, toNumber);
    TotalAppend(rows, [NewRow], products, toNumber);
  }

  // ---------------------------------------------------------------------
  // Submitting
  // ---------------------------------------------------------------------

  /** A customer as the list endpoint may return it, under any of the id
      and phone field names the form accepts. */
  datatype CustomerView = CustomerView(
    customerId: Option<string>, id: Option<string>, mongoId: Option<string>,
    name: Option<string>, email: Option<string>,
    mobile: Option<string>, phone: Option<string>, contactNumber: Option<string>)

  function Matches(selected: string): CustomerView -> bool {
    (c: CustomerView) => c.customerId == Some(selected) || c.id == Some(selected) || c.mongoId == Some(selected)
  }

  /** The first customer any of whose ids is the selected value. */
  function FindCustomer(customers: seq<CustomerView>, selected: string): (r: Option<CustomerView>)
    ensures r.Some? ==> r.value in customers && Matches(selected)(r.value)
    ensures r.None? <==> forall i :: 0 <= i < |customers| ==> !Matches(selected)(customers[i])
  {
    match Seqs.FirstIndex(customers, Matches(selected))
    case None => None
    case Some(k) => Some(customers[k])
  }

  /** The value of a customer's option: `customerId || id || _id`. */
  function OptionValue(c: CustomerView): Option<string> {
    if Truthy(c.customerId) then c.customerId else if Truthy(c.id) then c.id else c.mongoId
  }

  /** Choosing a customer's option always finds a customer: the one
      chosen, or an earlier one sharing the id. */
  lemma ChosenOptionFindsCustomer(customers: seq<CustomerView>, k: nat)
    requires k < |customers| && OptionValue(customers[k]).Some?
    ensures FindCustomer(customers, OptionValue(customers[k]).value).Some?
  {
    assert Matches(OptionValue(customers[k]).value)(customers[k]);
  }

  datatype CustomerRequest = CustomerRequest(name: Option<string>, email: Option<string>, mobile: Option<string>)

  /** One line: the product id and `parseInt` of the quantity (NaN is
      `None`). */
  datatype LineRequest = LineRequest(productId: string, qty: Option<int>)

  datatype FormRequest = FormRequest(billId: string, customer: CustomerRequest,
                                     items: seq<LineRequest>, addedBy: string)

  const ErrorCustomerKey: string := "billForm.errorCustomer"
  const ErrorCreateKey: string := "billForm.errorCreate"

  /** `mobile || phone || contactNumber`. */
  function MobileOf(c: CustomerView): (r: Option<string>)
    ensures Truthy(c.mobile) ==> r == c.mobile
    ensures !Truthy(c.mobile) && Truthy(c.phone) ==> r == c.phone
    ensures !Truthy(c.mobile) && !Truthy(c.phone) ==> r == c.contactNumber
  {
    if Truthy(c.mobile) then c.mobile else if Truthy(c.phone) then c.phone else c.contactNumber
  }

  function LineOf(row: Row): LineRequest {
    LineRequest(row.productId, JsParseInt(row.quantity))
  }

  /** `handleSubmit` up to the request: an unknown customer is refused;
      otherwise every row becomes a line, in order. */
  function Submit(customers: seq<CustomerView>, selected: string, rows: seq<Row>, now: int): (r: Result<FormRequest>)
    ensures r.Err? <==> FindCustomer(customers, selected).None?
    ensures r.Err? ==> r.error == ErrorCustomerKey
    ensures r.Ok? ==> var c := FindCustomer(customers, selected).value;
      r.value.customer == CustomerRequest(c.name, c.email, MobileOf(c))
      && r.value.billId == "B" + IntToString(now) && r.value.addedBy == "system"
      && |r.value.items| == |rows|
      && forall i :: 0 <= i < |rows| ==> r.value.items[i].productId == rows[i].productId
  {
    match FindCustomer(customers, selected)
    case None => Err(ErrorCustomerKey)
    case Some(c) =>
      Ok(FormRequest("B" + IntToString(now), CustomerRequest(c.name, c.email, MobileOf(c)),
                     seq(|rows|, i requires 0 <= i < |rows| => LineOf(rows[i])), "system"))
  }

  /** A quantity typed as a whole number is sent as that number; one with
      no leading digit is sent as NaN. */
  lemma SentQuantity(customers: seq<CustomerView>, selected: string, rows: seq<Row>, now: int, i: nat, n: int)
    requires Submit(customers, selected, rows, now).Ok? && i < |rows|
    ensures rows[i].quantity == IntToString(n) ==> Submit(customers, selected, rows, now).value.items[i].qty == Some(n)
    ensures rows[i].quantity == "" ==> Submit(customers, selected, rows, now).value.items[i].qty.None?
  {
    var q := rows[i].quantity;
    assert Submit(customers, selected, rows, now).value.items[i] == LineOf(rows[i]);
    if q == IntToString(n) {
      JsParseIntOfNumber(n);
    }
    if q == "" {
      JsParseIntOfEmpty();
    }
  }

  datatype Outcome = GoToBills | ShowError(message: string)

  /** After the request: the bills list, or the server's `error`, else its
      `message`, else the form's own text. */
  function AfterSubmit(failure: Option<UiErrors.Failure>): (r: Outcome)
    ensures failure.None? <==> r == GoToBills
    ensures failure.Some? ==> r == ShowError(UiErrors.Describe(failure.value, Some(ErrorCreateKey)).value)
  {
    match failure
    case None => GoToBills
    case Some(f) => ShowError(UiErrors.Describe(f, Some(ErrorCreateKey)).value)
  }

  /** A failure always shows some text, the fallback when the server
      gives none. */
  lemma FailureAlwaysExplained(f: UiErrors.Failure)
    ensures AfterSubmit(Some(f)).message != ""
    ensures !Truthy(f.serverError) && !Truthy(f.message) ==> AfterSubmit(Some(f)).message == ErrorCreateKey
  {
  }
}

=== FILE: bill_list.dfy ===
/** The bill list page: the avatar initials, the searched, date-filtered
    and sorted list, its pages of ten, the page state the controls move,
    and the CSV export. The fuzzy search, the parsing of stored dates and
    the locale formatting of amounts and dates are parameters. */
module BillList {
  import opened Wrappers
  import opened Text
  import Seqs
  import Sorting

  /** What the page reads of a bill. `stamp` is the parsed time of
      `createdAt || date` in milliseconds, `None` when it does not parse;
      `itemCount` is the length of `items`, `None` when there are none. */
  datatype BillView = BillView(
    billId: Option<string>,
    customerName: Option<string>,
    customerMobile: Option<string>,
    totalAmount: Option<real>,
    stamp: Option<int>,
    itemCount: Option<nat>,
    paymentMethod: Option<string>)

  // ---------------------------------------------------------------------
  // Avatar
  // ---------------------------------------------------------------------

  /** The first character of every word, an empty word giving nothing. */
  function WordInitials(words: seq<string>): string
    decreases |words|
  {
    if |words| == 0 then ""
    else (if words[0] == "" then "" else [words[0][0]]) + WordInitials(words[1..])
  }

  /** `CustomerAvatar`'s initials: the words' first characters, upper-cased,
      at most two of them; "WI" (walk-in) without a name. */
  function Initials(name: Option<string>): (r: string)
    ensures |r| <= 2
    ensures !Truthy(name) ==> r == "WI"
  {
    if !Truthy(name) then "WI"
    else Seqs.Take(ToUpper(WordInitials(Pieces(name.value, ' '))), 2)
  }

  /** With no empty word, there is one initial per word. */
  lemma {:induction false} InitialOfEachWord(words: seq<string>)
    requires forall i :: 0 <= i < |words| ==> words[i] != ""
    ensures |WordInitials(words)| == |words|
    ensures forall i :: 0 <= i < |words| ==> WordInitials(words)[i] == words[i][0]
  {
    if |words| > 0 {
      InitialOfEachWord(words[1..]);
    }
  }

  lemma FirstTwoCapitals(w: string)
    requires |w| >= 2
    ensures Seqs.Take(ToUpper(w), 2) == [UpperChar(w[0]), UpperChar(w[1])]
  {
  }

  /** Two words around one space split into the two words. */
  lemma PiecesOfTwo(x: string, y: string)
    requires ' ' !in x && ' ' !in y
    ensures Pieces(x + " " + y, ' ') == [x, y]
  {
    assert x + " " + y == x + [' '] + y;
    PiecesAroundClean(x, ' ', y);
    assert Pieces(y, ' ') == [y];
  }

  /** A word, a space and more text split into the word and the text's
      pieces. */
  lemma PiecesOfThree(x: string, y: string, z: string)
    requires ' ' !in x && ' ' !in y && ' ' !in z
    ensures Pieces(x + " " + y + " " + z, ' ') == [x, y, z]
  {
    assert x + " " + y + " " + z == x + [' '] + (y + " " + z);
    PiecesAroundClean(x, ' ', y + " " + z);
    PiecesOfTwo(y, z);
  }

  /** A first and a last name give their two capitals. */
  lemma InitialsOfFullName(first: string, last: string)
    requires first != "" && last != ""
    requires ' ' !in first && ' ' !in last
    ensures Initials(Some(first + " " + last)) == [UpperChar(first[0]), UpperChar(last[0])]
  {
    PiecesOfTwo(first, last);
    InitialOfEachWord([first, last]);
    FirstTwoCapitals(WordInitials([first, last]));
  }

  /** Only the first two words count. */
  lemma InitialsIgnoreThirdWord(a: string, b: string, c: string)
    requires a != "" && b != "" && c != ""
    requires ' ' !in a && ' ' !in b && ' ' !in c
    ensures Initials(Some(a + " " + b + " " + c)) == [UpperChar(a[0]), UpperChar(b[0])]
  {
    var w := WordInitials([a, b, c]);
    assert |w| == 3 && w[0] == a[0] && w[1] == b[0] by {
      InitialOfEachWord([a, b, c]);
    }
    assert Initials(Some(a + " " + b + " " + c)) == Seqs.Take(ToUpper(w), 2) by {
      PiecesOfThree(a, b, c);
    }
    FirstTwoCapitals(w);
  }

  /** A name made of spaces is truthy but has no initials at all. */
  lemma BlankNameHasNoInitials()
    ensures Initials(Some("  ")) == ""
  {
    PiecesOfThree("", "", "");
    assert "" + " " + "" + " " + "" == "  ";
    assert WordInitials(["", "", ""]) == "" by {
      assert ["", "", ""][1..] == ["", ""] && ["", ""][1..] == [""];
    }
  }

  /** The avatar colour: the first character's code modulo the five
      gradients, the first one without a name. */
  function ColorIndex(name: Option<string>): (r: nat)
    ensures r < 5
    ensures !Truthy(name) ==> r == 0
    ensures Truthy(name) ==> r % 5 == (name.value[0] as int) % 5
  {
    if Truthy(name) then (name.value[0] as int) % 5 else 0
  }

  // ---------------------------------------------------------------------
  // The displayed list
  // ---------------------------------------------------------------------

  /** The date filter: a bill whose date parses and lies within the
      bounds, both included. */
  function InRange(lo: int, hi: int): BillView -> bool {
    (b: BillView) => b.stamp.Some? && lo <= b.stamp.value <= hi
  }

  /** The sort keys: the time, and the amount with a missing one as 0. A
      date that does not parse is read as 0 (see the notes). */
  function StampKey(b: BillView): real {
    if b.stamp.Some? then b.stamp.value as real else 0.0
  }

  function AmountKey(b: BillView): real {
    b.totalAmount.GetOr(0.0)
  }

  /** The order named by the sort select: "<key>-<dir>", dates for the
      key "createdAt" and amounts otherwise, ascending only for "asc". */
  function Order(sortBy: string): (BillView, BillView) -> bool {
    var parts := Pieces(sortBy, '-');
    var base := if parts[0] == "createdAt" then Sorting.ByNumber(StampKey) else Sorting.ByNumber(AmountKey);
    if |parts| > 1 && parts[1] == "asc" then base else Sorting.Flip(base)
  }

  lemma OrderIsPreorder(sortBy: string)
    ensures Sorting.Total(Order(sortBy)) && Sorting.Transitive(Order(sortBy))
  {
    Sorting.ByNumberIsPreorder(StampKey);
    Sorting.ByNumberIsPreorder(AmountKey);
    Sorting.FlipIsPreorder(Sorting.ByNumber(StampKey));
    Sorting.FlipIsPreorder(Sorting.ByNumber(AmountKey));
  }

  /** The bills that pass the search and the date range, before sorting.
      The range applies only when a bound is picked: `start` and `end` are
      the start of the first day and the end of the last day, the epoch
      and `now` standing in for a missing one. */
  function Selected(bills: seq<BillView>, term: string,
                    search: (string, seq<BillView>) -> seq<BillView>,
                    start: Option<int>, end: Option<int>, now: int): seq<BillView>
  {
    var items := if term != "" then search(term, bills) else bills;
    if start.Some? || end.Some? then Seqs.Filter(items, InRange(start.GetOr(0), end.GetOr(now)))
    else items
  }

  /** `displayBills`. */
  function DisplayBills(bills: seq<BillView>, term: string,
                        search: (string, seq<BillView>) -> seq<BillView>,
                        start: Option<int>, end: Option<int>, now: int,
                        sortBy: string): (r: seq<BillView>)
    ensures |r| == |Selected(bills, term, search, start, end, now)|
  {
    Sorting.SortBy(Selected(bills, term, search, start, end, now), Order(sortBy))
  }

  /** What is shown is exactly the selected bills, reordered: in range
      when a bound is picked, in the select's order, and bills the order
      cannot tell apart keep the order the search gave them. */
  lemma DisplayIsSortedSelection(bills: seq<BillView>, term: string,
                                 search: (string, seq<BillView>) -> seq<BillView>,
                                 start: Option<int>, end: Option<int>, now: int,
                                 sortBy: string, x: BillView)
    ensures var sel := Selected(bills, term, search, start, end, now);
      var r := DisplayBills(bills, term, search, start, end, now, sortBy);
      multiset(r) == multiset(sel)
      && ((start.Some? || end.Some?) ==>
            forall i :: 0 <= i < |r| ==> InRange(start.GetOr(0), end.GetOr(now))(r[i]))
      && Sorting.Sorted(r, Order(sortBy))
      && Seqs.Filter(r, Sorting.EquivalentTo(x, Order(sortBy)))
         == Seqs.Filter(sel, Sorting.EquivalentTo(x, Order(sortBy)))
  {
    var sel := Selected(bills, term, search, start, end, now);
    var r := DisplayBills(bills, term, search, start, end, now, sortBy);
    OrderIsPreorder(sortBy);
    Sorting.SortBySorted(sel, Order(sortBy));
    Sorting.SortByStable(sel, Order(sortBy), x);
    if start.Some? || end.Some? {
      forall i | 0 <= i < |r| ensures InRange(start.GetOr(0), end.GetOr(now))(r[i]) {
        assert r[i] in multiset(sel);
      }
    }
  }

  /** Without a search term and a picked range every bill is shown. */
  lemma NoFilterShowsAll(bills: seq<BillView>, search: (string, seq<BillView>) -> seq<BillView>,
                         now: int, sortBy: string)
    ensures multiset(DisplayBills(bills, "", search, None, None, now, sortBy)) == multiset(bills)
  {
  }

  // ---------------------------------------------------------------------
  // Pages
  // ---------------------------------------------------------------------

  const ItemsPerPage: nat := 10

  /** `Math.ceil(n / 10)`. */
  function TotalPages(n: nat): (r: nat)
    ensures r * ItemsPerPage >= n
    ensures r == 0 || (r - 1) * ItemsPerPage < n
  {
    (n + ItemsPerPage - 1) / ItemsPerPage
  }

  /** An index argument of `Array.prototype.slice`: a negative one counts
      from the end, and both are clamped to the length. */
  function SliceIndex(k: int, len: nat): (r: nat)
    ensures r <= len
    ensures 0 <= k ==> r == if k < len then k else len
  {
    if k < 0 then (if len + k < 0 then 0 else len + k)
    else if k < len then k else len
  }

  /** `s.slice(start, end)`. */
  function JsSlice<T>(s: seq<T>, start: int, end: int): (r: seq<T>)
    ensures |r| <= |s|
  {
    var a := SliceIndex(start, |s|);
    var b := SliceIndex(end, |s|);
    if a < b then s[a..b] else []
  }

  /** `paginatedBills`. */
  function Page<T>(s: seq<T>, p: int): seq<T> {
    JsSlice(s, (p - 1) * ItemsPerPage, (p - 1) * ItemsPerPage + ItemsPerPage)
  }

  function Min(a: int, b: int): int { if a < b then a else b }

  /** A page is the stretch of at most ten elements starting at its first
      index; it holds something exactly when it is one of the counted
      pages. */
  lemma PageShape<T>(s: seq<T>, p: int)
    requires p >= 1
    ensures var lo := Min((p - 1) * ItemsPerPage, |s|);
      var hi := Min(p * ItemsPerPage, |s|);
      lo <= hi && Page(s, p) == s[lo..hi]
    ensures |Page(s, p)| <= ItemsPerPage
    ensures Page(s, p) != [] <==> p <= TotalPages(|s|)
  {
  }

  /** The "showing a to b of n" label, one-based. */
  function PageLabel(p: int, n: nat): (int, int) {
    ((p - 1) * ItemsPerPage + 1, Min(p * ItemsPerPage, n))
  }

  /** On a counted page the label names exactly the rows shown. */
  lemma LabelDescribesPage<T>(s: seq<T>, p: int)
    requires 1 <= p <= TotalPages(|s|)
    ensures var (a, b) := PageLabel(p, |s|);
      1 <= a <= b <= |s| && Page(s, p) == s[a - 1..b]
  {
    PageShape(s, p);
  }

  /** Every element is on page i / 10 + 1, at position i % 10. */
  lemma EveryElementOnItsPage<T>(s: seq<T>, i: nat)
    requires i < |s|
    ensures 1 <= i / ItemsPerPage + 1 <= TotalPages(|s|)
    ensures Page(s, i / ItemsPerPage + 1)[i % ItemsPerPage] == s[i]
  {
    var p := i / ItemsPerPage + 1;
    PageShape(s, p);
  }

  /** Pages 1 to k, one after another. */
  function PagesUpTo<T>(s: seq<T>, k: nat): seq<T> {
    if k == 0 then [] else PagesUpTo(s, k - 1) + Page(s, k)
  }

  lemma {:induction false} PagesUpToPrefix<T>(s: seq<T>, k: nat)
    ensures PagesUpTo(s, k) == s[..Min(k * ItemsPerPage, |s|)]
  {
    if k > 0 {
      PagesUpToPrefix(s, k - 1);
      PageShape(s, k);
      var lo := Min((k - 1) * ItemsPerPage, |s|);
      var hi := Min(k * ItemsPerPage, |s|);
      assert s[..lo] + s[lo..hi] == s[..hi];
    }
  }

  /** The counted pages, read in order, are the whole list: nothing is
      shown twice and nothing is skipped. */
  lemma PagesPartitionList<T>(s: seq<T>)
    ensures PagesUpTo(s, TotalPages(|s|)) == s
  {
    PagesUpToPrefix(s, TotalPages(|s|));
  }

  /** The previous and next buttons. */
  function Prev(p: int): int {
    if p - 1 > 1 then p - 1 else 1
  }

  function Next(p: int, total: nat): int {
    if p + 1 < total then p + 1 else total
  }

  /** From a counted page both buttons land on a counted page; each is a
      no-op exactly where it is disabled, and they undo each other. */
  lemma NavigationStaysInRange(p: int, total: nat)
    requires 1 <= p <= total
    ensures 1 <= Prev(p) <= total && 1 <= Next(p, total) <= total
    ensures Prev(p) == p <==> p == 1
    ensures Next(p, total) == p <==> p == total
    ensures p < total ==> Prev(Next(p, total)) == p
    ensures p > 1 ==> Next(Prev(p), total) == p
  {
  }

  // ---------------------------------------------------------------------
  // The page state
  // ---------------------------------------------------------------------

  datatype ListState = ListState(term: string, start: Option<int>, end: Option<int>,
                                 sortBy: string, page: int)

  const InitialState: ListState := ListState("", None, None, "createdAt-desc", 1)

  datatype Event =
    | Search(term: string)
    | PickRange(start: Option<int>, end: Option<int>)
    | SortChange(sortBy: string)
    | PrevPage
    | NextPage

  function Display(bills: seq<BillView>, search: (string, seq<BillView>) -> seq<BillView>,
                   now: int, st: ListState): seq<BillView>
  {
    DisplayBills(bills, st.term, search, st.start, st.end, now, st.sortBy)
  }

  /** The rows drawn; an empty page draws the "no bills" state. */
  function Visible(bills: seq<BillView>, search: (string, seq<BillView>) -> seq<BillView>,
                   now: int, st: ListState): seq<BillView>
  {
    Page(Display(bills, search, now, st), st.page)
  }

  /** The page controls are drawn only when there is more than one page. */
  predicate ControlsShown(bills: seq<BillView>, search: (string, seq<BillView>) -> seq<BillView>,
                          now: int, st: ListState)
  {
    TotalPages(|Display(bills, search, now, st)|) > 1
  }

  /** The buttons, which act only when drawn. */
  function Navigate(bills: seq<BillView>, search: (string, seq<BillView>) -> seq<BillView>,
                    now: int, st: ListState, forward: bool): ListState
  {
    var total := TotalPages(|Display(bills, search, now, st)|);
    if total <= 1 then st
    else if forward then st.(page := Next(st.page, total))
    else st.(page := Prev(st.page))
  }

  /** The page as written: picking a range goes back to page 1, a new
      search term or sort order keeps the page. */
  function Step(bills: seq<BillView>, search: (string, seq<BillView>) -> seq<BillView>,
                now: int, st: ListState, e: Event): (r: ListState)
    ensures e.Search? ==> r.page == st.page
    ensures e.SortChange? ==> r.page == st.page
    ensures e.PickRange? ==> r.page == 1
  {
    match e
    case Search(t) => st.(term := t)
    case PickRange(s, en) => st.(start := s, end := en, page := 1)
    case SortChange(o) => st.(sortBy := o)
    case PrevPage => Navigate(bills, search, now, st, false)
    case NextPage => Navigate(bills, search, now, st, true)
  }

  /** A search typed on a later page can leave that page past the end of
      the new list: the bills that match are counted in the header, yet the
      table shows the empty state, and with one page of results the
      controls that would lead back are not drawn. */
  lemma SearchStrandsLaterPage(bills: seq<BillView>, search: (string, seq<BillView>) -> seq<BillView>,
                               now: int, st: ListState, t: string)
    requires st.page >= 2
    requires var after := Step(bills, search, now, st, Search(t));
      1 <= |Display(bills, search, now, after)| <= ItemsPerPage
    ensures var after := Step(bills, search, now, st, Search(t));
      |Display(bills, search, now, after)| > 0
      && Visible(bills, search, now, after) == []
      && !ControlsShown(bills, search, now, after)
      && Step(bills, search, now, after, PrevPage) == after
      && Step(bills, search, now, after, NextPage) == after
  {
    var after := Step(bills, search, now, st, Search(t));
    PageShape(Display(bills, search, now, after), after.page);
  }

  /** The same with concrete values: three pages of bills, the third
      page open, then a search that keeps five of them. */
  lemma SearchStrandsThirdPage(b: BillView)
    ensures var bills := seq(25, i => b);
      var search := (t: string, s: seq<BillView>) => Seqs.Take(s, 5);
      var st := InitialState.(page := 3);
      var after := Step(bills, search, 0, st, Search("x"));
      |Display(bills, search, 0, after)| == 5 && Visible(bills, search, 0, after) == []
  {
    var bills := seq(25, i => b);
    var search := (t: string, s: seq<BillView>) => Seqs.Take(s, 5);
    var st := InitialState.(page := 3);
    var after := Step(bills, search, 0, st, Search("x"));
    assert Selected(bills, "x", search, None, None, 0) == bills[..5];
    PageShape(Display(bills, search, 0, after), 3);
  }

  /** The page state with a new search term going back to page 1, as a
      date range does. */
  function FixedStep(bills: seq<BillView>, search: (string, seq<BillView>) -> seq<BillView>,
                     now: int, st: ListState, e: Event): (r: ListState)
    ensures e.Search? ==> r.page == 1
  {
    match e
    case Search(t) => st.(term := t, page := 1)
    case _ => Step(bills, search, now, st, e)
  }

  /** The page is one of the counted pages, or page 1 of an empty list. */
  predicate OnCountedPage(bills: seq<BillView>, search: (string, seq<BillView>) -> seq<BillView>,
                          now: int, st: ListState)
  {
    st.page == 1 || 1 <= st.page <= TotalPages(|Display(bills, search, now, st)|)
  }

  /** The corrected page keeps the page counted through every event, so a
      non-empty list always shows rows. */
  lemma FixedStepStaysOnCountedPage(bills: seq<BillView>, search: (string, seq<BillView>) -> seq<BillView>,
                                    now: int, st: ListState, e: Event)
    requires OnCountedPage(bills, search, now, st)
    ensures var next := FixedStep(bills, search, now, st, e);
      OnCountedPage(bills, search, now, next)
      && (Display(bills, search, now, next) != [] ==> Visible(bills, search, now, next) != [])
  {
    var next := FixedStep(bills, search, now, st, e);
    var total := TotalPages(|Display(bills, search, now, st)|);
    if e.SortChange? {
      assert |Display(bills, search, now, next)| == |Display(bills, search, now, st)|;
    }
    if e.PrevPage? || e.NextPage? {
      if total > 1 {
        NavigationStaysInRange(st.page, total);
      }
    }
    PageShape(Display(bills, search, now, next), next.page);
  }

  /** The page starts at 1 and no event of the page as written takes it
      below 1. */
  lemma StepKeepsPagePositive(bills: seq<BillView>, search: (string, seq<BillView>) -> seq<BillView>,
                              now: int, st: ListState, e: Event)
    requires st.page >= 1
    ensures Step(bills, search, now, st, e).page >= 1
  {
  }

  // ---------------------------------------------------------------------
  // CSV export
  // ---------------------------------------------------------------------

  const CsvHeaders: seq<string> := ["Bill ID", "Customer", "Mobile", "Amount", "Date", "Items", "Payment Method"]

  /** One row's cells: a missing name or mobile is empty, the item count
      0, the payment method "cash"; the amount and the date are written by
      the locale formatters `money` and `when`. */
  function CsvCells(b: BillView, money: Option<real> -> string, when: Option<int> -> string): (r: seq<string>)
    ensures |r| == |CsvHeaders|
  {
    [b.billId.GetOr(""), OrElse(b.customerName, ""), OrElse(b.customerMobile, ""),
     money(b.totalAmount), when(b.stamp), IntToString(b.itemCount.GetOr(0)),
     OrElse(b.paymentMethod, "cash")]
  }

  /** The cells joined with commas, none of them quoted. */
  function CsvLine(b: BillView, money: Option<real> -> string, when: Option<int> -> string): string {
    Join(CsvCells(b, money, when), ',')
  }

  function CsvLines(bills: seq<BillView>, money: Option<real> -> string,
                    when: Option<int> -> string): (r: seq<string>)
    ensures |r| == |bills|
    ensures forall i :: 0 <= i < |bills| ==> r[i] == CsvLine(bills[i], money, when)
  {
    seq(|bills|, i requires 0 <= i < |bills| => CsvLine(bills[i], money, when))
  }

  const ExportErrorKey: string := "billList.exportError"

  /** `exportToCsv`: refused for an empty list; otherwise the header line
      and one line per displayed bill, joined with newlines. */
  function ExportCsv(bills: seq<BillView>, money: Option<real> -> string,
                     when: Option<int> -> string): (r: Result<string>)
    ensures r.Err? <==> bills == []
    ensures r.Err? ==> r.error == ExportErrorKey
  {
    if bills == [] then Err(ExportErrorKey)
    else Ok(Join([Join(CsvHeaders, ',')] + CsvLines(bills, money, when), '\n'))
  }

  predicate NoNewline(b: BillView, money: Option<real> -> string, when: Option<int> -> string) {
    forall j :: 0 <= j < |CsvHeaders| ==> '\n' !in CsvCells(b, money, when)[j]
  }

  /** With no line break inside a cell the file reads back as the header
      and one line per bill, in the displayed order. */
  lemma CsvHasOneLinePerBill(bills: seq<BillView>, money: Option<real> -> string,
                             when: Option<int> -> string)
    requires bills != []
    requires forall i :: 0 <= i < |bills| ==> NoNewline(bills[i], money, when)
    ensures var lines := Pieces(ExportCsv(bills, money, when).value, '\n');
      |lines| == |bills| + 1
      && lines[0] == Join(CsvHeaders, ',')
      && forall i :: 0 <= i < |bills| ==> lines[i + 1] == CsvLine(bills[i], money, when)
  {
    var all := [Join(CsvHeaders, ',')] + CsvLines(bills, money, when);
    HeaderHasNoNewline();
    forall i | 0 <= i < |all| ensures '\n' !in all[i] {
      if i > 0 {
        LineHasNoNewline(bills[i - 1], money, when);
      }
    }
    PiecesOfJoin(all, '\n');
  }

  lemma HeaderHasNoNewline()
    ensures '\n' !in Join(CsvHeaders, ',')
  {
    JoinAvoids(CsvHeaders, ',', '\n');
  }

  lemma LineHasNoNewline(b: BillView, money: Option<real> -> string, when: Option<int> -> string)
    requires NoNewline(b, money, when)
    ensures '\n' !in CsvLine(b, money, when)
  {
    JoinAvoids(CsvCells(b, money, when), ',', '\n');
  }

  /** A line whose cells hold no comma splits back into its seven cells. */
  lemma CleanLineReadsBack(b: BillView, money: Option<real> -> string, when: Option<int> -> string)
    requires forall j :: 0 <= j < |CsvHeaders| ==> ',' !in CsvCells(b, money, when)[j]
    ensures Pieces(CsvLine(b, money, when), ',') == CsvCells(b, money, when)
  {
    PiecesOfJoin(CsvCells(b, money, when), ',');
  }

  /** No cell is quoted, so a comma inside one (a name written "Doe, Jane",
      an amount from one thousand rupees up as the Indian format writes it)
      reads back as more than seven columns. */
  lemma CommaInCellShiftsColumns(b: BillView, money: Option<real> -> string,
                                 when: Option<int> -> string, j: nat)
    requires j < |CsvHeaders| && ',' in CsvCells(b, money, when)[j]
    ensures |Pieces(CsvLine(b, money, when), ',')| > |CsvHeaders|
  {
    PiecesOfJoinAll(CsvCells(b, money, when), ',');
    PiecesOfAllCount(CsvCells(b, money, when), ',', j);
  }

  /** Owners and managers may manage bills. */
  predicate CanManage(role: Option<string>) {
    role == Some("OWNER") || role == Some("MANAGER")
  }
}

=== FILE: bill_service.dfy ===
/** Bill creation in the backend service (without the money totals): the
    defaults it fills in, the duplicate and customer checks, the per-item
    product lookup with one stock update per priced item, the PDF token, and
    the customer statistics it keeps. The document stores are sequences in
    insertion order; the store assigns ids from a counter. */
module BillService {
  import opened Wrappers
  import opened Text
  import opened Models
  import opened Repos
  import PdfToken

  datatype StockUpdate = StockUpdate(productId: string, qty: int)

  /** The bill and customer collections, the id counter of the store, and
      the stock updates sent to the product service so far. */
  datatype Stores = Stores(
    bills: seq<Bill>,
    customers: seq<Customer>,
    nextId: nat,
    stockUpdates: seq<StockUpdate>)

  /** What a call sees of the outside world: the clock, the name of the
      authenticated principal (possibly null), the UUID drawn for a token,
      and the product catalogue keyed by business id. */
  datatype Env = Env(
    now: int,
    principal: Option<string>,
    uuid: string,
    catalogue: map<string, Product>)

  // ---------------------------------------------------------------------
  // Items
  // ---------------------------------------------------------------------

  /** An item is priced (and its stock updated) when it names a product id
      that is not blank and the catalogue knows it. The stock update is
      recorded and never refuses. */
  predicate Priced(item: BillItem, catalogue: map<string, Product>) {
    item.productId.Some? && JavaTrim(item.productId.value) != []
    && item.productId.value in catalogue
  }

  /** Reference definition: the stock updates of the priced items, in item
      order. */
  function UpdatesFor(items: seq<BillItem>, catalogue: map<string, Product>): seq<StockUpdate> {
    if |items| == 0 then []
    else
      var head := if Priced(items[0], catalogue)
        then [StockUpdate(items[0].productId.value, items[0].qty)] else [];
      head + UpdatesFor(items[1..], catalogue)
  }

  function CountPriced(items: seq<BillItem>, catalogue: map<string, Product>): nat {
    if |items| == 0 then 0
    else (if Priced(items[0], catalogue) then 1 else 0) + CountPriced(items[1..], catalogue)
  }

  /** The item loop of `createBill`: a priced item takes the catalogue's
      name and price and issues one stock update; every other item is left
      as it is. */
  function PriceItems(items: seq<BillItem>, catalogue: map<string, Product>)
    : (r: (seq<BillItem>, seq<StockUpdate>))
    ensures |r.0| == |items|
    ensures forall i :: 0 <= i < |items| && !Priced(items[i], catalogue) ==> r.0[i] == items[i]
    ensures forall i :: 0 <= i < |items| && Priced(items[i], catalogue) ==>
      var p := catalogue[items[i].productId.value];
      r.0[i] == items[i].(productName := p.name, price := p.price)
    ensures r.1 == UpdatesFor(items, catalogue)
    ensures |r.1| == CountPriced(items, catalogue)
  {
    if |items| == 0 then ([], [])
    else
      var rest := PriceItems(items[1..], catalogue);
      var it := items[0];
      if Priced(it, catalogue) then
        var p := catalogue[it.productId.value];
        ([it.(productName := p.name, price := p.price)] + rest.0,
         [StockUpdate(it.productId.value, it.qty)] + rest.1)
      else
        ([it] + rest.0, rest.1)
  }

  // ---------------------------------------------------------------------
  // createBill
  // ---------------------------------------------------------------------

  /** The business id after defaulting: a null or blank id becomes "B"
      followed by the current milliseconds. */
  function EffectiveBillId(billId: Option<string>, now: int): (r: string)
    ensures !NullOrTrimEmpty(billId) ==> r == billId.value
    ensures NullOrTrimEmpty(billId) ==> r == "B" + IntToString(now)
  {
    if NullOrTrimEmpty(billId) then "B" + IntToString(now) else billId.value
  }

  /** The author after defaulting: the principal's name, or "system". */
  function EffectiveAddedBy(addedBy: Option<string>, principal: Option<string>): (r: string)
    ensures !NullOrTrimEmpty(addedBy) ==> r == addedBy.value
    ensures NullOrTrimEmpty(addedBy) && principal.Some? ==> r == principal.value
    ensures NullOrTrimEmpty(addedBy) && principal.None? ==> r == "system"
  {
    if !NullOrTrimEmpty(addedBy) then addedBy.value
    else if principal.Some? then principal.value
    else "system"
  }

  /** The purchase-statistics update: one more purchase, last purchase now,
      the bill id appended unless already listed. */
  function RecordPurchase(c: Customer, billId: string, now: int): (r: Customer)
    ensures r.totalPurchaseCount == c.totalPurchaseCount + 1
    ensures r.lastPurchaseDate == Some(now)
    ensures billId in r.purchaseHistory
    ensures billId in c.purchaseHistory ==> r.purchaseHistory == c.purchaseHistory
    ensures billId !in c.purchaseHistory ==> r.purchaseHistory == c.purchaseHistory + [billId]
    ensures r.(totalPurchaseCount := c.totalPurchaseCount, lastPurchaseDate := c.lastPurchaseDate,
               purchaseHistory := c.purchaseHistory) == c
  {
    var h := if billId in c.purchaseHistory then c.purchaseHistory else c.purchaseHistory + [billId];
    c.(totalPurchaseCount := c.totalPurchaseCount + 1, lastPurchaseDate := Some(now),
       purchaseHistory := h)
  }

  /** The customer a bill is charged to: the stored one with the bill's
      mobile, or a new record built from the bill's customer details. */
  function CustomerFor(customers: seq<Customer>, info: CustomerInfo): (c: Customer)
    ensures c.mobile == info.mobile
    ensures FindByMobile(customers, info.mobile).Some? ==>
      c == customers[FindByMobile(customers, info.mobile).value]
    ensures FindByMobile(customers, info.mobile).None? ==>
      c == NewCustomer(info.name, info.email, info.mobile, None)
  {
    match FindByMobile(customers, info.mobile)
    case Some(k) => customers[k]
    case None => NewCustomer(info.name, info.email, info.mobile, None)
  }

  /** The bill as `createBill` prepares it for saving: the defaulted id
      and author, the priced items, the creation time and the PDF token. */
  function Prepared(bill: Bill, env: Env): (b: Bill)
    ensures b.id == bill.id && b.customer == bill.customer
    ensures b.billId == Some(EffectiveBillId(bill.billId, env.now))
    ensures b.addedBy == Some(EffectiveAddedBy(bill.addedBy, env.principal))
    ensures b.createdAt == Some(env.now)
    ensures b.items == PriceItems(bill.items, env.catalogue).0
  {
    var billId := EffectiveBillId(bill.billId, env.now);
    var token := if NullOrTrimEmpty(bill.pdfAccessToken)
      then Some(PdfToken.Generate(billId, env.uuid, env.now))
      else bill.pdfAccessToken;
    bill.(billId := Some(billId), addedBy := Some(EffectiveAddedBy(bill.addedBy, env.principal)),
          items := PriceItems(bill.items, env.catalogue).0, createdAt := Some(env.now),
          pdfAccessToken := token)
  }

  /** The customer `createBill` charges and saves: the stored one with the
      bill's mobile, or a new one, with the purchase recorded. */
  function Charged(customers: seq<Customer>, bill: Bill, now: int): (c: Customer)
    requires bill.customer.Some?
    ensures c == RecordPurchase(CustomerFor(customers, bill.customer.value),
                                EffectiveBillId(bill.billId, now), now)
  {
    RecordPurchase(CustomerFor(customers, bill.customer.value), EffectiveBillId(bill.billId, now), now)
  }

  /** Everything `createBill` stores once both checks pass: the stock
      updates of the priced items, the charged customer, then the bill. */
  function Saved(st: Stores, bill: Bill, env: Env): (r: (Stores, Bill))
    requires bill.customer.Some?
    ensures r.1 == Prepared(bill, env).(id := r.1.id) && r.1.id.Some?
    ensures bill.id.Some? ==> r.1.id == bill.id
    ensures r.1 in r.0.bills
    ensures bill.id.None? ==> r.0.bills == st.bills + [r.1]
    ensures r.0.stockUpdates == st.stockUpdates + UpdatesFor(bill.items, env.catalogue)
    ensures r.0.customers == SaveCustomer(st.customers, Charged(st.customers, bill, env.now), st.nextId).0
  {
    var (customers, _, n1) := SaveCustomer(st.customers, Charged(st.customers, bill, env.now), st.nextId);
    var (bills, saved, n2) := SaveBill(st.bills, Prepared(bill, env), n1);
    (Stores(bills, customers, n2, st.stockUpdates + PriceItems(bill.items, env.catalogue).1), saved)
  }

  /** A `NullPointerException` has no message, which string concatenation
      writes as "null". */
  const NullMessage: string := "null"

  /** `createBill(bill, locale, isSyncMode)`. A duplicate id (outside sync
      mode) and missing customer details are refused before anything is
      stored. Otherwise both saves happen, and then the audit entry's
      `Map.of` is handed the charged customer's e-mail: a null one throws,
      leaving the bill and the customer stored (no transaction manager is
      configured, so nothing is rolled back). */
  function CreateBill(st: Stores, bill: Bill, env: Env, isSyncMode: bool)
    : (r: (Stores, Result<Bill>))
    ensures var id := EffectiveBillId(bill.billId, env.now);
      Refused(st, bill, env, isSyncMode) ==> r.0 == st && r.1.Err?
    ensures var id := EffectiveBillId(bill.billId, env.now);
      !isSyncMode && HasBillId(st.bills, Some(id)) ==> r.1 == Err("Bill already exists: " + id)
    ensures var id := EffectiveBillId(bill.billId, env.now);
      !(!isSyncMode && HasBillId(st.bills, Some(id))) && (bill.customer.None? || bill.customer.value.mobile.None?)
      ==> r.1 == Err("Customer details are required")
    ensures !Refused(st, bill, env, isSyncMode) ==>
      r.0 == Saved(st, bill, env).0
      && (r.1.Ok? <==> Charged(st.customers, bill, env.now).email.Some?)
      && (r.1.Ok? ==> r.1.value == Saved(st, bill, env).1)
      && (r.1.Err? ==> r.1.error == NullMessage)
  {
    var billId := EffectiveBillId(bill.billId, env.now);
    if !isSyncMode && HasBillId(st.bills, Some(billId)) then
      (st, Err("Bill already exists: " + billId))
    else if bill.customer.None? || bill.customer.value.mobile.None? then
      (st, Err("Customer details are required"))
    else
      var (st', saved) := Saved(st, bill, env);
      if Charged(st.customers, bill, env.now).email.None? then (st', Err(NullMessage))
      else (st', Ok(saved))
  }

  /** The refusals that come before anything is stored. */
  predicate Refused(st: Stores, bill: Bill, env: Env, isSyncMode: bool) {
    (!isSyncMode && HasBillId(st.bills, Some(EffectiveBillId(bill.billId, env.now))))
    || bill.customer.None? || bill.customer.value.mobile.None?
  }

  /** Past the checks, the call fails exactly for a charged customer
      without an e-mail, and even then the bill is stored: a new customer
      takes the bill's e-mail, a known one keeps its own. */
  lemma FailsAfterSaving(st: Stores, bill: Bill, env: Env, isSyncMode: bool)
    requires !Refused(st, bill, env, isSyncMode)
    ensures var info := bill.customer.value;
      CreateBill(st, bill, env, isSyncMode).1.Err? <==>
        (match FindByMobile(st.customers, info.mobile)
         case Some(k) => st.customers[k].email.None?
         case None => info.email.None?)
    ensures bill.id.None? ==>
      |CreateBill(st, bill, env, isSyncMode).0.bills| == |st.bills| + 1
      && CreateBill(st, bill, env, isSyncMode).0.bills[|st.bills|].billId
         == Some(EffectiveBillId(bill.billId, env.now))
  {
    if bill.id.None? {
      var saved := Saved(st, bill, env).1;
      assert (st.bills + [saved])[|st.bills|] == saved;
    }
  }

  /** `getBillById`. */
  function GetBillById(bills: seq<Bill>, billId: string): (r: Result<Bill>)
    ensures r.Ok? <==> HasBillId(bills, Some(billId))
    ensures r.Ok? ==> r.value in bills && r.value.billId == Some(billId)
    ensures r.Err? ==> r.error == "Bill not found: " + billId
  {
    match FindByBillId(bills, Some(billId))
    case Some(b) => Ok(b)
    case None => Err("Bill not found: " + billId)
  }

  // ---------------------------------------------------------------------
  // Properties relating several calls
  // ---------------------------------------------------------------------

  /** Defaulting never leaves a blank business id. */
  lemma EffectiveBillIdNotBlank(billId: Option<string>, now: int)
    ensures JavaTrim(EffectiveBillId(billId, now)) != []
  {
    if NullOrTrimEmpty(billId) {
      var s := "B" + IntToString(now);
      assert s[0] == 'B';
      JavaTrimEmpty(s);
    }
  }

  /** A token is generated exactly when the bill carries none, and the
      generated token opens the PDF of that bill for an hour. */
  lemma TokenOnlyWhenMissing(st: Stores, bill: Bill, env: Env, isSyncMode: bool)
    requires CreateBill(st, bill, env, isSyncMode).1.Ok?
    ensures var saved := CreateBill(st, bill, env, isSyncMode).1.value;
      (!NullOrTrimEmpty(bill.pdfAccessToken) ==> saved.pdfAccessToken == bill.pdfAccessToken)
      && (NullOrTrimEmpty(bill.pdfAccessToken) ==>
          saved.pdfAccessToken == Some(PdfToken.Generate(saved.billId.value, env.uuid, env.now)))
  {
  }

  /** The charged customer is stored with one more purchase and the bill
      id listed once (appended only when new), and the stored customers
      grow by one record exactly when no customer had that mobile. Every
      stored document carries an id, as the store assigns one on insert. */
  lemma CustomerStatistics(st: Stores, bill: Bill, env: Env, isSyncMode: bool)
    requires forall i :: 0 <= i < |st.customers| ==> st.customers[i].id.Some?
    requires !Refused(st, bill, env, isSyncMode)
    ensures var st' := CreateBill(st, bill, env, isSyncMode).0;
      var info := bill.customer.value;
      var after := RecordPurchase(CustomerFor(st.customers, info),
                                  EffectiveBillId(bill.billId, env.now), env.now);
      (exists k :: 0 <= k < |st'.customers| && st'.customers[k] == after.(id := st'.customers[k].id))
      && (|st'.customers| == |st.customers| + 1 <==> FindByMobile(st.customers, info.mobile).None?)
  {
    var info := bill.customer.value;
    var id := EffectiveBillId(bill.billId, env.now);
    var after := RecordPurchase(CustomerFor(st.customers, info), id, env.now);
    var r := SaveCustomer(st.customers, after, st.nextId);
    assert CreateBill(st, bill, env, isSyncMode).0.customers == r.0;
    var k :| 0 <= k < |r.0| && r.0[k] == r.1;
    assert r.0[k] == after.(id := r.0[k].id);
    match FindByMobile(st.customers, info.mobile)
    case Some(j) =>
      assert after.id == st.customers[j].id;
      assert IndexOfId(st.customers, CustomerId, after.id.value).Some?;
    case None =>
  }

  /** Two bills with the same id in sync mode: the second is stored too, so
      sync mode can store the same business id twice, while normal mode
      refuses it and stores nothing. */
  lemma SyncModeStoresDuplicates(st: Stores, bill: Bill, env: Env)
    requires bill.id.None? && bill.customer.Some? && bill.customer.value.mobile.Some?
    requires HasBillId(st.bills, Some(EffectiveBillId(bill.billId, env.now)))
    ensures !Refused(st, bill, env, true)
    ensures CreateBill(st, bill, env, false).1.Err? && CreateBill(st, bill, env, false).0 == st
    ensures |CreateBill(st, bill, env, true).0.bills| == |st.bills| + 1
  {
  }
}

=== FILE: cart.dfy ===
/** The shopping cart of the browser application: a list of items keyed
    by `productId` (a missing id is a key like any other, since JavaScript
    compares `undefined === undefined` as true), and the product card's
    add-to-cart rule that keeps the cart within the shown stock. */
module Cart {
  import opened Wrappers
  import opened Text
  import Seqs

  /** A product as the list page receives it; the numbers may be missing. */
  datatype ProductView = ProductView(
    productId: Option<string>, name: Option<string>, category: Option<string>,
    price: Option<real>, quantity: Option<int>, reorderLevel: Option<int>)

  /** A cart entry: the product's fields, its stock quantity overwritten by
      the quantity in the cart. */
  datatype CartItem = CartItem(productId: Option<string>, name: Option<string>, price: Option<real>,
                               quantity: int)

  predicate HasId(cart: seq<CartItem>, id: Option<string>) {
    exists i :: 0 <= i < |cart| && cart[i].productId == id
  }

  predicate UniqueIds(cart: seq<CartItem>) {
    forall i, j :: 0 <= i < j < |cart| ==> cart[i].productId != cart[j].productId
  }

  function AddQuantity(id: Option<string>, q: int): CartItem -> CartItem {
    (item: CartItem) => if item.productId == id then item.(quantity := item.quantity + q) else item
  }

  function Map(cart: seq<CartItem>, f: CartItem -> CartItem): (r: seq<CartItem>)
    ensures |r| == |cart| && forall i :: 0 <= i < |cart| ==> r[i] == f(cart[i])
  {
    seq(|cart|, i requires 0 <= i < |cart| => f(cart[i]))
  }

  /** `addToCart`: a product already in the cart has the quantity added
      to every entry of its id, in place; a new one is appended with the
      quantity. */
  function AddToCart(cart: seq<CartItem>, p: ProductView, q: int): (r: seq<CartItem>)
    ensures HasId(cart, p.productId) ==> |r| == |cart|
    ensures HasId(cart, p.productId) ==> forall i :: 0 <= i < |cart| ==>
      (cart[i].productId == p.productId ==> r[i] == cart[i].(quantity := cart[i].quantity + q))
      && (cart[i].productId != p.productId ==> r[i] == cart[i])
    ensures !HasId(cart, p.productId) ==> r == cart + [CartItem(p.productId, p.name, p.price, q)]
  {
    if HasId(cart, p.productId) then Map(cart, AddQuantity(p.productId, q))
    else cart + [CartItem(p.productId, p.name, p.price, q)]
  }

  function SetQuantity(id: Option<string>, q: int): CartItem -> CartItem {
    (item: CartItem) => if item.productId == id then item.(quantity := q) else item
  }

  function PositiveQuantity(item: CartItem): bool {
    item.quantity > 0
  }

  /** `updateQuantity`: the value is clamped at 0 and set on the entries
      of the id; then every entry whose quantity is not positive leaves the
      cart, whichever its id. */
  function UpdateQuantity(cart: seq<CartItem>, id: Option<string>, newQuantity: int): (r: seq<CartItem>)
    ensures forall i :: 0 <= i < |r| ==> r[i].quantity > 0
    ensures newQuantity <= 0 ==> forall i :: 0 <= i < |r| ==> r[i].productId != id
    ensures forall i :: 0 <= i < |r| && r[i].productId == id ==> r[i].quantity == newQuantity
    ensures forall i :: 0 <= i < |cart| && cart[i].productId != id && cart[i].quantity > 0 ==> cart[i] in r
    ensures newQuantity > 0 ==>
      forall i :: 0 <= i < |cart| && cart[i].productId == id ==> cart[i].(quantity := newQuantity) in r
    ensures Seqs.Subsequence(r, Map(cart, SetQuantity(id, if newQuantity < 0 then 0 else newQuantity)))
  {
    var qty := if newQuantity < 0 then 0 else newQuantity;
    var updated := Map(cart, SetQuantity(id, qty));
    assert forall i :: 0 <= i < |cart| && cart[i].productId != id ==> updated[i] == cart[i];
    assert forall i :: 0 <= i < |cart| && cart[i].productId == id ==> updated[i] == cart[i].(quantity := qty);
    Seqs.FilterIsSubsequence(updated, PositiveQuantity);
    Seqs.Filter(updated, PositiveQuantity)
  }

  function OtherId(id: Option<string>): CartItem -> bool {
    (item: CartItem) => item.productId != id
  }

  /** `removeFromCart`: every entry of the id goes; the others keep their
      order. */
  function RemoveFromCart(cart: seq<CartItem>, id: Option<string>): (r: seq<CartItem>)
    ensures !HasId(r, id)
    ensures Seqs.Subsequence(r, cart)
    ensures forall i :: 0 <= i < |cart| && cart[i].productId != id ==> cart[i] in r
  {
    Seqs.FilterIsSubsequence(cart, OtherId(id));
    Seqs.Filter(cart, OtherId(id))
  }

  /** `cartCount`: the quantities summed. */
  function CartCount(cart: seq<CartItem>): (n: int)
    ensures (forall i :: 0 <= i < |cart| ==> cart[i].quantity > 0) ==> n >= |cart|
  {
    if |cart| == 0 then 0 else cart[0].quantity + CartCount(cart[1..])
  }

  /** The code's `reduce` for the count: a left fold from 0. */
  function ReduceCount(acc: int, cart: seq<CartItem>): int
    decreases |cart|
  {
    if |cart| == 0 then acc else ReduceCount(acc + cart[0].quantity, cart[1..])
  }

  /** The count is the code's left fold. */
  lemma {:induction false} CartCountIsReduce(acc: int, cart: seq<CartItem>)
    ensures ReduceCount(acc, cart) == acc + CartCount(cart)
    decreases |cart|
  {
    if |cart| > 0 {
      CartCountIsReduce(acc + cart[0].quantity, cart[1..]);
    }
  }

  /** `cartTotal`: price times quantity summed; a missing price makes the
      total NaN (`None`). */
  function CartTotal(cart: seq<CartItem>): (r: Option<real>)
    ensures r.Some? <==> forall i :: 0 <= i < |cart| ==> cart[i].price.Some?
  {
    if |cart| == 0 then Some(0.0)
    else
      var rest := CartTotal(cart[1..]);
      assert forall i :: 1 <= i < |cart| ==> cart[i] == cart[1..][i - 1];
      if cart[0].price.None? || rest.None? then None
      else Some(LineTotal(cart[0].price.value, cart[0].quantity) + rest.value)
  }

  /** One line's amount, price times quantity. */
  function LineTotal(price: real, quantity: int): real {
    price * quantity as real
  }

  /** The code's `reduce` for the total: a left fold from 0 in which a
      missing price, like NaN, poisons everything after it. */
  function ReduceTotal(acc: Option<real>, cart: seq<CartItem>): Option<real>
    decreases |cart|
  {
    if |cart| == 0 then acc
    else
      var next := if acc.None? || cart[0].price.None? then None
                  else Some(acc.value + LineTotal(cart[0].price.value, cart[0].quantity));
      ReduceTotal(next, cart[1..])
  }

  lemma {:induction false} ReduceNaN(cart: seq<CartItem>)
    ensures ReduceTotal(None, cart) == None
    decreases |cart|
  {
    if |cart| > 0 {
      ReduceNaN(cart[1..]);
    }
  }

  /** The total is the code's left fold: from any start, the fold adds the
      cart's total, and it is NaN exactly when the total is. */
  lemma {:induction false} CartTotalIsReduce(acc: real, cart: seq<CartItem>)
    ensures CartTotal(cart).None? ==> ReduceTotal(Some(acc), cart) == None
    ensures CartTotal(cart).Some? ==> ReduceTotal(Some(acc), cart) == Some(acc + CartTotal(cart).value)
    decreases |cart|
  {
    if |cart| > 0 {
      if cart[0].price.None? {
        ReduceNaN(cart[1..]);
      } else {
        CartTotalIsReduce(acc + LineTotal(cart[0].price.value, cart[0].quantity), cart[1..]);
      }
    }
  }

  /** `clearCart`. */
  const Empty: seq<CartItem> := []

  lemma {:induction false} CountAppend(a: seq<CartItem>, b: seq<CartItem>)
    ensures CartCount(a + b) == CartCount(a) + CartCount(b)
    decreases |a|
  {
    if |a| > 0 {
      assert (a + b)[1..] == a[1..] + b;
      CountAppend(a[1..], b);
    } else {
      assert a + b == b;
    }
  }

  /** The quantity in the cart under one id. */
  function QuantityOf(cart: seq<CartItem>, id: Option<string>): int {
    if |cart| == 0 then 0
    else (if cart[0].productId == id then cart[0].quantity else 0) + QuantityOf(cart[1..], id)
  }

  lemma {:induction false} QuantityOfAppend(a: seq<CartItem>, b: seq<CartItem>, id: Option<string>)
    ensures QuantityOf(a + b, id) == QuantityOf(a, id) + QuantityOf(b, id)
    decreases |a|
  {
    if |a| > 0 {
      assert (a + b)[1..] == a[1..] + b;
      QuantityOfAppend(a[1..], b, id);
    } else {
      assert a + b == b;
    }
  }

  /** Adding `q` of a product raises the count by `q` and the product's
      own quantity by `q`, when ids are unique; uniqueness is kept. */
  lemma {:induction false} AddToCartCounts(cart: seq<CartItem>, p: ProductView, q: int)
    requires UniqueIds(cart)
    ensures UniqueIds(AddToCart(cart, p, q))
    ensures CartCount(AddToCart(cart, p, q)) == CartCount(cart) + q
    ensures QuantityOf(AddToCart(cart, p, q), p.productId) == QuantityOf(cart, p.productId) + q
    decreases |cart|
  {
    if !HasId(cart, p.productId) {
      AddNewCounts(cart, p, q);
    } else if cart[0].productId == p.productId {
      AddAtHeadCounts(cart, p, q);
    } else {
      assert HasId(cart[1..], p.productId) by {
        var k :| 0 <= k < |cart| && cart[k].productId == p.productId;
        assert cart[1..][k - 1] == cart[k];
      }
      assert UniqueIds(cart[1..]) by {
        assert forall i :: 0 <= i < |cart| - 1 ==> cart[1..][i] == cart[i + 1];
      }
      AddToCartCounts(cart[1..], p, q);
      AddBelowHeadCounts(cart, p, q);
    }
  }

  /** A new product goes last with its quantity. */
  lemma AddNewCounts(cart: seq<CartItem>, p: ProductView, q: int)
    requires UniqueIds(cart) && !HasId(cart, p.productId)
    ensures UniqueIds(AddToCart(cart, p, q))
    ensures CartCount(AddToCart(cart, p, q)) == CartCount(cart) + q
    ensures QuantityOf(AddToCart(cart, p, q), p.productId) == QuantityOf(cart, p.productId) + q
  {
    var single := CartItem(p.productId, p.name, p.price, q);
    CountAppend(cart, [single]);
    QuantityOfAppend(cart, [single], p.productId);
    assert [single][1..] == [];
  }

  /** The product is the first entry, and by uniqueness the only one. */
  lemma AddAtHeadCounts(cart: seq<CartItem>, p: ProductView, q: int)
    requires UniqueIds(cart) && |cart| > 0 && cart[0].productId == p.productId
    ensures UniqueIds(AddToCart(cart, p, q))
    ensures CartCount(AddToCart(cart, p, q)) == CartCount(cart) + q
    ensures QuantityOf(AddToCart(cart, p, q), p.productId) == QuantityOf(cart, p.productId) + q
  {
    var r := AddToCart(cart, p, q);
    assert HasId(cart, p.productId);
    AddKeepsUnique(cart, p, q);
    assert !HasId(cart[1..], p.productId) by {
      assert forall i :: 1 <= i < |cart| ==> cart[i] == cart[1..][i - 1];
    }
    assert r[1..] == cart[1..] by {
      assert forall i :: 1 <= i < |cart| ==> r[i] == cart[i];
    }
    assert r[0] == cart[0].(quantity := cart[0].quantity + q);
    QuantityOfUntouched(cart[1..], p.productId);
  }

  /** The product is further down: the first entry stays, and the rest
      changes as adding to the rest does. */
  lemma AddBelowHeadCounts(cart: seq<CartItem>, p: ProductView, q: int)
    requires UniqueIds(cart) && |cart| > 0 && cart[0].productId != p.productId
    requires HasId(cart[1..], p.productId)
    requires CartCount(AddToCart(cart[1..], p, q)) == CartCount(cart[1..]) + q
    requires QuantityOf(AddToCart(cart[1..], p, q), p.productId) == QuantityOf(cart[1..], p.productId) + q
    ensures UniqueIds(AddToCart(cart, p, q))
    ensures CartCount(AddToCart(cart, p, q)) == CartCount(cart) + q
    ensures QuantityOf(AddToCart(cart, p, q), p.productId) == QuantityOf(cart, p.productId) + q
  {
    var r := AddToCart(cart, p, q);
    assert HasId(cart, p.productId) by {
      var k :| 0 <= k < |cart[1..]| && cart[1..][k].productId == p.productId;
      assert cart[k + 1] == cart[1..][k];
    }
    AddKeepsUnique(cart, p, q);
    assert r[1..] == AddToCart(cart[1..], p, q);
    assert r[0] == cart[0];
  }

  /** Adding to a product already in the cart changes no id, so unique
      ids stay unique. */
  lemma AddKeepsUnique(cart: seq<CartItem>, p: ProductView, q: int)
    requires UniqueIds(cart) && HasId(cart, p.productId)
    ensures UniqueIds(AddToCart(cart, p, q))
  {
    var r := AddToCart(cart, p, q);
    assert forall i :: 0 <= i < |r| ==> r[i].productId == cart[i].productId;
  }

  lemma {:induction false} QuantityOfUntouched(cart: seq<CartItem>, id: Option<string>)
    requires !HasId(cart, id)
    ensures QuantityOf(cart, id) == 0
    decreases |cart|
  {
    if |cart| > 0 {
      assert !HasId(cart[1..], id) by {
        assert forall i :: 1 <= i < |cart| ==> cart[i] == cart[1..][i - 1];
      }
      QuantityOfUntouched(cart[1..], id);
    }
  }

  /** Removing an id takes exactly its quantity out of the count. */
  lemma {:induction false} RemoveFromCartCounts(cart: seq<CartItem>, id: Option<string>)
    ensures CartCount(RemoveFromCart(cart, id)) == CartCount(cart) - QuantityOf(cart, id)
    ensures QuantityOf(RemoveFromCart(cart, id), id) == 0
    decreases |cart|
  {
    if |cart| > 0 {
      RemoveFromCartCounts(cart[1..], id);
      if cart[0].productId != id {
        assert RemoveFromCart(cart, id) == [cart[0]] + RemoveFromCart(cart[1..], id);
      }
    }
  }

  /** Dropping entries keeps ids unique. */
  lemma {:induction false} FilterKeepsUnique(cart: seq<CartItem>, keep: CartItem -> bool)
    requires UniqueIds(cart)
    ensures UniqueIds(Seqs.Filter(cart, keep))
    decreases |cart|
  {
    if |cart| > 0 {
      var rest := cart[1..];
      assert UniqueIds(rest) by {
        assert forall i :: 0 <= i < |rest| ==> rest[i] == cart[i + 1];
      }
      FilterKeepsUnique(rest, keep);
      var fr := Seqs.Filter(rest, keep);
      forall i | 0 <= i < |fr| ensures fr[i].productId != cart[0].productId {
        var k :| 0 <= k < |rest| && rest[k] == fr[i];
        assert rest[k] == cart[k + 1];
      }
    }
  }

  /** Updating and removing keep ids unique; after an update the id holds
      the clamped quantity when it is positive and is gone otherwise. */
  lemma UpdateAndRemoveKeepUnique(cart: seq<CartItem>, id: Option<string>, q: int)
    requires UniqueIds(cart)
    ensures UniqueIds(UpdateQuantity(cart, id, q))
    ensures UniqueIds(RemoveFromCart(cart, id))
    ensures q <= 0 ==> !HasId(UpdateQuantity(cart, id, q), id)
  {
    var qty := if q < 0 then 0 else q;
    var updated := Map(cart, SetQuantity(id, qty));
    assert forall i :: 0 <= i < |cart| ==> updated[i].productId == cart[i].productId;
    FilterKeepsUnique(updated, PositiveQuantity);
    FilterKeepsUnique(cart, OtherId(id));
  }

  // ---------------------------------------------------------------------
  // The product card
  // ---------------------------------------------------------------------

  function SameId(id: Option<string>): CartItem -> bool {
    (item: CartItem) => item.productId == id
  }

  /** `remainingStock`: the stock minus the quantity of the first cart
      entry of the product (0 when none); NaN (`None`) without a stock. */
  function RemainingStock(p: ProductView, cart: seq<CartItem>): (r: Option<int>)
    ensures p.quantity.None? <==> r.None?
    ensures r.Some? && !HasId(cart, p.productId) ==> r.value == p.quantity.value
  {
    if p.quantity.None? then None
    else match Seqs.FirstIndex(cart, SameId(p.productId))
      case None => Some(p.quantity.value)
      case Some(k) => Some(p.quantity.value - cart[k].quantity)
  }

  /** The low-stock badge: stock below the reorder level; a missing number
      compares false. */
  predicate IsLowStock(p: ProductView) {
    p.quantity.Some? && p.reorderLevel.Some? && p.quantity.value < p.reorderLevel.value
  }

  /** The quantity field: the parsed input, at least 1; an unparseable or
      zero input reads as 1. */
  function QuantityInput(text: string): (r: int)
    ensures r >= 1
    ensures JsParseInt(text).Some? && JsParseInt(text).value >= 1 ==> r == JsParseInt(text).value
  {
    var parsed := JsParseInt(text);
    var n := if parsed.Some? && parsed.value != 0 then parsed.value else 1;
    if n < 1 then 1 else n
  }

  datatype Toast = StockError(remaining: Option<int>) | Added(count: int) | Silent

  /** `handleAddToCart`: more than the remaining stock is refused with an
      error and no change; a positive quantity is added and the field
      resets to 1. A product without a stock has no limit, since any
      comparison with NaN is false. Returns the cart, the toast, and the
      quantity field afterwards. */
  function HandleAddToCart(p: ProductView, cart: seq<CartItem>, qty: int): (r: (seq<CartItem>, Toast, int))
    ensures var rem := RemainingStock(p, cart);
      (rem.Some? && qty > rem.value ==> r == (cart, StockError(rem), qty))
      && (!(rem.Some? && qty > rem.value) && qty > 0 ==> r == (AddToCart(cart, p, qty), Added(qty), 1))
      && (!(rem.Some? && qty > rem.value) && qty <= 0 ==> r == (cart, Silent, qty))
  {
    var rem := RemainingStock(p, cart);
    if rem.Some? && qty > rem.value then (cart, StockError(rem), qty)
    else if qty > 0 then (AddToCart(cart, p, qty), Added(qty), 1)
    else (cart, Silent, qty)
  }

  /** Through the card, a product with a stock never has more in the cart
      than the stock, given unique ids. */
  lemma CardKeepsWithinStock(p: ProductView, cart: seq<CartItem>, qty: int)
    requires UniqueIds(cart) && p.quantity.Some?
    requires QuantityOf(cart, p.productId) <= p.quantity.value
    ensures QuantityOf(HandleAddToCart(p, cart, qty).0, p.productId) <= p.quantity.value
    ensures UniqueIds(HandleAddToCart(p, cart, qty).0)
  {
    var rem := RemainingStock(p, cart);
    if !(qty > rem.value) && qty > 0 {
      AddToCartCounts(cart, p, qty);
      match Seqs.FirstIndex(cart, SameId(p.productId))
      case None =>
        QuantityOfUntouched(cart, p.productId);
      case Some(k) =>
        UniqueQuantityAt(cart, k);
    }
  }

  /** With unique ids, the quantity of an id is that of its one entry. */
  lemma {:induction false} UniqueQuantityAt(cart: seq<CartItem>, k: nat)
    requires UniqueIds(cart) && k < |cart|
    ensures QuantityOf(cart, cart[k].productId) == cart[k].quantity
    decreases |cart|
  {
    var id := cart[k].productId;
    if k == 0 {
      assert !HasId(cart[1..], id) by {
        assert forall i :: 1 <= i < |cart| ==> cart[i] == cart[1..][i - 1];
      }
      QuantityOfUntouched(cart[1..], id);
    } else {
      assert cart[1..][k - 1] == cart[k];
      UniqueQuantityAt(cart[1..], k - 1);
    }
  }

  /** Without a stock figure the card lets any positive amount through. */
  lemma MissingStockHasNoLimit(p: ProductView, cart: seq<CartItem>, qty: int)
    requires p.quantity.None? && qty > 0
    ensures HandleAddToCart(p, cart, qty).0 == AddToCart(cart, p, qty)
  {
  }
}

=== FILE: checkout.dfy ===
/** The checkout page: the customer's details, the checks before a bill is
    requested, the request built from the cart, and the page after the
    answer. The signed-in user and the clock are parameters. */
module Checkout {
  import opened Wrappers
  import opened Text
  import opened Cart
  import UiErrors
  import AuthService
  import BillService

  /** The three inputs; all start empty. */
  datatype CustomerInfo = CustomerInfo(name: string, email: string, mobile: string)

  const BlankInfo: CustomerInfo := CustomerInfo("", "", "")

  /** One line of the request, copied from a cart entry. */
  datatype ItemRequest = ItemRequest(productId: Option<string>, productName: Option<string>,
                                     qty: int, price: Option<real>)

  datatype CustomerRequest = CustomerRequest(name: string, email: string, mobile: string)

  datatype BillRequest = BillRequest(billId: string, customer: CustomerRequest,
                                     items: seq<ItemRequest>, addedBy: string)

  const ErrorMobileKey: string := "checkout.errorMobile"
  const ErrorEmptyCartKey: string := "checkout.errorEmptyCart"
  const BillErrorKey: string := "checkout.billError"

  function ItemOf(item: CartItem): ItemRequest {
    ItemRequest(item.productId, item.name, item.quantity, item.price)
  }

  function ItemsOf(cart: seq<CartItem>): (r: seq<ItemRequest>)
    ensures |r| == |cart|
    ensures forall i :: 0 <= i < |cart| ==> r[i] == ItemOf(cart[i])
  {
    seq(|cart|, i requires 0 <= i < |cart| => ItemOf(cart[i]))
  }

  /** `user?.email || 'system'`. */
  function AddedBy(user: Option<AuthService.UserInfo>): (r: string)
    ensures r != ""
  {
    if user.Some? && user.value.email != "" then user.value.email else "system"
  }

  /** `handleGenerateBill` up to the request: a missing mobile is reported
      before an empty cart; otherwise the request carries "B" and the
      current milliseconds, the name or "Customer", and one line per cart
      entry. */
  function Prepare(info: CustomerInfo, cart: seq<CartItem>, user: Option<AuthService.UserInfo>,
                   now: int): (r: Result<BillRequest>)
    ensures r.Err? <==> info.mobile == "" || cart == []
    ensures info.mobile == "" ==> r == Err(ErrorMobileKey)
    ensures info.mobile != "" && cart == [] ==> r == Err(ErrorEmptyCartKey)
    ensures r.Ok? ==> r.value.customer.mobile == info.mobile && r.value.customer.email == info.email
                      && r.value.customer.name == OrElse(Some(info.name), "Customer")
                      && r.value.billId == "B" + IntToString(now)
  {
    if info.mobile == "" then Err(ErrorMobileKey)
    else if cart == [] then Err(ErrorEmptyCartKey)
    else
      Ok(BillRequest("B" + IntToString(now),
                     CustomerRequest(if info.name != "" then info.name else "Customer", info.email, info.mobile),
                     ItemsOf(cart), AddedBy(user)))
  }

  /** The request's lines: price times quantity summed, `None` when a
      price is missing. */
  function RequestTotal(items: seq<ItemRequest>): Option<real> {
    if |items| == 0 then Some(0.0)
    else
      var rest := RequestTotal(items[1..]);
      if items[0].price.None? || rest.None? then None
      else Some(LineTotal(items[0].price.value, items[0].qty) + rest.value)
  }

  /** The request asks for exactly the cart: the same products, names,
      quantities and prices line by line, so its total is the subtotal the
      page shows. */
  lemma {:induction false} RequestMatchesCart(cart: seq<CartItem>)
    ensures |ItemsOf(cart)| == |cart|
    ensures forall i :: 0 <= i < |cart| ==>
      ItemsOf(cart)[i].productId == cart[i].productId && ItemsOf(cart)[i].qty == cart[i].quantity
      && ItemsOf(cart)[i].price == cart[i].price && ItemsOf(cart)[i].productName == cart[i].name
    ensures RequestTotal(ItemsOf(cart)) == CartTotal(cart)
  {
    if |cart| > 0 {
      RequestMatchesCart(cart[1..]);
      var items := ItemsOf(cart);
      assert items[1..] == ItemsOf(cart[1..]);
      assert items[0].price == cart[0].price && items[0].qty == cart[0].quantity;
      assert RequestTotal(items[1..]) == CartTotal(cart[1..]);
    }
  }

  /** The generated id survives the backend's defaulting, and its digits
      read back as the moment of the request. */
  lemma BillIdIsKept(info: CustomerInfo, cart: seq<CartItem>, user: Option<AuthService.UserInfo>,
                     now: int, later: int)
    requires Prepare(info, cart, user, now).Ok?
    ensures var id := Prepare(info, cart, user, now).value.billId;
      BillService.EffectiveBillId(Some(id), later) == id
      && id[0] == 'B' && JsParseInt(id[1..]) == Some(now)
  {
    var id := Prepare(info, cart, user, now).value.billId;
    TrimWithSpec(id, IsJavaTrimmable);
    assert !IsJavaTrimmable(id[0]);
    assert id[1..] == IntToString(now);
    JsParseIntOfNumber(now);
  }

  /** The author is the user's email when it has one. */
  lemma AuthorIsSignedInUser(info: CustomerInfo, cart: seq<CartItem>, user: Option<AuthService.UserInfo>,
                             now: int)
    requires Prepare(info, cart, user, now).Ok?
    ensures user.Some? && user.value.email != "" ==>
      Prepare(info, cart, user, now).value.addedBy == user.value.email
    ensures user.None? ==> Prepare(info, cart, user, now).value.addedBy == "system"
  {
  }

  // ---------------------------------------------------------------------
  // The page
  // ---------------------------------------------------------------------

  /** A shown error: a message key with the failure's text, if any. */
  datatype Notice = Notice(key: string, detail: Option<string>)

  datatype Page = Page(cart: seq<CartItem>, info: CustomerInfo, loading: bool, error: Option<Notice>)

  datatype Route = StayHere | GoToBills

  /** The generate button: disabled while loading, with an empty cart or
      with no mobile. */
  predicate CanSubmit(pg: Page) {
    !pg.loading && |pg.cart| != 0 && pg.info.mobile != ""
  }

  /** The button is enabled exactly when the page would send a request. */
  lemma EnabledIffRequest(pg: Page, user: Option<AuthService.UserInfo>, now: int)
    ensures CanSubmit(pg) <==> !pg.loading && Prepare(pg.info, pg.cart, user, now).Ok?
  {
  }

  /** Clicking generate: a failed check shows its key and sends nothing;
      otherwise loading starts, the error clears, and the request goes. */
  function Submit(pg: Page, user: Option<AuthService.UserInfo>, now: int): (r: (Page, Option<BillRequest>))
    ensures r.0.cart == pg.cart && r.0.info == pg.info
    ensures r.1.Some? <==> Prepare(pg.info, pg.cart, user, now).Ok?
    ensures r.1.None? ==> r.0 == pg.(error := Some(Notice(Prepare(pg.info, pg.cart, user, now).error, None)))
    ensures r.1.Some? ==> r.0.loading && r.0.error.None? && r.1.value == Prepare(pg.info, pg.cart, user, now).value
  {
    match Prepare(pg.info, pg.cart, user, now)
    case Err(key) => (pg.(error := Some(Notice(key, None))), None)
    case Ok(req) => (pg.(loading := true, error := None), Some(req))
  }

  /** The answer, `None` for success: on success the cart and the inputs are cleared and the
      bills list opens; on failure the cart and inputs stay and the error
      is shown. Loading ends either way. */
  function Finish(pg: Page, failure: Option<UiErrors.Failure>): (r: (Page, Route))
    ensures !r.0.loading
    ensures failure.None? ==> r == (Page(Empty, BlankInfo, false, pg.error), GoToBills)
    ensures failure.Some? ==> r.1 == StayHere && r.0.cart == pg.cart && r.0.info == pg.info
                              && r.0.error == Some(Notice(BillErrorKey, UiErrors.Describe(failure.value, None)))
  {
    match failure
    case None => (pg.(cart := Empty, info := BlankInfo, loading := false), GoToBills)
    case Some(f) => (pg.(loading := false, error := Some(Notice(BillErrorKey, UiErrors.Describe(f, None)))), StayHere)
  }

  /** A failed request can be retried at once with the same request (up
      to the new time); a successful one leaves nothing to submit. */
  lemma FailureAllowsRetry(pg: Page, user: Option<AuthService.UserInfo>, now: int, later: int,
                           failure: UiErrors.Failure)
    requires Submit(pg, user, now).1.Some?
    ensures var after := Finish(Submit(pg, user, now).0, Some(failure)).0;
      CanSubmit(after)
      && Submit(after, user, later).1 == Some(Submit(pg, user, now).1.value.(billId := "B" + IntToString(later)))
    ensures var after := Finish(Submit(pg, user, now).0, None).0;
      !CanSubmit(after) && Prepare(after.info, after.cart, user, later) == Err(ErrorMobileKey)
  {
  }

  /** The quantity field of a line: `parseInt` of the text, where NaN
      fails every comparison and so drops the line like zero does. */
  function EditQuantity(cart: seq<CartItem>, id: Option<string>, text: string): (r: seq<CartItem>)
    ensures JsParseInt(text).None? ==> forall i :: 0 <= i < |r| ==> r[i].productId != id
  {
    UpdateQuantity(cart, id, JsParseInt(text).GetOr(0))
  }

  /** Clearing the field removes the line; typing a positive number sets
      it. */
  lemma EditQuantityEffect(cart: seq<CartItem>, id: Option<string>, n: nat)
    ensures forall i :: 0 <= i < |EditQuantity(cart, id, "")| ==> EditQuantity(cart, id, "")[i].productId != id
    ensures n > 0 ==> var r := EditQuantity(cart, id, IntToString(n));
      forall i :: 0 <= i < |r| && r[i].productId == id ==> r[i].quantity == n
  {
    JsParseIntOfEmpty();
    JsParseIntOfNumber(n);
  }
}

=== FILE: customer_api.dfy ===
/** The customer endpoints: each reads the Accept-Language header first,
    then calls the service and answers with a fixed status. A service
    failure or a header that cannot be parsed becomes `Err` (the exception
    handler's answer is not modelled). The e-mail endpoint answers before
    any mail is sent. */
module CustomerApi {
  import opened Wrappers
  import opened Text
  import opened Models
  import opened CustomerService
  import opened Locales
  import Reminders
  import Repos

  datatype Body =
    | CustomerBody(customer: Customer)
    | NoBody
    | Message(message: string)

  datatype Response = Response(status: nat, body: Body)

  /** The refusal of a request body that breaks its declared constraints:
      `@Valid` throws while the arguments are resolved, before the header
      is read or the service runs, and the advice's catch-all answers it
      with its generic message. */
  const InvalidBody: string := "error.generic"

  /** `POST /api/customers`: 201 with the saved customer. `isEmail` is the
      `@Email` address grammar. */
  function CreateEndpoint(st: CustomerStore, c: Customer, header: Option<string>, now: int,
                          isEmail: string -> bool): (r: Result<(CustomerStore, Response)>)
    ensures !ValidCustomer(c, isEmail) ==> r == Err(InvalidBody)
    ensures ValidCustomer(c, isEmail) && ParseLocaleCustomer(header).Err? ==> r.Err?
    ensures ValidCustomer(c, isEmail) && ParseLocaleCustomer(header).Ok? ==>
      (r.Ok? <==> CreateCustomer(st, c, now).Ok?)
    ensures r.Ok? ==> ValidCustomer(c, isEmail)
                      && r.value.0 == CreateCustomer(st, c, now).value.0
                      && r.value.1 == Response(201, CustomerBody(CreateCustomer(st, c, now).value.1))
  {
    if !ValidCustomer(c, isEmail) then Err(InvalidBody)
    else
      var _ :- ParseLocaleCustomer(header);
      var (st', saved) :- CreateCustomer(st, c, now);
      Ok((st', Response(201, CustomerBody(saved))))
  }

  /** The body the customer form posts: name, e-mail and mobile only, read
      into a customer by the no-argument constructor and the setters. */
  function FormBody(name: string, email: string, mobile: string): (c: Customer)
    ensures c.name == Some(name) && c.email == Some(email) && c.mobile == Some(mobile)
    ensures c.createdAt.None? && c.id.None? && c.purchaseHistory == []
  {
    BlankCustomer().(name := Some(name), email := Some(email), mobile := Some(mobile))
  }

  /** As written, every body the customer form posts is refused, however
      well formed its three fields: it has no creation date, which the
      record declares required although the service sets it. */
  lemma FormBodyRefused(st: CustomerStore, name: string, email: string, mobile: string,
                        header: Option<string>, now: int, isEmail: string -> bool)
    ensures CreateEndpoint(st, FormBody(name, email, mobile), header, now, isEmail) == Err(InvalidBody)
  {
  }

  /** The constraints a client can meet: those of the record except the
      creation date, which the service stamps itself. */
  predicate ValidInput(c: Customer, isEmail: string -> bool) {
    ValidName(c.name) && ValidEmail(c.email, isEmail) && ValidMobile(c.mobile)
  }

  /** The create endpoint with the creation date left to the service. */
  function FixedCreateEndpoint(st: CustomerStore, c: Customer, header: Option<string>, now: int,
                               isEmail: string -> bool): (r: Result<(CustomerStore, Response)>)
    ensures !ValidInput(c, isEmail) ==> r == Err(InvalidBody)
    ensures ValidInput(c, isEmail) && ParseLocaleCustomer(header).Err? ==> r.Err?
    ensures ValidInput(c, isEmail) && ParseLocaleCustomer(header).Ok? ==>
      (r.Ok? <==> CreateCustomer(st, c, now).Ok?)
    ensures r.Ok? ==> ValidInput(c, isEmail)
                      && r.value.0 == CreateCustomer(st, c, now).value.0
                      && r.value.1 == Response(201, CustomerBody(CreateCustomer(st, c, now).value.1))
  {
    if !ValidInput(c, isEmail) then Err(InvalidBody)
    else
      var _ :- ParseLocaleCustomer(header);
      var (st', saved) :- CreateCustomer(st, c, now);
      Ok((st', Response(201, CustomerBody(saved))))
  }

  /** The correction changes nothing for a body that carries a creation
      date, and creates the form's well-formed body under a new mobile. */
  lemma FixedCreateAgrees(st: CustomerStore, c: Customer, header: Option<string>, now: int,
                          isEmail: string -> bool)
    ensures c.createdAt.Some? ==>
      FixedCreateEndpoint(st, c, header, now, isEmail) == CreateEndpoint(st, c, header, now, isEmail)
  {
  }

  lemma FixedAcceptsFormBody(st: CustomerStore, name: string, email: string, mobile: string,
                             header: Option<string>, now: int, isEmail: string -> bool)
    requires ValidInput(FormBody(name, email, mobile), isEmail)
    requires ParseLocaleCustomer(header).Ok? && Repos.FindByMobile(st.customers, Some(mobile)).None?
    ensures var r := FixedCreateEndpoint(st, FormBody(name, email, mobile), header, now, isEmail);
      r.Ok? && r.value.1.status == 201
      && r.value.1.body.customer.mobile == Some(mobile) && r.value.1.body.customer.createdAt == Some(now)
  {
  }

  /** `DELETE /api/customers/{id}`: 204 with no body. */
  function DeleteEndpoint(st: CustomerStore, id: string, header: Option<string>)
    : (r: Result<(CustomerStore, Response)>)
    ensures ParseLocaleCustomer(header).Ok? ==> (r.Ok? <==> DeleteCustomer(st, id).Ok?)
    ensures r.Ok? ==> DeleteCustomer(st, id).Ok? && r.value == (DeleteCustomer(st, id).value, Response(204, NoBody))
  {
    var _ :- ParseLocaleCustomer(header);
    var st' :- DeleteCustomer(st, id);
    Ok((st', Response(204, NoBody)))
  }

  /** `GET /api/customers/{id}` and `PUT /api/customers/{id}`: 200 with the
      record. */
  function GetEndpoint(st: CustomerStore, id: string, header: Option<string>): (r: Result<Response>)
    ensures ParseLocaleCustomer(header).Ok? ==> (r.Ok? <==> GetCustomerById(st, id).Ok?)
    ensures r.Ok? ==> GetCustomerById(st, id).Ok? && r.value == Response(200, CustomerBody(GetCustomerById(st, id).value))
  {
    var _ :- ParseLocaleCustomer(header);
    var c :- GetCustomerById(st, id);
    Ok(Response(200, CustomerBody(c)))
  }

  function UpdateEndpoint(st: CustomerStore, id: string, c: Customer, header: Option<string>,
                          isEmail: string -> bool): (r: Result<(CustomerStore, Response)>)
    ensures !ValidCustomer(c, isEmail) ==> r == Err(InvalidBody)
    ensures ValidCustomer(c, isEmail) && ParseLocaleCustomer(header).Ok? ==>
      (r.Ok? <==> UpdateCustomer(st, id, c).Ok?)
    ensures r.Ok? ==> ValidCustomer(c, isEmail) && UpdateCustomer(st, id, c).Ok?
                      && r.value == (UpdateCustomer(st, id, c).value.0,
                                     Response(200, CustomerBody(UpdateCustomer(st, id, c).value.1)))
  {
    if !ValidCustomer(c, isEmail) then Err(InvalidBody)
    else
      var _ :- ParseLocaleCustomer(header);
      var (st', updated) :- UpdateCustomer(st, id, c);
      Ok((st', Response(200, CustomerBody(updated))))
  }

  /** The answer of the e-mail endpoint for `n` requested ids. */
  function InitiatedMessage(n: nat): string {
    "Email sending process initiated for " + IntToString(n) + " customers."
  }

  /** The count can be read back from the answer (a list size is at most
      the largest `int`). */
  lemma InitiatedMessageCount(n: nat)
    requires n <= MaxInt
    ensures var m := InitiatedMessage(n);
      |m| > 47 && m[..36] == "Email sending process initiated for "
      && m[|m| - 11..] == " customers."
      && ParseLong(m[36..|m| - 11]) == Some(n)
  {
    var m := InitiatedMessage(n);
    assert m[36..|m| - 11] == IntToString(n);
    ParseLongOfIntToString(n);
  }

  /** `@NotEmpty` on the id list and `@NotBlank` on the subject and the
      body of the e-mail request. */
  predicate ValidEmailRequest(ids: seq<string>, subject: Option<string>, body: Option<string>) {
    |ids| > 0 && !NullOrTrimEmpty(subject) && !NullOrTrimEmpty(body)
  }

  /** `POST /api/customers/send-email`: a request breaking its constraints
      is refused before anything else; otherwise the answer counts the
      requested ids, duplicates and unknown ids included, whatever the
      background sending later does. */
  function SendEmailEndpoint(ids: seq<string>, subject: Option<string>, body: Option<string>,
                             header: Option<string>): (r: Result<Response>)
    ensures !ValidEmailRequest(ids, subject, body) ==> r == Err(InvalidBody)
    ensures r.Ok? <==> ValidEmailRequest(ids, subject, body) && ParseLocaleCustomer(header).Ok?
    ensures r.Ok? ==> r.value == Response(200, Message(InitiatedMessage(|ids|)))
  {
    if !ValidEmailRequest(ids, subject, body) then Err(InvalidBody)
    else
      var _ :- ParseLocaleCustomer(header);
      Ok(Response(200, Message(InitiatedMessage(|ids|))))
  }

  const RemindersTriggered: string := "Monthly purchase reminders triggered successfully"

  /** `POST /api/customers/reminders`: the monthly job runs inside the
      request, after the header is read; an exception that aborts the job
      fails the request, and otherwise the fixed message follows the mails
      it sent. */
  function RemindersEndpoint(st: CustomerStore, bills: seq<Bill>, zone: int, sendFails: string -> bool,
                             header: Option<string>): (r: Result<(seq<Reminders.Reminder>, Response)>)
    ensures ParseLocaleCustomer(header).Err? ==> r.Err?
    ensures ParseLocaleCustomer(header).Ok? ==>
      (r.Ok? <==> Reminders.SendMonthlyPurchaseReminders(st, bills, zone, sendFails).aborted.None?)
    ensures ParseLocaleCustomer(header).Ok? && r.Err? ==>
      r.error == Reminders.SendMonthlyPurchaseReminders(st, bills, zone, sendFails).aborted.value
    ensures r.Ok? ==> r.value.1 == Response(200, Message(RemindersTriggered))
                      && r.value.0 == Reminders.SendMonthlyPurchaseReminders(st, bills, zone, sendFails).sent
  {
    var _ :- ParseLocaleCustomer(header);
    var run := Reminders.SendMonthlyPurchaseReminders(st, bills, zone, sendFails);
    if run.aborted.Some? then Err(run.aborted.value)
    else Ok((run.sent, Response(200, Message(RemindersTriggered))))
  }

  /** The ids reach the answer only through their count: two requests
      with the same subject, body and number of ids get the same answer,
      and an empty list is refused whatever the subject and body. */
  lemma SendEmailAnswerDependsOnCountOnly(ids: seq<string>, ids': seq<string>, subject: Option<string>,
                                          body: Option<string>, header: Option<string>)
    requires |ids| == |ids'|
    ensures SendEmailEndpoint(ids, subject, body, header) == SendEmailEndpoint(ids', subject, body, header)
    ensures ids == [] ==> SendEmailEndpoint(ids, subject, body, header) == Err(InvalidBody)
  {
  }

  /** A second delete of the same id is refused. */
  lemma DeleteTwiceFails(st: CustomerStore, id: string, header: Option<string>)
    requires DeleteEndpoint(st, id, header).Ok?
    ensures DeleteEndpoint(DeleteEndpoint(st, id, header).value.0, id, header).Err?
  {
  }
}

=== FILE: customer_list.dfy ===
/** The customer list page: how the customers are joined with the bills
    when the page loads (purchase count and last purchase date), the
    inactive filter, the sort comparator, and the delete guard. The fuzzy
    search is a parameter; dates are milliseconds. */
module CustomerList {
  import opened Wrappers
  import opened Text
  import Seqs
  import Sorting

  /** A bill's `createdAt`: missing or empty, a date that parses, or a
      string that gives an invalid date. */
  datatype Stamp = NoStamp | Valid(ms: int) | Invalid

  datatype BillRecord = BillRecord(billId: Option<string>, createdAt: Stamp)

  /** A customer as the server sends it. */
  datatype RawCustomer = RawCustomer(id: Option<string>, name: Option<string>,
                                     purchaseHistory: Option<seq<string>>)

  /** A customer as the page keeps it. */
  datatype Customer = Customer(id: Option<string>, name: Option<string>,
                               purchaseHistory: Option<seq<string>>,
                               totalPurchaseCount: nat, lastPurchaseDate: Option<int>)

  // ---------------------------------------------------------------------
  // Loading
  // ---------------------------------------------------------------------

  predicate HasBillId(bills: seq<BillRecord>, id: string) {
    exists i :: 0 <= i < |bills| && bills[i].billId == Some(id)
  }

  /** `billMap`: every bill with a non-empty id under that id, a later bill
      replacing an earlier one with the same id. */
  function BillMap(bills: seq<BillRecord>): (m: map<string, BillRecord>)
    ensures "" !in m
    ensures forall id :: id in m <==> id != "" && HasBillId(bills, id)
    ensures forall id :: id in m ==> m[id].billId == Some(id)
    decreases |bills|
  {
    if |bills| == 0 then map[]
    else
      var init := bills[..|bills| - 1];
      var m := BillMap(init);
      var b := bills[|bills| - 1];
      assert forall id :: HasBillId(init, id) ==> HasBillId(bills, id) by {
        forall id | HasBillId(init, id) ensures HasBillId(bills, id) {
          var i :| 0 <= i < |init| && init[i].billId == Some(id);
          assert bills[i] == init[i];
        }
      }
      assert forall id :: HasBillId(bills, id) && b.billId != Some(id) ==> HasBillId(init, id) by {
        forall id | HasBillId(bills, id) && b.billId != Some(id) ensures HasBillId(init, id) {
          var i :| 0 <= i < |bills| && bills[i].billId == Some(id);
          assert init[i] == bills[i];
        }
      }
      if Truthy(b.billId) then m[b.billId.value := b] else m
  }

  /** The bill kept under an id is its last bill. */
  lemma {:induction false} BillMapKeepsLast(bills: seq<BillRecord>, i: nat)
    requires i < |bills| && Truthy(bills[i].billId)
    requires forall j :: i < j < |bills| ==> bills[j].billId != bills[i].billId
    ensures bills[i].billId.value in BillMap(bills)
    ensures BillMap(bills)[bills[i].billId.value] == bills[i]
    decreases |bills|
  {
    if i < |bills| - 1 {
      var init := bills[..|bills| - 1];
      assert init[i] == bills[i];
      BillMapKeepsLast(init, i);
    }
  }

  /** The running latest date: none yet, a date, or an invalid date once
      the first dated bill held one. */
  datatype Latest = NoneYet | Date(ms: int) | InvalidDate

  /** One bill of the history: an invalid date is taken only as the first
      date, since it compares neither later nor earlier than any other. */
  function Absorb(l: Latest, s: Stamp): Latest {
    match s
    case NoStamp => l
    case Invalid => if l.NoneYet? then InvalidDate else l
    case Valid(d) =>
      match l
      case NoneYet => Date(d)
      case Date(x) => if d > x then Date(d) else l
      case InvalidDate => l
  }

  function StampOf(m: map<string, BillRecord>, id: string): Stamp {
    if id in m then m[id].createdAt else NoStamp
  }

  function LatestFrom(l: Latest, history: seq<string>, m: map<string, BillRecord>): Latest
    decreases |history|
  {
    if |history| == 0 then l else LatestFrom(Absorb(l, StampOf(m, history[0])), history[1..], m)
  }

  /** The history position of a valid date. */
  predicate ValidAt(history: seq<string>, m: map<string, BillRecord>, i: int) {
    0 <= i < |history| && StampOf(m, history[i]).Valid?
  }

  /** From a date, the fold ends on the largest of it and the history's
      valid dates. */
  lemma {:induction false} LatestFromDate(x: int, history: seq<string>, m: map<string, BillRecord>)
    ensures LatestFrom(Date(x), history, m).Date?
    ensures var d := LatestFrom(Date(x), history, m).ms;
      d >= x
      && (forall i :: ValidAt(history, m, i) ==> StampOf(m, history[i]).ms <= d)
      && (d == x || exists i :: ValidAt(history, m, i) && StampOf(m, history[i]).ms == d)
    decreases |history|
  {
    if |history| > 0 {
      var next := Absorb(Date(x), StampOf(m, history[0]));
      LatestFromDate(next.ms, history[1..], m);
      var d := LatestFrom(Date(x), history, m).ms;
      forall i | ValidAt(history, m, i) ensures StampOf(m, history[i]).ms <= d {
        if i > 0 {
          assert history[i] == history[1..][i - 1];
          assert ValidAt(history[1..], m, i - 1);
        }
      }
      if d != x && d != next.ms {
        var k :| ValidAt(history[1..], m, k) && StampOf(m, history[1..][k]).ms == d;
        assert ValidAt(history, m, k + 1) && history[k + 1] == history[1..][k];
      }
    }
  }

  /** What the fold ends on from nothing: nothing when no history bill has
      a date; an invalid date when the first dated one is invalid;
      otherwise the largest valid date. */
  ghost predicate FromNothing(history: seq<string>, m: map<string, BillRecord>) {
    (LatestFrom(NoneYet, history, m) == NoneYet <==>
      forall i :: 0 <= i < |history| ==> StampOf(m, history[i]) == NoStamp)
    && (LatestFrom(NoneYet, history, m) == InvalidDate <==>
      exists i :: 0 <= i < |history| && StampOf(m, history[i]) == Invalid
                  && forall j :: 0 <= j < i ==> StampOf(m, history[j]) == NoStamp)
    && (LatestFrom(NoneYet, history, m).Date? ==>
      var d := LatestFrom(NoneYet, history, m).ms;
      (forall i :: ValidAt(history, m, i) ==> StampOf(m, history[i]).ms <= d)
      && exists i :: ValidAt(history, m, i) && StampOf(m, history[i]).ms == d)
  }

  lemma {:induction false} LatestFromNothing(history: seq<string>, m: map<string, BillRecord>)
    ensures LatestFrom(NoneYet, history, m) == NoneYet <==>
      forall i :: 0 <= i < |history| ==> StampOf(m, history[i]) == NoStamp
    ensures LatestFrom(NoneYet, history, m) == InvalidDate <==>
      exists i :: 0 <= i < |history| && StampOf(m, history[i]) == Invalid
                  && forall j :: 0 <= j < i ==> StampOf(m, history[j]) == NoStamp
    ensures LatestFrom(NoneYet, history, m).Date? ==>
      var d := LatestFrom(NoneYet, history, m).ms;
      (forall i :: ValidAt(history, m, i) ==> StampOf(m, history[i]).ms <= d)
      && exists i :: ValidAt(history, m, i) && StampOf(m, history[i]).ms == d
    decreases |history|
  {
    if |history| > 0 {
      match StampOf(m, history[0])
      case NoStamp =>
        LatestFromNothing(history[1..], m);
        NothingAfterNoStamp(history, m);
      case Invalid =>
        NothingAfterInvalid(history, m);
      case Valid(x) =>
        NothingAfterValid(history, m, x);
    }
  }

  /** A first bill without a date leaves the fold where the rest takes it. */
  lemma NothingAfterNoStamp(history: seq<string>, m: map<string, BillRecord>)
    requires |history| > 0 && StampOf(m, history[0]) == NoStamp
    requires FromNothing(history[1..], m)
    ensures FromNothing(history, m)
  {
    assert LatestFrom(NoneYet, history, m) == LatestFrom(NoneYet, history[1..], m);
    NoStampShiftsNone(history, m);
    NoStampShiftsInvalid(history, m);
    NoStampShiftsDate(history, m);
  }

  lemma NoStampShiftsNone(history: seq<string>, m: map<string, BillRecord>)
    requires |history| > 0 && StampOf(m, history[0]) == NoStamp
    ensures (forall i :: 0 <= i < |history| ==> StampOf(m, history[i]) == NoStamp) <==>
      forall i :: 0 <= i < |history[1..]| ==> StampOf(m, history[1..][i]) == NoStamp
  {
    var tail := history[1..];
    if forall i :: 0 <= i < |tail| ==> StampOf(m, tail[i]) == NoStamp {
      forall i | 0 <= i < |history| ensures StampOf(m, history[i]) == NoStamp {
        if i > 0 { assert history[i] == tail[i - 1]; }
      }
    }
  }

  lemma NoStampShiftsInvalid(history: seq<string>, m: map<string, BillRecord>)
    requires |history| > 0 && StampOf(m, history[0]) == NoStamp
    ensures (exists i :: 0 <= i < |history| && StampOf(m, history[i]) == Invalid
               && forall j :: 0 <= j < i ==> StampOf(m, history[j]) == NoStamp) <==>
      exists i :: 0 <= i < |history[1..]| && StampOf(m, history[1..][i]) == Invalid
               && forall j :: 0 <= j < i ==> StampOf(m, history[1..][j]) == NoStamp
  {
    var tail := history[1..];
    if exists k :: 0 <= k < |tail| && StampOf(m, tail[k]) == Invalid
                   && forall j :: 0 <= j < k ==> StampOf(m, tail[j]) == NoStamp {
      var k :| 0 <= k < |tail| && StampOf(m, tail[k]) == Invalid
               && forall j :: 0 <= j < k ==> StampOf(m, tail[j]) == NoStamp;
      assert StampOf(m, history[k + 1]) == Invalid;
      forall j | 0 <= j < k + 1 ensures StampOf(m, history[j]) == NoStamp {
        if j > 0 { assert history[j] == tail[j - 1]; }
      }
    }
    if exists i :: 0 <= i < |history| && StampOf(m, history[i]) == Invalid
                   && forall j :: 0 <= j < i ==> StampOf(m, history[j]) == NoStamp {
      var i :| 0 <= i < |history| && StampOf(m, history[i]) == Invalid
               && forall j :: 0 <= j < i ==> StampOf(m, history[j]) == NoStamp;
      assert i > 0;
      assert StampOf(m, tail[i - 1]) == Invalid;
      forall j | 0 <= j < i - 1 ensures StampOf(m, tail[j]) == NoStamp {
        assert tail[j] == history[j + 1];
      }
    }
  }

  lemma NoStampShiftsDate(history: seq<string>, m: map<string, BillRecord>)
    requires |history| > 0 && StampOf(m, history[0]) == NoStamp
    requires FromNothing(history[1..], m)
    requires LatestFrom(NoneYet, history, m) == LatestFrom(NoneYet, history[1..], m)
    ensures LatestFrom(NoneYet, history, m).Date? ==>
      var d := LatestFrom(NoneYet, history, m).ms;
      (forall i :: ValidAt(history, m, i) ==> StampOf(m, history[i]).ms <= d)
      && exists i :: ValidAt(history, m, i) && StampOf(m, history[i]).ms == d
  {
    var tail := history[1..];
    if LatestFrom(NoneYet, tail, m).Date? {
      var d := LatestFrom(NoneYet, tail, m).ms;
      var k :| ValidAt(tail, m, k) && StampOf(m, tail[k]).ms == d;
      assert ValidAt(history, m, k + 1) && history[k + 1] == tail[k];
      forall i | ValidAt(history, m, i) ensures StampOf(m, history[i]).ms <= d {
        assert i > 0;
        assert history[i] == tail[i - 1] && ValidAt(tail, m, i - 1);
      }
    }
  }

  /** A first bill with an invalid date fixes the fold on it. */
  lemma NothingAfterInvalid(history: seq<string>, m: map<string, BillRecord>)
    requires |history| > 0 && StampOf(m, history[0]) == Invalid
    ensures FromNothing(history, m)
  {
    assert LatestFrom(NoneYet, history, m) == LatestFrom(InvalidDate, history[1..], m);
    InvalidSticks(history[1..], m);
  }

  /** A first bill with a valid date starts the running maximum. */
  lemma NothingAfterValid(history: seq<string>, m: map<string, BillRecord>, x: int)
    requires |history| > 0 && StampOf(m, history[0]) == Valid(x)
    ensures FromNothing(history, m)
  {
    var tail := history[1..];
    assert LatestFrom(NoneYet, history, m) == LatestFrom(Date(x), tail, m);
    LatestFromDate(x, tail, m);
    var d := LatestFrom(Date(x), tail, m).ms;
    assert ValidAt(history, m, 0);
    forall i | ValidAt(history, m, i) ensures StampOf(m, history[i]).ms <= d {
      if i > 0 {
        assert history[i] == tail[i - 1];
        assert ValidAt(tail, m, i - 1);
      }
    }
    if d != x {
      var k :| ValidAt(tail, m, k) && StampOf(m, tail[k]).ms == d;
      assert ValidAt(history, m, k + 1);
    }
    forall i | 0 <= i < |history| && StampOf(m, history[i]) == Invalid
      ensures exists j :: 0 <= j < i && StampOf(m, history[j]) != NoStamp
    {
      assert i > 0;
    }
  }

  lemma {:induction false} InvalidSticks(history: seq<string>, m: map<string, BillRecord>)
    ensures LatestFrom(InvalidDate, history, m) == InvalidDate
    decreases |history|
  {
    if |history| > 0 {
      InvalidSticks(history[1..], m);
    }
  }

  /** The history as a list: missing is empty. */
  function History(c: RawCustomer): seq<string> {
    if c.purchaseHistory.Some? then c.purchaseHistory.value else []
  }

  const InvalidTimeValue: string := "Invalid time value"

  /** One customer: the count is the history's length whether or not its
      ids match a bill; an invalid latest date makes the ISO conversion
      throw. */
  function Process(c: RawCustomer, m: map<string, BillRecord>): (r: Result<Customer>)
    ensures r.Ok? ==> r.value.id == c.id && r.value.name == c.name
                      && r.value.purchaseHistory == c.purchaseHistory
                      && r.value.totalPurchaseCount == |History(c)|
  {
    match LatestFrom(NoneYet, History(c), m)
    case InvalidDate => Err(InvalidTimeValue)
    case NoneYet => Ok(Customer(c.id, c.name, c.purchaseHistory, |History(c)|, None))
    case Date(d) => Ok(Customer(c.id, c.name, c.purchaseHistory, |History(c)|, Some(d)))
  }

  function ProcessAll(customers: seq<RawCustomer>, m: map<string, BillRecord>): (r: Result<seq<Customer>>)
    ensures r.Ok? <==> forall i :: 0 <= i < |customers| ==> Process(customers[i], m).Ok?
    ensures r.Ok? ==> |r.value| == |customers|
                      && forall i :: 0 <= i < |customers| ==> r.value[i] == Process(customers[i], m).value
    decreases |customers|
  {
    if |customers| == 0 then Ok([])
    else
      var first :- Process(customers[0], m);
      var rest :- ProcessAll(customers[1..], m);
      assert forall i :: 1 <= i < |customers| ==> customers[i] == customers[1..][i - 1];
      Ok([first] + rest)
  }

  const InvalidDataError: string := "Invalid data from server"

  /** `loadCustomers`: both answers must be arrays (`None` stands for any
      other value); then every customer is joined with the bills. */
  function LoadCustomers(customers: Option<seq<RawCustomer>>, bills: Option<seq<BillRecord>>)
    : (r: Result<seq<Customer>>)
    ensures customers.None? || bills.None? ==> r == Err(InvalidDataError)
    ensures r.Ok? ==> customers.Some? && bills.Some? && |r.value| == |customers.value|
  {
    if customers.None? || bills.None? then Err(InvalidDataError)
    else ProcessAll(customers.value, BillMap(bills.value))
  }

  /** What the load yields for each customer: the same record, a count
      equal to the history's length (ids with no bill included), and as
      last purchase the latest valid date among the history's bills, or
      none when none of them is dated. */
  lemma LoadedCustomer(customers: seq<RawCustomer>, bills: seq<BillRecord>, i: nat)
    requires LoadCustomers(Some(customers), Some(bills)).Ok? && i < |customers|
    ensures var c := LoadCustomers(Some(customers), Some(bills)).value[i];
      var raw := customers[i];
      var m := BillMap(bills);
      var h := History(raw);
      c.id == raw.id && c.name == raw.name && c.totalPurchaseCount == |h|
      && (c.lastPurchaseDate.None? <==> forall k :: 0 <= k < |h| ==> StampOf(m, h[k]) == NoStamp)
      && (c.lastPurchaseDate.Some? ==>
            (forall k :: ValidAt(h, m, k) ==> StampOf(m, h[k]).ms <= c.lastPurchaseDate.value)
            && exists k :: ValidAt(h, m, k) && StampOf(m, h[k]).ms == c.lastPurchaseDate.value)
  {
    LoadedIsProcessed(customers, bills, i);
    ProcessedCustomer(customers[i], BillMap(bills));
  }

  lemma LoadedIsProcessed(customers: seq<RawCustomer>, bills: seq<BillRecord>, i: nat)
    requires LoadCustomers(Some(customers), Some(bills)).Ok? && i < |customers|
    ensures Process(customers[i], BillMap(bills)).Ok?
    ensures LoadCustomers(Some(customers), Some(bills)).value[i] == Process(customers[i], BillMap(bills)).value
  {
  }

  lemma ProcessedCustomer(raw: RawCustomer, m: map<string, BillRecord>)
    requires Process(raw, m).Ok?
    ensures var c := Process(raw, m).value;
      var h := History(raw);
      (c.lastPurchaseDate.None? <==> forall k :: 0 <= k < |h| ==> StampOf(m, h[k]) == NoStamp)
      && (c.lastPurchaseDate.Some? ==>
            (forall k :: ValidAt(h, m, k) ==> StampOf(m, h[k]).ms <= c.lastPurchaseDate.value)
            && exists k :: ValidAt(h, m, k) && StampOf(m, h[k]).ms == c.lastPurchaseDate.value)
  {
    LatestFromNothing(History(raw), m);
  }

  /** A bill with an unparsable date, when it is the first dated bill of
      some customer's history, fails the whole load. */
  lemma InvalidFirstDateFailsLoad(customers: seq<RawCustomer>, bills: seq<BillRecord>, i: nat, k: nat)
    requires i < |customers| && k < |History(customers[i])|
    requires StampOf(BillMap(bills), History(customers[i])[k]) == Invalid
    requires forall j :: 0 <= j < k ==> StampOf(BillMap(bills), History(customers[i])[j]) == NoStamp
    ensures LoadCustomers(Some(customers), Some(bills)) == Err(InvalidTimeValue)
  {
    LatestFromNothing(History(customers[i]), BillMap(bills));
    var r := LoadCustomers(Some(customers), Some(bills));
    assert Process(customers[i], BillMap(bills)).Err?;
    ProcessAllFirstError(customers, BillMap(bills));
  }

  lemma {:induction false} ProcessAllFirstError(customers: seq<RawCustomer>, m: map<string, BillRecord>)
    requires ProcessAll(customers, m).Err?
    ensures ProcessAll(customers, m) == Err(InvalidTimeValue)
    decreases |customers|
  {
    if Process(customers[0], m).Ok? {
      ProcessAllFirstError(customers[1..], m);
    }
  }

  // ---------------------------------------------------------------------
  // Inactive filter
  // ---------------------------------------------------------------------

  const ThirtyDaysMs: int := 30 * 24 * 60 * 60 * 1000

  /** No purchase, or the last one more than thirty days ago. */
  predicate Inactive(c: Customer, now: int) {
    c.lastPurchaseDate.None? || c.lastPurchaseDate.value < now - ThirtyDaysMs
  }

  /** A customer with a bill dated within the last thirty days in the
      history is not inactive. */
  lemma InactiveMeansNoRecentBill(customers: seq<RawCustomer>, bills: seq<BillRecord>, i: nat, now: int, k: int)
    requires LoadCustomers(Some(customers), Some(bills)).Ok? && i < |customers|
    requires ValidAt(History(customers[i]), BillMap(bills), k)
    requires StampOf(BillMap(bills), History(customers[i])[k]).ms >= now - ThirtyDaysMs
    ensures !Inactive(LoadCustomers(Some(customers), Some(bills)).value[i], now)
  {
    LoadedCustomer(customers, bills, i);
  }

  /** A customer none of whose history ids has a dated bill is inactive. */
  lemma UndatedIsInactive(customers: seq<RawCustomer>, bills: seq<BillRecord>, i: nat, now: int)
    requires LoadCustomers(Some(customers), Some(bills)).Ok? && i < |customers|
    requires forall k :: 0 <= k < |History(customers[i])| ==> StampOf(BillMap(bills), History(customers[i])[k]) == NoStamp
    ensures Inactive(LoadCustomers(Some(customers), Some(bills)).value[i], now)
  {
    LoadedCustomer(customers, bills, i);
  }

  // ---------------------------------------------------------------------
  // Sorting
  // ---------------------------------------------------------------------

  /** The sort keys the select offers. */
  datatype SortKey = ByName | ByLastPurchase | ByCount

  /** The select's five values as key and ascending flag. */
  function ParseSortSelect(value: string): Option<(SortKey, bool)> {
    if value == "name-asc" then Some((ByName, true))
    else if value == "name-desc" then Some((ByName, false))
    else if value == "lastPurchaseDate-desc" then Some((ByLastPurchase, false))
    else if value == "lastPurchaseDate-asc" then Some((ByLastPurchase, true))
    else if value == "totalPurchaseCount-desc" then Some((ByCount, false))
    else None
  }

  datatype SortValue = Num(n: int) | Str(s: string)

  /** The compared value: the last purchase's time or 0, the count, or the
      lower-cased name with a missing one as ''. */
  function Value(c: Customer, key: SortKey): SortValue {
    match key
    case ByLastPurchase => Num(c.lastPurchaseDate.GetOr(0))
    case ByCount => Num(c.totalPurchaseCount)
    case ByName => Str(ToLower(OrElse(c.name, "")))
  }

  /** JavaScript `<`: numbers by value, strings by code points. */
  predicate Less(x: SortValue, y: SortValue) {
    if x.Num? && y.Num? then x.n < y.n
    else if x.Str? && y.Str? then Sorting.LexLe(x.s, y.s) && x.s != y.s
    else false
  }

  function Sign(asc: bool): int { if asc then 1 else -1 }

  /** The comparator as written: -1 when the first value is smaller and 1
      otherwise, flipped for descending. */
  function CompareAsWritten(a: Customer, b: Customer, key: SortKey, asc: bool): (r: int)
    ensures r == 1 || r == -1
  {
    (if Less(Value(a, key), Value(b, key)) then -1 else 1) * Sign(asc)
  }

  /** It never answers "equal": two customers with the same value are each
      placed after the other, and a customer compares unequal to itself.
      This breaks the consistent-comparator condition of
      Array.prototype.sort in ECMA-262, so the relative order of ties is
      left to the engine. */
  lemma AsWrittenIsInconsistent(a: Customer, b: Customer, key: SortKey, asc: bool)
    requires Value(a, key) == Value(b, key)
    ensures CompareAsWritten(a, b, key, asc) == CompareAsWritten(b, a, key, asc) == Sign(asc)
    ensures CompareAsWritten(a, a, key, asc) != 0
  {
  }

  /** "Asha" and "asha" sorted by name: each is said to come after the other. */
  lemma AsWrittenTieExample()
    ensures var a := Customer(Some("1"), Some("Asha"), None, 0, None);
      var b := Customer(Some("2"), Some("asha"), None, 0, None);
      CompareAsWritten(a, b, ByName, true) == 1 && CompareAsWritten(b, a, ByName, true) == 1
  {
    var a := Customer(Some("1"), Some("Asha"), None, 0, None);
    var b := Customer(Some("2"), Some("asha"), None, 0, None);
    assert ToLower("Asha") == "asha";
    assert Value(a, ByName) == Value(b, ByName);
  }

  /** The comparator answering 0 on ties. */
  function CompareFixed(a: Customer, b: Customer, key: SortKey, asc: bool): (r: int)
    ensures -1 <= r <= 1
  {
    var x, y := Value(a, key), Value(b, key);
    (if Less(x, y) then -1 else if Less(y, x) then 1 else 0) * Sign(asc)
  }

  lemma LessTrichotomy(x: SortValue, y: SortValue)
    requires x.Num? == y.Num?
    ensures (Less(x, y) && x != y && !Less(y, x))
         || (!Less(x, y) && x == y && !Less(y, x))
         || (!Less(x, y) && x != y && Less(y, x))
  {
    if x.Str? {
      Sorting.LexLeTotal(x.s, y.s);
      if Sorting.LexLe(x.s, y.s) && Sorting.LexLe(y.s, x.s) {
        Sorting.LexLeAntisymmetric(x.s, y.s);
      }
    }
  }

  lemma LessTransitive(x: SortValue, y: SortValue, z: SortValue)
    requires Less(x, y) && Less(y, z)
    ensures Less(x, z)
  {
    if x.Str? {
      Sorting.LexLeTransitive(x.s, y.s, z.s);
      if x.s == z.s {
        Sorting.LexLeAntisymmetric(x.s, y.s);
      }
    }
  }

  /** The corrected comparator is consistent: it answers 0 exactly on
      ties, swapping the arguments negates it, and "not after" is
      transitive. */
  lemma FixedIsConsistent(a: Customer, b: Customer, c: Customer, key: SortKey, asc: bool)
    ensures CompareFixed(a, b, key, asc) == -CompareFixed(b, a, key, asc)
    ensures CompareFixed(a, b, key, asc) == 0 <==> Value(a, key) == Value(b, key)
    ensures CompareFixed(a, b, key, asc) <= 0 && CompareFixed(b, c, key, asc) <= 0 ==>
            CompareFixed(a, c, key, asc) <= 0
  {
    var x, y, z := Value(a, key), Value(b, key), Value(c, key);
    LessTrichotomy(x, y);
    LessTrichotomy(y, z);
    LessTrichotomy(x, z);
    if Less(x, y) && Less(y, z) { LessTransitive(x, y, z); }
    if Less(z, y) && Less(y, x) { LessTransitive(z, y, x); }
  }

  /** The correction changes nothing but ties. */
  lemma FixedAgreesOffTies(a: Customer, b: Customer, key: SortKey, asc: bool)
    requires Value(a, key) != Value(b, key)
    ensures CompareFixed(a, b, key, asc) == CompareAsWritten(a, b, key, asc)
  {
    LessTrichotomy(Value(a, key), Value(b, key));
  }

  /** "May come before" under the corrected comparator. */
  function FixedOrder(key: SortKey, asc: bool): (Customer, Customer) -> bool {
    (a: Customer, b: Customer) => CompareFixed(a, b, key, asc) <= 0
  }

  lemma FixedOrderIsPreorder(key: SortKey, asc: bool)
    ensures Sorting.Total(FixedOrder(key, asc)) && Sorting.Transitive(FixedOrder(key, asc))
  {
    forall a: Customer, b: Customer
      ensures FixedOrder(key, asc)(a, b) || FixedOrder(key, asc)(b, a)
    {
      FixedIsConsistent(a, b, a, key, asc);
    }
    forall a: Customer, b: Customer, c: Customer
      | FixedOrder(key, asc)(a, b) && FixedOrder(key, asc)(b, c)
      ensures FixedOrder(key, asc)(a, c)
    {
      FixedIsConsistent(a, b, c, key, asc);
    }
  }

  /** The searched customers, restricted to the inactive ones when that
      filter is chosen. */
  function Selected(customers: seq<Customer>, term: string,
                    search: (string, seq<Customer>) -> seq<Customer>,
                    inactiveOnly: bool, now: int): seq<Customer>
  {
    var items := if term != "" then search(term, customers) else customers;
    if inactiveOnly then Seqs.Filter(items, (c: Customer) => Inactive(c, now)) else items
  }

  /** `displayCustomers`, sorted with the corrected comparator by a stable
      sort. */
  function DisplayCustomers(customers: seq<Customer>, term: string,
                            search: (string, seq<Customer>) -> seq<Customer>,
                            inactiveOnly: bool, now: int, key: SortKey, asc: bool): (r: seq<Customer>)
    ensures |r| == |Selected(customers, term, search, inactiveOnly, now)|
  {
    Sorting.SortBy(Selected(customers, term, search, inactiveOnly, now), FixedOrder(key, asc))
  }

  /** The shown customers are the selected ones, inactive when so
      filtered, ordered by the comparator, with ties in the order the
      search gave them. */
  lemma DisplayIsSortedSelection(customers: seq<Customer>, term: string,
                                 search: (string, seq<Customer>) -> seq<Customer>,
                                 inactiveOnly: bool, now: int, key: SortKey, asc: bool, x: Customer)
    ensures var sel := Selected(customers, term, search, inactiveOnly, now);
      var r := DisplayCustomers(customers, term, search, inactiveOnly, now, key, asc);
      multiset(r) == multiset(sel)
      && (inactiveOnly ==> forall i :: 0 <= i < |r| ==> Inactive(r[i], now))
      && (forall i, j :: 0 <= i < j < |r| ==> CompareFixed(r[i], r[j], key, asc) <= 0)
      && Seqs.Filter(r, Sorting.EquivalentTo(x, FixedOrder(key, asc)))
         == Seqs.Filter(sel, Sorting.EquivalentTo(x, FixedOrder(key, asc)))
  {
    var sel := Selected(customers, term, search, inactiveOnly, now);
    var r := DisplayCustomers(customers, term, search, inactiveOnly, now, key, asc);
    FixedOrderIsPreorder(key, asc);
    Sorting.SortBySorted(sel, FixedOrder(key, asc));
    Sorting.SortByStable(sel, FixedOrder(key, asc), x);
    if inactiveOnly {
      forall i | 0 <= i < |r| ensures Inactive(r[i], now) {
        assert r[i] in multiset(sel);
      }
    }
    forall i, j | 0 <= i < j < |r| ensures CompareFixed(r[i], r[j], key, asc) <= 0 {
      assert FixedOrder(key, asc)(r[i], r[j]);
    }
  }

  // ---------------------------------------------------------------------
  // Deleting
  // ---------------------------------------------------------------------

  datatype DeleteAction = MissingIdError | Cancelled | SendDelete(id: string)

  /** `handleDeleteCustomer`: without an id the user is told and nothing
      is asked or sent; otherwise the confirmation decides. */
  function HandleDelete(c: Customer, confirmed: bool): (r: DeleteAction)
    ensures r.SendDelete? <==> Truthy(c.id) && confirmed
    ensures r == MissingIdError <==> !Truthy(c.id)
    ensures r.SendDelete? ==> Some(r.id) == c.id
  {
    if !Truthy(c.id) then MissingIdError
    else if !confirmed then Cancelled
    else SendDelete(c.id.value)
  }
}

=== FILE: customer_service.dfy ===
/** The customer service: find-or-create by mobile, the de-duplicating
    bill-id append, the CRUD operations with their message-source error
    keys, the purchase-history query with its validation order, the custom
    e-mail fan-out and the inactive-customer query. */
module CustomerService {
  import opened Wrappers
  import opened Text
  import opened Models
  import opened Seqs
  import opened Repos
  import Dates

  datatype CustomerStore = CustomerStore(customers: seq<Customer>, nextId: nat)

  /** Every stored customer carries an id (the store assigns one on insert). */
  predicate IdsAssigned(st: CustomerStore) {
    forall i :: 0 <= i < |st.customers| ==> st.customers[i].id.Some?
  }

  function Save(st: CustomerStore, c: Customer): (r: (CustomerStore, Customer))
    ensures r.1.id.Some? && r.1 == c.(id := r.1.id)
    ensures IdsAssigned(st) ==> IdsAssigned(r.0)
  {
    var (customers, saved, n) := SaveCustomer(st.customers, c, st.nextId);
    (CustomerStore(customers, n), saved)
  }

  function FindById(customers: seq<Customer>, id: string): (r: Option<Customer>)
    ensures r.Some? <==> exists i :: 0 <= i < |customers| && customers[i].id == Some(id)
    ensures r.Some? ==> r.value in customers && r.value.id == Some(id)
  {
    match IndexOfId(customers, CustomerId, id)
    case Some(k) => Some(customers[k])
    case None => None
  }

  // ---------------------------------------------------------------------
  // findOrCreateCustomer
  // ---------------------------------------------------------------------

  /** The stored record after a purchase by an existing customer: name and
      e-mail are overwritten only by non-empty values. */
  function MergeInfo(c: Customer, info: CustomerInfo): (r: Customer)
    ensures r.name == (if NullOrEmpty(info.name) then c.name else info.name)
    ensures r.email == (if NullOrEmpty(info.email) then c.email else info.email)
    ensures r.(name := c.name, email := c.email) == c
  {
    var c1 := if NullOrEmpty(info.name) then c else c.(name := info.name);
    if NullOrEmpty(info.email) then c1 else c1.(email := info.email)
  }

  /** The record created for an unknown mobile: the name defaults to
      "Customer", the history is empty and the creation time is now. */
  function FreshCustomer(info: CustomerInfo, now: int): (r: Customer)
    ensures r.mobile == info.mobile && r.email == info.email
    ensures r.name == Some(info.name.GetOr("Customer"))
    ensures r.createdAt == Some(now) && r.purchaseHistory == [] && r.id.None?
  {
    BlankCustomer().(mobile := info.mobile, name := Some(info.name.GetOr("Customer")),
                     email := info.email, createdAt := Some(now), purchaseHistory := [])
  }

  /** `findOrCreateCustomer`. */
  function FindOrCreate(st: CustomerStore, info: CustomerInfo, now: int)
    : (r: Result<(CustomerStore, Customer)>)
    ensures r.Err? <==> NullOrTrimEmpty(info.mobile)
    ensures r.Err? ==> r.error == "customer.mobile.required"
    ensures r.Ok? ==> r.value.1.mobile == info.mobile
    ensures r.Ok? && FindByMobile(st.customers, info.mobile).None? ==>
      r.value.1 == FreshCustomer(info, now).(id := r.value.1.id)
      && |r.value.0.customers| == |st.customers| + 1
    ensures r.Ok? && FindByMobile(st.customers, info.mobile).Some? ==>
      var old_ := st.customers[FindByMobile(st.customers, info.mobile).value];
      r.value.1 == MergeInfo(old_, info).(id := r.value.1.id)
  {
    if NullOrTrimEmpty(info.mobile) then Err("customer.mobile.required")
    else match FindByMobile(st.customers, info.mobile)
      case Some(k) => Ok(Save(st, MergeInfo(st.customers[k], info)))
      case None =>
        var (customers, saved, n) := SaveCustomer(st.customers, FreshCustomer(info, now), st.nextId);
        Ok((CustomerStore(customers, n), saved))
  }

  /** Looking up an existing customer never adds a record. */
  lemma FindOrCreateExistingKeepsCount(st: CustomerStore, info: CustomerInfo, now: int)
    requires IdsAssigned(st)
    requires !NullOrTrimEmpty(info.mobile) && FindByMobile(st.customers, info.mobile).Some?
    ensures |FindOrCreate(st, info, now).value.0.customers| == |st.customers|
  {
    var k := FindByMobile(st.customers, info.mobile).value;
    var merged := MergeInfo(st.customers[k], info);
    assert merged.id == st.customers[k].id;
    assert IndexOfId(st.customers, CustomerId, merged.id.value).Some?;
  }

  /** A second call with the same details finds the record the first call
      made, so the store holds one record per mobile it has seen. */
  lemma FindOrCreateTwiceAddsOnce(st: CustomerStore, info: CustomerInfo, now: int, later: int)
    requires IdsAssigned(st)
    requires !NullOrTrimEmpty(info.mobile)
    ensures var st1 := FindOrCreate(st, info, now).value.0;
      FindByMobile(st1.customers, info.mobile).Some?
      && |FindOrCreate(st1, info, later).value.0.customers| == |st1.customers|
  {
    var (st1, c1) := FindOrCreate(st, info, now).value;
    assert c1 in st1.customers by {
      var k := FindByMobile(st.customers, info.mobile);
      if k.Some? {
        var merged := MergeInfo(st.customers[k.value], info);
        assert Save(st, merged).1 in SaveCustomer(st.customers, merged, st.nextId).0;
      }
    }
    var j :| 0 <= j < |st1.customers| && st1.customers[j] == c1;
    assert st1.customers[j].mobile == info.mobile;
    assert IdsAssigned(st1) by {
      var k := FindByMobile(st.customers, info.mobile);
      if k.None? {
        assert st1.customers == st.customers + [c1];
      }
    }
    FindOrCreateExistingKeepsCount(st1, info, later);
  }

  // ---------------------------------------------------------------------
  // addBillId
  // ---------------------------------------------------------------------

  /** `addBillId`: the outcome says whether the record was saved. */
  function AddBillId(st: CustomerStore, mobile: Option<string>, billId: string)
    : (r: Result<(CustomerStore, bool)>)
    ensures r.Err? <==> FindByMobile(st.customers, mobile).None?
    ensures r.Err? ==> r.error == "customer.not.found"
    ensures r.Ok? ==>
      var c := st.customers[FindByMobile(st.customers, mobile).value];
      (r.value.1 <==> billId !in c.purchaseHistory)
      && (!r.value.1 ==> r.value.0 == st)
  {
    match FindByMobile(st.customers, mobile)
    case None => Err("customer.not.found")
    case Some(k) =>
      var c := st.customers[k];
      if billId in c.purchaseHistory then Ok((st, false))
      else Ok((Save(st, c.(purchaseHistory := c.purchaseHistory + [billId])).0, true))
  }

  /** After `addBillId` the customer's history holds the id: appended
      when absent, untouched when present; no other record changes. */
  lemma AddBillIdAppendsOnce(st: CustomerStore, mobile: Option<string>, billId: string)
    requires IdsAssigned(st) && UniqueIds(st.customers, CustomerId)
    requires FindByMobile(st.customers, mobile).Some?
    ensures var k := FindByMobile(st.customers, mobile).value;
      var st1 := AddBillId(st, mobile, billId).value.0;
      |st1.customers| == |st.customers|
      && st1.customers[k] == st.customers[k].(purchaseHistory :=
           if billId in st.customers[k].purchaseHistory then st.customers[k].purchaseHistory
           else st.customers[k].purchaseHistory + [billId])
      && forall j :: 0 <= j < |st.customers| && j != k ==> st1.customers[j] == st.customers[j]
  {
    var k := FindByMobile(st.customers, mobile).value;
    IndexOfOwnId(st.customers, CustomerId, k);
  }

  /** Adding the same bill id twice is the same as adding it once, unlike
      the record-level append of `Customer.addBillId`. */
  lemma AddBillIdIdempotent(st: CustomerStore, mobile: Option<string>, billId: string)
    requires IdsAssigned(st) && UniqueIds(st.customers, CustomerId)
    requires FindByMobile(st.customers, mobile).Some?
    ensures var st1 := AddBillId(st, mobile, billId).value.0;
      AddBillId(st1, mobile, billId) == Ok((st1, false))
  {
    var k := FindByMobile(st.customers, mobile).value;
    AddBillIdAppendsOnce(st, mobile, billId);
    var st1 := AddBillId(st, mobile, billId).value.0;
    FindByMobileStable(st.customers, st1.customers, mobile, k);
  }

  lemma {:induction false} FindByMobileStable(a: seq<Customer>, b: seq<Customer>, mobile: Option<string>, k: nat)
    requires |a| == |b| && k < |a|
    requires FindByMobile(a, mobile) == Some(k)
    requires b[k].mobile == a[k].mobile
    requires forall j :: 0 <= j < |a| && j != k ==> b[j] == a[j]
    ensures FindByMobile(b, mobile) == Some(k)
  {
    if k > 0 {
      assert a[0].mobile != mobile;
      FindByMobileStable(a[1..], b[1..], mobile, k - 1);
    }
  }

  // ---------------------------------------------------------------------
  // createCustomer, getCustomerById, updateCustomer, deleteCustomer
  // ---------------------------------------------------------------------

  /** `createCustomer`: an already-used mobile is refused; otherwise the
      record is stamped with the creation time and saved. */
  function CreateCustomer(st: CustomerStore, c: Customer, now: int)
    : (r: Result<(CustomerStore, Customer)>)
    ensures r.Err? <==> FindByMobile(st.customers, c.mobile).Some?
    ensures r.Err? ==> r.error == "customer.exists"
    ensures r.Ok? ==> r.value.1 == c.(createdAt := Some(now), id := r.value.1.id)
    ensures r.Ok? ==> r.value.1 in r.value.0.customers
  {
    if FindByMobile(st.customers, c.mobile).Some? then Err("customer.exists")
    else
      var (customers, saved, n) := SaveCustomer(st.customers, c.(createdAt := Some(now)), st.nextId);
      Ok((CustomerStore(customers, n), saved))
  }

  /** A created customer cannot be created again: its mobile is now taken. */
  lemma CreateCustomerTwiceFails(st: CustomerStore, c: Customer, now: int, later: int)
    requires CreateCustomer(st, c, now).Ok?
    ensures CreateCustomer(CreateCustomer(st, c, now).value.0, c, later).Err?
  {
    var (st1, saved) := CreateCustomer(st, c, now).value;
    var j :| 0 <= j < |st1.customers| && st1.customers[j] == saved;
    assert st1.customers[j].mobile == c.mobile;
  }

  /** `getCustomerById`. */
  function GetCustomerById(st: CustomerStore, id: string): (r: Result<Customer>)
    ensures r.Ok? <==> FindById(st.customers, id).Some?
    ensures r.Ok? ==> r.value in st.customers && r.value.id == Some(id)
    ensures r.Err? ==> r.error == "customer.not.found"
  {
    match FindById(st.customers, id)
    case Some(c) => Ok(c)
    case None => Err("customer.not.found")
  }

  /** `updateCustomer`: name, e-mail and mobile are overwritten as given,
      nulls included; everything else of the stored record is kept, and
      the updated record takes the stored one's place. */
  function UpdateCustomer(st: CustomerStore, id: string, c: Customer)
    : (r: Result<(CustomerStore, Customer)>)
    ensures r.Err? <==> FindById(st.customers, id).None?
    ensures r.Err? ==> r.error == "customer.not.found"
    ensures r.Ok? ==>
      var existing := FindById(st.customers, id).value;
      r.value.1 == existing.(name := c.name, email := c.email, mobile := c.mobile)
      && |r.value.0.customers| == |st.customers|
    ensures r.Ok? ==>
      var k := IndexOfId(st.customers, CustomerId, id).value;
      r.value.0.customers == st.customers[k := r.value.1]
  {
    match IndexOfId(st.customers, CustomerId, id)
    case None => Err("customer.not.found")
    case Some(k) =>
      var existing := st.customers[k];
      var updated := existing.(name := c.name, email := c.email, mobile := c.mobile);
      assert IndexOfId(st.customers, CustomerId, updated.id.value) == Some(k);
      Ok(Save(st, updated))
  }

  /** `deleteCustomer`: an unknown id is refused; otherwise the record with
      that id is removed and the others keep their order. */
  function DeleteCustomer(st: CustomerStore, id: string): (r: Result<CustomerStore>)
    ensures r.Err? <==> FindById(st.customers, id).None?
    ensures r.Err? ==> r.error == "customer.not.found"
    ensures r.Ok? ==> FindById(r.value.customers, id).None?
    ensures r.Ok? ==> |r.value.customers| < |st.customers|
    ensures r.Ok? ==> forall i :: 0 <= i < |st.customers| && st.customers[i].id != Some(id) ==>
      st.customers[i] in r.value.customers
  {
    if FindById(st.customers, id).None? then Err("customer.not.found")
    else
      var kept := Filter(st.customers, (c: Customer) => c.id != Some(id));
      FilterLength(st.customers, (c: Customer) => c.id != Some(id));
      CountDropsMatch(st.customers, id);
      Ok(CustomerStore(kept, st.nextId))
  }

  lemma {:induction false} CountDropsMatch(s: seq<Customer>, id: string)
    requires exists i :: 0 <= i < |s| && s[i].id == Some(id)
    ensures Count(s, (c: Customer) => c.id != Some(id)) < |s|
  {
    if s[0].id != Some(id) {
      var i :| 0 <= i < |s| && s[i].id == Some(id);
      assert s[1..][i - 1].id == Some(id);
      CountDropsMatch(s[1..], id);
    }
  }

  // ---------------------------------------------------------------------
  // getCustomerPurchaseHistory
  // ---------------------------------------------------------------------

  /** A bill falls in the queried window when it has a creation time, not
      before `start` and not after `end`; a missing bound is open. */
  predicate InWindow(b: Bill, start: Option<int>, end: Option<int>) {
    b.createdAt.Some?
    && (start.None? || start.value <= b.createdAt.value)
    && (end.None? || b.createdAt.value <= end.value)
  }

  /** The validation of the history query, in the order the service runs
      it; `None` when every check passes. */
  function HistoryCheck(st: CustomerStore, customerId: Option<string>,
                        start: Option<int>, end: Option<int>): (r: Option<string>)
    ensures r == Some("customer.id.required") <==> NullOrEmpty(customerId)
    ensures r == Some("report.date.range.invalid") <==>
      !NullOrEmpty(customerId) && start.Some? && end.Some? && start.value > end.value
    ensures r == Some("customer.not.found") <==>
      !NullOrEmpty(customerId) && !(start.Some? && end.Some? && start.value > end.value)
      && FindById(st.customers, customerId.value).None?
    ensures r.None? || r == Some("customer.id.required") || r == Some("report.date.range.invalid")
      || r == Some("customer.not.found")
  {
    if NullOrEmpty(customerId) then Some("customer.id.required")
    else if start.Some? && end.Some? && start.value > end.value then Some("report.date.range.invalid")
    else if FindById(st.customers, customerId.value).None? then Some("customer.not.found")
    else None
  }

  /** `findAllById` on the bill store: the bills whose document id is
      listed, in store order. */
  function BillsByDocumentId(bills: seq<Bill>, ids: seq<string>): seq<Bill> {
    Filter(bills, (b: Bill) => b.id.Some? && b.id.value in ids)
  }

  /** The bills whose business id is listed, in store order. */
  function BillsByBusinessId(bills: seq<Bill>, ids: seq<string>): seq<Bill> {
    Filter(bills, (b: Bill) => b.billId.Some? && b.billId.value in ids)
  }

  /** `getCustomerPurchaseHistory` as written: the customer's history holds
      business bill ids, but it is resolved against document ids. */
  function PurchaseHistoryAsWritten(st: CustomerStore, bills: seq<Bill>, customerId: Option<string>,
                                    start: Option<int>, end: Option<int>, zone: int)
    : (r: Result<seq<Bill>>)
    ensures r.Err? <==> HistoryCheck(st, customerId, start, end).Some?
    ensures r.Err? ==> r.error == HistoryCheck(st, customerId, start, end).value
  {
    match HistoryCheck(st, customerId, start, end)
    case Some(e) => Err(e)
    case None =>
      var c := FindById(st.customers, customerId.value).value;
      if c.purchaseHistory == [] then Ok([])
      else
        var endOfDay := if end.Some? then Some(Dates.EndOfDay(end.value, zone)) else None;
        Ok(Filter(BillsByDocumentId(bills, c.purchaseHistory), (b: Bill) => InWindow(b, start, endOfDay)))
  }

  /** The history query with bills matched on their business id. The
      checks run in order and all precede the bill look-up; an empty history
      answers [] at once; otherwise the result is exactly the customer's
      bills dated within [start, end of the end day], in store order. */
  function PurchaseHistory(st: CustomerStore, bills: seq<Bill>, customerId: Option<string>,
                           start: Option<int>, end: Option<int>, zone: int)
    : (r: Result<seq<Bill>>)
    ensures r.Err? <==> HistoryCheck(st, customerId, start, end).Some?
    ensures r.Err? ==> r.error == HistoryCheck(st, customerId, start, end).value
    ensures r.Ok? ==> Subsequence(r.value, bills)
    ensures r.Ok? ==>
      var h := FindById(st.customers, customerId.value).value.purchaseHistory;
      var endOfDay := if end.Some? then Some(Dates.EndOfDay(end.value, zone)) else None;
      (forall i :: 0 <= i < |r.value| ==>
         r.value[i].billId.Some? && r.value[i].billId.value in h && InWindow(r.value[i], start, endOfDay))
      && (forall i :: 0 <= i < |bills| ==>
            (bills[i].billId.Some? && bills[i].billId.value in h && InWindow(bills[i], start, endOfDay))
            ==> bills[i] in r.value)
  {
    match HistoryCheck(st, customerId, start, end)
    case Some(e) => Err(e)
    case None =>
      var c := FindById(st.customers, customerId.value).value;
      if c.purchaseHistory == [] then Ok([])
      else
        var endOfDay := if end.Some? then Some(Dates.EndOfDay(end.value, zone)) else None;
        var p := (b: Bill) => b.billId.Some? && b.billId.value in c.purchaseHistory
                              && InWindow(b, start, endOfDay);
        FilterIsSubsequence(bills, p);
        Ok(Filter(bills, p))
  }

  /** The end bound covers the whole end day: a bill stamped at any time
      of that local day is inside the window. */
  lemma EndDayIncluded(end: int, zone: int, t: int)
    requires Dates.StartOfDay(t, zone) == Dates.StartOfDay(end, zone)
    ensures t <= Dates.EndOfDay(end, zone)
  {
  }

  /** The as-written query misses a stored bill whose business id is in
      the history but whose document id differs. */
  lemma PurchaseHistoryMissesBusinessIds()
    ensures var c := Customer(Some("C1"), Some("Asha"), None, Some("9876543210"), Some(0), ["B1"], 1, None);
      var b := Bill(Some("X9"), Some("B1"), [], None, None, Some(5), None);
      var st := CustomerStore([c], 1);
      PurchaseHistoryAsWritten(st, [b], Some("C1"), None, None, 0) == Ok([])
      && PurchaseHistory(st, [b], Some("C1"), None, None, 0) == Ok([b])
  {
    var c := Customer(Some("C1"), Some("Asha"), None, Some("9876543210"), Some(0), ["B1"], 1, None);
    var b := Bill(Some("X9"), Some("B1"), [], None, None, Some(5), None);
    var st := CustomerStore([c], 1);
    assert FindById(st.customers, "C1") == Some(c);
    assert "X9" !in c.purchaseHistory;
    assert BillsByDocumentId([b], ["B1"]) == [] by {
      assert [b][1..] == [];
    }
    var p := (b: Bill) => b.billId.Some? && b.billId.value in c.purchaseHistory && InWindow(b, None, None);
    assert p(b);
    assert Filter([b], p) == [b] by {
      assert [b][1..] == [];
    }
  }

  // ---------------------------------------------------------------------
  // sendCustomEmail and findInactiveCustomers
  // ---------------------------------------------------------------------

  datatype Email = Email(to: string, subject: Option<string>, body: string)

  /** The greeting name of a customer. */
  function GreetingName(c: Customer): string {
    c.name.GetOr("Customer")
  }

  /** The body with both placeholders replaced by the greeting name; a null
      body fails (and is caught) for every recipient. */
  function Personalize(body: Option<string>, c: Customer): (r: Option<string>)
    ensures r.Some? <==> body.Some?
  {
    match body
    case None => None
    case Some(b) =>
      Some(Replace(Replace(b, "{{customerName}}", GreetingName(c)), "{{customerNameCase}}", GreetingName(c)))
  }

  /** A body without placeholders is sent as written. */
  lemma PersonalizePlainBody(b: string, c: Customer)
    requires forall i: nat :: !OccursAt(b, "{{customerName}}", i)
    requires forall i: nat :: !OccursAt(b, "{{customerNameCase}}", i)
    ensures Personalize(Some(b), c) == Some(b)
  {
    ReplaceAbsent(b, "{{customerName}}", GreetingName(c));
    ReplaceAbsent(b, "{{customerNameCase}}", GreetingName(c));
  }

  /** A body that is just a placeholder becomes the greeting name. */
  lemma PersonalizePlaceholder(c: Customer)
    ensures Personalize(Some("{{customerName}}"), c) == Some(GreetingName(c))
               || OccursAnywhere(GreetingName(c), "{{customerNameCase}}")
  {
    ReplaceRepeated("{{customerName}}", GreetingName(c), 1);
    assert Repeat("{{customerName}}", 1) == "{{customerName}}";
    assert Repeat(GreetingName(c), 1) == GreetingName(c);
    if !OccursAnywhere(GreetingName(c), "{{customerNameCase}}") {
      ReplaceAbsent(GreetingName(c), "{{customerNameCase}}", GreetingName(c));
    }
  }

  ghost predicate OccursAnywhere(s: string, target: string) {
    exists i: nat :: OccursAt(s, target, i)
  }

  /** A customer who receives the message: an address that is not blank,
      a body to personalise, and a send that does not fail. */
  function Reachable(body: Option<string>, sendFails: string -> bool): Customer -> bool {
    (c: Customer) => c.email.Some? && !IsBlank(c.email.value) && body.Some? && !sendFails(c.email.value)
  }

  /** The message a reachable customer receives. */
  function MailTo(c: Customer, subject: Option<string>, body: Option<string>): Email {
    Email(c.email.GetOr(""), subject, Personalize(body, c).GetOr(""))
  }

  function MailsTo(cs: seq<Customer>, subject: Option<string>, body: Option<string>): (r: seq<Email>)
    ensures |r| == |cs| && forall i :: 0 <= i < |cs| ==> r[i] == MailTo(cs[i], subject, body)
  {
    seq(|cs|, i requires 0 <= i < |cs| => MailTo(cs[i], subject, body))
  }

  lemma MailsToCons(c: Customer, cs: seq<Customer>, subject: Option<string>, body: Option<string>)
    ensures MailsTo([c] + cs, subject, body) == [MailTo(c, subject, body)] + MailsTo(cs, subject, body)
  {
    var l := MailsTo([c] + cs, subject, body);
    var r := [MailTo(c, subject, body)] + MailsTo(cs, subject, body);
    forall i | 0 <= i < |l| ensures l[i] == r[i] {
      if i > 0 {
        assert ([c] + cs)[i] == cs[i - 1];
      }
    }
  }

  /** A customer the request selects. */
  function Selected(ids: seq<string>): Customer -> bool {
    (c: Customer) => c.id.Some? && c.id.value in ids
  }

  /** `sendCustomEmail`: the selected customers in store order; those with
      a blank e-mail are skipped, each remaining one gets its personalised
      message, and a failing send is caught and does not stop the rest.
      Returns the delivered messages: a selected customer receives one
      exactly when reachable, and nobody else receives any. */
  function SendCustomEmail(customers: seq<Customer>, ids: seq<string>, subject: Option<string>,
                           body: Option<string>, sendFails: string -> bool): (sent: seq<Email>)
    ensures |sent| <= |customers|
    ensures forall i :: 0 <= i < |sent| ==> !IsBlank(sent[i].to) && !sendFails(sent[i].to)
    ensures body.None? ==> sent == []
    ensures forall c :: c in customers && Selected(ids)(c) && Reachable(body, sendFails)(c) ==>
      MailTo(c, subject, body) in sent
    ensures forall i :: 0 <= i < |sent| ==>
      (exists c :: c in customers && Selected(ids)(c) && Reachable(body, sendFails)(c)
                   && sent[i] == MailTo(c, subject, body))
  {
    var selected := Filter(customers, Selected(ids));
    var sent := Deliver(selected, subject, body, sendFails);
    var reached := Filter(selected, Reachable(body, sendFails));
    assert sent == MailsTo(reached, subject, body);
    forall c | c in customers && Selected(ids)(c) && Reachable(body, sendFails)(c)
      ensures MailTo(c, subject, body) in sent
    {
      var k :| 0 <= k < |customers| && customers[k] == c;
      assert c in selected;
      var j :| 0 <= j < |selected| && selected[j] == c;
      assert c in reached;
      var m :| 0 <= m < |reached| && reached[m] == c;
      assert sent[m] == MailTo(c, subject, body);
    }
    forall i | 0 <= i < |sent|
      ensures exists c :: (c in customers && Selected(ids)(c) && Reachable(body, sendFails)(c)
                           && sent[i] == MailTo(c, subject, body))
    {
      var c := reached[i];
      assert c in selected;
      assert sent[i] == MailTo(c, subject, body);
    }
    sent
  }

  /** The send loop: the messages are those of the reachable customers, in
      order; a failed send does not stop the loop. */
  function Deliver(cs: seq<Customer>, subject: Option<string>, body: Option<string>,
                   sendFails: string -> bool): (sent: seq<Email>)
    ensures |sent| <= |cs|
    ensures forall i :: 0 <= i < |sent| ==> !IsBlank(sent[i].to) && !sendFails(sent[i].to)
    ensures body.None? ==> sent == []
    ensures sent == MailsTo(Filter(cs, Reachable(body, sendFails)), subject, body)
  {
    if |cs| == 0 then []
    else
      var c := cs[0];
      var rest := Deliver(cs[1..], subject, body, sendFails);
      var reached := Filter(cs[1..], Reachable(body, sendFails));
      if c.email.None? || IsBlank(c.email.value) then
        assert Filter(cs, Reachable(body, sendFails)) == reached;
        rest
      else match Personalize(body, c)
        case None =>
          assert Filter(cs, Reachable(body, sendFails)) == reached;
          rest
        case Some(text) =>
          if sendFails(c.email.value) then
            assert Filter(cs, Reachable(body, sendFails)) == reached;
            rest
          else
            assert Filter(cs, Reachable(body, sendFails)) == [c] + reached;
            MailsToCons(c, reached, subject, body);
            [Email(c.email.value, subject, text)] + rest
  }

  /** `findInactiveCustomers`: a null threshold gives no customers;
      otherwise those who never bought or last bought before it. */
  function FindInactive(customers: seq<Customer>, threshold: Option<int>): (r: seq<Customer>)
    ensures threshold.None? ==> r == []
    ensures Subsequence(r, customers)
    ensures threshold.Some? ==>
      (forall i :: 0 <= i < |r| ==>
         r[i].lastPurchaseDate.None? || r[i].lastPurchaseDate.value < threshold.value)
      && (forall i :: 0 <= i < |customers| &&
           (customers[i].lastPurchaseDate.None? || customers[i].lastPurchaseDate.value < threshold.value)
           ==> customers[i] in r)
  {
    match threshold
    case None => []
    case Some(t) =>
      var p := (c: Customer) => c.lastPurchaseDate.None? || c.lastPurchaseDate.value < t;
      FilterIsSubsequence(customers, p);
      Filter(customers, p)
  }
}

=== FILE: dates.dfy ===
/** Calendar arithmetic on instants (milliseconds since the epoch) and the
    parsing of "yyyy-MM-dd" dates, in the proleptic Gregorian calendar. A
    time zone is a fixed offset in milliseconds east of UTC; daylight-saving
    changes are not modelled. */
module Dates {
  import opened Wrappers
  import opened Text

  const DayMs: int := 86_400_000

  /** Days from 0000-01-01 to 1970-01-01. */
  const EpochDays: int := 719_528

  predicate IsLeap(y: int) {
    (y % 4 == 0 && y % 100 != 0) || y % 400 == 0
  }

  function YearLength(y: int): int {
    if IsLeap(y) then 366 else 365
  }

  function DaysInMonth(y: int, m: int): int
    requires 1 <= m <= 12
  {
    if m == 2 then (if IsLeap(y) then 29 else 28)
    else if m == 4 || m == 6 || m == 9 || m == 11 then 30
    else 31
  }

  predicate ValidDate(y: int, m: int, d: int) {
    y >= 1 && 1 <= m <= 12 && 1 <= d <= DaysInMonth(y, m)
  }

  /** Days from 0000-01-01 to the first day of year `y`. */
  function DaysBeforeYear(y: nat): nat {
    if y == 0 then 0 else DaysBeforeYear(y - 1) + YearLength(y - 1)
  }

  /** Days from the first of January to the first day of month `m`. */
  function DaysBeforeMonth(y: int, m: int): (r: nat)
    requires 1 <= m <= 12
    ensures r + DaysInMonth(y, m) <= YearLength(y)
  {
    var cumulative := [0, 31, 59, 90, 120, 151, 181, 212, 243, 273, 304, 334];
    cumulative[m - 1] + (if m > 2 && IsLeap(y) then 1 else 0)
  }

  /** The day number of a calendar date, counted from 1970-01-01. */
  function DayNumber(y: nat, m: int, d: int): int
    requires 1 <= m <= 12
  {
    DaysBeforeYear(y) + DaysBeforeMonth(y, m) + d - 1 - EpochDays
  }

  /** Lexicographic order of calendar dates. */
  predicate DateBefore(y: int, m: int, d: int, y': int, m': int, d': int) {
    y < y' || (y == y' && m < m') || (y == y' && m == m' && d < d')
  }

  lemma {:induction false} DaysBeforeYearGrows(y: nat, y': nat)
    requires y < y'
    ensures DaysBeforeYear(y) + YearLength(y) <= DaysBeforeYear(y')
    decreases y' - y
  {
    if y + 1 < y' {
      DaysBeforeYearGrows(y + 1, y');
    }
  }

  lemma {:induction false} DaysBeforeMonthGrows(y: int, m: int, m': int)
    requires 1 <= m < m' <= 12
    ensures DaysBeforeMonth(y, m) + DaysInMonth(y, m) <= DaysBeforeMonth(y, m')
    decreases m' - m
  {
    assert DaysBeforeMonth(y, m + 1) == DaysBeforeMonth(y, m) + DaysInMonth(y, m);
    if m + 1 < m' {
      DaysBeforeMonthGrows(y, m + 1, m');
    }
  }

  /** Day numbers preserve the calendar order, so distinct valid dates get
      distinct day numbers. */
  lemma DayNumberMonotone(y: nat, m: int, d: int, y': nat, m': int, d': int)
    requires ValidDate(y, m, d) && ValidDate(y', m', d')
    ensures DateBefore(y, m, d, y', m', d') <==> DayNumber(y, m, d) < DayNumber(y', m', d')
  {
    if DateBefore(y, m, d, y', m', d') {
      DayBeforeIsSmaller(y, m, d, y', m', d');
    } else if DateBefore(y', m', d', y, m, d) {
      DayBeforeIsSmaller(y', m', d', y, m, d);
    }
  }

  lemma DayBeforeIsSmaller(y: nat, m: int, d: int, y': nat, m': int, d': int)
    requires ValidDate(y, m, d) && ValidDate(y', m', d')
    requires DateBefore(y, m, d, y', m', d')
    ensures DayNumber(y, m, d) < DayNumber(y', m', d')
  {
    if y < y' {
      DaysBeforeYearGrows(y, y');
    } else if m < m' {
      DaysBeforeMonthGrows(y, m, m');
    }
  }

  // ---------------------------------------------------------------------
  // Instants and days
  // ---------------------------------------------------------------------

  /** The first millisecond of the local day holding `t`. */
  function StartOfDay(t: int, offset: int): (r: int)
    ensures r <= t < r + DayMs
    ensures (r + offset) % DayMs == 0
  {
    ((t + offset) / DayMs) * DayMs - offset
  }

  /** The last millisecond (23:59:59.999) of the local day holding `t`. */
  function EndOfDay(t: int, offset: int): (r: int)
    ensures t <= r < t + DayMs
    ensures (r + offset + 1) % DayMs == 0
    ensures StartOfDay(r, offset) == StartOfDay(t, offset)
  {
    StartOfDay(t, offset) + DayMs - 1
  }

  /** Local midnight of a calendar date. */
  function MidnightOf(y: nat, m: int, d: int, offset: int): int
    requires 1 <= m <= 12
  {
    DayNumber(y, m, d) * DayMs - offset
  }

  // ---------------------------------------------------------------------
  // From a day number back to the calendar
  // ---------------------------------------------------------------------

  /** Whole years counted off from the start of year `y`. */
  function YearWalk(a: nat, y: nat): (r: (nat, nat))
    ensures r.0 >= y && r.1 < YearLength(r.0)
    ensures DaysBeforeYear(r.0) + r.1 == DaysBeforeYear(y) + a
    decreases a
  {
    if a < YearLength(y) then (y, a) else YearWalk(a - YearLength(y), y + 1)
  }

  /** Whole months counted off from the start of month `m`. */
  function MonthWalk(y: nat, a: nat, m: int): (r: (int, nat))
    requires 1 <= m <= 12 && DaysBeforeMonth(y, m) + a < YearLength(y)
    ensures 1 <= r.0 <= 12 && r.1 < DaysInMonth(y, r.0)
    ensures DaysBeforeMonth(y, r.0) + r.1 == DaysBeforeMonth(y, m) + a
    decreases 12 - m
  {
    if a < DaysInMonth(y, m) then (m, a)
    else
      assert m < 12;
      assert DaysBeforeMonth(y, m + 1) == DaysBeforeMonth(y, m) + DaysInMonth(y, m);
      MonthWalk(y, a - DaysInMonth(y, m), m + 1)
  }

  /** The calendar date of a day number, for the years 1 to 9999. */
  function CivilOf(n: int): (r: Option<(nat, nat, nat)>)
    ensures r.Some? ==> ValidDate(r.value.0, r.value.1, r.value.2) && r.value.0 < 10000
                        && DayNumber(r.value.0, r.value.1, r.value.2) == n
  {
    if n + EpochDays < 0 then None
    else
      var (y, a) := YearWalk(n + EpochDays, 0);
      if y < 1 || y >= 10000 then None
      else
        var (m, d) := MonthWalk(y, a, 1);
        Some((y, m as nat, d + 1))
  }

  /** A valid date with a four-digit year is found again from its day
      number. */
  lemma CivilOfDayNumber(y: nat, m: nat, d: nat)
    requires ValidDate(y, m, d) && y < 10000
    ensures CivilOf(DayNumber(y, m, d)) == Some((y, m, d))
  {
    var n := DayNumber(y, m, d);
    var (y', a) := YearWalk(n + EpochDays, 0);
    if y' < y {
      DaysBeforeYearGrows(y', y);
    } else if y < y' {
      DaysBeforeYearGrows(y, y');
    }
    assert y' == y;
    var r := CivilOf(n);
    var (y2, m2, d2) := r.value;
    DayNumberMonotone(y, m, d, y2, m2, d2);
    DayNumberMonotone(y2, m2, d2, y, m, d);
  }

  // ---------------------------------------------------------------------
  // Parsing "yyyy-MM-dd"
  // ---------------------------------------------------------------------

  /** One numeric field: spaces and tabs are skipped, then a non-empty run
      of ASCII digits is read; returns the value and the rest. */
  function NumberField(s: string): (r: Option<(nat, string)>)
    ensures r.Some? ==> |r.value.1| < |s|
  {
    var t := TrimStartWith(s, c => c == ' ' || c == '\t');
    var digits := DigitPrefix(t);
    if |digits| == 0 then None
    else
      AllDigitsInDecimal(digits);
      Some((DigitsValue(digits, 10), t[|digits|..]))
  }

  /** The date a non-lenient "yyyy-MM-dd" format reads at the start of
      `s`: three numeric fields separated by '-', checked against the
      calendar; text after the day is ignored. */
  function ParseYmd(s: string): (r: Option<(nat, nat, nat)>)
    ensures r.Some? ==> ValidDate(r.value.0, r.value.1, r.value.2)
  {
    match NumberField(s)
    case None => None
    case Some((y, rest)) =>
      if |rest| == 0 || rest[0] != '-' then None
      else match NumberField(rest[1..])
        case None => None
        case Some((m, rest')) =>
          if |rest'| == 0 || rest'[0] != '-' then None
          else match NumberField(rest'[1..])
            case None => None
            case Some((d, _)) =>
              if ValidDate(y, m, d) then Some((y, m, d)) else None
  }

  /** The instant of local midnight of the date read from `s`. */
  function ParseDate(s: string, offset: int): (r: Option<int>)
    ensures r.Some? <==> ParseYmd(s).Some?
    ensures r.Some? ==> var (y, m, d) := ParseYmd(s).value;
      r.value == MidnightOf(y, m, d, offset)
  {
    match ParseYmd(s)
    case None => None
    case Some((y, m, d)) => Some(MidnightOf(y, m, d, offset))
  }

  // ---------------------------------------------------------------------
  // Formatting, and the round trip with parsing
  // ---------------------------------------------------------------------

  function Pad2(n: nat): (r: string)
    requires n < 100
    ensures |r| == 2 && AllDigits(r)
  {
    [DigitChar(n / 10), DigitChar(n % 10)]
  }

  function Pad4(n: nat): (r: string)
    requires n < 10000
    ensures |r| == 4 && AllDigits(r)
  {
    [DigitChar(n / 1000), DigitChar(n / 100 % 10), DigitChar(n / 10 % 10), DigitChar(n % 10)]
  }

  /** The canonical "yyyy-MM-dd" text of a date with a four-digit year. */
  function FormatYmd(y: nat, m: nat, d: nat): (r: string)
    requires y < 10000 && m < 100 && d < 100
    ensures |r| == 10 && r[4] == '-' && r[7] == '-'
  {
    Pad4(y) + "-" + Pad2(m) + "-" + Pad2(d)
  }

  lemma DigitValueOfDigitChar(k: nat)
    requires k < 10
    ensures DigitValue(DigitChar(k)) == Some(k)
  {
  }

  lemma Pad2Value(n: nat)
    requires n < 100
    ensures AllDigitsIn(Pad2(n), 10) && DigitsValue(Pad2(n), 10) == n
  {
    var p := Pad2(n);
    AllDigitsInDecimal(p);
    DigitValueOfDigitChar(n / 10);
    DigitValueOfDigitChar(n % 10);
    assert p[..1] == [DigitChar(n / 10)];
    assert p[..1][..0] == [];
    assert DigitsValue(p[..1], 10) == n / 10;
  }

  lemma Pad4Value(n: nat)
    requires n < 10000
    ensures AllDigitsIn(Pad4(n), 10) && DigitsValue(Pad4(n), 10) == n
  {
    var p := Pad4(n);
    AllDigitsInDecimal(p);
    DigitValueOfDigitChar(n / 1000);
    DigitValueOfDigitChar(n / 100 % 10);
    DigitValueOfDigitChar(n / 10 % 10);
    DigitValueOfDigitChar(n % 10);
    var p3, p2, p1 := p[..3], p[..2], p[..1];
    assert p3[..2] == p2 && p2[..1] == p1 && p1[..0] == [];
    assert DigitsValue(p1, 10) == n / 1000;
    assert DigitsValue(p2, 10) == n / 100;
    assert DigitsValue(p3, 10) == n / 10;
  }

  lemma NumberFieldOfDigits(digits: string, rest: string)
    requires |digits| > 0 && AllDigits(digits)
    requires |rest| == 0 || !IsDigit(rest[0])
    ensures AllDigitsIn(digits, 10)
    ensures NumberField(digits + rest) == Some((DigitsValue(digits, 10), rest))
  {
    AllDigitsInDecimal(digits);
    var s := digits + rest;
    assert s[0] == digits[0];
    var t := TrimStartWith(s, c => c == ' ' || c == '\t');
    assert t == s;
    DigitPrefixOfDigits(digits, rest);
    assert s[|digits|..] == rest;
  }

  /** Three digit runs joined by '-' read as their three values, kept
      when they make a valid date. */
  lemma ParseYmdOfFields(ys: string, ms: string, ds: string)
    requires |ys| > 0 && AllDigits(ys) && |ms| > 0 && AllDigits(ms) && |ds| > 0 && AllDigits(ds)
    ensures AllDigitsIn(ys, 10) && AllDigitsIn(ms, 10) && AllDigitsIn(ds, 10)
    ensures ParseYmd(ys + ("-" + (ms + ("-" + ds))))
            == YmdIfValid(DigitsValue(ys, 10), DigitsValue(ms, 10), DigitsValue(ds, 10))
  {
    var r2 := "-" + ds;
    var r1 := "-" + (ms + r2);
    NumberFieldOfDigits(ys, r1);
    NumberFieldOfDigits(ms, r2);
    NumberFieldOfDigits(ds, "");
    assert r1[1..] == ms + r2;
    assert r2[1..] == ds + "";
    ParseYmdSteps(ys + r1, DigitsValue(ys, 10), r1, DigitsValue(ms, 10), r2, DigitsValue(ds, 10), "");
  }

  function YmdIfValid(y: nat, m: nat, d: nat): Option<(nat, nat, nat)> {
    if ValidDate(y, m, d) then Some((y, m, d)) else None
  }

  /** `ParseYmd` from the three fields' readings. */
  lemma ParseYmdSteps(s: string, y: nat, r1: string, m: nat, r2: string, d: nat, r3: string)
    requires NumberField(s) == Some((y, r1)) && |r1| > 0 && r1[0] == '-'
    requires NumberField(r1[1..]) == Some((m, r2)) && |r2| > 0 && r2[0] == '-'
    requires NumberField(r2[1..]) == Some((d, r3))
    ensures ParseYmd(s) == YmdIfValid(y, m, d)
  {
  }

  lemma JoinRegroup(a: string, b: string, c: string, d: string, e: string)
    ensures a + b + c + d + e == a + (b + (c + (d + e)))
  {
  }

  /** Round trip: the canonical text of a valid date parses back to it. */
  lemma ParseFormatYmd(y: nat, m: nat, d: nat)
    requires ValidDate(y, m, d) && y < 10000
    ensures ParseYmd(FormatYmd(y, m, d)) == Some((y, m, d))
  {
    Pad4Value(y);
    Pad2Value(m);
    Pad2Value(d);
    ParseYmdOfFields(Pad4(y), Pad2(m), Pad2(d));
    JoinRegroup(Pad4(y), "-", Pad2(m), "-", Pad2(d));
  }
}

=== FILE: demo_pages.dfy ===
/** The older demo pages of the browser application: a fixed credential
    table sets a lower-case role in local storage, the routes and the
    navigation bar are gated on that role, and an in-memory inventory list
    can be added to and deleted from. */
module DemoPages {
  import opened Wrappers
  import opened Text
  import Seqs

  // ---------------------------------------------------------------------
  // Login and routes
  // ---------------------------------------------------------------------

  datatype Page =
    | LoginPage
    | DashboardPage
    | InventoryPage
    | CustomersPage
    | BillingPage
    | AccessDenied
    | NoMatch

  /** The landing of a successful demo login: the stored role and the path
      navigated to. */
  datatype Landing = Landing(role: string, path: string)

  /** The demo credential table: admin, manager and cashier, all with
      password "1234"; anything else is refused with an alert and stores
      nothing. */
  function DemoLogin(username: string, password: string): (r: Option<Landing>)
    ensures r.Some? <==> password == "1234" && username in {"admin", "manager", "cashier"}
    ensures r.Some? ==> r.value.role == (if username == "admin" then "owner" else username)
  {
    if username == "admin" && password == "1234" then Some(Landing("owner", "/dashboard"))
    else if username == "manager" && password == "1234" then Some(Landing("manager", "/inventory"))
    else if username == "cashier" && password == "1234" then Some(Landing("cashier", "/billing"))
    else None
  }

  /** The page each path renders for the current role. */
  function Route(path: string, role: Option<string>): Page {
    if path == "/" || path == "/login" then LoginPage
    else if path == "/dashboard" then
      (if role == Some("owner") then DashboardPage else AccessDenied)
    else if path == "/inventory" then
      (if role == Some("owner") || role == Some("manager") then InventoryPage else AccessDenied)
    else if path == "/customers" then
      (if role == Some("owner") || role == Some("manager") then CustomersPage else AccessDenied)
    else if path == "/billing" then
      (if role == Some("owner") || role == Some("manager") || role == Some("cashier") then BillingPage
       else AccessDenied)
    else NoMatch
  }

  const GuardedPaths: seq<string> := ["/dashboard", "/inventory", "/customers", "/billing"]

  /** The roles each guarded page admits. */
  function Admitted(path: string): set<string> {
    if path == "/dashboard" then {"owner"}
    else if path == "/inventory" || path == "/customers" then {"owner", "manager"}
    else if path == "/billing" then {"owner", "manager", "cashier"}
    else {}
  }

  /** Every guarded page is reached exactly by the roles it admits, and
      the admitted sets are nested: an owner reaches everything a manager
      does, a manager everything a cashier does. */
  lemma RoutesFollowRoles(path: string, role: Option<string>)
    requires path in GuardedPaths
    ensures Route(path, role) != AccessDenied <==> role.Some? && role.value in Admitted(path)
    ensures "cashier" in Admitted(path) ==> "manager" in Admitted(path)
    ensures "manager" in Admitted(path) ==> "owner" in Admitted(path)
  {
  }

  /** Every demo account lands on a page its role may see. */
  lemma DemoLoginLandsOnAdmittedPage(username: string, password: string)
    requires DemoLogin(username, password).Some?
    ensures var l := DemoLogin(username, password).value;
      l.path in GuardedPaths && Route(l.path, Some(l.role)) != AccessDenied
  {
  }

  /** The role the application starts from and keeps in sync with: a
      non-empty stored role different from the current one replaces it. */
  function SyncRole(role: Option<string>, stored: Option<string>): (r: Option<string>)
    ensures Truthy(stored) ==> r == stored
    ensures !Truthy(stored) ==> r == role
  {
    if Truthy(stored) && stored != role then stored else role
  }

  // ---------------------------------------------------------------------
  // The navigation bar
  // ---------------------------------------------------------------------

  /** The links the bar shows: the login link always, then each guarded
      page the role may see, in a fixed order. */
  function NavLinks(role: Option<string>): (r: seq<string>)
    ensures |r| >= 1 && r[0] == "/login"
  {
    ["/login"]
    + (if role == Some("owner") then ["/dashboard"] else [])
    + (if role == Some("owner") || role == Some("manager") then ["/inventory", "/customers"] else [])
    + (if role == Some("owner") || role == Some("manager") || role == Some("cashier") then ["/billing"] else [])
  }

  /** A link is shown exactly when following it does not end in the
      access-denied page. */
  lemma LinksMirrorRoutes(path: string, role: Option<string>)
    requires path in GuardedPaths
    ensures path in NavLinks(role) <==> Route(path, role) != AccessDenied
  {
  }

  /** The bar itself renders only with a role; its greeting shows the
      role upper-cased, and the logout button appears with it. */
  function Greeting(role: Option<string>): (r: Option<string>)
    ensures r.Some? <==> Truthy(role)
    ensures r.Some? ==> |r.value| == |role.value|
    ensures r.Some? ==> forall i :: 0 <= i < |r.value| ==> !('a' <= r.value[i] <= 'z')
    ensures r.Some? ==> forall i :: 0 <= i < |r.value| && !('a' <= role.value[i] <= 'z') ==> r.value[i] == role.value[i]
    ensures r.Some? ==> forall i :: 0 <= i < |r.value| && 'a' <= role.value[i] <= 'z' ==>
      r.value[i] as int == role.value[i] as int - ('a' as int - 'A' as int)
  {
    if Truthy(role) then Some(ToUpper(role.value)) else None
  }

  /** Logging out of the demo clears all of local storage, forgets the
      role and goes to the login page. */
  function DemoLogout(st: map<string, string>): (r: (map<string, string>, Option<string>, string))
    ensures r.0 == map[] && r.1.None? && Route(r.2, r.1) == LoginPage
  {
    (map[], None, "/login")
  }

  /** After logout every guarded page is denied and the bar disappears. */
  lemma LogoutLocksEverything(st: map<string, string>, path: string)
    requires path in GuardedPaths
    ensures var (_, role, _) := DemoLogout(st);
      Route(path, role) == AccessDenied && Greeting(role).None?
  {
  }

  // ---------------------------------------------------------------------
  // The in-memory inventory
  // ---------------------------------------------------------------------

  /** A demo product; the stock is the `parseInt` of the form field, so it
      can be NaN (`None`). */
  datatype DemoProduct = DemoProduct(id: string, name: string, stock: Option<int>)

  datatype Form = Form(id: string, name: string, stock: string)

  const EmptyForm: Form := Form("", "", "")

  /** The list the page starts with. */
  const InitialProducts: seq<DemoProduct> := [
    DemoProduct("1001", "Amul Milk", Some(5)),
    DemoProduct("1002", "Bread", Some(0)),
    DemoProduct("1003", "Eggs (6 pack)", Some(12)),
    DemoProduct("1004", "Rice Bag", Some(1))
  ]

  /** The state after submitting the form: the product list, the form, and
      whether the form is shown. */
  datatype Inventory = Inventory(products: seq<DemoProduct>, form: Form, showForm: bool)

  /** An empty id, an empty name or an empty stock field is refused with
      the list, the form and its visibility unchanged. Otherwise one
      product is appended and the form is emptied and hidden. */
  function AddProduct(inv: Inventory): (r: Result<Inventory>)
    ensures r.Err? <==> inv.form.id == "" || inv.form.name == "" || inv.form.stock == ""
    ensures r.Ok? ==> r.value == Inventory(
      inv.products + [DemoProduct(inv.form.id, inv.form.name, JsParseInt(inv.form.stock))], EmptyForm, false)
  {
    if inv.form.id == "" || inv.form.name == "" || inv.form.stock == "" then Err("pleaseFillAll")
    else Ok(Inventory(inv.products + [DemoProduct(inv.form.id, inv.form.name, JsParseInt(inv.form.stock))],
                      EmptyForm, false))
  }

  function OtherThan(id: string): DemoProduct -> bool {
    (p: DemoProduct) => p.id != id
  }

  /** Deleting, after the user confirms, drops every product with the id. */
  function DeleteProduct(products: seq<DemoProduct>, id: string, confirmed: bool): (r: seq<DemoProduct>)
    ensures !confirmed ==> r == products
    ensures confirmed ==> forall i :: 0 <= i < |r| ==> r[i].id != id && r[i] in products
    ensures confirmed ==> forall i :: 0 <= i < |products| && products[i].id != id ==> products[i] in r
  {
    if confirmed then Seqs.Filter(products, OtherThan(id)) else products
  }

  /** An added product can be deleted again, and then no product of that
      id is left. */
  lemma AddThenDelete(inv: Inventory)
    requires AddProduct(inv).Ok?
    ensures var added := AddProduct(inv).value.products;
      |added| == |inv.products| + 1 && added[|inv.products|].id == inv.form.id
      && forall p :: p in DeleteProduct(added, inv.form.id, true) ==> p.id != inv.form.id
  {
  }

  datatype Status = RestockNeeded | LowStock | InStock

  /** The status column: exactly 0 needs a restock, less than 3 is low, and
      everything else, a NaN stock included, is in stock. */
  function StockStatus(stock: Option<int>): (r: Status)
    ensures r == RestockNeeded <==> stock == Some(0)
    ensures r == LowStock <==> stock.Some? && stock.value != 0 && stock.value < 3
  {
    if stock == Some(0) then RestockNeeded
    else if stock.Some? && stock.value < 3 then LowStock
    else InStock
  }

  /** A stock field that does not parse shows as in stock, as does any
      value of at least 3; a negative stock shows as low. */
  lemma StatusOfUnusualStock()
    ensures StockStatus(JsParseInt("abc")) == InStock
    ensures StockStatus(Some(-4)) == LowStock
    ensures StockStatus(Some(3)) == InStock
  {
    JsParseIntNaN("abc");
  }

  /** The starting list shows one product of each status. */
  lemma InitialStatuses()
    ensures StockStatus(InitialProducts[0].stock) == InStock
    ensures StockStatus(InitialProducts[1].stock) == RestockNeeded
    ensures StockStatus(InitialProducts[3].stock) == LowStock
  {
  }
}

=== FILE: json.dfy ===
/** Loosely typed values: parsed JSON in the backend (`Map<String, Object>`,
    `List<Object>`, boxed numbers) and the dictionaries of the analytics
    service. Integers and floating-point numbers are kept apart because
    the code treats them differently. */
module Json {
  import opened Wrappers
  import opened Text

  datatype JValue =
    | JNull
    | JBool(b: bool)
    | JInt(i: int)
    | JReal(r: real)
    | JStr(s: string)
    | JArr(elems: seq<JValue>)
    | JObj(fields: map<string, JValue>)
  {
    predicate IsNumber() { JInt? || JReal? }
  }

  /** `map.get(key)`: a missing key reads as null. */
  function Get(fields: map<string, JValue>, key: string): (v: JValue)
    ensures key !in fields ==> v == JNull
    ensures key in fields ==> v == fields[key]
  {
    if key in fields then fields[key] else JNull
  }

  /** Truncation of a real toward zero. */
  function TruncReal(x: real): (n: int)
    ensures x >= 0.0 ==> n as real <= x < n as real + 1.0
    ensures x < 0.0 ==> n as real - 1.0 < x <= n as real
  {
    if x >= 0.0 then x.Floor else -((-x).Floor)
  }

  /** `Number.intValue()`: integral values keep their low 32 bits, a
      floating-point value is truncated toward zero and saturated. */
  function IntValue(v: JValue): (n: int)
    requires v.IsNumber()
    ensures MinInt <= n <= MaxInt
    ensures v.JInt? && MinInt <= v.i <= MaxInt ==> n == v.i
    ensures v.JReal? && MinInt as real <= v.r < MaxInt as real + 1.0 ==> n == TruncReal(v.r)
  {
    match v
    case JInt(i) => Wrap32(i)
    case JReal(r) =>
      var t := TruncReal(r);
      if t < MinInt then MinInt else if t > MaxInt then MaxInt else t
  }

  /** Integral overflow wraps; a floating-point value truncates and saturates. */
  lemma IntValueWraps()
    ensures IntValue(JInt(MaxInt + 1)) == MinInt
    ensures IntValue(JReal(-2.5)) == -2
    ensures IntValue(JReal(1.0e10)) == MaxInt
  {
  }
}

=== FILE: jwt_filter.dfy ===
/** The per-request authentication filter: the bearer token is taken from
    the Authorization header (section 2.1 of RFC 6750, with the scheme
    matched case-sensitively), its subject is looked up, and the request
    is authenticated with the single authority "ROLE_" + role. Token
    validation is a parameter returning `None` where the library throws. */
module JwtFilter {
  import opened Wrappers
  import opened Text
  import opened Models
  import opened Auth

  datatype Claims = Claims(subject: Option<string>)

  datatype Authentication = Authentication(principal: User, authority: string)

  /** What the filter leaves behind: the security context's
      authentication, whether the rest of the chain ran, and the exception
      that escaped, if one did. */
  datatype FilterOutcome = FilterOutcome(auth: Option<Authentication>, chainRuns: bool, escaped: Option<string>)

  const BearerPrefix: string := "Bearer "

  /** The token after "Bearer ", when the header starts with it. */
  function BearerToken(header: Option<string>): (r: Option<string>)
    ensures r.Some? <==> header.Some? && StartsWith(header.value, BearerPrefix)
    ensures r.Some? ==> header.value == BearerPrefix + r.value
  {
    if header.Some? && StartsWith(header.value, BearerPrefix) then Some(header.value[7..]) else None
  }

  /** A header built from a token gives the token back. */
  lemma BearerRoundTrip(token: string)
    ensures BearerToken(Some(BearerPrefix + token)) == Some(token)
  {
    assert (BearerPrefix + token)[..7] == BearerPrefix;
  }

  /** The scheme is matched exactly: a lower-case "bearer" is not read. */
  lemma LowerCaseSchemeIgnored(token: string)
    ensures BearerToken(Some("bearer " + token)).None?
  {
    assert ("bearer " + token)[0] == 'b';
  }

  /** The e-mail the filter extracts: the subject of a token that
      validates, or nothing. */
  function ExtractedEmail(header: Option<string>, validate: string -> Option<Claims>): (r: Option<string>)
    ensures r.Some? ==> BearerToken(header).Some? && validate(BearerToken(header).value).Some?
                        && r == validate(BearerToken(header).value).value.subject
  {
    match BearerToken(header)
    case None => None
    case Some(jwt) =>
      match validate(jwt)
      case None => None
      case Some(claims) => claims.subject
  }

  /** `doFilterInternal`: with an extracted e-mail and no authentication
      yet, the account is looked up; a known one authenticates the request,
      an unknown one makes the lookup throw past the rest of the chain.
      Otherwise the chain simply runs with the context unchanged. */
  function Filter(header: Option<string>, validate: string -> Option<Claims>,
                  current: Option<Authentication>, users: seq<User>): (r: FilterOutcome)
    ensures r.chainRuns <==> r.escaped.None?
    ensures r.auth != current ==>
      ExtractedEmail(header, validate).Some? && current.None?
      && r.auth.Some? && r.auth.value.principal in users
      && r.auth.value.principal.email == ExtractedEmail(header, validate)
      && r.auth.value.authority == "ROLE_" + Show(r.auth.value.principal.role)
    ensures r.escaped.Some? ==>
      r.escaped == Some("User not found: " + Show(ExtractedEmail(header, validate)))
      && forall j :: 0 <= j < |users| ==> users[j].email != ExtractedEmail(header, validate)
  {
    var email := ExtractedEmail(header, validate);
    if email.Some? && current.None? then
      match GetUserByEmail(users, email)
      case Err(e) => FilterOutcome(current, false, Some(e))
      case Ok(u) => FilterOutcome(Some(Authentication(u, "ROLE_" + Show(u.role))), true, None)
    else FilterOutcome(current, true, None)
  }

  /** A token that fails validation leaves the request as it was and the
      chain still runs. */
  lemma InvalidTokenPassesThrough(header: Option<string>, validate: string -> Option<Claims>,
                                  current: Option<Authentication>, users: seq<User>)
    requires BearerToken(header).None? || validate(BearerToken(header).value).None?
    ensures Filter(header, validate, current, users) == FilterOutcome(current, true, None)
  {
  }

  /** The "user not found" branch of the filter cannot be reached: once an
      e-mail is extracted on an unauthenticated request, either the
      request ends up authenticated or the lookup's exception escapes. */
  lemma NotFoundBranchUnreachable(header: Option<string>, validate: string -> Option<Claims>,
                                  users: seq<User>)
    requires ExtractedEmail(header, validate).Some?
    ensures var r := Filter(header, validate, None, users);
      (r.auth.Some? && r.chainRuns) != r.escaped.Some?
  {
  }

  /** An existing authentication is never replaced. */
  lemma AuthenticatedRequestUntouched(header: Option<string>, validate: string -> Option<Claims>,
                                      a: Authentication, users: seq<User>)
    ensures Filter(header, validate, Some(a), users) == FilterOutcome(Some(a), true, None)
  {
  }
}

=== FILE: legacy_analytics.dfy ===
/** The older analytics service kept beside the backend: every item of
    every bill becomes a record, with no filtering and no fallback values,
    the date prefers "date" over "createdAt", an empty result is a 404
    and any exception a 500. There is no date range. */
module LegacyAnalytics {
  import opened Wrappers
  import opened Text
  import opened Json
  import Analytics

  type Doc = map<string, JValue>

  datatype Record = Record(
    date: JValue, productId: JValue, name: JValue,
    qty: JValue, price: JValue, revenue: JValue, total: JValue)

  /** Integers, booleans included. */
  predicate IsPyInt(v: JValue) {
    v.JInt? || v.JBool?
  }

  function IntOf(v: JValue): int
    requires IsPyInt(v)
  {
    if v.JInt? then v.i else if v.b then 1 else 0
  }

  /** A sequence repeated `n` times, as Python's `list * n`: the result
      starts with the sequence and repeats with its length as period. */
  function RepeatList<T>(s: seq<T>, n: nat): (r: seq<T>)
    ensures |r| == |s| * n
    ensures n > 0 ==> r[..|s|] == s
    ensures forall i :: 0 <= i < |r| - |s| ==> r[i + |s|] == r[i]
  {
    if n == 0 then []
    else
      var rest := RepeatList(s, n - 1);
      assert forall i :: 0 <= i < |rest| ==> (s + rest)[i + |s|] == (s + rest)[i] by {
        forall i | 0 <= i < |rest| ensures (s + rest)[i + |s|] == (s + rest)[i] {
          if i < |s| {
            assert rest[..|s|][i] == s[i];
          } else {
            assert rest[(i - |s|) + |s|] == rest[i - |s|];
          }
        }
      }
      s + rest
  }

  /** The repeat count Python uses: a negative count gives nothing. */
  function Times(v: JValue): nat
    requires IsPyInt(v)
  {
    if IntOf(v) < 0 then 0 else IntOf(v)
  }

  /** Python `*`: integers multiply exactly, a float makes the product a
      float, a string or a list times an integer (on either side) repeats
      it, anything else raises. */
  function Mul(a: JValue, b: JValue): (r: Result<JValue>)
    ensures Analytics.IsPyNumber(a) && Analytics.IsPyNumber(b) ==>
      r.Ok? && (r.value.JInt? || r.value.JReal?)
    ensures IsPyInt(a) && IsPyInt(b) ==> r == Ok(JInt(IntOf(a) * IntOf(b)))
    ensures a.JStr? && IsPyInt(b) ==> r.Ok? && r.value.JStr? && |r.value.s| == |a.s| * Times(b)
    ensures a.JArr? && IsPyInt(b) ==>
      (r.Ok? && r.value.JArr? && |r.value.elems| == |a.elems| * Times(b)
        && (Times(b) > 0 ==> r.value.elems[..|a.elems|] == a.elems)
       && forall i :: 0 <= i < |r.value.elems| - |a.elems| ==> r.value.elems[i + |a.elems|] == r.value.elems[i])
    ensures IsPyInt(a) && b.JArr? ==> r.Ok? && r.value.JArr? && |r.value.elems| == |b.elems| * Times(a)
    ensures (a.JNull? || b.JNull?) ==> r == Err("TypeError")
    ensures (a.JObj? || b.JObj?) ==> r == Err("TypeError")
  {
    if IsPyInt(a) && IsPyInt(b) then Ok(JInt(IntOf(a) * IntOf(b)))
    else if Analytics.IsPyNumber(a) && Analytics.IsPyNumber(b) then
      Ok(JReal(Analytics.NumValue(a) * Analytics.NumValue(b)))
    else if a.JStr? && IsPyInt(b) then Ok(JStr(Repeat(a.s, Times(b))))
    else if IsPyInt(a) && b.JStr? then Ok(JStr(Repeat(b.s, Times(a))))
    else if a.JArr? && IsPyInt(b) then Ok(JArr(RepeatList(a.elems, Times(b))))
    else if IsPyInt(a) && b.JArr? then Ok(JArr(RepeatList(b.elems, Times(a))))
    else Err("TypeError")
  }

  /** A list price times a quantity of 2 is the list twice: no error. */
  lemma ListPriceRepeats()
    ensures Mul(JArr([JInt(5)]), JInt(2)) == Ok(JArr([JInt(5), JInt(5)]))
  {
    var r := Mul(JArr([JInt(5)]), JInt(2));
    assert |r.value.elems| == 2 && r.value.elems[..1] == [JInt(5)];
    assert r.value.elems[0 + 1] == r.value.elems[0];
    assert r.value.elems == [JInt(5), JInt(5)];
  }

  /** The bill's date: "date" when truthy, else "createdAt". */
  function BillDate(bill: Doc): JValue {
    Analytics.UnwrapDate(Analytics.Or(Json.Get(bill, "date"), Json.Get(bill, "createdAt")))
  }

  /** One record per item, the values copied as they are. */
  function ItemRecord(date: JValue, total: JValue, item: JValue): (r: Result<Record>)
    ensures !item.JObj? ==> r == Err("AttributeError")
    ensures r.Ok? ==> item.JObj? && r.value.productId == Json.Get(item.fields, "productId")
                      && r.value.name == Json.Get(item.fields, "name")
                      && r.value.date == date && r.value.total == total
                      && Mul(r.value.price, r.value.qty) == Ok(r.value.revenue)
  {
    if !item.JObj? then Err("AttributeError")
    else
      var f := item.fields;
      var qty := Analytics.ItemQty(f);
      var price := Analytics.ItemPrice(f);
      var revenue :- Mul(price, qty);
      Ok(Record(date, Json.Get(f, "productId"), Json.Get(f, "name"), qty, price, revenue, total))
  }

  function ItemRecords(date: JValue, total: JValue, items: seq<JValue>): (r: Result<seq<Record>>)
    ensures r.Ok? ==> |r.value| == |items|
    decreases |items|
  {
    if |items| == 0 then Ok([])
    else
      var first :- ItemRecord(date, total, items[0]);
      var rest :- ItemRecords(date, total, items[1..]);
      Ok([first] + rest)
  }

  /** The items of all bills, in order. */
  function AllItems(bills: seq<Doc>): (r: Result<seq<JValue>>)
    decreases |bills|
  {
    if |bills| == 0 then Ok([])
    else
      var items :- Analytics.Elements(Analytics.GetOr(bills[0], "items", JArr([])));
      var rest :- AllItems(bills[1..]);
      Ok(items + rest)
  }

  /** `normalize_bills`: exactly one record per item, zero and negative
      quantities included. Each bill's date goes through `pd.to_datetime`
      first; `dateError` is the exception it raises on a value, if any. */
  function NormalizeBills(bills: seq<Doc>, dateError: JValue -> Option<string>): (r: Result<seq<Record>>)
    ensures r.Ok? ==> AllItems(bills).Ok? && |r.value| == |AllItems(bills).value|
    ensures r.Ok? ==> forall i :: 0 <= i < |bills| ==> dateError(BillDate(bills[i])).None?
    ensures |bills| > 0 && dateError(BillDate(bills[0])).Some? ==> r == Err(dateError(BillDate(bills[0])).value)
    decreases |bills|
  {
    if |bills| == 0 then Ok([])
    else if dateError(BillDate(bills[0])).Some? then Err(dateError(BillDate(bills[0])).value)
    else
      var items :- Analytics.Elements(Analytics.GetOr(bills[0], "items", JArr([])));
      var first :- ItemRecords(BillDate(bills[0]), Analytics.BillTotal(bills[0]), items);
      var rest :- NormalizeBills(bills[1..], dateError);
      assert forall i :: 1 <= i < |bills| ==> bills[i] == bills[1..][i - 1];
      Ok(first + rest)
  }

  datatype Answer =
    | Records(totalOrders: nat, records: seq<Record>)
    | NoBillingData
    | Failure(error: string)

  datatype Response = Response(status: nat, answer: Answer)

  /** Every endpoint: any exception is caught and answered with 500 and
      its message; no record means 404 with "No billing data"; otherwise
      200 over the records. */
  function Endpoint(bills: seq<Doc>, dateError: JValue -> Option<string>): (r: Response)
    ensures r.status == 500 <==> NormalizeBills(bills, dateError).Err?
    ensures r.status == 500 ==> r.answer == Failure(NormalizeBills(bills, dateError).error)
    ensures r.status == 404 <==> NormalizeBills(bills, dateError) == Ok([])
    ensures r.status == 200 ==> r.answer.Records? && r.answer.totalOrders == |bills|
                                && r.answer.records == NormalizeBills(bills, dateError).value
    ensures r.status in {200, 404, 500}
  {
    match NormalizeBills(bills, dateError)
    case Err(e) => Response(500, Failure(e))
    case Ok(records) =>
      if records == [] then Response(404, NoBillingData)
      else Response(200, Records(|bills|, records))
  }

  /** The two services disagree on the same bill: the older one keeps an
      item with quantity 0 and reads the "date" field, the newer one drops
      the item and reads "createdAt". */
  lemma ServicesDisagree(products: seq<Doc>, render: JValue -> string, dateError: JValue -> Option<string>)
    requires dateError(JStr("2024-01-01")).None? && dateError(JStr("2024-01-02")).None?
    ensures var item := JObj(map["qty" := JInt(0), "price" := JInt(5)]);
      var bill := map["date" := JStr("2024-01-01"), "createdAt" := JStr("2024-01-02"),
                      "items" := JArr([item])];
      BillDate(bill) == JStr("2024-01-01") && Analytics.BillDate(bill) == JStr("2024-01-02")
      && Endpoint([bill], dateError).status == 200
      && Analytics.ReportOf([bill], products, render, dateError) == Analytics.Response(200, Analytics.NoBillingData(Analytics.ZeroSummary))
  {
    var item := JObj(map["qty" := JInt(0), "price" := JInt(5)]);
    var bill := map["date" := JStr("2024-01-01"), "createdAt" := JStr("2024-01-02"),
                    "items" := JArr([item])];
    assert Analytics.ItemQty(item.fields) == JInt(0);
    assert [item][1..] == [] && [item][0] == item;
    assert [bill][1..] == [] && [bill][0] == bill;
    var d, t := BillDate(bill), Analytics.BillTotal(bill);
    assert ItemRecords(d, t, [item]).Ok?;
    assert BillDate(bill) == JStr("2024-01-01");
    assert NormalizeBills([bill], dateError).Ok?;
    var d', t' := Analytics.BillDate(bill), Analytics.BillTotal(bill);
    assert Analytics.ItemRecord(d', t', item, render) == Ok(None);
    assert Analytics.ItemRecords(d', t', [], render) == Ok([]);
    assert Analytics.ItemRecords(d', t', [item], render) == Ok([]);
    assert Analytics.Elements(Analytics.GetOr(bill, "items", JArr([]))) == Ok([item]);
    assert Analytics.NormalizeBills([], render, dateError) == Ok([]);
    assert Analytics.NormalizeBills([bill], render, dateError) == Ok([] + []);
  }

  /** With no bills the older service answers 404 where the newer one
      answers 200 with the zero summary. */
  lemma EmptyStoreAnswers(products: seq<Doc>, render: JValue -> string, dateError: JValue -> Option<string>)
    ensures Endpoint([], dateError) == Response(404, NoBillingData)
    ensures Analytics.ReportOf([], products, render, dateError) == Analytics.Response(200, Analytics.NoBillingData(Analytics.ZeroSummary))
  {
  }
}

=== FILE: locales.dfy ===
/** The `Accept-Language` reading of the customer and product controllers:
    a simplified form of section 12.5.4 of RFC 9110 that takes the first
    comma-separated entry, drops its parameters after ';', ignores quality
    values, and splits the tag on '-' into a language and a country. */
module Locales {
  import opened Wrappers
  import opened Text

  /** A `java.util.Locale`: the constructor lower-cases the language and
      upper-cases the country (ASCII only). */
  datatype Locale = Locale(language: string, country: string)

  const English: Locale := Locale("en", "")

  /** Indexing element 0 of an empty split array throws. */
  const OutOfBounds: string := "ArrayIndexOutOfBoundsException"

  /** `header.split(",")[0].split(";")[0].trim()`. */
  function PrimaryTag(header: string): (r: Result<string>)
    ensures r.Ok? ==> ',' !in r.value && ';' !in r.value
    ensures r.Err? <==>
      JavaSplitFirst(header, ',').None? || JavaSplitFirst(JavaSplitFirst(header, ',').value, ';').None?
  {
    match JavaSplitFirst(header, ',')
    case None => Err(OutOfBounds)
    case Some(entry) =>
      match JavaSplitFirst(entry, ';')
      case None => Err(OutOfBounds)
      case Some(tag) =>
        var t := JavaTrim(tag);
        var t0 := TrimStartWith(tag, IsJavaTrimmable);
        assert forall i :: 0 <= i < |t0| ==> t0[i] in tag by {
          assert t0 == tag[|tag| - |t0|..];
        }
        assert forall i :: 0 <= i < |t| ==> t[i] in t0 by {
          assert t == t0[..|t|];
        }
        Ok(t)
  }

  /** The locale of a tag: exactly two '-' pieces give language and country,
      any other number the language alone; no piece at all throws. */
  function LocaleOfTag(tag: string): (r: Result<Locale>)
    ensures r.Err? <==> |JavaSplit(tag, '-')| == 0
    ensures r.Ok? && |JavaSplit(tag, '-')| == 2 ==>
      r.value == Locale(ToLower(JavaSplit(tag, '-')[0]), ToUpper(JavaSplit(tag, '-')[1]))
    ensures r.Ok? && |JavaSplit(tag, '-')| != 2 ==>
      r.value == Locale(ToLower(JavaSplit(tag, '-')[0]), "")
  {
    var parts := JavaSplit(tag, '-');
    if |parts| == 0 then Err(OutOfBounds)
    else if |parts| == 2 then Ok(Locale(ToLower(parts[0]), ToUpper(parts[1])))
    else Ok(Locale(ToLower(parts[0]), ""))
  }

  /** `CustomerController.parseLocale`: only a null or empty header means
      English. */
  function ParseLocaleCustomer(header: Option<string>): (r: Result<Locale>)
    ensures NullOrEmpty(header) ==> r == Ok(English)
    ensures !NullOrEmpty(header) && PrimaryTag(header.value).Err? ==> r.Err?
    ensures !NullOrEmpty(header) && PrimaryTag(header.value).Ok? ==>
      r == LocaleOfTag(PrimaryTag(header.value).value)
  {
    if NullOrEmpty(header) then Ok(English)
    else
      var tag :- PrimaryTag(header.value);
      LocaleOfTag(tag)
  }

  /** `ProductController.parseLocale`: a null or blank header means
      English. */
  function ParseLocaleProduct(header: Option<string>): (r: Result<Locale>)
    ensures header.None? || IsBlank(header.value) ==> r == Ok(English)
    ensures header.Some? && !IsBlank(header.value) ==> r == ParseLocaleCustomer(header)
  {
    if header.None? || IsBlank(header.value) then Ok(English)
    else ParseLocaleCustomer(header)
  }

  // ---------------------------------------------------------------------
  // Properties
  // ---------------------------------------------------------------------

  predicate PlainSubtag(s: string) {
    s != "" && forall i :: 0 <= i < |s| ==> s[i] !in ",;-" && !IsJavaTrimmable(s[i])
  }

  lemma PrimaryTagOfPlain(lang: string, country: string, rest: string)
    requires PlainSubtag(lang) && PlainSubtag(country)
    requires rest == "" || rest[0] == ','
    ensures PrimaryTag(lang + "-" + country + rest) == Ok(lang + "-" + country)
  {
    var tag := lang + "-" + country;
    assert tag[0] == lang[0];
    assert tag[|tag| - 1] == country[|country| - 1];
    assert forall i :: 0 <= i < |tag| ==> tag[i] != ',' && tag[i] != ';' by {
      forall i | 0 <= i < |tag| ensures tag[i] != ',' && tag[i] != ';' {
        if i < |lang| { assert tag[i] == lang[i]; }
        else if i > |lang| { assert tag[i] == country[i - |lang| - 1]; }
      }
    }
    SplitFirstOf(tag, ',', rest);
    assert tag + "" == tag;
    SplitFirstOf(tag, ';', "");
    TrimNoop(tag, IsJavaTrimmable);
  }

  lemma LocaleOfPlainTag(lang: string, country: string)
    requires PlainSubtag(lang) && PlainSubtag(country)
    ensures LocaleOfTag(lang + "-" + country) == Ok(Locale(ToLower(lang), ToUpper(country)))
  {
    assert Join([lang, country], '-') == lang + "-" + country by {
      assert [lang, country][1..] == [country];
    }
    JavaSplitOfJoin([lang, country], '-');
  }

  /** A plain language-country tag as the first entry is read as that
      locale, whatever entries follow it. */
  lemma LanguageCountryTag(lang: string, country: string, rest: string)
    requires PlainSubtag(lang) && PlainSubtag(country)
    requires rest == "" || rest[0] == ','
    ensures ParseLocaleCustomer(Some(lang + "-" + country + rest))
         == Ok(Locale(ToLower(lang), ToUpper(country)))
  {
    var header := lang + "-" + country + rest;
    PrimaryTagOfPlain(lang, country, rest);
    LocaleOfPlainTag(lang, country);
    assert header != "";
  }

  /** The product controller reads such a header the same way. */
  lemma LanguageCountryTagProduct(lang: string, country: string, rest: string)
    requires PlainSubtag(lang) && PlainSubtag(country)
    requires rest == "" || rest[0] == ','
    ensures ParseLocaleProduct(Some(lang + "-" + country + rest))
         == Ok(Locale(ToLower(lang), ToUpper(country)))
  {
    var header := lang + "-" + country + rest;
    LanguageCountryTag(lang, country, rest);
    assert header[0] == lang[0];
    assert !IsJavaWhitespace(header[0]);
  }

  /** A tag without '-' gives the language alone. */
  lemma LanguageOnlyTag(lang: string)
    requires PlainSubtag(lang)
    ensures ParseLocaleCustomer(Some(lang)) == Ok(Locale(ToLower(lang), ""))
  {
    assert lang + "" == lang;
    SplitFirstOf(lang, ',', "");
    SplitFirstOf(lang, ';', "");
    TrimNoop(lang, IsJavaTrimmable);
  }

  /** A whitespace-only header is English for the product controller but a
      locale with an empty language for the customer controller. */
  lemma BlankHeaderDiffers()
    ensures ParseLocaleProduct(Some(" ")) == Ok(English)
    ensures ParseLocaleCustomer(Some(" ")) == Ok(Locale("", ""))
  {
    assert JavaSplitFirst(" ", ',') == Some(" ") by {
      SplitFirstOf(" ", ',', "");
      assert " " + "" == " ";
    }
    assert JavaSplitFirst(" ", ';') == Some(" ") by {
      SplitFirstOf(" ", ';', "");
      assert " " + "" == " ";
    }
    assert JavaTrim(" ") == "" by {
      JavaTrimEmpty(" ");
    }
    assert JavaSplit("", '-') == [""];
  }

  /** A header of separators only makes the controllers throw. */
  lemma SeparatorHeaderThrows()
    ensures ParseLocaleCustomer(Some(",")).Err?
    ensures ParseLocaleCustomer(Some("-")).Err?
  {
    CommaHeaderThrows();
    DashHeaderThrows();
  }

  lemma CommaHeaderThrows()
    ensures ParseLocaleCustomer(Some(",")).Err?
  {
    assert JavaSplitFirst(",", ',').None?;
  }

  lemma DashHeaderThrows()
    ensures ParseLocaleCustomer(Some("-")).Err?
  {
    assert JavaSplitFirst("-", ',') == Some("-") by {
      SplitFirstOf("-", ',', "");
      assert "-" + "" == "-";
    }
    assert JavaSplitFirst("-", ';') == Some("-") by {
      SplitFirstOf("-", ';', "");
      assert "-" + "" == "-";
    }
    assert JavaTrim("-") == "-" by {
      TrimNoop("-", IsJavaTrimmable);
    }
    OnlySeparatorsSplitEmpty("-", '-');
  }
}

=== FILE: models.dfy ===
/** The persisted records of the backend, with the fields the services read
    and write (some of which the Java model classes do not declare), and the
    bean-validation constraints declared on `Customer`. A Java `null`
    reference is `None`; a null list is the empty sequence. Times are
    milliseconds since the epoch. Money fields are kept as `real` but no
    arithmetic is done on them. */
module Models {
  import opened Wrappers
  import opened Text

  datatype BillItem = BillItem(
    productId: Option<string>,
    productName: Option<string>,
    qty: int,
    price: real)

  datatype CustomerInfo = CustomerInfo(
    mobile: Option<string>,
    name: Option<string>,
    email: Option<string>)

  /** A bill document: `id` is the store's own key, `billId` the business
      id ("B1700000000000"). */
  datatype Bill = Bill(
    id: Option<string>,
    billId: Option<string>,
    items: seq<BillItem>,
    customer: Option<CustomerInfo>,
    addedBy: Option<string>,
    createdAt: Option<int>,
    pdfAccessToken: Option<string>)

  datatype Customer = Customer(
    id: Option<string>,
    name: Option<string>,
    email: Option<string>,
    mobile: Option<string>,
    createdAt: Option<int>,
    purchaseHistory: seq<string>,
    totalPurchaseCount: int,
    lastPurchaseDate: Option<int>)

  datatype Product = Product(
    id: Option<string>,
    productId: Option<string>,
    name: Option<string>,
    category: Option<string>,
    price: real,
    quantity: int,
    minQuantity: int,
    reorderLevel: int,
    expiryDate: Option<int>,
    imageUrl: Option<string>,
    supplierEmail: Option<string>,
    addedBy: Option<string>)

  // ---------------------------------------------------------------------
  // Customer constraints and constructors
  // ---------------------------------------------------------------------

  /** `@Pattern("\\d{10}")` on the mobile: exactly ten ASCII digits; like
      every pattern constraint it accepts a null value. */
  predicate ValidMobile(mobile: Option<string>) {
    mobile.None? || (|mobile.value| == 10 && AllDigits(mobile.value))
  }

  /** `@NotBlank` and `@Size(min = 2, max = 100)` on the name. */
  predicate ValidName(name: Option<string>) {
    name.Some? && JavaTrim(name.value) != [] && 2 <= |name.value| <= 100
  }

  /** `@Email` on the e-mail: a null or empty address passes, any other
      must be well formed. The address grammar is a parameter
      (`isEmail`). */
  predicate ValidEmail(email: Option<string>, isEmail: string -> bool) {
    email.None? || email.value == [] || isEmail(email.value)
  }

  /** Every constraint the customer record declares: the name, the e-mail,
      the mobile and a set creation date (`@NotNull`). */
  predicate ValidCustomer(c: Customer, isEmail: string -> bool) {
    ValidName(c.name) && ValidEmail(c.email, isEmail) && ValidMobile(c.mobile) && c.createdAt.Some?
  }

  /** The no-argument constructor: every field unset, history empty. */
  function BlankCustomer(): (c: Customer)
    ensures c.purchaseHistory == [] && c.totalPurchaseCount == 0
    ensures c.id.None? && c.name.None? && c.email.None? && c.mobile.None? && c.createdAt.None?
    ensures c.lastPurchaseDate.None?
  {
    Customer(None, None, None, None, None, [], 0, None)
  }

  /** The four-argument constructor. */
  function NewCustomer(name: Option<string>, email: Option<string>, mobile: Option<string>,
                       createdAt: Option<int>): (c: Customer)
    ensures c.name == name && c.email == email && c.mobile == mobile && c.createdAt == createdAt
    ensures c.purchaseHistory == [] && c.id.None?
  {
    Customer(None, name, email, mobile, createdAt, [], 0, None)
  }

  /** `Customer.addBillId`: appends without looking for an existing entry. */
  function AddBillIdRaw(c: Customer, billId: string): (r: Customer)
    ensures |r.purchaseHistory| == |c.purchaseHistory| + 1
    ensures r.purchaseHistory[..|c.purchaseHistory|] == c.purchaseHistory
    ensures r.purchaseHistory[|c.purchaseHistory|] == billId
    ensures r.(purchaseHistory := c.purchaseHistory) == c
  {
    c.(purchaseHistory := c.purchaseHistory + [billId])
  }

  /** The record-level append keeps duplicates: adding the same id twice
      leaves two copies in the history. */
  lemma AddBillIdRawKeepsDuplicates(c: Customer, billId: string)
    ensures var h := AddBillIdRaw(AddBillIdRaw(c, billId), billId).purchaseHistory;
      |h| == |c.purchaseHistory| + 2 && h[|h| - 1] == h[|h| - 2] == billId
  {
  }

  /** Neither constructor starts with purchases. */
  lemma ConstructorsStartEmpty(name: Option<string>, email: Option<string>,
                               mobile: Option<string>, createdAt: Option<int>)
    ensures BlankCustomer().purchaseHistory == []
    ensures NewCustomer(name, email, mobile, createdAt).purchaseHistory == []
  {
  }

  /** A freshly constructed customer satisfies the declared constraints
      exactly when its name, e-mail, mobile and creation time do. */
  lemma NewCustomerValid(name: Option<string>, email: Option<string>,
                         mobile: Option<string>, createdAt: Option<int>, isEmail: string -> bool)
    ensures ValidCustomer(NewCustomer(name, email, mobile, createdAt), isEmail)
        <==> ValidName(name) && ValidEmail(email, isEmail) && ValidMobile(mobile) && createdAt.Some?
  {
  }

  // ---------------------------------------------------------------------
  // Rendering values into messages
  // ---------------------------------------------------------------------

  /** Java string concatenation of a possibly null `String`. */
  function Show(s: Option<string>): (r: string)
    ensures s.Some? ==> r == s.value
    ensures s.None? ==> r == "null"
  {
    match s
    case Some(v) => v
    case None => "null"
  }

  /** `existsByBillId`: some stored bill carries that business id. */
  predicate HasBillId(bills: seq<Bill>, billId: Option<string>) {
    exists i :: 0 <= i < |bills| && bills[i].billId == billId
  }

  /** `findByBillId`: the first stored bill with that business id. */
  function FindByBillId(bills: seq<Bill>, billId: Option<string>): (r: Option<Bill>)
    ensures r.Some? <==> HasBillId(bills, billId)
    ensures r.Some? ==> r.value in bills && r.value.billId == billId
  {
    if |bills| == 0 then None
    else if bills[0].billId == billId then Some(bills[0])
    else FindByBillId(bills[1..], billId)
  }
}

=== FILE: pdf_token.dfy ===
/** The short-lived PDF access token of a bill, `billId|uuid|exp`, where
    `exp` is a time in whole seconds one hour after issue, and the gate of
    the bill-PDF endpoint that checks it. The random UUID and the clock are
    parameters. */
module PdfToken {
  import opened Wrappers
  import opened Text
  import opened Models

  const LifetimeSeconds: int := 3600

  /** The expiry second written into a token issued at `now` (ms): the
      current second, truncated toward zero, plus one hour, in `long`
      arithmetic. */
  function ExpiryOf(now: int): int {
    Wrap64(JavaDiv(now, 1000) + LifetimeSeconds)
  }

  /** `generatePdfAccessToken`. */
  function Generate(billId: string, uuid: string, now: int): string {
    billId + "|" + uuid + "|" + IntToString(ExpiryOf(now))
  }

  /** `validatePdfAccessToken`: the token must split on '|' into exactly
      three parts, the first equal to `billId` and the third a `long` whose
      value times 1000 (wrapping like a `long`) is not before `now`. A parse
      failure is caught and reads as invalid. */
  function Validate(billId: string, token: string, now: int): (ok: bool)
    ensures ok ==> |JavaSplit(token, '|')| == 3 && JavaSplit(token, '|')[0] == billId
    ensures ok ==> ParseLong(JavaSplit(token, '|')[2]).Some?
    ensures ok ==> now <= Wrap64(ParseLong(JavaSplit(token, '|')[2]).value * 1000)
  {
    var parts := JavaSplit(token, '|');
    if |parts| != 3 then false
    else if parts[0] != billId then false
    else
      match ParseLong(parts[2])
      case None => false
      case Some(exp) => !(now > Wrap64(exp * 1000))
  }

  /** A token is accepted exactly when all three checks pass (the converse
      of the contract of `Validate`). */
  lemma ValidateComplete(billId: string, token: string, now: int)
    requires |JavaSplit(token, '|')| == 3 && JavaSplit(token, '|')[0] == billId
    requires ParseLong(JavaSplit(token, '|')[2]).Some?
    requires now <= Wrap64(ParseLong(JavaSplit(token, '|')[2]).value * 1000)
    ensures Validate(billId, token, now)
  {
  }

  lemma GenerateIsJoin(billId: string, uuid: string, now: int)
    ensures Generate(billId, uuid, now) == Join([billId, uuid, IntToString(ExpiryOf(now))], '|')
  {
    var e := IntToString(ExpiryOf(now));
    assert [billId, uuid, e][1..] == [uuid, e];
    assert [uuid, e][1..] == [e];
    assert Join([uuid, e], '|') == uuid + "|" + e;
    assert Join([billId, uuid, e], '|') == billId + "|" + (uuid + "|" + e);
  }

  /** Round trip: a token issued at `now` for a bill id and a UUID that
      contain no '|' is accepted for that bill at time `t` exactly when `t`
      is not after the expiry second (in milliseconds). */
  lemma GenerateThenValidate(billId: string, uuid: string, now: int, t: int)
    requires '|' !in billId && '|' !in uuid && uuid != ""
    requires 0 <= now <= 1_000_000_000_000_000
    ensures Validate(billId, Generate(billId, uuid, now), t)
        <==> t <= (now / 1000 + LifetimeSeconds) * 1000
  {
    var exp := ExpiryOf(now);
    assert exp == now / 1000 + LifetimeSeconds;
    var e := IntToString(exp);
    assert e != "";
    assert '|' !in e by {
      assert AllDigits(e);
    }
    GenerateIsJoin(billId, uuid, now);
    JavaSplitOfJoin([billId, uuid, e], '|');
    ParseLongOfIntToString(exp);
  }

  /** In particular a fresh token stays valid for the next 3599 seconds. */
  lemma FreshTokenValidForAnHour(billId: string, uuid: string, now: int, t: int)
    requires '|' !in billId && '|' !in uuid && uuid != ""
    requires 0 <= now <= t <= now + 3_599_000
    requires now <= 1_000_000_000_000_000
    ensures Validate(billId, Generate(billId, uuid, now), t)
  {
    GenerateThenValidate(billId, uuid, now, t);
  }

  /** The round trip fails for a bill id containing '|': the token then
      splits into four parts. */
  lemma PipeInBillIdBreaksToken()
    ensures !Validate("A|B", Generate("A|B", "u", 0), 0)
  {
    var e := IntToString(ExpiryOf(0));
    var token := Generate("A|B", "u", 0);
    assert e == "3600";
    assert token == "A|B|u|3600";
    var parts := ["A", "B", "u", "3600"];
    assert parts[1..] == ["B", "u", "3600"];
    assert parts[2..] == ["u", "3600"];
    assert parts[3..] == ["3600"];
    assert Join(parts, '|') == token;
    JavaSplitOfJoin(parts, '|');
  }

  // ---------------------------------------------------------------------
  // GET /api/bills/{billId}/pdf
  // ---------------------------------------------------------------------

  datatype PdfResponse =
    | Forbidden                                   // 403, no body
    | PdfOk(bill: Bill, attachmentName: string)   // 200, PDF of the bill
    | PdfFailed(message: string)                  // the lookup threw

  /** `getBillPdf`: a missing or rejected token is answered with 403 before
      the bill is looked up; otherwise an unknown bill id throws
      "Bill not found: <id>". */
  function GetBillPdf(bills: seq<Bill>, billId: string, token: Option<string>, now: int)
    : (r: PdfResponse)
    ensures r.Forbidden? <==> token.None? || !Validate(billId, token.value, now)
    ensures r.PdfOk? ==>
      (Some(r.bill) == FindByBillId(bills, Some(billId))
       && r.attachmentName == "bill_" + billId + ".pdf")
    ensures r.PdfFailed? <==>
      token.Some? && Validate(billId, token.value, now) && !HasBillId(bills, Some(billId))
    ensures r.PdfFailed? ==> r.message == "Bill not found: " + billId
  {
    if token.Some? && Validate(billId, token.value, now) then
      match FindByBillId(bills, Some(billId))
      case Some(b) => PdfOk(b, "bill_" + billId + ".pdf")
      case None => PdfFailed("Bill not found: " + billId)
    else Forbidden
  }
}

=== FILE: product_api.dfy ===
/** The request handling of the product controller that is not a plain
    call into the product service: the strict date reader, the CSV file
    checks, the bulk CSV upload with its three outcome lists, the mapping
    of a CSV row to a product, and the field mapping of a JSON patch. The
    product service behind the controller is not the list-backed one; its
    existence check and create call are parameters here. */
module ProductApi {
  import opened Wrappers
  import opened Text
  import opened Models
  import opened Json
  import Dates
  import Seqs

  // ---------------------------------------------------------------------
  // Dates
  // ---------------------------------------------------------------------

  /** `parseDate`: null or blank is no date; otherwise a strict
      "yyyy-MM-dd" date in the time zone `zone`, and anything else throws. */
  function ParseDate(s: Option<string>, zone: int): (r: Result<Option<int>>)
    ensures s.None? || IsBlank(s.value) ==> r == Ok(None)
    ensures s.Some? && !IsBlank(s.value) ==>
      (r.Ok? <==> Dates.ParseYmd(s.value).Some?)
    ensures s.Some? && !IsBlank(s.value) && r.Ok? ==> r.value == Dates.ParseDate(s.value, zone)
    ensures r.Err? ==> r.error == "Invalid date format, expected yyyy-MM-dd: " + s.value
  {
    if s.None? || IsBlank(s.value) then Ok(None)
    else match Dates.ParseDate(s.value, zone)
      case Some(t) => Ok(Some(t))
      case None => Err("Invalid date format, expected yyyy-MM-dd: " + s.value)
  }

  /** The canonical text of a date reads back as its local midnight. */
  lemma ParseDateOfFormatted(y: nat, m: nat, d: nat, zone: int)
    requires Dates.ValidDate(y, m, d) && y < 10000
    ensures ParseDate(Some(Dates.FormatYmd(y, m, d)), zone) == Ok(Some(Dates.MidnightOf(y, m, d, zone)))
  {
    var s := Dates.FormatYmd(y, m, d);
    assert IsDigit(s[0]) by {
      assert s[0] == Dates.Pad4(y)[0];
    }
    assert !IsBlank(s);
    Dates.ParseFormatYmd(y, m, d);
    assert Dates.ParseDate(s, zone) == Some(Dates.MidnightOf(y, m, d, zone));
  }

  // ---------------------------------------------------------------------
  // The CSV file
  // ---------------------------------------------------------------------

  /** `validateCsvFile`: a missing or empty part, then the extension; the
      file name is not checked for null, so a null name throws. */
  function ValidateCsvFile(missing: bool, filename: Option<string>): (r: Result<()>)
    ensures r.Ok? <==> !missing && filename.Some? && EndsWith(ToLower(filename.value), ".csv")
    ensures missing ==> r == Err("file.missing")
    ensures !missing && filename.Some? && !EndsWith(ToLower(filename.value), ".csv") ==>
      r == Err("file.invalid.format")
  {
    if missing then Err("file.missing")
    else if filename.None? then Err("NullPointerException")
    else if !EndsWith(ToLower(filename.value), ".csv") then Err("file.invalid.format")
    else Ok(())
  }

  /** One CSV row; unset text columns are `None`, unset numbers are 0. */
  datatype ProductCsvRow = ProductCsvRow(
    productId: Option<string>,
    name: Option<string>,
    category: Option<string>,
    price: real,
    quantity: int,
    minQuantity: int,
    reorderLevel: int,
    expiryDate: Option<string>,
    addedBy: Option<string>)

  function EmptyProduct(): Product {
    Product(None, None, None, None, 0.0, 0, 0, 0, None, None, None, None)
  }

  /** `fromCsvBean`: the row's fields, the author defaulting to "system"
      (only when null), the fixed supplier address, and the expiry date;
      the product id is left unset. */
  function FromCsvRow(b: ProductCsvRow, zone: int): (r: Result<Product>)
    ensures r.Err? <==> ParseDate(b.expiryDate, zone).Err?
    ensures r.Ok? ==>
      var p := r.value;
      p.productId.None? && p.id.None? && p.name == b.name && p.category == b.category
      && p.price == b.price && p.quantity == b.quantity && p.minQuantity == b.minQuantity
      && p.reorderLevel == b.reorderLevel
      && p.addedBy == Some(if b.addedBy.Some? then b.addedBy.value else "system")
      && p.supplierEmail == Some("default@supplier.com")
      && p.expiryDate == ParseDate(b.expiryDate, zone).value
  {
    var expiry :- ParseDate(b.expiryDate, zone);
    Ok(Product(None, None, b.name, b.category, b.price, b.quantity, b.minQuantity, b.reorderLevel,
               expiry, None, Some("default@supplier.com"),
               Some(if b.addedBy.Some? then b.addedBy.value else "system")))
  }

  /** The id given to a row without one: "P-<millis>-<index>". */
  function GeneratedId(now: int, i: nat): string {
    "P-" + IntToString(now) + "-" + IntToString(i)
  }

  /** Generated ids within one upload never collide. */
  lemma GeneratedIdsDistinct(now: int, i: nat, j: nat)
    requires i != j && i <= MaxLong && j <= MaxLong
    ensures GeneratedId(now, i) != GeneratedId(now, j)
  {
    var prefix := "P-" + IntToString(now) + "-";
    if GeneratedId(now, i) == GeneratedId(now, j) {
      assert GeneratedId(now, i)[|prefix|..] == IntToString(i);
      assert GeneratedId(now, j)[|prefix|..] == IntToString(j);
      ParseLongOfIntToString(i);
      ParseLongOfIntToString(j);
    }
  }

  function RowLabel(i: nat): string {
    "Row " + IntToString(i + 2) + ": "
  }

  /** What one row contributes; `P` is the product service's state. */
  datatype RowOutcome<P> = RowOutcome(ps: P, created: seq<Product>, skipped: seq<string>, errors: seq<string>)

  /** One row `i` (shown as row i+2): the name check, the conversion, the
      id (generated, or the given one unless it exists), then creation;
      every failure becomes "Row n: <message>". */
  function ProductRow<P>(ps: P, b: ProductCsvRow, i: nat, now: int, zone: int,
                         exists_: (P, string) -> bool,
                         create: (P, Product) -> Result<(P, Product)>): (o: RowOutcome<P>)
    ensures |o.created| + |o.skipped| + |o.errors| == 1
    ensures o.created == [] ==> o.ps == ps
    ensures b.name.None? || IsBlank(b.name.value) ==>
      o.errors == [RowLabel(i) + "Product name missing"]
    ensures o.skipped != [] <==>
      !(b.name.None? || IsBlank(b.name.value)) && FromCsvRow(b, zone).Ok?
      && b.productId.Some? && !IsBlank(b.productId.value) && exists_(ps, b.productId.value)
    ensures o.skipped != [] ==>
      o.skipped == [RowLabel(i) + "Product ID " + b.productId.value + " already exists"]
  {
    if b.name.None? || IsBlank(b.name.value) then
      RowOutcome(ps, [], [], [RowLabel(i) + "Product name missing"])
    else match FromCsvRow(b, zone)
      case Err(e) => RowOutcome(ps, [], [], [RowLabel(i) + e])
      case Ok(p) =>
        var generate := b.productId.None? || IsBlank(b.productId.value);
        var id := if generate then GeneratedId(now, i) else b.productId.value;
        if !generate && exists_(ps, id) then
          RowOutcome(ps, [], [RowLabel(i) + "Product ID " + id + " already exists"], [])
        else match create(ps, p.(productId := Some(id)))
          case Err(e) => RowOutcome(ps, [], [], [RowLabel(i) + e])
          case Ok((ps', saved)) => RowOutcome(ps', [saved], [], [])
  }

  /** The product handed to the service for a row that gets that far: a
      blank id is replaced by the generated one, a given id is kept as is. */
  lemma CreatedWithId<P>(ps: P, b: ProductCsvRow, i: nat, now: int, zone: int,
                         exists_: (P, string) -> bool, create: (P, Product) -> Result<(P, Product)>)
    requires !(b.name.None? || IsBlank(b.name.value)) && FromCsvRow(b, zone).Ok?
    requires b.productId.None? || IsBlank(b.productId.value)
    requires create(ps, FromCsvRow(b, zone).value.(productId := Some(GeneratedId(now, i)))).Ok?
    ensures ProductRow(ps, b, i, now, zone, exists_, create).created
         == [create(ps, FromCsvRow(b, zone).value.(productId := Some(GeneratedId(now, i)))).value.1]
  {
  }

  datatype Report = Report(successfulProductIds: seq<Option<string>>, skipped: seq<string>, errors: seq<string>)

  function Ids(ps: seq<Product>): (r: seq<Option<string>>)
    ensures |r| == |ps| && forall k :: 0 <= k < |ps| ==> r[k] == ps[k].productId
  {
    if |ps| == 0 then [] else [ps[0].productId] + Ids(ps[1..])
  }

  /** The rows from index `i` on, in order. */
  function ProductRows<P>(ps: P, rows: seq<ProductCsvRow>, i: nat, now: int, zone: int,
                          exists_: (P, string) -> bool,
                          create: (P, Product) -> Result<(P, Product)>): (r: (P, seq<Product>, Report))
    requires i <= |rows|
    ensures |r.1| + |r.2.skipped| + |r.2.errors| == |rows| - i
    ensures r.2.successfulProductIds == Ids(r.1)
    decreases |rows| - i
  {
    if i == |rows| then (ps, [], Report([], [], []))
    else
      var o := ProductRow(ps, rows[i], i, now, zone, exists_, create);
      var (ps', created, rest) := ProductRows(o.ps, rows, i + 1, now, zone, exists_, create);
      assert Ids(o.created + created) == Ids(o.created) + Ids(created) by {
        IdsAppend(o.created, created);
      }
      (ps', o.created + created,
       Report(Ids(o.created) + rest.successfulProductIds, o.skipped + rest.skipped, o.errors + rest.errors))
  }

  lemma {:induction false} IdsAppend(a: seq<Product>, b: seq<Product>)
    ensures Ids(a + b) == Ids(a) + Ids(b)
  {
    var l, r := Ids(a + b), Ids(a) + Ids(b);
    assert |l| == |r|;
    forall k | 0 <= k < |l| ensures l[k] == r[k] {
      if k < |a| { assert (a + b)[k] == a[k]; } else { assert (a + b)[k] == b[k - |a|]; }
    }
  }

  /** `bulkUpload`: the file checks, the CSV reader (whose failure
      propagates), then every row; answered with 201 and the report, in
      which every row appears exactly once. */
  function BulkUpload<P>(ps: P, missing: bool, filename: Option<string>,
                         rows: Result<seq<ProductCsvRow>>, now: int, zone: int,
                         exists_: (P, string) -> bool,
                         create: (P, Product) -> Result<(P, Product)>): (r: Result<(P, Report)>)
    ensures r.Err? <==> ValidateCsvFile(missing, filename).Err? || rows.Err?
    ensures r.Ok? ==>
      |r.value.1.successfulProductIds| + |r.value.1.skipped| + |r.value.1.errors| == |rows.value|
  {
    var _ :- ValidateCsvFile(missing, filename);
    var bs :- rows;
    var (ps', _, report) := ProductRows(ps, bs, 0, now, zone, exists_, create);
    Ok((ps', report))
  }

  // ---------------------------------------------------------------------
  // The JSON patch
  // ---------------------------------------------------------------------

  /** `String.valueOf` of a parsed JSON value. Floating-point numbers,
      lists and maps are rendered by `render` (`Double.toString` and the
      collections' `toString` are not modelled). */
  function JavaString(v: JValue, render: JValue -> string): (r: string)
    ensures v.JStr? ==> r == v.s
    ensures v.JNull? ==> r == "null"
    ensures v.JInt? ==> r == IntToString(v.i)
  {
    match v
    case JNull => "null"
    case JBool(b) => if b then "true" else "false"
    case JInt(i) => IntToString(i)
    case JStr(s) => s
    case _ => render(v)
  }

  function SafeString(v: JValue, render: JValue -> string): (r: Option<string>)
    ensures r.None? <==> v.JNull?
  {
    if v.JNull? then None else Some(JavaString(v, render))
  }

  /** `Integer.parseInt(v.toString())`, with null read as 0: only an
      integer in range, or a string of one, converts. */
  function SafeInt(v: JValue): (r: Option<int>)
    ensures r.Some? ==> MinInt <= r.value <= MaxInt
    ensures v.JNull? ==> r == Some(0)
    ensures v.JInt? ==> (r.Some? <==> MinInt <= v.i <= MaxInt)
    ensures v.JReal? || v.JBool? || v.JArr? || v.JObj? ==> r.None?
  {
    match v
    case JNull => Some(0)
    case JInt(i) => if MinInt <= i <= MaxInt then Some(i) else None
    case JStr(s) => ParseSigned(s, 10, MinInt, MaxInt)
    case _ => None
  }

  /** `Double.parseDouble(v.toString())`, with null read as 0; the parse of
      a string is `parseDouble`. Integers convert exactly (the rounding of
      integers beyond 2^53 is not modelled). */
  function SafeDouble(v: JValue, parseDouble: string -> Option<real>): (r: Option<real>)
    ensures v.JNull? ==> r == Some(0.0)
    ensures v.JInt? ==> r == Some(v.i as real)
    ensures v.JReal? ==> r == Some(v.r)
    ensures v.JBool? || v.JArr? || v.JObj? ==> r.None?
  {
    match v
    case JNull => Some(0.0)
    case JInt(i) => Some(i as real)
    case JReal(x) => Some(x)
    case JStr(s) => parseDouble(s)
    case _ => None
  }

  /** The keys the patch understands. */
  predicate KnownKey(k: string) {
    k in {"name", "category", "price", "quantity", "minQuantity", "reorderLevel", "expiryDate", "imageUrl"}
  }

  /** One entry of the patch map applied to the patch product; `None`
      means the conversion threw. */
  function ApplyField(p: Product, k: string, v: JValue, zone: int,
                      render: JValue -> string, parseDouble: string -> Option<real>): (r: Option<Product>)
    ensures !KnownKey(k) ==> r == Some(p)
    ensures k == "name" ==> r == Some(p.(name := SafeString(v, render)))
    ensures k == "category" ==> r == Some(p.(category := SafeString(v, render)))
    ensures k == "imageUrl" ==> r == Some(p.(imageUrl := SafeString(v, render)))
    ensures k == "price" ==> (r.Some? <==> SafeDouble(v, parseDouble).Some?)
    ensures k == "price" && r.Some? ==> r.value == p.(price := SafeDouble(v, parseDouble).value)
    ensures k in {"quantity", "minQuantity", "reorderLevel"} ==> (r.Some? <==> SafeInt(v).Some?)
    ensures k == "quantity" && r.Some? ==> r.value == p.(quantity := SafeInt(v).value)
    ensures k == "minQuantity" && r.Some? ==> r.value == p.(minQuantity := SafeInt(v).value)
    ensures k == "reorderLevel" && r.Some? ==> r.value == p.(reorderLevel := SafeInt(v).value)
    ensures k == "expiryDate" ==> (r.Some? <==> ParseDate(SafeString(v, render), zone).Ok?)
    ensures k == "expiryDate" && r.Some? ==>
      r.value == p.(expiryDate := ParseDate(SafeString(v, render), zone).value)
  {
    match k
    case "name" => Some(p.(name := SafeString(v, render)))
    case "category" => Some(p.(category := SafeString(v, render)))
    case "price" =>
      (match SafeDouble(v, parseDouble) case Some(x) => Some(p.(price := x)) case None => None)
    case "quantity" =>
      (match SafeInt(v) case Some(n) => Some(p.(quantity := n)) case None => None)
    case "minQuantity" =>
      (match SafeInt(v) case Some(n) => Some(p.(minQuantity := n)) case None => None)
    case "reorderLevel" =>
      (match SafeInt(v) case Some(n) => Some(p.(reorderLevel := n)) case None => None)
    case "expiryDate" =>
      (match ParseDate(SafeString(v, render), zone)
       case Ok(t) => Some(p.(expiryDate := t))
       case Err(_) => None)
    case "imageUrl" => Some(p.(imageUrl := SafeString(v, render)))
    case _ => Some(p)
  }

  /** The patch product built from the request map in its iteration
      order; the first entry that fails to convert aborts the request with
      "Invalid value for field '<k>': <v>". */
  function PatchFrom(p: Product, entries: seq<(string, JValue)>, zone: int,
                     render: JValue -> string, parseDouble: string -> Option<real>): (r: Result<Product>)
    ensures r.Err? <==> exists i :: 0 <= i < |entries| && BadEntry(entries[i], zone, render, parseDouble)
    ensures r.Err? ==>
      var i := Seqs.FirstIndex(entries, Bad(zone, render, parseDouble)).value;
      r.error == InvalidValue(entries[i].0, entries[i].1, render)
    decreases |entries|
  {
    if |entries| == 0 then Ok(p)
    else
      var (k, v) := entries[0];
      match ApplyField(p, k, v, zone, render, parseDouble)
      case None =>
        assert BadEntry(entries[0], zone, render, parseDouble);
        Err(InvalidValue(k, v, render))
      case Some(p') =>
        var r := PatchFrom(p', entries[1..], zone, render, parseDouble);
        assert forall i :: 1 <= i < |entries| ==> entries[i] == entries[1..][i - 1];
        assert !BadEntry(entries[0], zone, render, parseDouble) by {
          ConversionIndependent(p, p', k, v, zone, render, parseDouble);
        }
        assert !Bad(zone, render, parseDouble)(entries[0]);
        r
  }

  /** The message of the exception that aborts the patch. */
  function InvalidValue(k: string, v: JValue, render: JValue -> string): string {
    "Invalid value for field '" + k + "': " + JavaString(v, render)
  }

  function Bad(zone: int, render: JValue -> string, parseDouble: string -> Option<real>)
    : ((string, JValue)) -> bool
  {
    (e: (string, JValue)) => BadEntry(e, zone, render, parseDouble)
  }

  /** An entry whose value does not convert, whatever the patch so far. */
  predicate BadEntry(e: (string, JValue), zone: int, render: JValue -> string,
                     parseDouble: string -> Option<real>) {
    ApplyField(EmptyProduct(), e.0, e.1, zone, render, parseDouble).None?
  }

  /** Whether a value converts depends on the key and value only. */
  lemma ConversionIndependent(p: Product, q: Product, k: string, v: JValue, zone: int,
                              render: JValue -> string, parseDouble: string -> Option<real>)
    ensures ApplyField(p, k, v, zone, render, parseDouble).None?
        <==> ApplyField(q, k, v, zone, render, parseDouble).None?
  {
  }

  function Patch(entries: seq<(string, JValue)>, zone: int,
                 render: JValue -> string, parseDouble: string -> Option<real>): (r: Result<Product>)
    ensures r.Err? <==> exists i :: 0 <= i < |entries| && BadEntry(entries[i], zone, render, parseDouble)
  {
    PatchFrom(EmptyProduct(), entries, zone, render, parseDouble)
  }

  /** Keys outside the eight are ignored: such a request changes nothing. */
  lemma {:induction false} UnknownKeysIgnored(p: Product, entries: seq<(string, JValue)>, zone: int,
                                              render: JValue -> string, parseDouble: string -> Option<real>)
    requires forall i :: 0 <= i < |entries| ==> !KnownKey(entries[i].0)
    ensures PatchFrom(p, entries, zone, render, parseDouble) == Ok(p)
  {
    if |entries| > 0 {
      assert forall i :: 0 <= i < |entries[1..]| ==> entries[1..][i] == entries[i + 1];
      UnknownKeysIgnored(p, entries[1..], zone, render, parseDouble);
    }
  }

  /** Some entry has the key. */
  predicate Mentions(entries: seq<(string, JValue)>, k: string) {
    exists i :: 0 <= i < |entries| && entries[i].0 == k
  }

  /** A patch whose entries are all null numbers succeeds, and sets to 0
      exactly the number fields it names. */
  lemma {:induction false} NullNumberIsZero(p: Product, entries: seq<(string, JValue)>, zone: int,
                                            render: JValue -> string, parseDouble: string -> Option<real>)
    requires forall i :: 0 <= i < |entries| ==>
      entries[i].1.JNull? && entries[i].0 in {"price", "quantity", "minQuantity", "reorderLevel"}
    ensures PatchFrom(p, entries, zone, render, parseDouble).Ok?
    ensures var q := PatchFrom(p, entries, zone, render, parseDouble).value;
      q.price == (if Mentions(entries, "price") then 0.0 else p.price)
      && q.quantity == (if Mentions(entries, "quantity") then 0 else p.quantity)
      && q.minQuantity == (if Mentions(entries, "minQuantity") then 0 else p.minQuantity)
      && q.reorderLevel == (if Mentions(entries, "reorderLevel") then 0 else p.reorderLevel)
    decreases |entries|
  {
    if |entries| > 0 {
      var (k, v) := entries[0];
      var p' := ApplyField(p, k, v, zone, render, parseDouble).value;
      var tail := entries[1..];
      assert forall i :: 0 <= i < |tail| ==> tail[i] == entries[i + 1];
      NullNumberIsZero(p', tail, zone, render, parseDouble);
      PatchFromStep(p, entries, zone, render, parseDouble);
      MentionsCons(entries, "price");
      MentionsCons(entries, "quantity");
      MentionsCons(entries, "minQuantity");
      MentionsCons(entries, "reorderLevel");
    }
  }

  /** A patch whose first entry converts continues from the converted product. */
  lemma PatchFromStep(p: Product, entries: seq<(string, JValue)>, zone: int,
                      render: JValue -> string, parseDouble: string -> Option<real>)
    requires |entries| > 0
    requires ApplyField(p, entries[0].0, entries[0].1, zone, render, parseDouble).Some?
    ensures PatchFrom(p, entries, zone, render, parseDouble)
         == PatchFrom(ApplyField(p, entries[0].0, entries[0].1, zone, render, parseDouble).value,
                      entries[1..], zone, render, parseDouble)
  {
  }

  /** A key is mentioned by a non-empty patch exactly when its first entry
      or the rest mentions it. */
  lemma MentionsCons(entries: seq<(string, JValue)>, key: string)
    requires |entries| > 0
    ensures Mentions(entries, key) <==> entries[0].0 == key || Mentions(entries[1..], key)
  {
    if Mentions(entries, key) && entries[0].0 != key {
      var i :| 0 <= i < |entries| && entries[i].0 == key;
      assert entries[1..][i - 1].0 == key;
    }
    if Mentions(entries[1..], key) {
      var i :| 0 <= i < |entries[1..]| && entries[1..][i].0 == key;
      assert entries[i + 1].0 == key;
    }
  }

  /** The error names the first entry that fails, even when a later one
      fails too. */
  lemma FirstBadEntryNamed(zone: int, render: JValue -> string, parseDouble: string -> Option<real>)
    ensures Patch([("price", JBool(true)), ("quantity", JStr("x"))], zone, render, parseDouble)
         == Err("Invalid value for field 'price': true")
  {
    var entries := [("price", JBool(true)), ("quantity", JStr("x"))];
    assert ApplyField(EmptyProduct(), "price", JBool(true), zone, render, parseDouble).None?;
    assert PatchFrom(EmptyProduct(), entries, zone, render, parseDouble)
        == Err(InvalidValue("price", JBool(true), render));
    assert InvalidValue("price", JBool(true), render) == "Invalid value for field 'price': true";
  }
}

=== FILE: product_form.dfy ===
/** The product modal, used both to add a product and to edit one: the
    values it opens with, the image preview, the request it sends (one of
    four, by mode and by whether an image was picked), and the modal after
    the answer. Typed numbers are text until sent; JavaScript's `Number`
    conversion of that text is a parameter (`None` for NaN). A picked file
    is an opaque value, and its object URL a parameter. */
module ProductForm {
  import opened Wrappers
  import opened Text
  import UiErrors

  /** The product handed to the modal for editing. */
  datatype EditTarget = EditTarget(
    productId: Option<string>, name: Option<string>, category: Option<string>,
    price: Option<real>, quantity: Option<int>, reorderLevel: Option<int>,
    imageUrl: Option<string>)

  /** A number field: the number it was filled with, or what was typed. */
  datatype NumField = Num(x: real) | Typed(text: string)

  datatype Fields = Fields(productId: string, name: string, category: string,
                           price: NumField, quantity: NumField, reorderLevel: NumField)

  datatype Modal<File> = Modal(fields: Fields, image: Option<File>, preview: Option<string>,
                               error: Option<string>, loading: bool)

  /** The add mode's values: empty texts, no stock, reorder level 10. */
  const BlankFields: Fields := Fields("", "", "", Num(0.0), Num(0.0), Num(10.0))

  /** `VITE_API_BASE`, else the local backend. */
  function ApiBase(env: Option<string>): (r: string)
    ensures Truthy(env) ==> r == env.value
    ensures !Truthy(env) ==> r == "http://localhost:8080"
  {
    OrElse(env, "http://localhost:8080")
  }

  /** The edit mode's values as written: every field `|| default`, so a
      reorder level of 0, being falsy, opens as 10. */
  function PrefillAsWritten(t: EditTarget): (r: Fields)
    ensures t.reorderLevel.Some? && t.reorderLevel.value != 0 ==> r.reorderLevel == Num(t.reorderLevel.value as real)
    ensures t.reorderLevel.None? || t.reorderLevel == Some(0) ==> r.reorderLevel == Num(10.0)
    ensures r.productId == OrElse(t.productId, "") && r.name == OrElse(t.name, "")
    ensures r.category == OrElse(t.category, "")
    ensures r.price == Num(t.price.GetOr(0.0)) && r.quantity == Num(t.quantity.GetOr(0) as real)
  {
    Fields(OrElse(t.productId, ""), OrElse(t.name, ""), OrElse(t.category, ""),
           Num(t.price.GetOr(0.0)), Num(t.quantity.GetOr(0) as real),
           Num(if t.reorderLevel.Some? && t.reorderLevel.value != 0 then t.reorderLevel.value as real else 10.0))
  }

  /** The edit mode's values with the defaults applied only to missing
      numbers (`??`), so a stored 0 opens as 0. */
  function Prefill(t: EditTarget): (r: Fields)
    ensures t.reorderLevel.Some? ==> r.reorderLevel == Num(t.reorderLevel.value as real)
    ensures t.reorderLevel.None? ==> r.reorderLevel == Num(10.0)
    ensures r.productId == OrElse(t.productId, "")
  {
    Fields(OrElse(t.productId, ""), OrElse(t.name, ""), OrElse(t.category, ""),
           Num(t.price.GetOr(0.0)), Num(t.quantity.GetOr(0) as real),
           Num(t.reorderLevel.GetOr(10) as real))
  }

  /** The modal opened with the given way of filling edit mode. */
  function OpenWith<File>(target: Option<EditTarget>, apiBase: string, prefill: EditTarget -> Fields): Modal<File> {
    match target
    case None => Modal(BlankFields, None, None, None, false)
    case Some(t) =>
      Modal(prefill(t), None, if Truthy(t.imageUrl) then Some(apiBase + t.imageUrl.value) else None, None, false)
  }

  /** Opening the modal as written: in edit mode the product's values
      (a stored reorder level of 0 among them opening as 10) and the stored
      image behind the API base; in add mode the blank values. Neither
      keeps a picked file or an error. */
  function Open<File>(target: Option<EditTarget>, apiBase: string): (m: Modal<File>)
    ensures m.image.None? && m.error.None? && !m.loading
    ensures target.None? ==> m.fields == BlankFields && m.preview.None?
    ensures target.Some? ==> m.fields == PrefillAsWritten(target.value)
    ensures target.Some? && target.value.reorderLevel == Some(0) ==> m.fields.reorderLevel == Num(10.0)
    ensures target.Some? && Truthy(target.value.imageUrl) ==> m.preview == Some(apiBase + target.value.imageUrl.value)
    ensures target.Some? && !Truthy(target.value.imageUrl) ==> m.preview.None?
  {
    OpenWith(target, apiBase, PrefillAsWritten)
  }

  /** Opening the modal with the corrected prefill: the same modal, except
      that a stored reorder level of 0 opens as 0. */
  function FixedOpen<File>(target: Option<EditTarget>, apiBase: string): (m: Modal<File>)
    ensures m.image.None? && m.error.None? && !m.loading
    ensures target.None? ==> m == Open(target, apiBase)
    ensures target.Some? ==> m.fields == Prefill(target.value)
    ensures target.Some? && target.value.reorderLevel != Some(0) ==> m == Open(target, apiBase)
    ensures target.Some? ==> m.preview == Open<File>(target, apiBase).preview
  {
    PrefillsAgreeOffZero(if target.Some? then target.value else EditTarget(None, None, None, None, None, None, None));
    OpenWith(target, apiBase, Prefill)
  }

  /** Picking a file shows it at once; cancelling the picker keeps the
      previous choice. */
  function PickImage<File>(m: Modal<File>, file: Option<File>, objectUrl: File -> string): (r: Modal<File>)
    ensures file.Some? ==> r.image == file && r.preview == Some(objectUrl(file.value))
    ensures file.None? ==> r == m
    ensures r.fields == m.fields && r.error == m.error
  {
    match file
    case None => m
    case Some(f) => m.(image := Some(f), preview := Some(objectUrl(f)))
  }

  datatype FieldName = IdField | NameField | CategoryField | PriceField | QuantityField | ReorderField

  /** `handleChange`: the typed text replaces the one field. */
  function Change(f: Fields, field: FieldName, value: string): (r: Fields)
    ensures field == IdField ==> r == f.(productId := value)
    ensures field == NameField ==> r == f.(name := value)
    ensures field == CategoryField ==> r == f.(category := value)
    ensures field == PriceField ==> r == f.(price := Typed(value))
    ensures field == QuantityField ==> r == f.(quantity := Typed(value))
    ensures field == ReorderField ==> r == f.(reorderLevel := Typed(value))
  {
    match field
    case IdField => f.(productId := value)
    case NameField => f.(name := value)
    case CategoryField => f.(category := value)
    case PriceField => f.(price := Typed(value))
    case QuantityField => f.(quantity := Typed(value))
    case ReorderField => f.(reorderLevel := Typed(value))
  }

  /** The product id input is read-only when editing and while saving. */
  predicate IdFieldDisabled(target: Option<EditTarget>, loading: bool) {
    target.Some? || loading
  }

  /** Only an idle add form lets the id be typed; an edit form never
      does, so the id an update addresses cannot be typed over. */
  lemma IdEditableOnlyWhenAdding(target: Option<EditTarget>, loading: bool)
    ensures !IdFieldDisabled(target, loading) <==> target.None? && !loading
    ensures target.Some? ==> IdFieldDisabled(target, loading)
  {
  }

  // ---------------------------------------------------------------------
  // Saving
  // ---------------------------------------------------------------------

  /** The body: the texts as they are, the numbers through `Number`. */
  datatype ProductData = ProductData(productId: string, name: string, category: string,
                                     price: Option<real>, quantity: Option<real>, reorderLevel: Option<real>)

  function NumberOf(v: NumField, toNumber: string -> Option<real>): Option<real> {
    match v
    case Num(x) => Some(x)
    case Typed(s) => toNumber(s)
  }

  function DataOf(f: Fields, toNumber: string -> Option<real>): ProductData {
    ProductData(f.productId, f.name, f.category, NumberOf(f.price, toNumber),
                NumberOf(f.quantity, toNumber), NumberOf(f.reorderLevel, toNumber))
  }

  /** The four requests; an update addresses the product being edited. */
  datatype Call<File> =
    | UpdateMultipart(id: Option<string>, data: ProductData, file: File)
    | UpdateJson(id: Option<string>, data: ProductData)
    | CreateMultipart(data: ProductData, file: File)
    | CreateJson(data: ProductData)

  /** `handleSubmit` up to the request: loading starts, the error clears,
      and exactly one request goes, chosen by mode and picked file. */
  function Submit<File>(m: Modal<File>, target: Option<EditTarget>, toNumber: string -> Option<real>)
    : (r: (Modal<File>, Call<File>))
    ensures r.0 == m.(loading := true, error := None)
    ensures (r.1.UpdateMultipart? || r.1.UpdateJson?) <==> target.Some?
    ensures (r.1.UpdateMultipart? || r.1.CreateMultipart?) <==> m.image.Some?
    ensures r.1.UpdateMultipart? ==> r.1.file == m.image.value
    ensures r.1.CreateMultipart? ==> r.1.file == m.image.value
    ensures r.1.data == DataOf(m.fields, toNumber)
  {
    var data := DataOf(m.fields, toNumber);
    var call := match (target, m.image)
      case (Some(t), Some(f)) => UpdateMultipart(t.productId, data, f)
      case (Some(t), None) => UpdateJson(t.productId, data)
      case (None, Some(f)) => CreateMultipart(data, f)
      case (None, None) => CreateJson(data);
    (m.(loading := true, error := None), call)
  }

  /** An update goes to the product being edited, whatever the id field
      holds. */
  lemma UpdateAddressesTarget<File>(m: Modal<File>, t: EditTarget, toNumber: string -> Option<real>)
    ensures var call := Submit(m, Some(t), toNumber).1;
      (call.UpdateMultipart? || call.UpdateJson?) && call.id == t.productId
  {
  }

  const ToastErrorKey: string := "products.toastError"

  /** After the answer: success closes the modal asking the list to
      reload; failure keeps it open with the error. */
  function Finish<File>(m: Modal<File>, failure: Option<UiErrors.Failure>): (r: (Modal<File>, bool))
    ensures !r.0.loading && r.0.fields == m.fields && r.0.image == m.image
    ensures r.1 <==> failure.None?
    ensures failure.Some? ==> r.0.error == UiErrors.Describe(failure.value, Some(ToastErrorKey))
  {
    match failure
    case None => (m.(loading := false), true)
    case Some(f) => (m.(loading := false, error := UiErrors.Describe(f, Some(ToastErrorKey))), false)
  }

  /** A failed save keeps everything typed and the picked image, so the
      same request can be sent again. */
  lemma FailedSaveCanRepeat<File>(m: Modal<File>, target: Option<EditTarget>, toNumber: string -> Option<real>,
                                  f: UiErrors.Failure)
    ensures var (sending, call) := Submit(m, target, toNumber);
      Submit(Finish(sending, Some(f)).0, target, toNumber).1 == call
  {
  }

  /** A product with every number stored. */
  predicate Complete(t: EditTarget) {
    t.price.Some? && t.quantity.Some? && t.reorderLevel.Some?
  }

  /** Opening a product and saving it untouched, as written: a stored
      reorder level of 0 is sent as 10. */
  lemma UntouchedSaveAsWritten<File>(t: EditTarget, apiBase: string, toNumber: string -> Option<real>)
    requires t.reorderLevel == Some(0)
    ensures var m: Modal<File> := Open(Some(t), apiBase);
      Submit(m, Some(t), toNumber).1 == UpdateJson(t.productId, DataOf(PrefillAsWritten(t), toNumber))
      && Submit(m, Some(t), toNumber).1.data.reorderLevel == Some(10.0)
  {
  }

  /** With the correction, saving an untouched product sends back exactly
      its stored numbers, a reorder level of 0 included. */
  lemma UntouchedSaveKeepsValues<File>(t: EditTarget, apiBase: string, toNumber: string -> Option<real>)
    requires Complete(t)
    ensures var data := Submit(FixedOpen<File>(Some(t), apiBase), Some(t), toNumber).1.data;
      data.price == t.price && data.quantity == Some(t.quantity.value as real)
      && data.reorderLevel == Some(t.reorderLevel.value as real)
      && data.productId == OrElse(t.productId, "")
  {
  }

  /** The two prefills differ only on a stored 0 reorder level. */
  lemma PrefillsAgreeOffZero(t: EditTarget)
    ensures t.reorderLevel != Some(0) ==> PrefillAsWritten(t) == Prefill(t)
    ensures t.reorderLevel == Some(0) ==> PrefillAsWritten(t).reorderLevel == Num(10.0)
                                          && Prefill(t).reorderLevel == Num(0.0)
  {
  }
}

=== FILE: product_list.dfy ===
/** The product list page: the fuzzy search (a parameter), the low-stock
    filter, the sort modes, which cards are drawn, and the delete and
    manage rules. */
module ProductList {
  import opened Wrappers
  import opened Text
  import Seqs
  import Sorting
  import AuthService
  import BillList
  import opened Cart

  datatype SortMode = Default | NameAsc | NameDesc | PriceAsc | PriceDesc | QtyAsc | QtyDesc

  /** The value of each option of the sort select. */
  function SortValue(m: SortMode): string {
    match m
    case Default => "default"
    case NameAsc => "name-asc"
    case NameDesc => "name-desc"
    case PriceAsc => "price-asc"
    case PriceDesc => "price-desc"
    case QtyAsc => "qty-asc"
    case QtyDesc => "qty-desc"
  }

  /** The sort select's value; anything unknown keeps the order. */
  function ParseSortMode(s: string): (m: SortMode)
    ensures m != Default ==> SortValue(m) == s
    ensures m == Default ==> forall k: SortMode :: k != Default ==> SortValue(k) != s
  {
    if s == "name-asc" then NameAsc
    else if s == "name-desc" then NameDesc
    else if s == "price-asc" then PriceAsc
    else if s == "price-desc" then PriceDesc
    else if s == "qty-asc" then QtyAsc
    else if s == "qty-desc" then QtyDesc
    else Default
  }

  /** The keys: a missing name sorts as '', a missing or zero price or
      quantity as 0. */
  function NameKey(p: ProductView): string { OrElse(p.name, "") }
  function PriceKey(p: ProductView): real { if p.price.Some? then p.price.value else 0.0 }
  function QtyKey(p: ProductView): real { if p.quantity.Some? then p.quantity.value as real else 0.0 }

  /** The order of a sorting mode ("may come before"). */
  function Order(mode: SortMode): (ProductView, ProductView) -> bool {
    match mode
    case NameAsc => Sorting.ByText(NameKey)
    case NameDesc => Sorting.Flip(Sorting.ByText(NameKey))
    case PriceAsc => Sorting.ByNumber(PriceKey)
    case PriceDesc => Sorting.Flip(Sorting.ByNumber(PriceKey))
    case QtyAsc => Sorting.ByNumber(QtyKey)
    case QtyDesc => Sorting.Flip(Sorting.ByNumber(QtyKey))
    case Default => (a: ProductView, b: ProductView) => true
  }

  lemma OrderIsPreorder(mode: SortMode)
    ensures Sorting.Total(Order(mode)) && Sorting.Transitive(Order(mode))
  {
    Sorting.ByTextIsPreorder(NameKey);
    Sorting.ByNumberIsPreorder(PriceKey);
    Sorting.ByNumberIsPreorder(QtyKey);
    Sorting.FlipIsPreorder(Sorting.ByText(NameKey));
    Sorting.FlipIsPreorder(Sorting.ByNumber(PriceKey));
    Sorting.FlipIsPreorder(Sorting.ByNumber(QtyKey));
  }

  function LowStock(p: ProductView): bool {
    IsLowStock(p)
  }

  /** `displayProducts`: the search hits (every product for an empty
      term), then the low-stock ones when asked, then sorted. */
  function DisplayProducts(products: seq<ProductView>, term: string,
                           search: (string, seq<ProductView>) -> seq<ProductView>,
                           lowOnly: bool, mode: SortMode): (r: seq<ProductView>)
  {
    var searched := if term != "" then search(term, products) else products;
    var filtered := if lowOnly then Seqs.Filter(searched, LowStock) else searched;
    if mode == Default then filtered else Sorting.SortBy(filtered, Order(mode))
  }

  /** What is shown is exactly the selected products, reordered: each
      one is low on stock when the filter is on, the list is in the mode's
      order, products the order cannot tell apart keep their relative
      order, and the default mode keeps the server's order. */
  lemma DisplayIsSortedSelection(products: seq<ProductView>, term: string,
                                 search: (string, seq<ProductView>) -> seq<ProductView>,
                                 lowOnly: bool, mode: SortMode, x: ProductView)
    ensures var searched := if term != "" then search(term, products) else products;
      var filtered := if lowOnly then Seqs.Filter(searched, LowStock) else searched;
      var r := DisplayProducts(products, term, search, lowOnly, mode);
      multiset(r) == multiset(filtered)
      && (lowOnly ==> forall i :: 0 <= i < |r| ==> IsLowStock(r[i]))
      && (term == "" && !lowOnly && mode == Default ==> r == products)
      && Sorting.Sorted(r, Order(mode))
      && Seqs.Filter(r, Sorting.EquivalentTo(x, Order(mode)))
         == Seqs.Filter(filtered, Sorting.EquivalentTo(x, Order(mode)))
  {
    var searched := if term != "" then search(term, products) else products;
    var filtered := if lowOnly then Seqs.Filter(searched, LowStock) else searched;
    OrderIsPreorder(mode);
    var r := DisplayProducts(products, term, search, lowOnly, mode);
    if mode != Default {
      Sorting.SortBySorted(filtered, Order(mode));
      Sorting.SortByStable(filtered, Order(mode), x);
    }
    if lowOnly {
      forall i | 0 <= i < |r| ensures IsLowStock(r[i]) {
        assert r[i] in multiset(filtered);
      }
    }
  }

  /** Cards are drawn only for products with a non-empty id. */
  function HasProductId(p: ProductView): bool {
    Truthy(p.productId)
  }

  function RenderedCards(display: seq<ProductView>): (r: seq<ProductView>)
    ensures forall i :: 0 <= i < |r| ==> Truthy(r[i].productId) && r[i] in display
    ensures forall i :: 0 <= i < |display| && Truthy(display[i].productId) ==> display[i] in r
  {
    Seqs.Filter(display, HasProductId)
  }

  datatype DeleteAction = MissingIdError | Cancelled | SendDelete(productId: string)

  /** `handleDeleteProduct`: without an id the user is told so and nothing
      is asked or sent; otherwise the confirmation decides. */
  function HandleDelete(p: ProductView, confirmed: bool): (r: DeleteAction)
    ensures r.SendDelete? <==> Truthy(p.productId) && confirmed
    ensures r == MissingIdError <==> !Truthy(p.productId)
    ensures r.SendDelete? ==> Some(r.productId) == p.productId
  {
    if !Truthy(p.productId) then MissingIdError
    else if !confirmed then Cancelled
    else SendDelete(p.productId.value)
  }

  /** The edit and delete buttons are offered to owners and managers. */
  predicate CanManage(user: Option<AuthService.UserInfo>) {
    user.Some? && (user.value.role == "OWNER" || user.value.role == "MANAGER")
  }

  /** Every option of the select reads back as its own mode. */
  lemma SortValueRoundTrip(m: SortMode)
    ensures ParseSortMode(SortValue(m)) == m
  {
  }

  /** The product page and the bill page grant management to the same
      users: a signed-in owner or manager, and nobody signed out. */
  lemma ManagementAgrees(user: Option<AuthService.UserInfo>)
    ensures CanManage(user) <==> user.Some? && BillList.CanManage(Some(user.value.role))
    ensures user.Some? && user.value.role == "CASHIER" ==> !CanManage(user)
    ensures user.None? ==> !CanManage(user)
  {
  }

  /** A product that has no id cannot be drawn or deleted. */
  lemma IdlessProductIsInert(display: seq<ProductView>, p: ProductView, confirmed: bool)
    requires !Truthy(p.productId)
    ensures p !in RenderedCards(display)
    ensures HandleDelete(p, confirmed) == MissingIdError
  {
  }
}

=== FILE: product_store.dfy ===
/** The list-backed product service: records kept in a sequence in
    insertion order, each under a store id drawn when it is created. Ids are
    compared with `equals`, so the first record with the id is the one
    found and updated, while deletion removes every record with it. */
module ProductStore {
  import opened Wrappers
  import opened Seqs

  /** A stored product request. */
  datatype ProductRecord = ProductRecord(
    id: Option<string>,
    productId: Option<string>,
    name: Option<string>,
    category: Option<string>,
    price: real,
    quantity: int,
    expiryDate: Option<string>,
    imageUrl: Option<string>,
    supplierEmail: Option<string>,
    minQuantity: int,
    reorderLevel: int)

  /** A request built with the no-argument constructor and the five fields
      `createProduct` copies. */
  function NewRecord(id: string, req: ProductRecord): (r: ProductRecord)
    ensures r.id == Some(id)
    ensures r.productId == req.productId && r.name == req.name && r.category == req.category
    ensures r.price == req.price && r.quantity == req.quantity
    ensures r.expiryDate.None? && r.imageUrl.None? && r.supplierEmail.None?
    ensures r.minQuantity == 5 && r.reorderLevel == 10
  {
    ProductRecord(Some(id), req.productId, req.name, req.category, req.price, req.quantity,
                  None, None, None, 5, 10)
  }

  predicate HasId(r: ProductRecord, id: string) {
    r.id == Some(id)
  }

  /** Index of the first record with store id `id`. */
  function FirstWithId(store: seq<ProductRecord>, id: string): (r: Option<nat>)
    ensures r.Some? ==> r.value < |store| && HasId(store[r.value], id)
    ensures r.Some? ==> forall i :: 0 <= i < r.value ==> !HasId(store[i], id)
    ensures r.None? <==> forall i :: 0 <= i < |store| ==> !HasId(store[i], id)
  {
    FirstIndex(store, (p: ProductRecord) => HasId(p, id))
  }

  /** `getProductById`: the first record with the id, or null. */
  function GetProductById(store: seq<ProductRecord>, id: string): (r: Option<ProductRecord>)
    ensures r.Some? ==> r.value in store && HasId(r.value, id)
    ensures r.None? <==> forall i :: 0 <= i < |store| ==> !HasId(store[i], id)
    ensures r.Some? ==> exists k :: 0 <= k < |store| && store[k] == r.value
                                    && forall i :: 0 <= i < k ==> !HasId(store[i], id)
  {
    match FirstWithId(store, id)
    case Some(k) => Some(store[k])
    case None => None
  }

  /** `createProduct`: appends one record under the fresh id `newId`. */
  function CreateProduct(store: seq<ProductRecord>, req: ProductRecord, newId: string)
    : (r: (seq<ProductRecord>, string))
    ensures r.0 == store + [NewRecord(newId, req)]
    ensures r.1 == "Product created successfully. ID: " + newId
  {
    (store + [NewRecord(newId, req)], "Product created successfully. ID: " + newId)
  }

  /** The fields `updateProduct` takes over: strings when not null, price
      and quantity when not zero. */
  function Merge(p: ProductRecord, upd: ProductRecord): (r: ProductRecord)
    ensures r.name == (if upd.name.Some? then upd.name else p.name)
    ensures r.productId == (if upd.productId.Some? then upd.productId else p.productId)
    ensures r.category == (if upd.category.Some? then upd.category else p.category)
    ensures r.price == (if upd.price != 0.0 then upd.price else p.price)
    ensures r.quantity == (if upd.quantity != 0 then upd.quantity else p.quantity)
    ensures r.(name := p.name, productId := p.productId, category := p.category,
               price := p.price, quantity := p.quantity) == p
  {
    p.(name := if upd.name.Some? then upd.name else p.name,
       productId := if upd.productId.Some? then upd.productId else p.productId,
       category := if upd.category.Some? then upd.category else p.category,
       price := if upd.price != 0.0 then upd.price else p.price,
       quantity := if upd.quantity != 0 then upd.quantity else p.quantity)
  }

  const NotFound: string := "Error: Product not found"

  /** `updateProduct`: merges into the first record with the id only. */
  function UpdateProduct(store: seq<ProductRecord>, id: string, upd: ProductRecord)
    : (r: (seq<ProductRecord>, string))
    ensures FirstWithId(store, id).None? ==> r == (store, NotFound)
    ensures FirstWithId(store, id).Some? ==>
      var k := FirstWithId(store, id).value;
      r == (store[k := Merge(store[k], upd)], "Product updated successfully")
  {
    match FirstWithId(store, id)
    case None => (store, NotFound)
    case Some(k) => (store[k := Merge(store[k], upd)], "Product updated successfully")
  }

  /** `deleteProduct`: removes every record with the id. */
  function DeleteProduct(store: seq<ProductRecord>, id: string): (r: (seq<ProductRecord>, string))
    ensures r.0 == Filter(store, (p: ProductRecord) => !HasId(p, id))
    ensures r.1 == (if |r.0| < |store| then "Product deleted successfully" else NotFound)
  {
    var kept := Filter(store, (p: ProductRecord) => !HasId(p, id));
    (kept, if |kept| < |store| then "Product deleted successfully" else NotFound)
  }

  // ---------------------------------------------------------------------
  // Properties
  // ---------------------------------------------------------------------

  /** A record created under an id no other record has is found by it. */
  lemma CreateThenGet(store: seq<ProductRecord>, req: ProductRecord, newId: string)
    requires forall i :: 0 <= i < |store| ==> !HasId(store[i], newId)
    ensures GetProductById(CreateProduct(store, req, newId).0, newId) == Some(NewRecord(newId, req))
  {
    var s := CreateProduct(store, req, newId).0;
    assert forall i :: 0 <= i < |store| ==> s[i] == store[i];
    assert s[|store|] == NewRecord(newId, req);
    var k := FirstWithId(s, newId).value;
    assert k == |store|;
  }

  /** Update keeps the length and touches one record only. */
  lemma UpdateTouchesOne(store: seq<ProductRecord>, id: string, upd: ProductRecord)
    ensures var r := UpdateProduct(store, id, upd).0;
      |r| == |store| && forall i :: 0 <= i < |store| && r[i] != store[i] ==> HasId(store[i], id)
  {
  }

  /** Deletion reports success exactly when some record had the id, and
      afterwards none has it. */
  lemma {:induction false} DeleteRemovesAll(store: seq<ProductRecord>, id: string)
    ensures var (after, msg) := DeleteProduct(store, id);
      (msg == "Product deleted successfully" <==> exists i :: 0 <= i < |store| && HasId(store[i], id))
      && GetProductById(after, id).None?
  {
    var p := (q: ProductRecord) => !HasId(q, id);
    var after := Filter(store, p);
    FilterLength(store, p);
    CountAllIffLength(store, p);
  }
}

=== FILE: reminders.dfy ===
/** The two scheduled reminder jobs: the monthly mail listing the products
    a customer keeps buying, and the daily re-engagement mail to customers
    who have not bought for thirty days. Sending is a parameter that says
    for which addresses the mail server fails; the message texts are not
    modelled, only who is written to and with which items or name. */
module Reminders {
  import opened Wrappers
  import opened Text
  import opened Models
  import opened Seqs
  import Dates
  import opened CustomerService

  // ---------------------------------------------------------------------
  // Frequent items
  // ---------------------------------------------------------------------

  /** The product names of every item of every bill, in order. */
  function ItemNames(bills: seq<Bill>): (r: seq<Option<string>>)
    decreases |bills|
  {
    if |bills| == 0 then [] else NamesOf(bills[0].items) + ItemNames(bills[1..])
  }

  function NamesOf(items: seq<BillItem>): (r: seq<Option<string>>)
    ensures |r| == |items| && forall k :: 0 <= k < |items| ==> r[k] == items[k].productName
  {
    if |items| == 0 then [] else [items[0].productName] + NamesOf(items[1..])
  }

  /** How many times `x` occurs in `s`. */
  function Occurrences<T(==)>(s: seq<T>, x: T): nat {
    if |s| == 0 then 0 else (if s[0] == x then 1 else 0) + Occurrences(s[1..], x)
  }

  lemma {:induction false} OnceIffIn<T>(s: seq<T>, x: T)
    ensures Occurrences(s, x) >= 1 <==> x in s
  {
    if |s| > 0 {
      OnceIffIn(s[1..], x);
      assert x in s <==> s[0] == x || x in s[1..];
    }
  }

  /** Occurring at least twice means sitting at two different positions. */
  lemma {:induction false} TwiceIffTwoPositions<T>(s: seq<T>, x: T)
    ensures Occurrences(s, x) >= 2 <==>
      exists i, j :: 0 <= i < j < |s| && s[i] == x && s[j] == x
  {
    if |s| > 0 {
      TwiceIffTwoPositions(s[1..], x);
      OnceIffIn(s[1..], x);
      if Occurrences(s, x) >= 2 {
        if s[0] == x {
          var j :| 0 <= j < |s[1..]| && s[1..][j] == x;
          assert s[0] == x && s[j + 1] == x;
        } else {
          var i, j :| 0 <= i < j < |s[1..]| && s[1..][i] == x && s[1..][j] == x;
          assert s[i + 1] == x && s[j + 1] == x;
        }
      }
      if exists i, j :: 0 <= i < j < |s| && s[i] == x && s[j] == x {
        var i, j :| 0 <= i < j < |s| && s[i] == x && s[j] == x;
        if i == 0 {
          assert s[1..][j - 1] == x;
        } else {
          assert s[1..][i - 1] == x && s[1..][j - 1] == x;
        }
      }
    }
  }

  /** The names that occur in at least two bill items of the history
      (items are counted, not quantities). Grouping by a null name throws,
      which is `None` here. */
  function FrequentItems(history: seq<Bill>): (r: Option<set<string>>)
    ensures r.Some? <==> None !in ItemNames(history)
    ensures r.Some? ==> forall n :: n in r.value <==> Occurrences(ItemNames(history), Some(n)) >= 2
  {
    var names := ItemNames(history);
    if None in names then None
    else
      FrequentNamesExact(names);
      Some(FrequentNames(names))
  }

  function FrequentNames(names: seq<Option<string>>): set<string>
    requires None !in names
  {
    set i | 0 <= i < |names| && Occurrences(names, names[i]) >= 2 :: names[i].value
  }

  lemma FrequentNamesExact(names: seq<Option<string>>)
    requires None !in names
    ensures forall n :: n in FrequentNames(names) <==> Occurrences(names, Some(n)) >= 2
  {
    forall n ensures n in FrequentNames(names) <==> Occurrences(names, Some(n)) >= 2 {
      if Occurrences(names, Some(n)) >= 2 {
        OnceIffIn(names, Some(n));
        var i :| 0 <= i < |names| && names[i] == Some(n);
        assert names[i].value == n;
      }
      if n in FrequentNames(names) {
        var i :| 0 <= i < |names| && Occurrences(names, names[i]) >= 2 && names[i].value == n;
        assert names[i] != None;
        assert names[i] == Some(n);
      }
    }
  }

  /** A product is frequent exactly when two different items name it. */
  lemma FrequentIffTwoItems(history: seq<Bill>, n: string)
    requires FrequentItems(history).Some?
    ensures var names := ItemNames(history);
      n in FrequentItems(history).value <==>
      exists i, j :: 0 <= i < j < |names| && names[i] == Some(n) && names[j] == Some(n)
  {
    var names := ItemNames(history);
    TwiceIffTwoPositions(names, Some(n));
    if n in FrequentItems(history).value {
      var i, j :| 0 <= i < j < |names| && names[i] == Some(n) && names[j] == Some(n);
    }
  }

  /** Buying a product once per bill in two bills makes it frequent, and a
      single item with quantity 5 does not. */
  lemma ItemsNotQuantities(b1: Bill, b2: Bill)
    requires b1.items == [BillItem(Some("p1"), Some("Milk"), 1, 0.0)]
    requires b2.items == [BillItem(Some("p1"), Some("Milk"), 1, 0.0)]
    ensures FrequentItems([b1, b2]) == Some({"Milk"})
    ensures FrequentItems([b1.(items := [BillItem(Some("p1"), Some("Milk"), 5, 0.0)])]) == Some({})
  {
    assert NamesOf(b1.items) == [Some("Milk")] && NamesOf(b2.items) == [Some("Milk")];
    assert [b1, b2][1..] == [b2] && [b2][1..] == [];
    assert ItemNames([b2]) == [Some("Milk")] + ItemNames([]);
    assert ItemNames([b1, b2]) == [Some("Milk")] + ItemNames([b2]);
    var names := ItemNames([b1, b2]);
    assert names == [Some("Milk"), Some("Milk")];
    assert names[1..] == [Some("Milk")] && names[1..][1..] == [];
    assert Occurrences(names[1..][1..], Some("Milk")) == 0;
    assert Occurrences(names[1..], Some("Milk")) == 1;
    assert Occurrences(names, Some("Milk")) == 2;
    assert None !in names;
    var r := FrequentItems([b1, b2]).value;
    forall n | n in r ensures n == "Milk" {
      OnceIffIn(names, Some(n));
    }
    assert "Milk" in r;
    assert r == {"Milk"};
    var b := b1.(items := [BillItem(Some("p1"), Some("Milk"), 5, 0.0)]);
    assert ItemNames([b]) == [Some("Milk")] by {
      assert [b][1..] == [];
      assert NamesOf(b.items) == [Some("Milk")];
      assert ItemNames([b]) == NamesOf(b.items) + ItemNames([]);
    }
    assert [Some("Milk")][1..] == [];
    assert Occurrences(ItemNames([b]), Some("Milk")) == 1;
    assert None !in ItemNames([b]);
    forall n | n in FrequentItems([b]).value ensures false {
      OnceIffIn(ItemNames([b]), Some(n));
    }
    assert FrequentItems([b]).value == {};
  }

  // ---------------------------------------------------------------------
  // Monthly purchase reminders
  // ---------------------------------------------------------------------

  /** The decision for one customer: no mail for a blank address (before
      the history is read), an empty history or no frequent item; a failing
      history query or a null product name aborts the whole job. The
      history is the query as written, which looks the business bill ids
      up as document ids. */
  function ReminderItems(st: CustomerStore, bills: seq<Bill>, c: Customer, zone: int)
    : (r: Result<Option<set<string>>>)
    ensures NullOrBlank(c.email) ==> r == Ok(None)
    ensures !NullOrBlank(c.email) ==>
      (r.Err? <==> PurchaseHistoryAsWritten(st, bills, c.id, None, None, zone).Err?
                   || FrequentItems(PurchaseHistoryAsWritten(st, bills, c.id, None, None, zone).value).None?)
    ensures r.Ok? && r.value.Some? ==>
      var h := PurchaseHistoryAsWritten(st, bills, c.id, None, None, zone).value;
      h != [] && r.value == FrequentItems(h) && r.value.value != {}
  {
    if NullOrBlank(c.email) then Ok(None)
    else
      var history :- PurchaseHistoryAsWritten(st, bills, c.id, None, None, zone);
      if history == [] then Ok(None)
      else match FrequentItems(history)
        case None => Err("NullPointerException")
        case Some(items) => if items == {} then Ok(None) else Ok(Some(items))
  }

  datatype Reminder = Reminder(to: string, name: Option<string>, items: set<string>)

  /** What a run did: the mails delivered, in customer order, and the
      error that ended it early, if any (mails sent before it stay sent). */
  datatype MonthlyRun = MonthlyRun(sent: seq<Reminder>, aborted: Option<string>)

  /** The decision of the monthly job for each customer. */
  function Decision(st: CustomerStore, bills: seq<Bill>, zone: int): Customer -> Result<Option<set<string>>> {
    (c: Customer) => ReminderItems(st, bills, c, zone)
  }

  /** The monthly loop over the customers `cs` for a given decision; a
      send that fails is caught and the loop goes on. */
  function RunReminders(decide: Customer -> Result<Option<set<string>>>, cs: seq<Customer>,
                        sendFails: string -> bool): (r: MonthlyRun)
    ensures |r.sent| <= |cs|
    decreases |cs|
  {
    if |cs| == 0 then MonthlyRun([], None)
    else
      var c := cs[0];
      match decide(c)
      case Err(e) => MonthlyRun([], Some(e))
      case Ok(None) => RunReminders(decide, cs[1..], sendFails)
      case Ok(Some(items)) =>
        var rest := RunReminders(decide, cs[1..], sendFails);
        if sendFails(c.email.GetOr("")) then rest
        else MonthlyRun([Reminder(c.email.GetOr(""), c.name, items)] + rest.sent, rest.aborted)
  }

  /** A customer whose decision aborts the job. */
  function Aborts(decide: Customer -> Result<Option<set<string>>>): Customer -> bool {
    (c: Customer) => decide(c).Err?
  }

  /** A customer who gets a reminder: one with frequent items whose send
      succeeds. */
  function Due(decide: Customer -> Result<Option<set<string>>>, sendFails: string -> bool): Customer -> bool {
    (c: Customer) => decide(c).Ok? && decide(c).value.Some? && !sendFails(c.email.GetOr(""))
  }

  /** The reminder a due customer gets. */
  function ReminderOf(decide: Customer -> Result<Option<set<string>>>, c: Customer): Reminder {
    Reminder(c.email.GetOr(""), c.name,
             if decide(c).Ok? && decide(c).value.Some? then decide(c).value.value else {})
  }

  function RemindersOf(decide: Customer -> Result<Option<set<string>>>, cs: seq<Customer>): (r: seq<Reminder>)
    ensures |r| == |cs| && forall i :: 0 <= i < |cs| ==> r[i] == ReminderOf(decide, cs[i])
  {
    seq(|cs|, i requires 0 <= i < |cs| => ReminderOf(decide, cs[i]))
  }

  lemma RemindersOfCons(decide: Customer -> Result<Option<set<string>>>, c: Customer, cs: seq<Customer>)
    ensures RemindersOf(decide, [c] + cs) == [ReminderOf(decide, c)] + RemindersOf(decide, cs)
  {
    var l := RemindersOf(decide, [c] + cs);
    var r := [ReminderOf(decide, c)] + RemindersOf(decide, cs);
    forall i | 0 <= i < |l| ensures l[i] == r[i] {
      if i > 0 {
        assert ([c] + cs)[i] == cs[i - 1];
      }
    }
  }

  /** Completeness of the loop: up to the first customer whose decision
      fails (all of them when none does), every due customer gets exactly
      their reminder, in order, and nobody else gets one; the run is
      aborted exactly when some decision fails, with that failure. */
  lemma RunComplete(decide: Customer -> Result<Option<set<string>>>, cs: seq<Customer>,
                    sendFails: string -> bool)
    ensures var r := RunReminders(decide, cs, sendFails);
      var k := FirstIndex(cs, Aborts(decide));
      (k.None? ==> r.aborted.None? && r.sent == RemindersOf(decide, Filter(cs, Due(decide, sendFails))))
      && (k.Some? ==> r.aborted == Some(decide(cs[k.value]).error)
                      && r.sent == RemindersOf(decide, Filter(cs[..k.value], Due(decide, sendFails))))
  {
    RunAborted(decide, cs, sendFails);
    RunSent(decide, cs, sendFails);
    ScopeIsPrefix(decide, cs);
  }

  /** The customers the loop reaches and completes: those before the
      first failing decision. */
  function Scope(decide: Customer -> Result<Option<set<string>>>, cs: seq<Customer>): seq<Customer>
    decreases |cs|
  {
    if |cs| == 0 || decide(cs[0]).Err? then [] else [cs[0]] + Scope(decide, cs[1..])
  }

  /** The scope is the prefix before the first failing decision. */
  lemma {:induction false} ScopeIsPrefix(decide: Customer -> Result<Option<set<string>>>, cs: seq<Customer>)
    ensures var k := FirstIndex(cs, Aborts(decide));
      Scope(decide, cs) == (if k.Some? then cs[..k.value] else cs)
    decreases |cs|
  {
    if |cs| > 0 && decide(cs[0]).Ok? {
      ScopeIsPrefix(decide, cs[1..]);
      var k := FirstIndex(cs[1..], Aborts(decide));
      if k.Some? {
        assert cs[..k.value + 1] == [cs[0]] + cs[1..][..k.value];
      } else {
        assert cs == [cs[0]] + cs[1..];
      }
    }
  }

  /** The run aborts with the first failing decision, and only then. */
  lemma {:induction false} RunAborted(decide: Customer -> Result<Option<set<string>>>, cs: seq<Customer>,
                                      sendFails: string -> bool)
    ensures var k := FirstIndex(cs, Aborts(decide));
      RunReminders(decide, cs, sendFails).aborted == (if k.Some? then Some(decide(cs[k.value]).error) else None)
    decreases |cs|
  {
    if |cs| > 0 && decide(cs[0]).Ok? {
      RunAborted(decide, cs[1..], sendFails);
    }
  }

  /** The mails of a run are the reminders of the due customers in scope,
      in order. */
  lemma {:induction false} RunSent(decide: Customer -> Result<Option<set<string>>>, cs: seq<Customer>,
                                   sendFails: string -> bool)
    ensures RunReminders(decide, cs, sendFails).sent
            == RemindersOf(decide, Filter(Scope(decide, cs), Due(decide, sendFails)))
    decreases |cs|
  {
    if |cs| > 0 && decide(cs[0]).Ok? {
      var c := cs[0];
      var due := Due(decide, sendFails);
      RunSent(decide, cs[1..], sendFails);
      var rest := Scope(decide, cs[1..]);
      assert ([c] + rest)[0] == c && ([c] + rest)[1..] == rest;
      if due(c) {
        RemindersOfCons(decide, c, Filter(rest, due));
      }
    }
  }

  /** `sendMonthlyPurchaseReminders` over the customers `cs`. The processed
      count is the number of delivered mails. */
  function MonthlyReminders(st: CustomerStore, bills: seq<Bill>, cs: seq<Customer>, zone: int,
                            sendFails: string -> bool): (r: MonthlyRun)
    ensures |r.sent| <= |cs|
    ensures forall i :: 0 <= i < |r.sent| ==>
      !IsBlank(r.sent[i].to) && r.sent[i].items != {} && !sendFails(r.sent[i].to)
  {
    var decide := Decision(st, bills, zone);
    var r := RunReminders(decide, cs, sendFails);
    RunComplete(decide, cs, sendFails);
    var k := FirstIndex(cs, Aborts(decide));
    var scope := if k.Some? then cs[..k.value] else cs;
    var due := Filter(scope, Due(decide, sendFails));
    assert r.sent == RemindersOf(decide, due);
    forall i | 0 <= i < |r.sent|
      ensures !IsBlank(r.sent[i].to) && r.sent[i].items != {} && !sendFails(r.sent[i].to)
    {
      var c := due[i];
      assert Due(decide, sendFails)(c);
      assert r.sent[i] == ReminderOf(decide, c);
      assert ReminderItems(st, bills, c, zone).Ok? && ReminderItems(st, bills, c, zone).value.Some?;
    }
    r
  }

  /** Completeness of the monthly job over its decisions. */
  lemma MonthlyRemindersComplete(st: CustomerStore, bills: seq<Bill>, cs: seq<Customer>, zone: int,
                                 sendFails: string -> bool)
    ensures var decide := Decision(st, bills, zone);
      var r := MonthlyReminders(st, bills, cs, zone, sendFails);
      var k := FirstIndex(cs, Aborts(decide));
      (k.None? ==> r.aborted.None? && r.sent == RemindersOf(decide, Filter(cs, Due(decide, sendFails))))
      && (k.Some? ==> r.aborted == Some(ReminderItems(st, bills, cs[k.value], zone).error)
                      && r.sent == RemindersOf(decide, Filter(cs[..k.value], Due(decide, sendFails))))
  {
    RunComplete(Decision(st, bills, zone), cs, sendFails);
  }

  /** Customers without an address are passed over before their history
      is read, so they neither get mail nor stop the job. */
  lemma {:induction false} NoAddressNoMail(st: CustomerStore, bills: seq<Bill>, cs: seq<Customer>, zone: int,
                                           sendFails: string -> bool)
    requires forall i :: 0 <= i < |cs| ==> NullOrBlank(cs[i].email)
    ensures MonthlyReminders(st, bills, cs, zone, sendFails) == MonthlyRun([], None)
    decreases |cs|
  {
    if |cs| > 0 {
      assert forall i :: 0 <= i < |cs[1..]| ==> cs[1..][i] == cs[i + 1];
      NoAddressNoMail(st, bills, cs[1..], zone, sendFails);
    }
  }

  /** The job runs over every stored customer: when no decision fails,
      every customer with frequent items whose send succeeds is mailed. */
  function SendMonthlyPurchaseReminders(st: CustomerStore, bills: seq<Bill>, zone: int,
                                        sendFails: string -> bool): (r: MonthlyRun)
    ensures |r.sent| <= |st.customers|
    ensures forall i :: 0 <= i < |r.sent| ==> !IsBlank(r.sent[i].to) && r.sent[i].items != {}
    ensures r.aborted.None? <==> FirstIndex(st.customers, Aborts(Decision(st, bills, zone))).None?
    ensures r.aborted.None? ==>
      forall c :: c in st.customers && Due(Decision(st, bills, zone), sendFails)(c) ==>
        ReminderOf(Decision(st, bills, zone), c) in r.sent
  {
    var decide := Decision(st, bills, zone);
    var r := MonthlyReminders(st, bills, st.customers, zone, sendFails);
    MonthlyRemindersComplete(st, bills, st.customers, zone, sendFails);
    assert r.aborted.None? ==>
      forall c :: c in st.customers && Due(decide, sendFails)(c) ==> ReminderOf(decide, c) in r.sent
    by {
      if r.aborted.None? {
        DueMailed(decide, st.customers, sendFails);
      }
    }
    r
  }

  /** Each due customer's reminder is among the reminders of the due. */
  lemma DueMailed(decide: Customer -> Result<Option<set<string>>>, cs: seq<Customer>, sendFails: string -> bool)
    ensures forall c :: c in cs && Due(decide, sendFails)(c) ==>
      ReminderOf(decide, c) in RemindersOf(decide, Filter(cs, Due(decide, sendFails)))
  {
    var due := Filter(cs, Due(decide, sendFails));
    forall c | c in cs && Due(decide, sendFails)(c)
      ensures ReminderOf(decide, c) in RemindersOf(decide, due)
    {
      assert c in due;
      var m :| 0 <= m < |due| && due[m] == c;
      assert RemindersOf(decide, due)[m] == ReminderOf(decide, c);
    }
  }

  // ---------------------------------------------------------------------
  // Re-engagement
  // ---------------------------------------------------------------------

  /** Thirty days before `now` (the calendar's daylight-saving shifts are
      not modelled). */
  function ReEngagementThreshold(now: int): (t: int)
    ensures t < now && now - t == 30 * Dates.DayMs
  {
    now - 30 * Dates.DayMs
  }

  datatype ReEngagementMail = ReEngagementMail(to: string, greeting: string)

  /** The mail a customer gets: to their address, greeting them by name or
      as "Valued Customer". */
  function MailOf(c: Customer): ReEngagementMail {
    ReEngagementMail(c.email.GetOr(""), c.name.GetOr("Valued Customer"))
  }

  predicate Inactive(c: Customer, threshold: int) {
    c.lastPurchaseDate.None? || c.lastPurchaseDate.value < threshold
  }

  /** A customer with an address the mail server accepts. */
  predicate Reachable(c: Customer, sendFails: string -> bool) {
    !NullOrBlank(c.email) && !sendFails(c.email.value)
  }

  function ReachableWith(sendFails: string -> bool): Customer -> bool {
    (c: Customer) => Reachable(c, sendFails)
  }

  function MailsTo(cs: seq<Customer>): (r: seq<ReEngagementMail>)
    ensures |r| == |cs| && forall i :: 0 <= i < |cs| ==> r[i] == MailOf(cs[i])
  {
    if |cs| == 0 then [] else [MailOf(cs[0])] + MailsTo(cs[1..])
  }

  /** `sendReEngagementReminders`: every customer inactive since thirty
      days before `now` who has a working address gets one mail, and no
      one else does. */
  function SendReEngagementReminders(customers: seq<Customer>, now: int, sendFails: string -> bool)
    : (r: seq<ReEngagementMail>)
    ensures |r| == Count(FindInactive(customers, Some(ReEngagementThreshold(now))), ReachableWith(sendFails))
    ensures forall i :: 0 <= i < |r| ==>
      exists c :: c in customers && Inactive(c, ReEngagementThreshold(now)) && Reachable(c, sendFails) && r[i] == MailOf(c)
    ensures forall c :: c in customers && Inactive(c, ReEngagementThreshold(now)) && Reachable(c, sendFails) ==>
      MailOf(c) in r
  {
    var inactive := FindInactive(customers, Some(ReEngagementThreshold(now)));
    var recipients := Filter(inactive, ReachableWith(sendFails));
    FilterLength(inactive, ReachableWith(sendFails));
    RecipientsExact(customers, ReEngagementThreshold(now), sendFails);
    MailsTo(recipients)
  }

  /** The recipients are exactly the inactive, reachable customers. */
  lemma RecipientsExact(customers: seq<Customer>, threshold: int, sendFails: string -> bool)
    ensures var recipients := Filter(FindInactive(customers, Some(threshold)), ReachableWith(sendFails));
      (forall i :: 0 <= i < |recipients| ==>
         recipients[i] in customers && Inactive(recipients[i], threshold) && Reachable(recipients[i], sendFails))
      && forall c :: c in customers && Inactive(c, threshold) && Reachable(c, sendFails) ==> c in recipients
  {
    var inactive := FindInactive(customers, Some(threshold));
    var recipients := Filter(inactive, ReachableWith(sendFails));
    forall i | 0 <= i < |recipients|
      ensures recipients[i] in customers && Inactive(recipients[i], threshold)
    {
      var k :| 0 <= k < |inactive| && inactive[k] == recipients[i];
      SubsequenceMember(inactive, customers, k);
    }
  }

  /** A customer who bought within the last thirty days is not written to
      (unless another, inactive customer shares the address). */
  lemma RecentBuyerNotReEngaged(customers: seq<Customer>, now: int, sendFails: string -> bool, email: string)
    requires forall k :: 0 <= k < |customers| && customers[k].email == Some(email) ==>
      !Inactive(customers[k], ReEngagementThreshold(now))
    ensures forall i :: 0 <= i < |SendReEngagementReminders(customers, now, sendFails)| ==>
      SendReEngagementReminders(customers, now, sendFails)[i].to != email
  {
    var r := SendReEngagementReminders(customers, now, sendFails);
    forall i | 0 <= i < |r| ensures r[i].to != email {
      var c :| c in customers && Inactive(c, ReEngagementThreshold(now)) && Reachable(c, sendFails) && r[i] == MailOf(c);
    }
  }
}

=== FILE: report_generator.dfy ===
/** The report generator page: the date range, the validation before a
    fetch, the request's dates, the state after each step, and the name
    of the downloaded PDF. Instants are milliseconds since the epoch; a
    picked day is the instant of its local midnight, `offset` being the
    browser's offset in milliseconds east of UTC. The report itself is an
    opaque value `R`. */
module ReportGenerator {
  import opened Wrappers
  import opened Text
  import opened Dates

  // ---------------------------------------------------------------------
  // Dates on the wire
  // ---------------------------------------------------------------------

  /** The text of a day number, '' outside the years 1 to 9999. */
  function DayText(n: int): (r: string)
    ensures CivilOf(n).Some? ==> |r| == 10
  {
    match CivilOf(n)
    case None => ""
    case Some((y, m, d)) => FormatYmd(y, m, d)
  }

  /** `formatAPI`: the date part of `toISOString`, that is the UTC day of
      the instant; '' for no date. */
  function FormatApi(t: Option<int>): (r: string)
    ensures t.None? ==> r == ""
  {
    if t.None? then "" else DayText(t.value / DayMs)
  }

  /** A day's text reads back as that day. */
  lemma DayTextReadsBack(n: int)
    requires CivilOf(n).Some?
    ensures ParseYmd(DayText(n)) == CivilOf(n)
  {
    var (y, m, d) := CivilOf(n).value;
    ParseFormatYmd(y, m, d);
  }

  lemma DayBounds(t: int)
    ensures (t / DayMs) * DayMs <= t < (t / DayMs) * DayMs + DayMs
  {
  }

  /** The request's date reads back as the instant's UTC day. */
  lemma FormatApiReadsBack(t: int)
    requires CivilOf(t / DayMs).Some?
    ensures ParseYmd(FormatApi(Some(t))) == CivilOf(t / DayMs)
    ensures var (y, m, d) := CivilOf(t / DayMs).value;
      DayNumber(y, m, d) * DayMs <= t < DayNumber(y, m, d) * DayMs + DayMs
  {
    DayTextReadsBack(t / DayMs);
    DayBounds(t);
  }

  lemma MidnightDay(n: int, offset: int)
    requires -DayMs < offset < DayMs
    ensures offset > 0 ==> (n * DayMs - offset) / DayMs == n - 1
    ensures offset <= 0 ==> (n * DayMs - offset) / DayMs == n
  {
    if offset > 0 {
      assert (n - 1) * DayMs <= n * DayMs - offset < (n - 1) * DayMs + DayMs;
    } else {
      assert n * DayMs <= n * DayMs - offset < n * DayMs + DayMs;
    }
  }

  /** The day picked east of UTC (India's +5:30, say) goes out as the day
      before: local midnight is still the previous day in UTC. */
  lemma PickedDaySentAsPreviousDay(y: nat, m: nat, d: nat, offset: int)
    requires ValidDate(y, m, d) && y < 10000
    requires 0 < offset < DayMs
    requires CivilOf(DayNumber(y, m, d) - 1).Some?
    ensures var sent := ParseYmd(FormatApi(Some(MidnightOf(y, m, d, offset))));
      sent.Some? && sent != Some((y, m, d))
      && DayNumber(sent.value.0, sent.value.1, sent.value.2) == DayNumber(y, m, d) - 1
  {
    var n := DayNumber(y, m, d);
    MidnightDay(n, offset);
    FormatApiReadsBack(MidnightOf(y, m, d, offset));
  }

  /** At UTC or west of it the picked day goes out unchanged. */
  lemma PickedDaySentWestOfUtc(y: nat, m: nat, d: nat, offset: int)
    requires ValidDate(y, m, d) && y < 10000
    requires -DayMs < offset <= 0
    ensures ParseYmd(FormatApi(Some(MidnightOf(y, m, d, offset)))) == Some((y, m, d))
  {
    MidnightDay(DayNumber(y, m, d), offset);
    CivilOfDayNumber(y, m, d);
    FormatApiReadsBack(MidnightOf(y, m, d, offset));
  }

  /** The date part in the browser's own zone. */
  function FormatLocal(t: Option<int>, offset: int): (r: string)
    ensures t.None? ==> r == ""
  {
    if t.None? then "" else DayText((t.value + offset) / DayMs)
  }

  /** The picked day goes out as itself, whatever the zone. */
  lemma FormatLocalSendsPickedDay(y: nat, m: nat, d: nat, offset: int)
    requires ValidDate(y, m, d) && y < 10000
    ensures ParseYmd(FormatLocal(Some(MidnightOf(y, m, d, offset)), offset)) == Some((y, m, d))
  {
    var n := DayNumber(y, m, d);
    WholeDays(n);
    var t := MidnightOf(y, m, d, offset);
    assert (t + offset) / DayMs == n;
    assert FormatLocal(Some(t), offset) == DayText(n);
    CivilOfDayNumber(y, m, d);
    DayTextReadsBack(n);
  }

  lemma WholeDays(n: int)
    ensures (n * DayMs) / DayMs == n
  {
  }

  // ---------------------------------------------------------------------
  // The page state
  // ---------------------------------------------------------------------

  datatype State<R> = State(report: Option<R>, loading: bool, downloading: bool,
                            error: Option<string>, start: Option<int>, end: Option<int>)

  /** The opening range: thirty days back from now, to now. */
  function Initial<R>(now: int): (st: State<R>)
    ensures st.start == Some(now - 30 * DayMs) && st.end == Some(now)
    ensures st.report.None? && !st.loading && st.error.None?
  {
    State(None, false, false, None, Some(now - 30 * DayMs), Some(now))
  }

  const ErrorDateKey: string := "reports.errorDate"
  const ErrorStartDateKey: string := "reports.errorStartDate"
  const LoadFailed: string := "Failed to load report. Please try again."
  const DownloadFailed: string := "Failed to download PDF. Please try again."

  /** The request's parameters. */
  datatype Params = Params(startDate: string, endDate: string)

  function ParamsOf<R>(st: State<R>): Params {
    Params(FormatApi(st.start), FormatApi(st.end))
  }

  /** `handleGenerateReport` up to the fetch: a missing date, then a start
      after the end, is reported without fetching; otherwise the previous
      report and error are cleared and the fetch goes out. */
  function Generate<R>(st: State<R>): (r: (State<R>, Option<Params>))
    ensures r.1.None? <==> st.start.None? || st.end.None? || st.start.value > st.end.value
    ensures (st.start.None? || st.end.None?) ==> r.0 == st.(error := Some(ErrorDateKey))
    ensures st.start.Some? && st.end.Some? && st.start.value > st.end.value ==>
      r.0 == st.(error := Some(ErrorStartDateKey))
    ensures r.1.Some? ==> r.0.report.None? && r.0.error.None? && r.0.loading
                          && r.0.start == st.start && r.0.end == st.end
                          && r.1.value == ParamsOf(st)
  {
    if st.start.None? || st.end.None? then (st.(error := Some(ErrorDateKey)), None)
    else if st.start.value > st.end.value then (st.(error := Some(ErrorStartDateKey)), None)
    else (st.(loading := true, error := None, report := None), Some(ParamsOf(st)))
  }

  /** The fetch's answer: the report, or the error's message (a fixed text
      when it has none); loading ends either way. */
  function FetchDone<R>(st: State<R>, answer: Result<R>): (r: State<R>)
    ensures !r.loading && r.start == st.start && r.end == st.end
    ensures answer.Ok? ==> r.report == Some(answer.value) && r.error == st.error
    ensures answer.Err? ==> r.report == st.report
                            && r.error == Some(if answer.error != "" then answer.error else LoadFailed)
  {
    match answer
    case Ok(rep) => st.(report := Some(rep), loading := false)
    case Err(msg) => st.(error := Some(if msg != "" then msg else LoadFailed), loading := false)
  }

  /** A successful generation shows exactly the fetched report, with no
      error left from before. */
  lemma GenerateThenFetch<R>(st: State<R>, rep: R)
    requires Generate(st).1.Some?
    ensures var after := FetchDone(Generate(st).0, Ok(rep));
      after.report == Some(rep) && after.error.None? && !after.loading
  {
  }

  /** `handleClearReport`. */
  function Clear<R>(st: State<R>): (r: State<R>)
    ensures r.report.None? && r.error.None?
    ensures r.start == st.start && r.end == st.end && r.loading == st.loading
  {
    st.(report := None, error := None)
  }

  /** The picker's change: the new range, and no error. */
  function PickRange<R>(st: State<R>, start: Option<int>, end: Option<int>): (r: State<R>)
    ensures r.start == start && r.end == end && r.error.None? && r.report == st.report
  {
    st.(start := start, end := end, error := None)
  }

  /** The picker is disabled while loading and while a report is shown. */
  predicate PickerDisabled<R>(st: State<R>) {
    st.loading || st.report.Some?
  }

  /** A shown report pins the range until it is cleared, and clearing
      frees the picker once nothing is loading. */
  lemma ReportPinsRange<R>(st: State<R>, rep: R)
    ensures PickerDisabled(st.(report := Some(rep)))
    ensures !st.loading ==> !PickerDisabled(Clear(st))
  {
  }

  /** `handleDownloadPdf` up to the download: nothing without a report;
      otherwise the same parameters as the fetch and the file name. */
  function Download<R>(st: State<R>): (r: (State<R>, Option<(Params, string)>))
    ensures st.report.None? <==> r.1.None?
    ensures st.report.None? ==> r.0 == st
    ensures r.1.Some? ==> r.0.downloading && r.0.error.None?
                          && r.1.value.0 == ParamsOf(st)
                          && r.1.value.1 == FileName(ParamsOf(st))
  {
    if st.report.None? then (st, None)
    else (st.(downloading := true, error := None), Some((ParamsOf(st), FileName(ParamsOf(st)))))
  }

  function FileName(p: Params): string {
    "SmartRetail_Report_" + p.startDate + "_to_" + p.endDate + ".pdf"
  }

  /** The file name holds the two request dates at fixed places, so both
      read back from it. */
  lemma FileNameReadsBack<R>(st: State<R>)
    requires st.start.Some? && st.end.Some?
    requires CivilOf(st.start.value / DayMs).Some? && CivilOf(st.end.value / DayMs).Some?
    ensures var name := FileName(ParamsOf(st));
      |name| == 47
      && name[..19] == "SmartRetail_Report_" && name[29..33] == "_to_" && name[43..] == ".pdf"
      && ParseYmd(name[19..29]) == CivilOf(st.start.value / DayMs)
      && ParseYmd(name[33..43]) == CivilOf(st.end.value / DayMs)
  {
    var p := ParamsOf(st);
    DayTextReadsBack(st.start.value / DayMs);
    DayTextReadsBack(st.end.value / DayMs);
    FileNameFields(p);
  }

  lemma FileNameFields(p: Params)
    requires |p.startDate| == 10 && |p.endDate| == 10
    ensures var name := FileName(p);
      |name| == 47
      && name[..19] == "SmartRetail_Report_" && name[29..33] == "_to_" && name[43..] == ".pdf"
      && name[19..29] == p.startDate && name[33..43] == p.endDate
  {
    FiveParts("SmartRetail_Report_", p.startDate, "_to_", p.endDate, ".pdf");
  }

  /** The five parts of a concatenation sit at their running offsets. */
  lemma FiveParts(h: string, a: string, m: string, b: string, t: string)
    ensures var s := h + a + m + b + t;
      var i, j, k, l := |h|, |h| + |a|, |h| + |a| + |m|, |h| + |a| + |m| + |b|;
      |s| == l + |t| && s[..i] == h && s[i..j] == a && s[j..k] == m && s[k..l] == b && s[l..] == t
  {
    var s := h + a + m + b + t;
    assert s[..|h|] == h by {
      assert s == [] + h + (a + m + b + t);
      MiddleOf([], h, a + m + b + t);
    }
    assert s[|h|..|h| + |a|] == a by {
      assert s == h + a + (m + b + t);
      MiddleOf(h, a, m + b + t);
    }
    assert s[|h| + |a|..|h| + |a| + |m|] == m by {
      assert s == h + a + m + (b + t);
      MiddleOf(h + a, m, b + t);
    }
    MiddleOf(h + a + m, b, t);
  }

  lemma MiddleOf(a: string, b: string, c: string)
    ensures (a + b + c)[|a|..|a| + |b|] == b
  {
  }

  /** The download's end: the error's message, or a fixed text. */
  function DownloadDone<R>(st: State<R>, answer: Result<()>): (r: State<R>)
    ensures !r.downloading && r.report == st.report
    ensures answer.Ok? ==> r.error == st.error
    ensures answer.Err? ==> r.error == Some(if answer.error != "" then answer.error else DownloadFailed)
  {
    match answer
    case Ok(_) => st.(downloading := false)
    case Err(msg) => st.(error := Some(if msg != "" then msg else DownloadFailed), downloading := false)
  }

  /** The request with the browser's calendar days. */
  function FixedParamsOf<R>(st: State<R>, offset: int): Params {
    Params(FormatLocal(st.start, offset), FormatLocal(st.end, offset))
  }

  /** `Generate` with the dates written in the browser's zone. */
  function FixedGenerate<R>(st: State<R>, offset: int): (r: (State<R>, Option<Params>))
    ensures r.0 == Generate(st).0
    ensures r.1.Some? <==> Generate(st).1.Some?
    ensures r.1.Some? ==> r.1.value == FixedParamsOf(st, offset)
  {
    var (st', p) := Generate(st);
    (st', if p.Some? then Some(FixedParamsOf(st, offset)) else None)
  }

  /** With the correction, a range picked on the calendar is asked for
      as picked. */
  lemma FixedGenerateAsksPickedDays<R>(st: State<R>, offset: int,
                                       y: nat, m: nat, d: nat, y': nat, m': nat, d': nat)
    requires ValidDate(y, m, d) && y < 10000 && ValidDate(y', m', d') && y' < 10000
    requires st.start == Some(MidnightOf(y, m, d, offset)) && st.end == Some(MidnightOf(y', m', d', offset))
    requires !DateBefore(y', m', d', y, m, d)
    ensures var p := FixedGenerate(st, offset).1;
      p.Some? && ParseYmd(p.value.startDate) == Some((y, m, d))
      && ParseYmd(p.value.endDate) == Some((y', m', d'))
  {
    DayNumberMonotone(y', m', d', y, m, d);
    FormatLocalSendsPickedDay(y, m, d, offset);
    FormatLocalSendsPickedDay(y', m', d', offset);
  }
}

=== FILE: report_pdf.dfy ===
/** The data-extraction helpers behind the PDF report: where the summary
    text, the key metrics, the top products and the low-stock list are
    looked up in the loosely typed report maps, the tolerant number and
    text readers, the hex colour reader and the stock-status wording. The
    document layout itself is not modelled. */
module ReportPdf {
  import opened Wrappers
  import opened Text
  import opened Seqs
  import opened Json

  // ---------------------------------------------------------------------
  // Tolerant readers
  // ---------------------------------------------------------------------

  /** `getIntValue`: a number's `intValue`, 0 for anything else. */
  function GetIntValue(v: JValue): (n: int)
    ensures MinInt <= n <= MaxInt
    ensures !v.IsNumber() ==> n == 0
    ensures v.JInt? && MinInt <= v.i <= MaxInt ==> n == v.i
  {
    if v.IsNumber() then IntValue(v) else 0
  }

  /** `getDoubleValue`: a number's value, 0.0 for anything else. */
  function GetDoubleValue(v: JValue): (x: real)
    ensures !v.IsNumber() ==> x == 0.0
    ensures v.JReal? ==> x == v.r
    ensures v.JInt? ==> x == v.i as real
  {
    match v
    case JInt(i) => i as real
    case JReal(r) => r
    case _ => 0.0
  }

  /** `getStringValue`: a string as itself, null as "N/A", anything else
      through `toString` (rendered by `render`). */
  function GetStringValue(v: JValue, render: JValue -> string): (s: string)
    ensures v.JStr? ==> s == v.s
    ensures v.JNull? ==> s == "N/A"
  {
    match v
    case JStr(s) => s
    case JNull => "N/A"
    case _ => render(v)
  }

  /** A metric read under `primary`, falling back to `alternate` only when
      the primary value reads as 0. */
  function IntMetric(m: map<string, JValue>, primary: string, alternate: string): (n: int)
    ensures GetIntValue(Get(m, primary)) != 0 ==> n == GetIntValue(Get(m, primary))
    ensures GetIntValue(Get(m, primary)) == 0 ==> n == GetIntValue(Get(m, alternate))
  {
    var v := GetIntValue(Get(m, primary));
    if v == 0 then GetIntValue(Get(m, alternate)) else v
  }

  function RealMetric(m: map<string, JValue>, primary: string, alternate: string): (x: real)
    ensures GetDoubleValue(Get(m, primary)) != 0.0 ==> x == GetDoubleValue(Get(m, primary))
    ensures GetDoubleValue(Get(m, primary)) == 0.0 ==> x == GetDoubleValue(Get(m, alternate))
  {
    var v := GetDoubleValue(Get(m, primary));
    if v == 0.0 then GetDoubleValue(Get(m, alternate)) else v
  }

  /** A primary value that is present and non-zero makes the alternate key
      irrelevant; a primary 0 is overridden even when it was stated. */
  lemma AlternateOnlyForZero(m: map<string, JValue>, primary: string, alternate: string, v: JValue)
    requires primary != alternate
    ensures GetIntValue(Get(m, primary)) != 0 ==>
      IntMetric(m[alternate := v], primary, alternate) == IntMetric(m, primary, alternate)
    ensures m == map[primary := JInt(0), alternate := JInt(7)] ==> IntMetric(m, primary, alternate) == 7
  {
    if GetIntValue(Get(m, primary)) != 0 {
      assert Get(m[alternate := v], primary) == Get(m, primary);
    }
  }

  datatype KeyMetrics = KeyMetrics(totalRevenue: real, totalOrders: int, productsSold: int)

  /** The three headline figures, each under its snake-case key first and
      its camel-case key second. */
  function KeyMetricsOf(summary: map<string, JValue>): (k: KeyMetrics)
    ensures k.totalOrders == IntMetric(summary, "total_orders", "totalOrders")
    ensures "total_orders" !in summary ==> k.totalOrders == GetIntValue(Get(summary, "totalOrders"))
  {
    KeyMetrics(RealMetric(summary, "total_revenue", "totalRevenue"),
               IntMetric(summary, "total_orders", "totalOrders"),
               IntMetric(summary, "total_products_sold", "totalProductsSold"))
  }

  datatype InventoryAlerts = InventoryAlerts(lowStockCount: int, expiringCount: int)

  /** The two alert counts, camel-case key first. */
  function InventoryAlertsOf(inventory: map<string, JValue>): (a: InventoryAlerts)
    ensures a.lowStockCount == IntMetric(inventory, "lowStockCount", "low_stock_count")
    ensures a.expiringCount == IntMetric(inventory, "expiringCount", "expiring_count")
  {
    InventoryAlerts(IntMetric(inventory, "lowStockCount", "low_stock_count"),
                    IntMetric(inventory, "expiringCount", "expiring_count"))
  }

  // ---------------------------------------------------------------------
  // Locating the report parts
  // ---------------------------------------------------------------------

  const DefaultSummary: string := "AI summary not available for this report period."

  /** `extractAISummary`: the "report" string of a map-valued text summary,
      else a string text summary, else the sales report's "aiSummary"
      string, else a fixed sentence; never null. */
  function ExtractAISummary(textSummary: JValue, salesReport: JValue): (s: string)
    ensures textSummary.JObj? && Get(textSummary.fields, "report").JStr? ==>
      s == Get(textSummary.fields, "report").s
    ensures textSummary.JStr? ==> s == textSummary.s
    ensures !(textSummary.JObj? && Get(textSummary.fields, "report").JStr?) && !textSummary.JStr?
            && salesReport.JObj? && Get(salesReport.fields, "aiSummary").JStr? ==>
      s == Get(salesReport.fields, "aiSummary").s
    ensures !(textSummary.JObj? && Get(textSummary.fields, "report").JStr?) && !textSummary.JStr?
            && !(salesReport.JObj? && Get(salesReport.fields, "aiSummary").JStr?) ==>
      s == DefaultSummary
  {
    if textSummary.JObj? && Get(textSummary.fields, "report").JStr? then Get(textSummary.fields, "report").s
    else if textSummary.JStr? then textSummary.s
    else if salesReport.JObj? && Get(salesReport.fields, "aiSummary").JStr? then Get(salesReport.fields, "aiSummary").s
    else DefaultSummary
  }

  /** A text summary given as a string wins over the sales report's own. */
  lemma TextSummaryFirst(text: string, sales: map<string, JValue>)
    ensures ExtractAISummary(JStr(text), JObj(sales)) == text
    ensures ExtractAISummary(JNull, JObj(map["aiSummary" := JStr(text)])) == text
    ensures ExtractAISummary(JObj(map["report" := JInt(1)]), JNull) == DefaultSummary
  {
  }

  /** `extractSalesSummary`: the map under "summary", else the sales
      report itself when it is a map, else null. */
  function ExtractSalesSummary(salesReport: JValue): (r: Option<map<string, JValue>>)
    ensures r.Some? <==> salesReport.JObj?
    ensures salesReport.JObj? && Get(salesReport.fields, "summary").JObj? ==>
      r == Some(Get(salesReport.fields, "summary").fields)
    ensures salesReport.JObj? && !Get(salesReport.fields, "summary").JObj? ==>
      r == Some(salesReport.fields)
  {
    if !salesReport.JObj? then None
    else if Get(salesReport.fields, "summary").JObj? then Some(Get(salesReport.fields, "summary").fields)
    else Some(salesReport.fields)
  }

  /** `extractTopProducts`: the "top_products" value only when it is a list. */
  function ExtractTopProducts(salesReport: JValue): (r: Option<seq<JValue>>)
    ensures r.Some? <==> salesReport.JObj? && Get(salesReport.fields, "top_products").JArr?
    ensures r.Some? ==> r.value == Get(salesReport.fields, "top_products").elems
  {
    if salesReport.JObj? && Get(salesReport.fields, "top_products").JArr?
    then Some(Get(salesReport.fields, "top_products").elems)
    else None
  }

  /** What the top-products section shows: a row per product, or the
      "no data" paragraph for a missing or empty list. A list element that
      is not a map makes the section fail, and the failure is swallowed. */
  datatype TopSection = TopRows(rows: seq<map<string, JValue>>) | NoTopData | TopFailed

  function TopProductsSection(salesReport: JValue): (t: TopSection)
    ensures ExtractTopProducts(salesReport).None? ==> t == NoTopData
    ensures ExtractTopProducts(salesReport) == Some([]) ==> t == NoTopData
    ensures t.TopRows? ==> |t.rows| == |ExtractTopProducts(salesReport).value| > 0
    ensures ExtractTopProducts(salesReport).Some? && |ExtractTopProducts(salesReport).value| > 0 ==>
      var list := ExtractTopProducts(salesReport).value;
      (Count(list, IsMap) == |list| ==> t == TopRows(ConvertToListOfMaps(list)))
      && (Count(list, IsMap) < |list| ==> t == TopFailed)
  {
    match ExtractTopProducts(salesReport)
    case None => NoTopData
    case Some(list) =>
      if |list| == 0 then NoTopData
      else if Count(list, IsMap) < |list| then TopFailed
      else
        FilterLength(list, IsMap);
        TopRows(ConvertToListOfMaps(list))
  }

  // ---------------------------------------------------------------------
  // The low-stock list
  // ---------------------------------------------------------------------

  predicate IsMap(v: JValue) {
    v.JObj?
  }

  function FieldsOf(vs: seq<JValue>): (r: seq<map<string, JValue>>)
    requires forall i :: 0 <= i < |vs| ==> vs[i].JObj?
    ensures |r| == |vs| && forall i :: 0 <= i < |vs| ==> r[i] == vs[i].fields
  {
    if |vs| == 0 then [] else [vs[0].fields] + FieldsOf(vs[1..])
  }

  /** `convertToListOfMaps`: exactly the map elements, in their order. */
  function ConvertToListOfMaps(list: seq<JValue>): (r: seq<map<string, JValue>>)
    ensures |r| == |Filter(list, IsMap)|
    ensures forall i :: 0 <= i < |r| ==> r[i] == Filter(list, IsMap)[i].fields
  {
    FieldsOf(Filter(list, IsMap))
  }

  /** A list of maps converts to its own contents; a list with no map
      converts to nothing. */
  lemma {:induction false} ConvertKeepsMaps(list: seq<JValue>)
    ensures (forall i :: 0 <= i < |list| ==> list[i].JObj?) ==> |ConvertToListOfMaps(list)| == |list|
    ensures (forall i :: 0 <= i < |list| ==> !list[i].JObj?) ==> ConvertToListOfMaps(list) == []
  {
    FilterLength(list, IsMap);
    CountAllIffLength(list, IsMap);
    if forall i :: 0 <= i < |list| ==> !list[i].JObj? {
      NoneCounted(list);
    }
  }

  lemma {:induction false} NoneCounted(list: seq<JValue>)
    requires forall i :: 0 <= i < |list| ==> !list[i].JObj?
    ensures Count(list, IsMap) == 0
  {
    if |list| > 0 {
      assert forall i :: 0 <= i < |list[1..]| ==> list[1..][i] == list[i + 1];
      NoneCounted(list[1..]);
    }
  }

  /** The sixteen keys tried, in order, for the low-stock list. */
  const LowStockKeys: seq<string> := [
    "lowStockProducts", "lowStockItems", "low_stock_products",
    "lowStockList", "lowStockDetails", "low_stock_items",
    "lowStock", "low_stock", "lowStockProductsList",
    "products", "items", "inventoryItems", "stockItems",
    "lowStockData", "low_stock_data", "lowInventory"]

  /** A key holding a list with at least one map. */
  predicate ListUnder(inventory: map<string, JValue>, key: string) {
    key in inventory && inventory[key].JArr? && |ConvertToListOfMaps(inventory[key].elems)| > 0
  }

  predicate HasProductFields(item: map<string, JValue>) {
    "name" in item || "productName" in item || "quantity" in item || "stock" in item
    || "reorderLevel" in item || "category" in item
  }

  /** A key holding a list whose first element looks like a product. */
  predicate ProductListUnder(inventory: map<string, JValue>, key: string) {
    key in inventory && inventory[key].JArr? && |inventory[key].elems| > 0
    && inventory[key].elems[0].JObj? && HasProductFields(inventory[key].elems[0].fields)
  }

  function ListUnderIn(inventory: map<string, JValue>): string -> bool {
    k => ListUnder(inventory, k)
  }

  function ProductListUnderIn(inventory: map<string, JValue>): string -> bool {
    k => ProductListUnder(inventory, k)
  }

  /** `extractLowStockProducts`: the first of the sixteen keys whose list
      has a map in it; failing that, the first entry, in the map's
      iteration order `entryOrder`, whose list starts with a product-like
      map. (The report object is never itself a map, so the last fallback
      never applies.) */
  function ExtractLowStockProducts(inventory: Option<map<string, JValue>>, entryOrder: seq<string>)
    : (r: Option<seq<map<string, JValue>>>)
    ensures inventory.None? ==> r.None?
    ensures inventory.Some? && FirstIndex(LowStockKeys, ListUnderIn(inventory.value)).Some? ==>
      var k := LowStockKeys[FirstIndex(LowStockKeys, ListUnderIn(inventory.value)).value];
      r == Some(ConvertToListOfMaps(inventory.value[k].elems)) && r.value != []
    ensures r.Some? ==>
      (inventory.Some?
       && ((exists i :: 0 <= i < |LowStockKeys| && ListUnder(inventory.value, LowStockKeys[i]))
           || (exists i :: 0 <= i < |entryOrder| && ProductListUnder(inventory.value, entryOrder[i]))))
    ensures (inventory.Some? && FirstIndex(LowStockKeys, ListUnderIn(inventory.value)).None?
             && FirstIndex(entryOrder, ProductListUnderIn(inventory.value)).Some?) ==>
      var k := entryOrder[FirstIndex(entryOrder, ProductListUnderIn(inventory.value)).value];
      r == Some(ConvertToListOfMaps(inventory.value[k].elems))
    ensures (inventory.Some? && FirstIndex(LowStockKeys, ListUnderIn(inventory.value)).None?
             && FirstIndex(entryOrder, ProductListUnderIn(inventory.value)).None?) ==> r.None?
  {
    match inventory
    case None => None
    case Some(inv) =>
      match FirstIndex(LowStockKeys, ListUnderIn(inv))
      case Some(i) => Some(ConvertToListOfMaps(inv[LowStockKeys[i]].elems))
      case None =>
        match FirstIndex(entryOrder, ProductListUnderIn(inv))
        case Some(i) => Some(ConvertToListOfMaps(inv[entryOrder[i]].elems))
        case None => None
  }

  /** The earlier key wins even when a later one holds more data. */
  lemma FirstKeyWins(a: JValue, b: JValue)
    requires a.JObj? && b.JObj?
    ensures ExtractLowStockProducts(Some(map["lowStockItems" := JArr([b]), "lowStockProducts" := JArr([a])]), [])
         == Some([a.fields])
  {
    var inv := map["lowStockItems" := JArr([b]), "lowStockProducts" := JArr([a])];
    assert Filter([a], IsMap) == [a];
    assert ConvertToListOfMaps([a]) == [a.fields];
    assert ListUnder(inv, LowStockKeys[0]);
    assert FirstIndex(LowStockKeys, ListUnderIn(inv)) == Some(0);
  }

  // ---------------------------------------------------------------------
  // Colours and stock status
  // ---------------------------------------------------------------------

  datatype Colour = Black | Rgb(r: int, g: int, b: int)

  /** `Integer.parseInt(s, 16)`. */
  function ParseHex(s: string): (r: Option<int>)
    ensures r.Some? ==> MinInt <= r.value <= MaxInt
  {
    ParseSigned(s, 16, MinInt, MaxInt)
  }

  /** `getColorFromHex`: an optional leading '#' is dropped, the next six
      characters are read as three hexadecimal pairs, anything after them
      is ignored, and any failure gives black. */
  function ColorFromHex(hex: string): (c: Colour)
    ensures var h := if StartsWith(hex, "#") then hex[1..] else hex;
      |h| < 6 ==> c == Black
  {
    var h := if StartsWith(hex, "#") then hex[1..] else hex;
    if |h| < 6 then Black
    else match (ParseHex(h[0..2]), ParseHex(h[2..4]), ParseHex(h[4..6]))
      case (Some(r), Some(g), Some(b)) => Rgb(r, g, b)
      case _ => Black
  }

  /** Two lower-case hexadecimal digits of a byte. */
  function HexDigit(d: nat): (c: char)
    requires d < 16
    ensures DigitValue(c) == Some(d)
  {
    if d < 10 then ('0' as int + d) as char else ('a' as int + d - 10) as char
  }

  function Hex2(n: nat): (s: string)
    requires n < 256
    ensures |s| == 2
  {
    [HexDigit(n / 16), HexDigit(n % 16)]
  }

  lemma Hex2Value(n: nat)
    requires n < 256
    ensures ParseHex(Hex2(n)) == Some(n)
  {
    var s := Hex2(n);
    assert s[..1] == [s[0]] && [s[0]][..0] == [];
    assert DigitsValue(s[..1], 16) == n / 16;
    assert DigitsValue(s, 16) == n;
  }

  /** "#rrggbb" of any colour reads back as that colour. */
  lemma ColorRoundTrip(r: nat, g: nat, b: nat, rest: string)
    requires r < 256 && g < 256 && b < 256
    ensures ColorFromHex("#" + Hex2(r) + Hex2(g) + Hex2(b) + rest) == Rgb(r, g, b)
  {
    var hex := "#" + Hex2(r) + Hex2(g) + Hex2(b) + rest;
    assert StartsWith(hex, "#");
    var h := hex[1..];
    assert h[0..2] == Hex2(r) && h[2..4] == Hex2(g) && h[4..6] == Hex2(b);
    Hex2Value(r);
    Hex2Value(g);
    Hex2Value(b);
  }

  /** A name that is not hexadecimal, or too short, is black. */
  lemma BadColoursAreBlack()
    ensures ColorFromHex("#12345") == Black
    ensures ColorFromHex("zz0000") == Black
  {
    assert !StartsWith("zz0000", "#") by {
      assert "zz0000"[0] != '#';
    }
    assert "zz0000"[0..2] == "zz";
    assert !AllDigitsIn("zz", 16) by {
      assert DigitValue('z') == Some(35);
    }
    assert ParseHex("zz0000"[0..2]).None?;
    assert "#12345"[1..] == "12345";
  }

  /** `determineStockStatus`. */
  function StockStatus(quantity: int, reorderLevel: int): (s: string)
    ensures s == "Out of Stock" <==> quantity <= 0
    ensures s == "Critical" <==> 0 < quantity <= 2
    ensures s == "Below Reorder Level" <==> 2 < quantity && 0 < reorderLevel && quantity <= reorderLevel
  {
    if quantity <= 0 then "Out of Stock"
    else if quantity <= 2 then "Critical"
    else if reorderLevel > 0 && quantity <= reorderLevel then "Below Reorder Level"
    else "Low Stock"
  }

  /** With a reorder level of 2 or less (or none) a product is never below
      its reorder level; more stock never makes the status more urgent. */
  lemma StockStatusOrder(q: int, q': int, level: int)
    requires q <= q'
    ensures level <= 2 ==> StockStatus(q, level) != "Below Reorder Level"
    ensures StockStatus(q, level) == "Low Stock" ==> StockStatus(q', level) == "Low Stock"
  {
  }
}

=== FILE: reports.dfy ===
/** The sales and inventory reports and the request handling in front of
    them: strict UTC date parameters, the end date widened to its last
    millisecond, every failure re-raised as one error, and the default
    thresholds. Money sums and the average are not modelled; the bill count
    and the bill list are. */
module Reports {
  import opened Wrappers
  import opened Text
  import opened Models
  import opened Seqs
  import Dates
  import opened CustomerService

  // ---------------------------------------------------------------------
  // Sales report
  // ---------------------------------------------------------------------

  const BillListLimit: nat := 100

  datatype SalesReport = SalesReport(billCount: int, bills: seq<Bill>)

  /** The bills the report covers: stamped within [start, end]. */
  function InRange(bills: seq<Bill>, start: int, end: int): (r: seq<Bill>)
    ensures Subsequence(r, bills)
    ensures forall i :: 0 <= i < |r| ==> InWindow(r[i], Some(start), Some(end))
    ensures forall i :: 0 <= i < |bills| && InWindow(bills[i], Some(start), Some(end)) ==> bills[i] in r
  {
    var p := (b: Bill) => InWindow(b, Some(start), Some(end));
    FilterIsSubsequence(bills, p);
    Filter(bills, p)
  }

  /** `getSalesReport`: a start after the end is refused before anything
      is read; no bill in range gives the zero report; otherwise the count
      of bills in range and the first hundred of them in store order. */
  function GetSalesReport(bills: seq<Bill>, start: int, end: int): (r: Result<SalesReport>)
    ensures r.Err? <==> start > end
    ensures r.Err? ==> r.error == "report.date.range.invalid"
    ensures r.Ok? ==> r.value.billCount == |InRange(bills, start, end)|
    ensures r.Ok? ==> |r.value.bills| <= BillListLimit
    ensures r.Ok? ==> |r.value.bills| <= |InRange(bills, start, end)|
                      && r.value.bills == InRange(bills, start, end)[..|r.value.bills|]
    ensures r.Ok? && |InRange(bills, start, end)| <= BillListLimit ==>
      r.value.bills == InRange(bills, start, end)
    ensures r.Ok? ==> (r.value.billCount == 0 <==> r.value.bills == [])
  {
    if start > end then Err("report.date.range.invalid")
    else
      var matching := InRange(bills, start, end);
      if |matching| == 0 then Ok(SalesReport(0, []))
      else Ok(SalesReport(|matching|, Take(matching, BillListLimit)))
  }

  // ---------------------------------------------------------------------
  // Inventory report
  // ---------------------------------------------------------------------

  datatype InventoryReport = InventoryReport(
    totalProducts: nat,
    lowStockProducts: seq<Product>,
    expiringProducts: seq<Product>,
    lowStockCount: nat,
    expiringCount: nat)

  predicate LowStock(p: Product, threshold: int) {
    p.quantity <= threshold
  }

  /** A product with an expiry date not after `limit`. */
  predicate Expiring(p: Product, limit: int) {
    p.expiryDate.Some? && p.expiryDate.value <= limit
  }

  /** `getInventoryReport`: the threshold, then the number of days, then
      an empty catalogue are refused in that order; otherwise the
      low-stock and expiring products in catalogue order, with counts that
      match the lists. The expiry limit is `now` plus the days, in UTC. */
  function GetInventoryReport(products: seq<Product>, threshold: int, expiryDays: int, now: int)
    : (r: Result<InventoryReport>)
    ensures threshold < 0 ==> r == Err("report.lowStockThreshold.invalid")
    ensures threshold >= 0 && expiryDays < 0 ==> r == Err("report.expiryDays.invalid")
    ensures threshold >= 0 && expiryDays >= 0 && products == [] ==> r == Err("report.no.products.found")
    ensures r.Ok? <==> threshold >= 0 && expiryDays >= 0 && products != []
    ensures r.Ok? ==> (r.value.totalProducts == |products|
                       && r.value.lowStockCount == |r.value.lowStockProducts|
                       && r.value.expiringCount == |r.value.expiringProducts|)
    ensures r.Ok? ==> forall p :: p in products ==>
      (p in r.value.lowStockProducts <==> LowStock(p, threshold))
    ensures r.Ok? ==> forall p :: p in products ==>
      (p in r.value.expiringProducts <==> Expiring(p, now + expiryDays * Dates.DayMs))
    ensures r.Ok? ==> (Subsequence(r.value.lowStockProducts, products)
                       && Subsequence(r.value.expiringProducts, products))
  {
    if threshold < 0 then Err("report.lowStockThreshold.invalid")
    else if expiryDays < 0 then Err("report.expiryDays.invalid")
    else if products == [] then Err("report.no.products.found")
    else
      var limit := now + expiryDays * Dates.DayMs;
      var low := (p: Product) => LowStock(p, threshold);
      var exp := (p: Product) => Expiring(p, limit);
      FilterIsSubsequence(products, low);
      FilterIsSubsequence(products, exp);
      var lows := Filter(products, low);
      var exps := Filter(products, exp);
      Ok(InventoryReport(|products|, lows, exps, |lows|, |exps|))
  }

  /** Raising the threshold only adds low-stock products. */
  lemma ThresholdMonotone(products: seq<Product>, t: int, t': int, days: int, now: int, p: Product)
    requires 0 <= t <= t' && days >= 0 && p in products
    requires GetInventoryReport(products, t, days, now).Ok?
    requires p in GetInventoryReport(products, t, days, now).value.lowStockProducts
    ensures p in GetInventoryReport(products, t', days, now).value.lowStockProducts
  {
  }

  // ---------------------------------------------------------------------
  // The report endpoints
  // ---------------------------------------------------------------------

  /** The sales endpoint on the two parsed dates: the end is moved to its
      last millisecond, and any failure (a bad date or the service's own
      refusal) becomes "report.date.invalid". */
  function SalesFor(bills: seq<Bill>, start: Option<int>, end: Option<int>): (r: Result<SalesReport>)
    ensures r.Err? ==> r.error == "report.date.invalid"
    ensures start.None? || end.None? ==> r.Err?
    ensures start.Some? && end.Some? ==> (r.Ok? <==> start.value <= end.value + Dates.DayMs - 1)
    ensures r.Ok? ==> r == GetSalesReport(bills, start.value, end.value + Dates.DayMs - 1)
  {
    if start.None? || end.None? then Err("report.date.invalid")
    else
      var report := GetSalesReport(bills, start.value, end.value + 24 * 60 * 60 * 1000 - 1);
      if report.Err? then Err("report.date.invalid") else report
  }

  /** The sales endpoint: both dates are read as UTC midnights. */
  function SalesEndpoint(bills: seq<Bill>, startDate: string, endDate: string): (r: Result<SalesReport>)
    ensures r.Err? ==> r.error == "report.date.invalid"
    ensures Dates.ParseYmd(startDate).None? || Dates.ParseYmd(endDate).None? ==> r.Err?
    ensures r.Ok? ==>
      r == GetSalesReport(bills, Dates.ParseDate(startDate, 0).value,
                          Dates.ParseDate(endDate, 0).value + Dates.DayMs - 1)
  {
    SalesFor(bills, Dates.ParseDate(startDate, 0), Dates.ParseDate(endDate, 0))
  }

  /** Local midnights of two dates compare like the dates, with the end
      moved to its last millisecond. */
  lemma MidnightOrder(ys: nat, ms: int, ds: int, ye: nat, me: int, de: int)
    requires Dates.ValidDate(ys, ms, ds) && Dates.ValidDate(ye, me, de)
    ensures Dates.MidnightOf(ys, ms, ds, 0) <= Dates.MidnightOf(ye, me, de, 0) + Dates.DayMs - 1
        <==> !Dates.DateBefore(ye, me, de, ys, ms, ds)
  {
    Dates.DayNumberMonotone(ye, me, de, ys, ms, ds);
  }

  /** With two well-formed dates the endpoint answers exactly when the
      start day is not after the end day; a single day is a valid range. */
  lemma SalesAcceptsOrderedDays(bills: seq<Bill>, startDate: string, endDate: string)
    requires Dates.ParseYmd(startDate).Some? && Dates.ParseYmd(endDate).Some?
    ensures var (ys, ms, ds) := Dates.ParseYmd(startDate).value;
      var (ye, me, de) := Dates.ParseYmd(endDate).value;
      SalesEndpoint(bills, startDate, endDate).Ok? <==> !Dates.DateBefore(ye, me, de, ys, ms, ds)
  {
    var (ys, ms, ds) := Dates.ParseYmd(startDate).value;
    var (ye, me, de) := Dates.ParseYmd(endDate).value;
    MidnightOrder(ys, ms, ds, ye, me, de);
    assert Dates.ParseDate(startDate, 0) == Some(Dates.MidnightOf(ys, ms, ds, 0));
    assert Dates.ParseDate(endDate, 0) == Some(Dates.MidnightOf(ye, me, de, 0));
  }

  /** A bill stamped at any moment of the end day is inside the range. */
  lemma EndDayCovered(startDate: string, endDate: string, t: int)
    requires Dates.ParseDate(startDate, 0).Some? && Dates.ParseDate(endDate, 0).Some?
    requires Dates.ParseDate(endDate, 0).value <= t < Dates.ParseDate(endDate, 0).value + Dates.DayMs
    ensures t <= Dates.ParseDate(endDate, 0).value + 24 * 60 * 60 * 1000 - 1
  {
  }

  /** The inventory parameters when not given. */
  const DefaultLowStockThreshold: int := 10
  const DefaultExpiryDays: int := 30

  function InventoryEndpoint(products: seq<Product>, lowStockThreshold: Option<int>,
                             expiryDays: Option<int>, now: int): (r: Result<InventoryReport>)
    ensures lowStockThreshold.None? && expiryDays.None? ==>
      r == GetInventoryReport(products, 10, 30, now)
    ensures lowStockThreshold.Some? && expiryDays.Some? ==>
      r == GetInventoryReport(products, lowStockThreshold.value, expiryDays.value, now)
  {
    GetInventoryReport(products, lowStockThreshold.GetOr(DefaultLowStockThreshold),
                       expiryDays.GetOr(DefaultExpiryDays), now)
  }

  /** Without parameters a non-empty catalogue always yields a report. */
  lemma DefaultsAccepted(products: seq<Product>, now: int)
    requires products != []
    ensures InventoryEndpoint(products, None, None, now).Ok?
  {
  }

  /** The name of the downloaded report. */
  function ReportFilename(startDate: string, endDate: string): (r: string)
    ensures |r| == |startDate| + |endDate| + 27
  {
    "SmartRetail_Report_" + startDate + "_to_" + endDate + ".pdf"
  }

  /** For dates of the fixed "yyyy-MM-dd" width the name gives both back. */
  lemma ReportFilenameDeterminesDates(s: string, e: string, s': string, e': string)
    requires |s| == |s'| == 10 && |e| == |e'| == 10
    requires ReportFilename(s, e) == ReportFilename(s', e')
    ensures s == s' && e == e'
  {
    var f, f' := ReportFilename(s, e), ReportFilename(s', e');
    assert s == f[19..29] && s' == f'[19..29];
    assert e == f[33..43] && e' == f'[33..43];
  }
}

=== FILE: repos.dfy ===
/** The document stores as sequences in insertion order: look-ups return
    the first match, `save` replaces the document with the same id or
    inserts it, drawing a fresh id from a counter when it has none. */
module Repos {
  import opened Wrappers
  import opened Text
  import opened Models

  function FreshId(n: nat): string {
    "oid-" + IntToString(n)
  }

  function FindByMobile(customers: seq<Customer>, mobile: Option<string>): (r: Option<nat>)
    ensures r.Some? ==> r.value < |customers| && customers[r.value].mobile == mobile
    ensures r.Some? ==> forall j :: 0 <= j < r.value ==> customers[j].mobile != mobile
    ensures r.None? ==> forall j :: 0 <= j < |customers| ==> customers[j].mobile != mobile
  {
    if |customers| == 0 then None
    else if customers[0].mobile == mobile then Some(0)
    else match FindByMobile(customers[1..], mobile)
      case None => None
      case Some(k) => Some(k + 1)
  }

  function IndexOfId<T>(docs: seq<T>, id: T -> Option<string>, key: string): (r: Option<nat>)
    ensures r.Some? ==> r.value < |docs| && id(docs[r.value]) == Some(key)
    ensures r.Some? ==> forall j :: 0 <= j < r.value ==> id(docs[j]) != Some(key)
    ensures r.None? ==> forall j :: 0 <= j < |docs| ==> id(docs[j]) != Some(key)
  {
    if |docs| == 0 then None
    else if id(docs[0]) == Some(key) then Some(0)
    else match IndexOfId(docs[1..], id, key)
      case None => None
      case Some(k) => Some(k + 1)
  }

  /** No two documents share an id. */
  predicate UniqueIds<T>(docs: seq<T>, id: T -> Option<string>) {
    forall i, j :: 0 <= i < j < |docs| && id(docs[i]).Some? ==> id(docs[i]) != id(docs[j])
  }

  /** With unique ids, looking up a document's id finds that document. */
  lemma IndexOfOwnId<T>(docs: seq<T>, id: T -> Option<string>, k: nat)
    requires UniqueIds(docs, id) && k < |docs| && id(docs[k]).Some?
    ensures IndexOfId(docs, id, id(docs[k]).value) == Some(k)
  {
    var r := IndexOfId(docs, id, id(docs[k]).value);
    assert r.Some?;
  }

  function CustomerId(c: Customer): Option<string> { c.id }
  function BillDocId(b: Bill): Option<string> { b.id }

  /** `customerRepository.save`: replaces the document with the same id,
      or inserts it, drawing a fresh id when it has none. */
  function SaveCustomer(customers: seq<Customer>, c: Customer, nextId: nat)
    : (r: (seq<Customer>, Customer, nat))
    ensures r.1.id.Some? && r.1 == c.(id := r.1.id)
    ensures c.id.Some? ==> r.1.id == c.id
    ensures r.1 in r.0
    ensures |r.0| == |customers| || |r.0| == |customers| + 1
    ensures |r.0| == |customers| ==>
      c.id.Some? && IndexOfId(customers, CustomerId, c.id.value).Some?
      && r.0 == customers[IndexOfId(customers, CustomerId, c.id.value).value := c]
    ensures |r.0| == |customers| + 1 ==> r.0 == customers + [r.1]
    ensures c.id.None? ==> r.0 == customers + [r.1] && r.1.id == Some(FreshId(nextId)) && r.2 == nextId + 1
    ensures c.id.Some? && IndexOfId(customers, CustomerId, c.id.value).Some? ==>
      r.0 == customers[IndexOfId(customers, CustomerId, c.id.value).value := c] && r.2 == nextId
    ensures c.id.Some? && IndexOfId(customers, CustomerId, c.id.value).None? ==>
      r.0 == customers + [c] && r.2 == nextId
  {
    match c.id
    case None =>
      var saved := c.(id := Some(FreshId(nextId)));
      (customers + [saved], saved, nextId + 1)
    case Some(key) =>
      match IndexOfId(customers, CustomerId, key)
      case Some(k) =>
        var updated := customers[k := c];
        assert updated[k] == c;
        (updated, c, nextId)
      case None => (customers + [c], c, nextId)
  }

  /** `billRepository.save`, with the same upsert rule. */
  function SaveBill(bills: seq<Bill>, b: Bill, nextId: nat): (r: (seq<Bill>, Bill, nat))
    ensures r.1.id.Some? && r.1 == b.(id := r.1.id)
    ensures b.id.Some? ==> r.1.id == b.id
    ensures r.1 in r.0
    ensures b.id.None? ==> r.0 == bills + [r.1] && r.1.id == Some(FreshId(nextId))
    ensures b.id.Some? && IndexOfId(bills, BillDocId, b.id.value).Some? ==>
      r.0 == bills[IndexOfId(bills, BillDocId, b.id.value).value := b]
    ensures b.id.Some? && IndexOfId(bills, BillDocId, b.id.value).None? ==> r.0 == bills + [b]
  {
    match b.id
    case None =>
      var saved := b.(id := Some(FreshId(nextId)));
      (bills + [saved], saved, nextId + 1)
    case Some(key) =>
      match IndexOfId(bills, BillDocId, key)
      case Some(k) =>
        var updated := bills[k := b];
        assert updated[k] == b;
        (updated, b, nextId)
      case None => (bills + [b], b, nextId)
  }

}

=== FILE: route_guard.dfy ===
/** The role guard around the protected pages of the browser application:
    no signed-in user means the login page, a user whose roles miss every
    required one sees a denial message, and anything thrown on the way
    signs the user out. */
module RouteGuard {
  import opened Wrappers
  import opened Text
  import AuthService

  /** The user object as the guard reads it: an optional `roles` array
      and an optional `role`. */
  datatype GuardUser = GuardUser(roles: Option<seq<string>>, role: Option<string>)

  datatype Outcome =
    | RedirectToLogin
    | Denied
    | Render

  /** The roles the guard compares: a non-empty `roles` array, else the
      single `role` when it is non-empty, else none. */
  function UserRoles(u: GuardUser): (r: seq<string>)
    ensures u.roles.Some? && |u.roles.value| > 0 ==> r == u.roles.value
    ensures (u.roles.None? || |u.roles.value| == 0) && Truthy(u.role) ==> r == [u.role.value]
    ensures (u.roles.None? || |u.roles.value| == 0) && !Truthy(u.role) ==> r == []
  {
    if u.roles.Some? && |u.roles.value| > 0 then u.roles.value
    else if Truthy(u.role) then [u.role.value]
    else []
  }

  /** No requirement, or one required role the user has. */
  predicate HasAccess(required: seq<string>, userRoles: seq<string>) {
    |required| == 0 || exists i :: 0 <= i < |required| && required[i] in userRoles
  }

  /** The guard's decision and the local storage it leaves. `user` is the
      outcome of reading the signed-in user: `Err` when reading threw,
      `Ok(None)` when nobody is signed in. Only the thrown case signs the
      user out. */
  function Guard(user: Result<Option<GuardUser>>, required: seq<string>, st: AuthService.Storage)
    : (r: (Outcome, AuthService.Storage))
    ensures r.0 == RedirectToLogin <==> user.Err? || user.value.None?
    ensures r.1 != st ==> user.Err?
    ensures user.Err? ==> r.1 == AuthService.Logout(st)
    ensures r.0 == Render <==> user.Ok? && user.value.Some? && HasAccess(required, UserRoles(user.value.value))
  {
    if user.Err? then (RedirectToLogin, AuthService.Logout(st))
    else if user.value.None? then (RedirectToLogin, st)
    else if HasAccess(required, UserRoles(user.value.value)) then (Render, st)
    else (Denied, st)
  }

  /** A route with no requirement admits every signed-in user, even one
      without any role. */
  lemma UnrestrictedRouteAdmitsAnyUser(u: GuardUser, st: AuthService.Storage)
    ensures Guard(Ok(Some(u)), [], st) == (Render, st)
  {
  }

  /** The token service's user object has no `roles` array, so the guard
      admits it exactly when its single upper-cased role is required. */
  function FromUserInfo(info: AuthService.UserInfo): GuardUser {
    GuardUser(None, Some(info.role))
  }

  lemma DecodedUserChecksItsRole(info: AuthService.UserInfo, required: seq<string>, st: AuthService.Storage)
    requires info.role != ""
    ensures Guard(Ok(Some(FromUserInfo(info))), required, st).0 == Render <==>
            (|required| == 0 || info.role in required)
  {
    var roles := UserRoles(FromUserInfo(info));
    assert roles == [info.role];
    if info.role in required {
      var i :| 0 <= i < |required| && required[i] == info.role;
      assert required[i] in roles;
    }
  }

  /** Roles are compared exactly: the decoded role is upper-cased, so a
      requirement spelled in lower case never admits it. */
  lemma LowerCaseRequirementNeverMatches(info: AuthService.UserInfo, role: string,
                                         st: AuthService.Storage, decode: string -> Option<AuthService.Claims>)
    requires AuthService.GetUserFromToken(st, decode) == Some(info)
    requires exists i :: 0 <= i < |role| && 'a' <= role[i] <= 'z'
    ensures Guard(Ok(Some(FromUserInfo(info))), [role], st).0 != Render
  {
    var i :| 0 <= i < |role| && 'a' <= role[i] <= 'z';
    assert role != info.role by {
      if |info.role| == |role| {
        assert info.role[i] != role[i];
      }
    }
    assert UserRoles(FromUserInfo(info)) == if info.role == "" then [] else [info.role];
  }
}

=== FILE: send_email.dfy ===
/** The modal that e-mails the selected customers: the recipient line, the
    checks before sending, the request, and the modal after the answer. */
module SendEmail {
  import opened Wrappers
  import opened Text
  import UiErrors
  import CustomerApi

  /** A selected customer as the list holds it. */
  datatype Recipient = Recipient(id: Option<string>, name: Option<string>, email: Option<string>)

  /** The line above the form: a key with its arguments. */
  datatype RecipientLine =
    | NoRecipients
    | To(name: string, email: string)
    | ToCount(count: nat)

  /** `getRecipientText`. */
  function RecipientText(selected: seq<Recipient>): (r: RecipientLine)
    ensures r.NoRecipients? <==> |selected| == 0
    ensures r.To? <==> |selected| == 1
    ensures r.ToCount? ==> r.count == |selected| && r.count >= 2
    ensures r.To? ==> r.name != "" && r.email != ""
  {
    if |selected| == 0 then NoRecipients
    else if |selected| == 1 then To(OrElse(selected[0].name, "Unknown"), OrElse(selected[0].email, "No email"))
    else ToCount(|selected|)
  }

  /** A single recipient is shown by its own name and address when it has
      them. */
  lemma SingleRecipientShown(c: Recipient)
    ensures Truthy(c.name) && Truthy(c.email) ==> RecipientText([c]) == To(c.name.value, c.email.value)
    ensures !Truthy(c.name) ==> RecipientText([c]).name == "Unknown"
    ensures !Truthy(c.email) ==> RecipientText([c]).email == "No email"
  {
  }

  datatype EmailRequest = EmailRequest(customerIds: seq<Option<string>>, subject: string, body: string)

  const ErrorNoCustomersKey: string := "emailModal.errorNoCustomers"
  const ErrorNoFieldsKey: string := "emailModal.errorNoFields"
  const SendFailed: string := "Failed to send emails."
  const SendStarted: string := "Email sending started!"

  function IdsOf(selected: seq<Recipient>): (r: seq<Option<string>>)
    ensures |r| == |selected|
    ensures forall i :: 0 <= i < |selected| ==> r[i] == selected[i].id
  {
    seq(|selected|, i requires 0 <= i < |selected| => selected[i].id)
  }

  /** `handleSubmit` up to the request: no recipient, then a subject or
      body that trims to nothing, is refused; otherwise the request names
      every selected customer, in order, with the trimmed texts. */
  function Prepare(selected: seq<Recipient>, subject: string, body: string): (r: Result<EmailRequest>)
    ensures r.Err? <==> |selected| == 0 || JsTrim(subject) == "" || JsTrim(body) == ""
    ensures |selected| == 0 ==> r == Err(ErrorNoCustomersKey)
    ensures |selected| != 0 && r.Err? ==> r == Err(ErrorNoFieldsKey)
    ensures r.Ok? ==> r.value.subject == JsTrim(subject) && r.value.body == JsTrim(body)
                      && |r.value.customerIds| == |selected|
  {
    if |selected| == 0 then Err(ErrorNoCustomersKey)
    else if JsTrim(subject) == "" || JsTrim(body) == "" then Err(ErrorNoFieldsKey)
    else Ok(EmailRequest(IdsOf(selected), JsTrim(subject), JsTrim(body)))
  }

  /** A subject or body of white space alone is refused; one with any
      other character is sent, with no white space at either end. */
  lemma BlankFieldsRefused(selected: seq<Recipient>, subject: string, body: string)
    requires |selected| > 0
    ensures (forall i :: 0 <= i < |subject| ==> IsJsWhitespace(subject[i])) ==>
      Prepare(selected, subject, body) == Err(ErrorNoFieldsKey)
    ensures Prepare(selected, subject, body).Ok? ==>
      var s := Prepare(selected, subject, body).value.subject;
      |s| > 0 && !IsJsWhitespace(s[0]) && !IsJsWhitespace(s[|s| - 1])
    ensures Prepare(selected, subject, body).Ok? ==>
      Prepare(selected, subject, body).value.customerIds == IdsOf(selected)
  {
    TrimWithSpec(subject, IsJsWhitespace);
  }

  datatype Modal = Modal(subject: string, body: string, loading: bool, error: Option<string>)

  /** The send button: disabled while loading, with no recipient, or with
      a blank subject or body. */
  predicate CanSend(m: Modal, selected: seq<Recipient>) {
    !m.loading && |selected| != 0 && JsTrim(m.subject) != "" && JsTrim(m.body) != ""
  }

  /** The button is enabled exactly when a click would send. */
  lemma EnabledIffSends(m: Modal, selected: seq<Recipient>)
    ensures CanSend(m, selected) <==> !m.loading && Prepare(selected, m.subject, m.body).Ok?
  {
  }

  /** Clicking send: a refused request shows its key, both in the modal
      and as an error toast (the third component); otherwise loading
      starts, the error clears and no toast is shown yet. */
  function Submit(m: Modal, selected: seq<Recipient>): (r: (Modal, Option<EmailRequest>, Option<string>))
    ensures r.1.Some? <==> Prepare(selected, m.subject, m.body).Ok?
    ensures r.1.None? ==> r.0 == m.(error := Some(Prepare(selected, m.subject, m.body).error))
                          && r.2 == Some(Prepare(selected, m.subject, m.body).error)
    ensures r.1.Some? ==> r.0 == m.(loading := true, error := None) && r.2.None?
                          && r.1.value == Prepare(selected, m.subject, m.body).value
  {
    match Prepare(selected, m.subject, m.body)
    case Err(key) => (m.(error := Some(key)), None, Some(key))
    case Ok(req) => (m.(loading := true, error := None), Some(req), None)
  }

  /** What follows the answer: the modal stays open with an error toast,
      or closes with a success toast. */
  datatype Closing = StayOpen(errorToast: string) | CloseWithSuccess(toast: string)

  /** How the request ended: the server's `message`, or a failure. */
  datatype Answer = Sent(message: Option<string>) | Failed(failure: UiErrors.Failure)

  /** After the answer: success empties the texts and closes the modal
      with the server's message (or a fixed one); failure keeps the texts
      and shows the error in the modal and as a toast. */
  function Finish(m: Modal, answer: Answer): (r: (Modal, Closing))
    ensures !r.0.loading
    ensures answer.Sent? ==> r.0.subject == "" && r.0.body == ""
                             && r.1 == CloseWithSuccess(OrElse(answer.message, SendStarted))
    ensures answer.Failed? ==> r.0.subject == m.subject && r.0.body == m.body
                               && r.0.error == UiErrors.Describe(answer.failure, Some(SendFailed))
                               && r.1 == StayOpen(r.0.error.value) && r.1.errorToast != ""
  {
    match answer
    case Sent(message) => (m.(subject := "", body := "", loading := false), CloseWithSuccess(OrElse(message, SendStarted)))
    case Failed(f) =>
      var shown := UiErrors.Describe(f, Some(SendFailed));
      (m.(loading := false, error := shown), StayOpen(shown.value))
  }

  /** Against the backend's endpoint, which receives one id per selected
      customer, the closing message counts exactly the selected
      customers. */
  lemma ClosingCountsRecipients(m: Modal, selected: seq<Recipient>, received: seq<string>,
                                header: Option<string>)
    requires Submit(m, selected).1.Some?
    requires |received| == |Submit(m, selected).1.value.customerIds|
    requires CustomerApi.SendEmailEndpoint(received, Some(Submit(m, selected).1.value.subject),
                                           Some(Submit(m, selected).1.value.body), header).Ok?
    ensures var req := Submit(m, selected).1.value;
      var answer := CustomerApi.SendEmailEndpoint(received, Some(req.subject), Some(req.body), header).value.body;
      answer.Message?
      && Finish(Submit(m, selected).0, Sent(Some(answer.message))).1
         == CloseWithSuccess(CustomerApi.InitiatedMessage(|selected|))
  {
    assert CustomerApi.InitiatedMessage(|received|) != "";
  }
}

=== FILE: seqs.dfy ===
/** Order-preserving selection from sequences, shared by the stores, the
    reports and the list pages. */
module Seqs {
  import opened Wrappers

  /** The elements satisfying `p`, in their original order. */
  function Filter<T>(s: seq<T>, p: T -> bool): (r: seq<T>)
    ensures |r| <= |s|
    ensures forall i :: 0 <= i < |r| ==> r[i] in s && p(r[i])
    ensures forall i :: 0 <= i < |s| && p(s[i]) ==> s[i] in r
  {
    if |s| == 0 then []
    else if p(s[0]) then [s[0]] + Filter(s[1..], p)
    else Filter(s[1..], p)
  }

  /** Selection distributes over concatenation. */
  lemma {:induction false} FilterAppend<T>(a: seq<T>, b: seq<T>, p: T -> bool)
    ensures Filter(a + b, p) == Filter(a, p) + Filter(b, p)
  {
    if |a| > 0 {
      assert (a + b)[0] == a[0] && (a + b)[1..] == a[1..] + b;
      FilterAppend(a[1..], b, p);
    } else {
      assert a + b == b;
    }
  }

  /** `a` is `b` with some elements left out. */
  predicate Subsequence<T(==)>(a: seq<T>, b: seq<T>)
    decreases |b|
  {
    |a| == 0 || (|b| > 0 && ((a[0] == b[0] && Subsequence(a[1..], b[1..])) || Subsequence(a, b[1..])))
  }

  /** Every element of a subsequence is an element of the whole. */
  lemma {:induction false} SubsequenceMember<T>(a: seq<T>, b: seq<T>, k: nat)
    requires Subsequence(a, b) && k < |a|
    ensures a[k] in b
    decreases |b|
  {
    if a[0] == b[0] && Subsequence(a[1..], b[1..]) {
      if k > 0 {
        SubsequenceMember(a[1..], b[1..], k - 1);
        assert a[k] == a[1..][k - 1];
      }
    } else {
      SubsequenceMember(a, b[1..], k);
    }
  }

  /** A subsequence of the tail is one of the whole. */
  lemma SubsequenceSkip<T>(a: seq<T>, x: T, b: seq<T>)
    requires Subsequence(a, b)
    ensures Subsequence(a, [x] + b)
  {
    assert ([x] + b)[1..] == b;
  }

  /** Both sequences may grow by the same first element. */
  lemma SubsequenceCons<T>(a: seq<T>, x: T, b: seq<T>)
    requires Subsequence(a, b)
    ensures Subsequence([x] + a, [x] + b)
  {
    assert ([x] + a)[1..] == a && ([x] + b)[1..] == b;
  }

  /** One step of a store that only appends: `mid` is `before` or `before`
      plus one element, and `created` is empty or exactly that element; if
      the rest of the run keeps `mid` as a prefix and yields `rest` among
      its appended elements, the whole run does the same from `before`. */
  lemma AppendStep<T>(before: seq<T>, mid: seq<T>, after: seq<T>, created: seq<T>, rest: seq<T>)
    requires mid == before || (|mid| == |before| + 1 && before <= mid)
    requires created == [] || (|created| == 1 && mid == before + created)
    requires mid <= after && Subsequence(rest, after[|mid|..])
    ensures before <= after && Subsequence(created + rest, after[|before|..])
  {
    if mid != before {
      var x := mid[|before|];
      assert after[|before|..] == [x] + after[|mid|..];
      if created == [] {
        SubsequenceSkip(rest, x, after[|mid|..]);
        assert created + rest == rest;
      } else {
        assert created == [x];
        SubsequenceCons(rest, x, after[|mid|..]);
      }
    } else {
      assert |mid| == |before|;
      assert created + rest == rest;
    }
  }

  lemma {:induction false} FilterIsSubsequence<T>(s: seq<T>, p: T -> bool)
    ensures Subsequence(Filter(s, p), s)
  {
    if |s| > 0 {
      FilterIsSubsequence(s[1..], p);
      if p(s[0]) {
        assert Filter(s, p)[1..] == Filter(s[1..], p);
      }
    }
  }

  /** Number of elements satisfying `p`. */
  function Count<T>(s: seq<T>, p: T -> bool): (n: nat)
    ensures n <= |s|
  {
    if |s| == 0 then 0 else (if p(s[0]) then 1 else 0) + Count(s[1..], p)
  }

  lemma {:induction false} FilterLength<T>(s: seq<T>, p: T -> bool)
    ensures |Filter(s, p)| == Count(s, p)
  {
    if |s| > 0 {
      FilterLength(s[1..], p);
    }
  }

  /** Removing every element equal to `x`. */
  function RemoveAll<T(==)>(s: seq<T>, x: T): (r: seq<T>)
    ensures x !in r && |r| <= |s|
    ensures forall i :: 0 <= i < |r| ==> r[i] in s
    ensures forall i :: 0 <= i < |s| && s[i] != x ==> s[i] in r
    ensures |r| == |s| <==> x !in s
  {
    if |s| == 0 then []
    else if s[0] == x then RemoveAll(s[1..], x)
    else [s[0]] + RemoveAll(s[1..], x)
  }

  /** The first `n` elements, or all when there are fewer. */
  function Take<T>(s: seq<T>, n: nat): (r: seq<T>)
    ensures |r| == if |s| < n then |s| else n
    ensures r == s[..|r|]
  {
    if |s| <= n then s else s[..n]
  }

  /** The index of the first element satisfying `p`, if any. */
  function FirstIndex<T>(s: seq<T>, p: T -> bool): (r: Option<nat>)
    ensures r.Some? ==> r.value < |s| && p(s[r.value])
    ensures r.Some? ==> forall i :: 0 <= i < r.value ==> !p(s[i])
    ensures r.None? <==> forall i :: 0 <= i < |s| ==> !p(s[i])
  {
    if |s| == 0 then None
    else if p(s[0]) then Some(0)
    else
      match FirstIndex(s[1..], p)
      case None =>
        assert forall i :: 1 <= i < |s| ==> s[i] == s[1..][i - 1];
        None
      case Some(k) =>
        assert s[k + 1] == s[1..][k];
        Some(k + 1)
  }

  /** Every element satisfies `p` exactly when all are counted. */
  lemma {:induction false} CountAllIffLength<T>(s: seq<T>, p: T -> bool)
    ensures Count(s, p) == |s| <==> forall i :: 0 <= i < |s| ==> p(s[i])
  {
    if |s| > 0 {
      CountAllIffLength(s[1..], p);
      assert forall i :: 1 <= i < |s| ==> s[i] == s[1..][i - 1];
    }
  }
}

=== FILE: sorting.dfy ===
/** Stable sorting by a comparison, as `Array.prototype.sort` does with a
    consistent comparator: insertion sort, each element placed after every
    element it does not precede. `le(a, b)` reads "a may come before b";
    the sort is correct when `le` is a total preorder. */
module Sorting {
  import Seqs

  ghost predicate Total<T(!new)>(le: (T, T) -> bool) {
    forall a, b :: le(a, b) || le(b, a)
  }

  ghost predicate Transitive<T(!new)>(le: (T, T) -> bool) {
    forall a, b, c :: le(a, b) && le(b, c) ==> le(a, c)
  }

  predicate Sorted<T>(s: seq<T>, le: (T, T) -> bool) {
    forall i, j :: 0 <= i < j < |s| ==> le(s[i], s[j])
  }

  /** `x` placed before the first element that may not come before it. */
  function Insert<T>(x: T, s: seq<T>, le: (T, T) -> bool): (r: seq<T>)
    ensures |r| == |s| + 1
    ensures multiset(r) == multiset(s) + multiset{x}
    decreases |s|
  {
    if |s| == 0 then [x]
    else if !le(s[0], x) then [x] + s
    else
      assert s == [s[0]] + s[1..];
      [s[0]] + Insert(x, s[1..], le)
  }

  /** Each element in turn is inserted into the sorted prefix before it. */
  function SortBy<T>(s: seq<T>, le: (T, T) -> bool): (r: seq<T>)
    ensures |r| == |s|
    ensures multiset(r) == multiset(s)
    decreases |s|
  {
    if |s| == 0 then []
    else
      assert s == s[..|s| - 1] + [s[|s| - 1]];
      Insert(s[|s| - 1], SortBy(s[..|s| - 1], le), le)
  }

  lemma {:induction false} InsertSorted<T(!new)>(x: T, s: seq<T>, le: (T, T) -> bool)
    requires Total(le) && Transitive(le) && Sorted(s, le)
    ensures Sorted(Insert(x, s, le), le)
    decreases |s|
  {
    if |s| > 0 {
      if !le(s[0], x) {
        assert le(x, s[0]);
      } else {
        InsertSorted(x, s[1..], le);
        var rest := Insert(x, s[1..], le);
        forall y | y in rest ensures le(s[0], y) {
          assert y in multiset(rest);
          assert y == x || y in multiset(s[1..]);
        }
      }
    }
  }

  /** The result is ordered by any total preorder. */
  lemma {:induction false} SortBySorted<T(!new)>(s: seq<T>, le: (T, T) -> bool)
    requires Total(le) && Transitive(le)
    ensures Sorted(SortBy(s, le), le)
    decreases |s|
  {
    if |s| > 0 {
      SortBySorted(s[..|s| - 1], le);
      InsertSorted(s[|s| - 1], SortBy(s[..|s| - 1], le), le);
    }
  }

  /** The elements `le` cannot tell apart from `x`. */
  function EquivalentTo<T>(x: T, le: (T, T) -> bool): T -> bool {
    (y: T) => le(y, x) && le(x, y)
  }

  /** When `y` precedes the least element, nothing in `s` is equivalent
      to `y`. */
  lemma NoneEquivalentAfter<T(!new)>(y: T, s: seq<T>, le: (T, T) -> bool, x: T)
    requires Total(le) && Transitive(le) && Sorted(s, le)
    requires |s| > 0 && !le(s[0], y) && le(y, x) && le(x, y)
    ensures forall k :: 0 <= k < |s| ==> !(le(s[k], x) && le(x, s[k]))
  {
    assert le(s[0], s[0]);
    assert forall k :: 0 <= k < |s| ==> le(s[0], s[k]);
    assert !le(s[0], x);
  }

  lemma {:induction false} InsertStable<T(!new)>(y: T, s: seq<T>, le: (T, T) -> bool, x: T)
    requires Total(le) && Transitive(le) && Sorted(s, le)
    ensures Seqs.Filter(Insert(y, s, le), EquivalentTo(x, le))
            == Seqs.Filter(s, EquivalentTo(x, le)) + (if EquivalentTo(x, le)(y) then [y] else [])
    decreases |s|
  {
    var eq := EquivalentTo(x, le);
    if |s| == 0 {
      assert Insert(y, s, le) == [y];
      assert [y][1..] == [];
    } else if !le(s[0], y) {
      Seqs.FilterAppend([y], s, eq);
      assert [y][1..] == [];
      if eq(y) {
        NoneEquivalentAfter(y, s, le, x);
        FilterNone(s, eq);
      }
    } else {
      InsertStable(y, s[1..], le, x);
      Seqs.FilterAppend([s[0]], Insert(y, s[1..], le), eq);
      Seqs.FilterAppend([s[0]], s[1..], eq);
      assert s == [s[0]] + s[1..];
    }
  }

  /** Stability: the elements equivalent to any `x` come out in the order
      they went in. */
  lemma {:induction false} SortByStable<T(!new)>(s: seq<T>, le: (T, T) -> bool, x: T)
    requires Total(le) && Transitive(le)
    ensures Seqs.Filter(SortBy(s, le), EquivalentTo(x, le)) == Seqs.Filter(s, EquivalentTo(x, le))
    decreases |s|
  {
    if |s| > 0 {
      var init, last := s[..|s| - 1], s[|s| - 1];
      SortByStable(init, le, x);
      SortBySorted(init, le);
      InsertStable(last, SortBy(init, le), le, x);
      FilterSnoc(s, EquivalentTo(x, le));
    }
  }

  /** Filtering a non-empty sequence: the prefix's survivors, then the last
      element if it passes. */
  lemma FilterSnoc<T>(s: seq<T>, p: T -> bool)
    requires |s| > 0
    ensures Seqs.Filter(s, p) == Seqs.Filter(s[..|s| - 1], p) + (if p(s[|s| - 1]) then [s[|s| - 1]] else [])
  {
    var init, last := s[..|s| - 1], s[|s| - 1];
    assert s == init + [last];
    Seqs.FilterAppend(init, [last], p);
    assert [last][1..] == [];
  }

  /** An element every other may precede goes last. */
  lemma {:induction false} InsertAfterAll<T>(x: T, s: seq<T>, le: (T, T) -> bool)
    requires forall i :: 0 <= i < |s| ==> le(s[i], x)
    ensures Insert(x, s, le) == s + [x]
    decreases |s|
  {
    if |s| > 0 {
      InsertAfterAll(x, s[1..], le);
      assert s == [s[0]] + s[1..];
    }
  }

  /** Every element may precede every other. */
  predicate AllRelated<T>(s: seq<T>, le: (T, T) -> bool) {
    forall i, j :: 0 <= i < |s| && 0 <= j < |s| ==> le(s[i], s[j])
  }

  lemma AllRelatedPrefix<T>(s: seq<T>, le: (T, T) -> bool, n: nat)
    requires AllRelated(s, le) && n <= |s|
    ensures AllRelated(s[..n], le)
  {
  }

  /** When every element may precede every other, sorting changes
      nothing. */
  lemma {:induction false} AllEquivalentUnchanged<T>(s: seq<T>, le: (T, T) -> bool)
    requires AllRelated(s, le)
    ensures SortBy(s, le) == s
    decreases |s|
  {
    if |s| > 0 {
      var init, last := s[..|s| - 1], s[|s| - 1];
      AllRelatedPrefix(s, le, |s| - 1);
      AllEquivalentUnchanged(init, le);
      SnocParts(s);
      AllRelatedLast(init, last, le);
      InsertAfterAll(last, init, le);
    }
  }

  lemma AllRelatedLast<T>(init: seq<T>, last: T, le: (T, T) -> bool)
    requires AllRelated(init + [last], le)
    ensures forall i :: 0 <= i < |init| ==> le(init[i], last)
  {
    forall i | 0 <= i < |init| ensures le(init[i], last) {
      assert (init + [last])[i] == init[i] && (init + [last])[|init|] == last;
    }
  }

  lemma SnocParts<T>(s: seq<T>)
    requires |s| > 0
    ensures s == s[..|s| - 1] + [s[|s| - 1]]
  {
  }

  lemma {:induction false} FilterNone<T>(s: seq<T>, p: T -> bool)
    requires forall i :: 0 <= i < |s| ==> !p(s[i])
    ensures Seqs.Filter(s, p) == []
  {
    if |s| > 0 {
      FilterNone(s[1..], p);
    }
  }

  lemma {:induction false} FilterAll<T>(s: seq<T>, p: T -> bool)
    requires forall i :: 0 <= i < |s| ==> p(s[i])
    ensures Seqs.Filter(s, p) == s
  {
    if |s| > 0 {
      FilterAll(s[1..], p);
    }
  }

  // ---------------------------------------------------------------------
  // Orders by a key
  // ---------------------------------------------------------------------

  /** Code-point lexicographic order on strings, a prefix first. */
  predicate LexLe(a: string, b: string)
    decreases |a|
  {
    |a| == 0 || (|b| > 0 && (a[0] < b[0] || (a[0] == b[0] && LexLe(a[1..], b[1..]))))
  }

  lemma {:induction false} LexLeTotal(a: string, b: string)
    ensures LexLe(a, b) || LexLe(b, a)
    decreases |a|
  {
    if |a| > 0 && |b| > 0 && a[0] == b[0] {
      LexLeTotal(a[1..], b[1..]);
    }
  }

  lemma {:induction false} LexLeTransitive(a: string, b: string, c: string)
    requires LexLe(a, b) && LexLe(b, c)
    ensures LexLe(a, c)
    decreases |a|
  {
    if |a| > 0 && a[0] == b[0] && b[0] == c[0] {
      LexLeTransitive(a[1..], b[1..], c[1..]);
    }
  }

  lemma {:induction false} LexLeAntisymmetric(a: string, b: string)
    requires LexLe(a, b) && LexLe(b, a)
    ensures a == b
    decreases |a|
  {
    if |a| > 0 {
      LexLeAntisymmetric(a[1..], b[1..]);
      assert a == [a[0]] + a[1..] && b == [b[0]] + b[1..];
    }
  }

  function ByText<T>(key: T -> string): (T, T) -> bool {
    (a: T, b: T) => LexLe(key(a), key(b))
  }

  function ByNumber<T>(key: T -> real): (T, T) -> bool {
    (a: T, b: T) => key(a) <= key(b)
  }

  /** The reverse order. */
  function Flip<T>(le: (T, T) -> bool): (T, T) -> bool {
    (a: T, b: T) => le(b, a)
  }

  lemma ByTextIsPreorder<T(!new)>(key: T -> string)
    ensures Total(ByText(key)) && Transitive(ByText(key))
  {
    forall a: T, b: T ensures ByText(key)(a, b) || ByText(key)(b, a) {
      LexLeTotal(key(a), key(b));
    }
    forall a: T, b: T, c: T | ByText(key)(a, b) && ByText(key)(b, c) ensures ByText(key)(a, c) {
      LexLeTransitive(key(a), key(b), key(c));
    }
  }

  lemma ByNumberIsPreorder<T(!new)>(key: T -> real)
    ensures Total(ByNumber(key)) && Transitive(ByNumber(key))
  {
  }

  lemma FlipIsPreorder<T(!new)>(le: (T, T) -> bool)
    requires Total(le) && Transitive(le)
    ensures Total(Flip(le)) && Transitive(Flip(le))
  {
  }
}

=== FILE: sync.dfy ===
/** Offline synchronisation: the idempotent single-bill sync of the sync
    service, and the pending-data endpoint that replays a batch of bills
    (in sync mode) and then a batch of inventory updates. */
module Sync {
  import opened Wrappers
  import opened Text
  import opened Models
  import opened Seqs
  import opened BillService

  // ---------------------------------------------------------------------
  // syncBill
  // ---------------------------------------------------------------------

  /** `syncBill`: a bill whose business id is already stored is not
      created again and its id (possibly null) is returned as given;
      otherwise bill creation runs in normal mode, and whatever it stored
      before failing stays stored. */
  function SyncBill(st: Stores, bill: Bill, env: Env): (r: (Stores, Result<Option<string>>))
    ensures HasBillId(st.bills, bill.billId) ==> r == (st, Ok(bill.billId))
    ensures !HasBillId(st.bills, bill.billId) ==>
      r.0 == CreateBill(st, bill, env, false).0
      && (r.1.Err? <==> CreateBill(st, bill, env, false).1.Err?)
    ensures !HasBillId(st.bills, bill.billId) && r.1.Ok? ==>
      r.1.value == CreateBill(st, bill, env, false).1.value.billId
  {
    if FindByBillId(st.bills, bill.billId).Some? then (st, Ok(bill.billId))
    else
      var (st', res) := CreateBill(st, bill, env, false);
      match res
      case Ok(saved) => (st', Ok(saved.billId))
      case Err(e) => (st', Err(e))
  }

  /** Syncing a bill with a non-blank business id twice creates it once:
      the second call finds the bill the first one stored, even when the
      first call failed after storing it, and changes nothing. */
  lemma SyncBillTwice(st: Stores, bill: Bill, env: Env, env': Env)
    requires !NullOrTrimEmpty(bill.billId) && bill.id.None?
    requires Syncable(bill)
    ensures var (st1, _) := SyncBill(st, bill, env);
      SyncBill(st1, bill, env') == (st1, Ok(bill.billId))
  {
    var (st1, _) := SyncBill(st, bill, env);
    if !HasBillId(st.bills, bill.billId) {
      assert EffectiveBillId(bill.billId, env.now) == bill.billId.value;
      FailsAfterSaving(st, bill, env, false);
      assert st1.bills[|st.bills|].billId == bill.billId;
    }
  }

  /** Default business ids drawn at different instants differ. */
  lemma DefaultIdsDiffer(t: int, t': int)
    requires MinLong <= t <= MaxLong && MinLong <= t' <= MaxLong && t != t'
    ensures EffectiveBillId(None, t) != EffectiveBillId(None, t')
  {
    if EffectiveBillId(None, t) == EffectiveBillId(None, t') {
      assert IntToString(t) == ("B" + IntToString(t))[1..];
      assert IntToString(t') == ("B" + IntToString(t'))[1..];
      ParseLongOfIntToString(t);
      ParseLongOfIntToString(t');
    }
  }

  /** Appending one bill adds only that bill's business id. */
  lemma HasBillIdAppend(bills: seq<Bill>, b: Bill, id: Option<string>)
    ensures HasBillId(bills + [b], id) <==> HasBillId(bills, id) || b.billId == id
  {
    if HasBillId(bills, id) {
      var i :| 0 <= i < |bills| && bills[i].billId == id;
      assert (bills + [b])[i] == bills[i];
    }
    if b.billId == id {
      assert (bills + [b])[|bills|] == b;
    }
  }

  /** A bill with no business id gets a fresh "B" id on every sync, so the
      same offline bill is stored again each time it is replayed. */
  lemma SyncBlankIdNotIdempotent(st: Stores, bill: Bill, env: Env, env': Env)
    requires bill.billId == None && bill.id.None? && Syncable(bill)
    requires !HasBillId(st.bills, None)
    requires !HasBillId(st.bills, Some(EffectiveBillId(None, env.now)))
    requires !HasBillId(st.bills, Some(EffectiveBillId(None, env'.now)))
    requires MinLong <= env.now <= MaxLong && MinLong <= env'.now <= MaxLong && env'.now != env.now
    ensures var st1 := SyncBill(st, bill, env).0;
      |SyncBill(st1, bill, env').0.bills| == |st.bills| + 2
  {
    FailsAfterSaving(st, bill, env, false);
    var st1 := CreateBill(st, bill, env, false).0;
    var saved := st1.bills[|st.bills|];
    assert st1.bills == st.bills + [saved];
    HasBillIdAppend(st.bills, saved, None);
    DefaultIdsDiffer(env.now, env'.now);
    HasBillIdAppend(st.bills, saved, Some(EffectiveBillId(None, env'.now)));
    assert !Refused(st1, bill, env', false);
    FailsAfterSaving(st1, bill, env', false);
  }

  // ---------------------------------------------------------------------
  // syncPendingData
  // ---------------------------------------------------------------------

  /** The request body; the getters read a missing list as empty. */
  datatype SyncRequest = SyncRequest(bills: Option<seq<Bill>>, inventoryUpdates: Option<seq<Product>>)

  function OrEmpty<T>(s: Option<seq<T>>): (r: seq<T>)
    ensures s.None? ==> r == []
    ensures s.Some? ==> r == s.value
  {
    if s.Some? then s.value else []
  }

  datatype SyncResponse = SyncResponse(
    processedBills: seq<string>,
    processedProducts: seq<Option<string>>,
    errors: seq<string>,
    message: string)

  /** A bill that sync-mode creation accepts: one with customer details. */
  predicate Syncable(b: Bill) {
    b.customer.Some? && b.customer.value.mobile.Some?
  }

  /** The bill loop: each bill is created in sync mode; a failure is
      recorded as "Bill <id>: <message>", with the id creation gave the
      bill before any check, and the loop goes on with whatever was stored. */
  function SyncBills(st: Stores, bills: seq<Bill>, env: Env): (r: (Stores, seq<string>, seq<string>))
    ensures |r.1| <= Count(bills, Syncable)
    ensures |r.1| + |r.2| == |bills|
    decreases |bills|
  {
    if |bills| == 0 then (st, [], [])
    else
      var b := bills[0];
      var (st', res) := CreateBill(st, b, env, true);
      match res
      case Ok(saved) =>
        var (s, ok, err) := SyncBills(st', bills[1..], env);
        (s, [saved.billId.value] + ok, err)
      case Err(e) =>
        var (s, ok, err) := SyncBills(st', bills[1..], env);
        (s, ok, ["Bill " + EffectiveBillId(b.billId, env.now) + ": " + e] + err)
  }

  /** The inventory loop over an opaque store of type `P`: `update` is the
      product service's sync-mode update by business id; a refusal is
      recorded as "Product <id>: <message>". */
  function SyncProducts<P>(ps: P, products: seq<Product>, update: (P, Product) -> Result<P>)
    : (r: (P, seq<Option<string>>, seq<string>))
    ensures |r.1| + |r.2| == |products|
    decreases |products|
  {
    if |products| == 0 then (ps, [], [])
    else
      var p := products[0];
      match update(ps, p)
      case Ok(ps') =>
        var (s, ok, err) := SyncProducts(ps', products[1..], update);
        (s, [p.productId] + ok, err)
      case Err(e) =>
        var (s, ok, err) := SyncProducts(ps, products[1..], update);
        (s, ok, ["Product " + Show(p.productId) + ": " + e] + err)
  }

  /** `syncPendingData`: every bill, in order, then every product; always
      answered with 200. */
  function SyncPending<P>(st: Stores, ps: P, req: SyncRequest, env: Env,
                          update: (P, Product) -> Result<P>): (r: (Stores, P, SyncResponse))
    ensures |r.2.processedBills| <= Count(OrEmpty(req.bills), Syncable)
    ensures |r.2.processedBills| + |r.2.processedProducts| + |r.2.errors|
         == |OrEmpty(req.bills)| + |OrEmpty(req.inventoryUpdates)|
    ensures r.2.message == (if r.2.errors == [] then "Sync completed successfully"
                            else "Sync completed with errors")
    ensures r.2.errors == SyncBills(st, OrEmpty(req.bills), env).2
                        + SyncProducts(ps, OrEmpty(req.inventoryUpdates), update).2
  {
    var (st', okBills, billErrors) := SyncBills(st, OrEmpty(req.bills), env);
    var (ps', okProducts, productErrors) := SyncProducts(ps, OrEmpty(req.inventoryUpdates), update);
    var errors := billErrors + productErrors;
    (st', ps', SyncResponse(okBills, okProducts, errors,
       if errors == [] then "Sync completed successfully" else "Sync completed with errors"))
  }

  /** An empty request (or one with both lists missing) succeeds with
      nothing processed. */
  lemma EmptyRequestSucceeds<P>(st: Stores, ps: P, env: Env, update: (P, Product) -> Result<P>)
    ensures SyncPending(st, ps, SyncRequest(None, None), env, update).2
         == SyncResponse([], [], [], "Sync completed successfully")
  {
  }

  /** The error a bill with customer details can still produce: the
      missing message of the exception thrown after it was stored. */
  function AfterSaveError(b: Bill, env: Env): (e: string)
    ensures e == "Bill " + EffectiveBillId(b.billId, env.now) + ": " + NullMessage
  {
    "Bill " + EffectiveBillId(b.billId, env.now) + ": " + NullMessage
  }

  /** The after-save failures of `bills`, in order. */
  function AfterSaveErrors(bills: seq<Bill>, env: Env): (errs: seq<string>)
    ensures |errs| == |bills|
    ensures forall k :: 0 <= k < |bills| ==> errs[k] == AfterSaveError(bills[k], env)
  {
    if |bills| == 0 then [] else [AfterSaveError(bills[0], env)] + AfterSaveErrors(bills[1..], env)
  }

  /** One step of the bill loop. */
  lemma SyncBillsStep(st: Stores, bills: seq<Bill>, env: Env)
    requires |bills| > 0
    ensures var c := CreateBill(st, bills[0], env, true);
      var rest := SyncBills(c.0, bills[1..], env);
      SyncBills(st, bills, env).0 == rest.0
      && SyncBills(st, bills, env).2
         == (if c.1.Ok? then [] else ["Bill " + EffectiveBillId(bills[0].billId, env.now) + ": " + c.1.error])
            + rest.2
  {
  }

  /** Sync mode stores every bill with customer details, duplicates
      included: a batch of such bills grows the bill store by its length,
      and the errors reported are after-save failures of some of them, in
      batch order. */
  lemma {:induction false} SyncStoresEveryBill(st: Stores, bills: seq<Bill>, env: Env)
    requires forall i :: 0 <= i < |bills| ==> Syncable(bills[i]) && bills[i].id.None?
    decreases |bills|
    ensures |SyncBills(st, bills, env).0.bills| == |st.bills| + |bills|
    ensures Subsequence(SyncBills(st, bills, env).2, AfterSaveErrors(bills, env))
  {
    if |bills| > 0 {
      assert Syncable(bills[0]) && bills[0].id.None?;
      FailsAfterSaving(st, bills[0], env, true);
      var c := CreateBill(st, bills[0], env, true);
      assert forall i :: 0 <= i < |bills[1..]| ==> bills[1..][i] == bills[i + 1];
      SyncStoresEveryBill(c.0, bills[1..], env);
      SyncBillsStep(st, bills, env);
      var rest := SyncBills(c.0, bills[1..], env).2;
      assert AfterSaveErrors(bills, env) == [AfterSaveError(bills[0], env)] + AfterSaveErrors(bills[1..], env);
      if c.1.Ok? {
        SubsequenceSkip(rest, AfterSaveError(bills[0], env), AfterSaveErrors(bills[1..], env));
      } else {
        SubsequenceCons(rest, AfterSaveError(bills[0], env), AfterSaveErrors(bills[1..], env));
      }
    }
  }

  /** One bill with customer details syncs without error exactly when the
      customer it is charged to has an e-mail; otherwise the error names
      the bill's effective id. */
  lemma SyncOneBill(st: Stores, b: Bill, env: Env)
    requires Syncable(b) && b.id.None?
    ensures SyncBills(st, [b], env).2 == [] <==> Charged(st.customers, b, env.now).email.Some?
    ensures SyncBills(st, [b], env).2 != [] ==> SyncBills(st, [b], env).2 == [AfterSaveError(b, env)]
  {
    FailsAfterSaving(st, b, env, true);
    assert [b][1..] == [];
  }
}

=== FILE: text.dfy ===
/** String primitives of the Java, JavaScript and Python runtimes that the
    services and pages rely on, stated on `seq<char>` with their edge cases:
    Java's `trim`/`isBlank`, `String.split` on a one-character separator
    (trailing empty strings dropped), `Long.parseLong`, `Integer.parseInt`
    with a radix, and JavaScript's `parseInt(s, 10)`. */
module Text {
  import opened Wrappers

  // ---------------------------------------------------------------------
  // Character classes
  // ---------------------------------------------------------------------

  /** `Character.isWhitespace` on the ASCII range: TAB, LF, VT, FF, CR, the
      four information separators and SPACE. */
  predicate IsJavaWhitespace(c: char) {
    c == ' ' || ('\t' <= c <= '\r') || ('\U{1C}' <= c <= '\U{1F}')
  }

  /** The characters `String.prototype.trim` removes (WhiteSpace and
      LineTerminator of ECMAScript). */
  predicate IsJsWhitespace(c: char) {
    c == ' ' || ('\t' <= c <= '\r') || c == '\U{A0}' || c == '\U{1680}'
    || ('\U{2000}' <= c <= '\U{200A}') || c == '\U{2028}' || c == '\U{2029}'
    || c == '\U{202F}' || c == '\U{205F}' || c == '\U{3000}' || c == '\U{FEFF}'
  }

  /** What Java's `String.trim` removes: every code point up to U+0020. */
  predicate IsJavaTrimmable(c: char) {
    c <= ' '
  }

  predicate IsDigit(c: char) {
    '0' <= c <= '9'
  }

  predicate AllDigits(s: string) {
    forall i :: 0 <= i < |s| ==> IsDigit(s[i])
  }

  /** Java `String.isBlank`: empty or whitespace only. */
  predicate IsBlank(s: string) {
    forall i :: 0 <= i < |s| ==> IsJavaWhitespace(s[i])
  }

  /** A `String` field that is null or blank (`s == null || s.isBlank()`). */
  predicate NullOrBlank(s: Option<string>) {
    s.None? || IsBlank(s.value)
  }

  /** A `String` field that is null or empty (`s == null || s.isEmpty()`). */
  predicate NullOrEmpty(s: Option<string>) {
    s.None? || s.value == ""
  }

  /** JavaScript truthiness of an optional string: present and non-empty. */
  predicate Truthy(s: Option<string>) {
    s.Some? && s.value != ""
  }

  /** JavaScript `a || b` on optional strings. */
  function OrElse(a: Option<string>, b: string): (r: string)
    ensures Truthy(a) ==> r == a.value
    ensures !Truthy(a) ==> r == b
  {
    if a.Some? && a.value != "" then a.value else b
  }

  // ---------------------------------------------------------------------
  // Trimming
  // ---------------------------------------------------------------------

  /** Drops the longest prefix of characters satisfying `drop`. */
  function TrimStartWith(s: string, drop: char -> bool): (r: string)
    ensures |r| <= |s| && r == s[|s| - |r|..]
    ensures forall i :: 0 <= i < |s| - |r| ==> drop(s[i])
    ensures r == [] || !drop(r[0])
  {
    if |s| > 0 && drop(s[0]) then TrimStartWith(s[1..], drop) else s
  }

  /** Drops the longest suffix of characters satisfying `drop`. */
  function TrimEndWith(s: string, drop: char -> bool): (r: string)
    ensures |r| <= |s| && r == s[..|r|]
    ensures forall i :: |r| <= i < |s| ==> drop(s[i])
    ensures r == [] || !drop(r[|r| - 1])
  {
    if |s| > 0 && drop(s[|s| - 1]) then TrimEndWith(s[..|s| - 1], drop) else s
  }

  function TrimWith(s: string, drop: char -> bool): string {
    TrimEndWith(TrimStartWith(s, drop), drop)
  }

  /** Java `String.trim`. */
  function JavaTrim(s: string): string {
    TrimWith(s, IsJavaTrimmable)
  }

  /** JavaScript `String.prototype.trim`. */
  function JsTrim(s: string): string {
    TrimWith(s, IsJsWhitespace)
  }

  lemma {:induction false} TrimStartAllDropped(s: string, drop: char -> bool)
    requires forall i :: 0 <= i < |s| ==> drop(s[i])
    ensures TrimStartWith(s, drop) == []
  {
    if |s| > 0 {
      TrimStartAllDropped(s[1..], drop);
    }
  }

  lemma {:induction false} TrimStartKeeps(s: string, drop: char -> bool, j: nat)
    requires j < |s| && !drop(s[j])
    ensures TrimStartWith(s, drop) != []
  {
    if drop(s[0]) {
      TrimStartKeeps(s[1..], drop, j - 1);
    }
  }

  lemma {:induction false} TrimEndKeepsFirst(a: string, drop: char -> bool)
    requires |a| > 0 && !drop(a[0])
    ensures TrimEndWith(a, drop) != [] && TrimEndWith(a, drop)[0] == a[0]
  {
    if drop(a[|a| - 1]) {
      TrimEndKeepsFirst(a[..|a| - 1], drop);
    }
  }

  /** Trimming leaves nothing exactly when every character is droppable,
      and otherwise leaves no droppable character at either end. */
  lemma TrimWithSpec(s: string, drop: char -> bool)
    ensures TrimWith(s, drop) == [] <==> forall i :: 0 <= i < |s| ==> drop(s[i])
    ensures TrimWith(s, drop) != [] ==>
      !drop(TrimWith(s, drop)[0]) && !drop(TrimWith(s, drop)[|TrimWith(s, drop)| - 1])
  {
    if forall i :: 0 <= i < |s| ==> drop(s[i]) {
      TrimAllDropped(s, drop);
    } else {
      var j :| 0 <= j < |s| && !drop(s[j]);
      TrimSomeKept(s, drop, j);
    }
  }

  lemma TrimAllDropped(s: string, drop: char -> bool)
    requires forall i :: 0 <= i < |s| ==> drop(s[i])
    ensures TrimWith(s, drop) == []
  {
    TrimStartAllDropped(s, drop);
  }

  lemma TrimSomeKept(s: string, drop: char -> bool, j: nat)
    requires j < |s| && !drop(s[j])
    ensures TrimWith(s, drop) != []
    ensures !drop(TrimWith(s, drop)[0]) && !drop(TrimWith(s, drop)[|TrimWith(s, drop)| - 1])
  {
    TrimStartKeeps(s, drop, j);
    TrimEndKeepsFirst(TrimStartWith(s, drop), drop);
  }

  /** A string with nothing to drop at either end is its own trim. */
  lemma TrimNoop(s: string, drop: char -> bool)
    requires s == "" || (!drop(s[0]) && !drop(s[|s| - 1]))
    ensures TrimWith(s, drop) == s
  {
  }

  /** `s.trim().isEmpty()` holds exactly when every character is at most
      U+0020. */
  lemma JavaTrimEmpty(s: string)
    ensures JavaTrim(s) == [] <==> forall i :: 0 <= i < |s| ==> s[i] <= ' '
  {
    TrimWithSpec(s, IsJavaTrimmable);
  }

  /** Trimming twice is trimming once. */
  lemma JavaTrimIdempotent(s: string)
    ensures JavaTrim(JavaTrim(s)) == JavaTrim(s)
  {
    var t := JavaTrim(s);
    TrimWithSpec(s, IsJavaTrimmable);
    if t != [] {
      assert TrimStartWith(t, IsJavaTrimmable) == t;
      assert TrimEndWith(t, IsJavaTrimmable) == t;
    }
  }

  /** A blank string trims to the empty string (the converse fails: a NUL
      character trims away but is not whitespace). */
  lemma BlankTrimsToEmpty(s: string)
    requires IsBlank(s)
    ensures JavaTrim(s) == []
  {
    JavaTrimEmpty(s);
  }

  /** The `s == null || s.trim().isEmpty()` guard of the services. */
  predicate NullOrTrimEmpty(s: Option<string>) {
    s.None? || JavaTrim(s.value) == []
  }

  // ---------------------------------------------------------------------
  // Case and affixes
  // ---------------------------------------------------------------------

  function LowerChar(c: char): char {
    if 'A' <= c <= 'Z' then (c as int + 32) as char else c
  }

  function UpperChar(c: char): char {
    if 'a' <= c <= 'z' then (c as int - 32) as char else c
  }

  /** `toLowerCase` on the ASCII letters. */
  function ToLower(s: string): (r: string)
    ensures |r| == |s|
    ensures forall i :: 0 <= i < |s| ==> r[i] == LowerChar(s[i])
  {
    seq(|s|, i requires 0 <= i < |s| => LowerChar(s[i]))
  }

  /** `toUpperCase` on the ASCII letters. */
  function ToUpper(s: string): (r: string)
    ensures |r| == |s|
    ensures forall i :: 0 <= i < |s| ==> r[i] == UpperChar(s[i])
  {
    seq(|s|, i requires 0 <= i < |s| => UpperChar(s[i]))
  }

  predicate StartsWith(s: string, prefix: string) {
    |prefix| <= |s| && s[..|prefix|] == prefix
  }

  predicate EndsWith(s: string, suffix: string) {
    |suffix| <= |s| && s[|s| - |suffix|..] == suffix
  }

  /** `filename.toLowerCase().endsWith(".csv")`. */
  predicate HasCsvExtension(filename: string) {
    EndsWith(ToLower(filename), ".csv")
  }

  // ---------------------------------------------------------------------
  // Splitting and joining on one separator character
  // ---------------------------------------------------------------------

  function IndexOf(s: string, c: char): (r: nat)
    requires c in s
    ensures r < |s| && s[r] == c
    ensures forall j :: 0 <= j < r ==> s[j] != c
  {
    if s[0] == c then 0 else 1 + IndexOf(s[1..], c)
  }

  /** The first occurrence is the position that holds `c` with no `c`
      before it. */
  lemma {:induction false} IndexOfAt(s: string, c: char, k: nat)
    requires k < |s| && s[k] == c
    requires forall j :: 0 <= j < k ==> s[j] != c
    ensures IndexOf(s, c) == k
  {
    if k > 0 {
      IndexOfAt(s[1..], c, k - 1);
    }
  }

  /** `parts` joined with `sep` between neighbours (Java `String.join`,
      JavaScript `Array.prototype.join`). */
  function Join(parts: seq<string>, sep: char): string {
    if |parts| == 0 then ""
    else if |parts| == 1 then parts[0]
    else parts[0] + [sep] + Join(parts[1..], sep)
  }

  /** Every piece between separators, empty ones included: JavaScript
      `s.split(sep)` and Python `s.split(sep)`. */
  function Pieces(s: string, sep: char): (r: seq<string>)
    ensures |r| >= 1
    ensures forall i :: 0 <= i < |r| ==> sep !in r[i]
    ensures Join(r, sep) == s
    ensures |r| == 1 <==> sep !in s
    decreases |s|
  {
    if sep !in s then [s]
    else
      var k := IndexOf(s, sep);
      var rest := Pieces(s[k + 1..], sep);
      assert s == s[..k] + [sep] + s[k + 1..];
      [s[..k]] + rest
  }

  /** Splitting a join gives the parts back, whenever no part contains the
      separator. */
  lemma {:induction false} PiecesOfJoin(parts: seq<string>, sep: char)
    requires |parts| >= 1
    requires forall i :: 0 <= i < |parts| ==> sep !in parts[i]
    ensures Pieces(Join(parts, sep), sep) == parts
  {
    if |parts| > 1 {
      var s := Join(parts, sep);
      var tail := Join(parts[1..], sep);
      var p := parts[0];
      assert s == p + [sep] + tail;
      assert s[|p|] == sep;
      forall j | 0 <= j < |p| ensures s[j] != sep {
        assert s[j] == p[j];
      }
      IndexOfAt(s, sep, |p|);
      assert s[..|p|] == p;
      assert s[|p| + 1..] == tail;
      PiecesOfJoin(parts[1..], sep);
    }
  }

  /** A character other than the separator occurs in a join only if it
      occurs in a part. */
  lemma {:induction false} JoinAvoids(parts: seq<string>, sep: char, c: char)
    requires c != sep
    requires forall i :: 0 <= i < |parts| ==> c !in parts[i]
    ensures c !in Join(parts, sep)
  {
    if |parts| > 1 {
      JoinAvoids(parts[1..], sep, c);
    }
  }

  /** Splitting at one more separator splits the two sides independently. */
  lemma {:induction false} PiecesAround(a: string, sep: char, b: string)
    ensures Pieces(a + [sep] + b, sep) == Pieces(a, sep) + Pieces(b, sep)
    decreases |a|
  {
    if sep !in a {
      PiecesAroundClean(a, sep, b);
    } else {
      var k := IndexOf(a, sep);
      PiecesAroundStep(a, sep, b);
      PiecesAround(a[k + 1..], sep, b);
      ConsAppend(a[..k], Pieces(a[k + 1..], sep), Pieces(b, sep));
    }
  }

  lemma PiecesAroundClean(a: string, sep: char, b: string)
    requires sep !in a
    ensures Pieces(a + [sep] + b, sep) == [a] + Pieces(b, sep)
  {
    var s := a + [sep] + b;
    PiecesAt(s, sep, |a|);
    assert s[..|a|] == a && s[|a| + 1..] == b;
  }

  /** Both sides lose the same first piece, the text before `a`'s first
      separator. */
  lemma PiecesAroundStep(a: string, sep: char, b: string)
    requires sep in a
    ensures var k := IndexOf(a, sep);
      Pieces(a + [sep] + b, sep) == [a[..k]] + Pieces(a[k + 1..] + [sep] + b, sep)
  {
    var k := IndexOf(a, sep);
    var rest := a[k + 1..] + [sep] + b;
    assert sep !in a[..k];
    assert a + [sep] + b == a[..k] + [sep] + rest by {
      assert a == a[..k] + [sep] + a[k + 1..];
    }
    PiecesAroundClean(a[..k], sep, rest);
  }

  /** The first piece ends at the first separator. */
  lemma PiecesAt(s: string, sep: char, k: nat)
    requires k < |s| && s[k] == sep
    requires forall j :: 0 <= j < k ==> s[j] != sep
    ensures Pieces(s, sep) == [s[..k]] + Pieces(s[k + 1..], sep)
  {
    IndexOfAt(s, sep, k);
  }

  lemma ConsAppend<T>(x: T, p: seq<T>, q: seq<T>)
    ensures [x] + (p + q) == ([x] + p) + q
  {
  }

  /** The pieces of a join are the pieces of its parts, one after another. */
  function PiecesOfAll(parts: seq<string>, sep: char): seq<string>
    decreases |parts|
  {
    if |parts| == 0 then [] else Pieces(parts[0], sep) + PiecesOfAll(parts[1..], sep)
  }

  lemma {:induction false} PiecesOfJoinAll(parts: seq<string>, sep: char)
    requires |parts| >= 1
    ensures Pieces(Join(parts, sep), sep) == PiecesOfAll(parts, sep)
  {
    if |parts| > 1 {
      PiecesAround(parts[0], sep, Join(parts[1..], sep));
      PiecesOfJoinAll(parts[1..], sep);
    }
  }

  /** Each part gives at least one piece, and a part holding the
      separator gives at least two. */
  lemma {:induction false} PiecesOfAllCount(parts: seq<string>, sep: char, i: nat)
    requires i < |parts| && sep in parts[i]
    ensures |PiecesOfAll(parts, sep)| > |parts|
  {
    PiecesOfAllAtLeast(parts[1..], sep);
    if i > 0 {
      PiecesOfAllCount(parts[1..], sep, i - 1);
    }
  }

  lemma {:induction false} PiecesOfAllAtLeast(parts: seq<string>, sep: char)
    ensures |PiecesOfAll(parts, sep)| >= |parts|
  {
    if |parts| > 0 {
      PiecesOfAllAtLeast(parts[1..], sep);
    }
  }

  /** JavaScript and Python `s.split(sep)[0]`: the text before the first separator. */
  function FirstPiece(s: string, sep: char): (r: string)
    ensures sep !in r && |r| <= |s| && r == s[..|r|]
    ensures |r| < |s| ==> s[|r|] == sep
  {
    if sep in s then s[..IndexOf(s, sep)] else s
  }

  /** Python's first piece is the first of all the pieces. */
  lemma FirstPieceIsFirstOfPieces(s: string, sep: char)
    ensures FirstPiece(s, sep) == Pieces(s, sep)[0]
  {
  }

  /** The first piece of `a + rest` is `a` when `a` holds no separator and
      `rest` is empty or starts with one. */
  lemma FirstPieceOfPrefix(a: string, sep: char, rest: string)
    requires sep !in a && (rest == [] || rest[0] == sep)
    ensures FirstPiece(a + rest, sep) == a
  {
    var s := a + rest;
    if rest == "" {
      assert s == a;
    } else {
      assert s[|a|] == sep;
      assert forall j :: 0 <= j < |a| ==> s[j] != sep by {
        assert forall j :: 0 <= j < |a| ==> s[j] == a[j];
      }
      IndexOfAt(s, sep, |a|);
      assert s[..|a|] == a;
    }
  }

  function DropTrailingEmpty(ps: seq<string>): (r: seq<string>)
    ensures |r| <= |ps| && r == ps[..|r|]
    ensures forall i :: |r| <= i < |ps| ==> ps[i] == ""
    ensures r == [] || r[|r| - 1] != ""
  {
    if |ps| > 0 && ps[|ps| - 1] == "" then DropTrailingEmpty(ps[..|ps| - 1]) else ps
  }

  /** Java `s.split(regex)` where the regex matches exactly the character
      `sep`: no match gives `[s]`; otherwise the pieces with every trailing
      empty piece removed (a string made of separators splits into `[]`). */
  function JavaSplit(s: string, sep: char): (r: seq<string>)
    ensures sep !in s ==> r == [s]
    ensures sep in s ==> r == DropTrailingEmpty(Pieces(s, sep))
    ensures forall i :: 0 <= i < |r| ==> sep !in r[i]
  {
    if sep !in s then [s] else DropTrailingEmpty(Pieces(s, sep))
  }

  /** The first element of a Java split, which throws
      ArrayIndexOutOfBoundsException when the split is empty. */
  function JavaSplitFirst(s: string, sep: char): (r: Option<string>)
    ensures r.None? <==> (sep in s && forall i :: 0 <= i < |s| ==> s[i] == sep)
    ensures r.Some? ==> sep !in r.value && StartsWith(s, r.value)
  {
    var ps := JavaSplit(s, sep);
    if sep in s && forall i :: 0 <= i < |s| ==> s[i] == sep then
      OnlySeparatorsSplitEmpty(s, sep);
      None
    else
      PrefixSplitNonEmpty(s, sep);
      assert |ps| > 0;
      FirstPieceIsPrefix(s, sep);
      Some(ps[0])
  }

  /** The first piece of a split is the text before the first separator. */
  lemma SplitFirstOf(a: string, sep: char, rest: string)
    requires sep !in a && a != ""
    requires rest == "" || rest[0] == sep
    ensures JavaSplitFirst(a + rest, sep) == Some(a)
  {
    var s := a + rest;
    assert s[0] == a[0] != sep;
    if rest == "" {
      assert s == a;
    } else {
      assert s[|a|] == sep;
      assert forall j :: 0 <= j < |a| ==> s[j] != sep by {
        assert forall j :: 0 <= j < |a| ==> s[j] == a[j];
      }
      IndexOfAt(s, sep, |a|);
      assert Pieces(s, sep)[0] == s[..|a|] == a;
    }
  }

  lemma FirstPieceIsPrefix(s: string, sep: char)
    requires |JavaSplit(s, sep)| > 0
    ensures StartsWith(s, JavaSplit(s, sep)[0])
  {
    if sep in s {
      var k := IndexOf(s, sep);
      assert Pieces(s, sep)[0] == s[..k];
    }
  }

  lemma {:induction false} DropAllEmpty(ps: seq<string>)
    requires forall i :: 0 <= i < |ps| ==> ps[i] == ""
    ensures DropTrailingEmpty(ps) == []
  {
    if |ps| > 0 {
      DropAllEmpty(ps[..|ps| - 1]);
    }
  }

  lemma {:induction false} DropKeeps(ps: seq<string>, i: nat)
    requires i < |ps| && ps[i] != ""
    ensures |DropTrailingEmpty(ps)| > i
  {
    if ps[|ps| - 1] == "" {
      assert i < |ps| - 1;
      DropKeeps(ps[..|ps| - 1], i);
    }
  }

  lemma OnlySeparatorsSplitEmpty(s: string, sep: char)
    requires forall i :: 0 <= i < |s| ==> s[i] == sep
    ensures forall i :: 0 <= i < |Pieces(s, sep)| ==> Pieces(s, sep)[i] == ""
    ensures sep in s ==> JavaSplit(s, sep) == []
    decreases |s|
  {
    if |s| > 0 {
      assert s[0] == sep;
      OnlySeparatorsSplitEmpty(s[1..], sep);
      var ps := Pieces(s, sep);
      assert ps == [""] + Pieces(s[1..], sep);
      DropAllEmpty(ps);
    }
  }

  lemma PrefixSplitNonEmpty(s: string, sep: char)
    requires !(sep in s && forall i :: 0 <= i < |s| ==> s[i] == sep)
    ensures |JavaSplit(s, sep)| > 0
  {
    if sep in s {
      var j :| 0 <= j < |s| && s[j] != sep;
      var i := PieceHolding(s, sep, j);
      DropKeeps(Pieces(s, sep), i);
    }
  }

  /** The index of the piece that contains the non-separator character at
      position `j`. */
  lemma PieceHolding(s: string, sep: char, j: nat) returns (i: nat)
    requires j < |s| && s[j] != sep
    ensures i < |Pieces(s, sep)| && Pieces(s, sep)[i] != ""
    decreases |s|
  {
    if sep !in s {
      i := 0;
    } else {
      var k := IndexOf(s, sep);
      if j < k {
        i := 0;
        assert s[..k][j] == s[j];
      } else {
        assert j != k;
        var i' := PieceHolding(s[k + 1..], sep, j - k - 1);
        i := i' + 1;
      }
    }
  }

  /** Java split undoes a join when no part contains the separator and the
      last part is not empty (so nothing is dropped from the end). */
  lemma JavaSplitOfJoin(parts: seq<string>, sep: char)
    requires |parts| >= 1 && parts[|parts| - 1] != ""
    requires forall i :: 0 <= i < |parts| ==> sep !in parts[i]
    ensures JavaSplit(Join(parts, sep), sep) == parts
  {
    PiecesOfJoin(parts, sep);
  }

  // ---------------------------------------------------------------------
  // Decimal rendering
  // ---------------------------------------------------------------------

  function DigitChar(d: nat): (c: char)
    requires d < 10
    ensures IsDigit(c) && c as int - '0' as int == d
  {
    ('0' as int + d) as char
  }

  /** `String.valueOf(long)` of a non-negative value. */
  function NatToString(n: nat): (r: string)
    ensures |r| >= 1 && AllDigits(r)
    ensures r[0] == '0' ==> n == 0
  {
    if n < 10 then [DigitChar(n)] else NatToString(n / 10) + [DigitChar(n % 10)]
  }

  /** `String.valueOf(long)` / `Number.prototype.toString()` of an integer. */
  function IntToString(n: int): (r: string)
    ensures |r| >= 1
    ensures n >= 0 ==> r == NatToString(n)
    ensures n < 0 ==> r == "-" + NatToString(-n)
  {
    if n >= 0 then NatToString(n) else "-" + NatToString(-n)
  }

  // ---------------------------------------------------------------------
  // Parsing
  // ---------------------------------------------------------------------

  /** `Character.digit(c, radix)` for ASCII digits and letters. */
  function DigitValue(c: char): (r: Option<nat>)
    ensures r.Some? ==> r.value < 36
    ensures IsDigit(c) <==> r.Some? && r.value < 10
  {
    if '0' <= c <= '9' then Some(c as int - '0' as int)
    else if 'a' <= c <= 'z' then Some(c as int - 'a' as int + 10)
    else if 'A' <= c <= 'Z' then Some(c as int - 'A' as int + 10)
    else None
  }

  predicate AllDigitsIn(s: string, radix: nat) {
    forall i :: 0 <= i < |s| ==> DigitValue(s[i]).Some? && DigitValue(s[i]).value < radix
  }

  /** The value of a digit string read most significant digit first. */
  function DigitsValue(s: string, radix: nat): nat
    requires AllDigitsIn(s, radix)
  {
    if |s| == 0 then 0
    else DigitsValue(s[..|s| - 1], radix) * radix + DigitValue(s[|s| - 1]).value
  }

  lemma {:induction false} DigitsValueOfNatToString(n: nat)
    ensures AllDigitsIn(NatToString(n), 10)
    ensures DigitsValue(NatToString(n), 10) == n
  {
    var s := NatToString(n);
    if n >= 10 {
      DigitsValueOfNatToString(n / 10);
      assert s[..|s| - 1] == NatToString(n / 10);
    }
  }

  const MinInt: int := -0x8000_0000
  const MaxInt: int := 0x7FFF_FFFF
  const MinLong: int := -0x8000_0000_0000_0000
  const MaxLong: int := 0x7FFF_FFFF_FFFF_FFFF

  /** `Integer.parseInt(s, radix)` / `Long.parseLong(s, radix)`: an optional
      '+' or '-', at least one digit of the radix, nothing else, and a value
      inside [lo, hi]; every other input throws NumberFormatException. */
  function ParseSigned(s: string, radix: nat, lo: int, hi: int): (r: Option<int>)
    ensures r.Some? ==> lo <= r.value <= hi
    ensures r.Some? ==> |s| > 0
    ensures r.Some? && s[0] != '-' && s[0] != '+' ==>
      AllDigitsIn(s, radix) && r.value == DigitsValue(s, radix)
  {
    if |s| == 0 then None
    else
      var neg := s[0] == '-';
      var body := if s[0] == '-' || s[0] == '+' then s[1..] else s;
      if |body| == 0 || !AllDigitsIn(body, radix) then None
      else
        var v: int := if neg then -(DigitsValue(body, radix) as int) else DigitsValue(body, radix);
        if lo <= v <= hi then Some(v) else None
  }

  /** `Long.parseLong(s)`. */
  function ParseLong(s: string): (r: Option<int>)
    ensures r.Some? ==> MinLong <= r.value <= MaxLong
  {
    ParseSigned(s, 10, MinLong, MaxLong)
  }

  /** Rendering then parsing a long gives it back. */
  lemma ParseLongOfIntToString(n: int)
    requires MinLong <= n <= MaxLong
    ensures ParseLong(IntToString(n)) == Some(n)
  {
    if n >= 0 {
      DigitsValueOfNatToString(n);
      assert NatToString(n)[0] != '-' && NatToString(n)[0] != '+';
    } else {
      DigitsValueOfNatToString(-n);
      assert ("-" + NatToString(-n))[1..] == NatToString(-n);
    }
  }

  /** Two's-complement wrap-around of a Java `long` result. */
  function Wrap64(x: int): (r: int)
    ensures MinLong <= r <= MaxLong
    ensures MinLong <= x <= MaxLong ==> r == x
    ensures (r - x) % 0x1_0000_0000_0000_0000 == 0
  {
    (x - MinLong) % 0x1_0000_0000_0000_0000 + MinLong
  }

  /** Two's-complement wrap-around of a Java `int` result. */
  function Wrap32(x: int): (r: int)
    ensures MinInt <= r <= MaxInt
    ensures MinInt <= x <= MaxInt ==> r == x
    ensures (r - x) % 0x1_0000_0000 == 0
  {
    (x - MinInt) % 0x1_0000_0000 + MinInt
  }

  /** Java's integer division, which truncates toward zero. */
  function JavaDiv(a: int, b: int): (q: int)
    requires b > 0
    ensures a >= 0 ==> q == a / b
    ensures a < 0 ==> q == -((-a) / b)
  {
    if a >= 0 then a / b else -((-a) / b)
  }

  /** Longest prefix of ASCII decimal digits. */
  function DigitPrefix(s: string): (r: string)
    ensures StartsWith(s, r) && AllDigits(r)
    ensures |r| < |s| ==> !IsDigit(s[|r|])
  {
    if |s| > 0 && IsDigit(s[0]) then [s[0]] + DigitPrefix(s[1..]) else ""
  }

  lemma AllDigitsInDecimal(s: string)
    requires AllDigits(s)
    ensures AllDigitsIn(s, 10)
  {
    forall i | 0 <= i < |s| ensures DigitValue(s[i]).Some? && DigitValue(s[i]).value < 10 {
      assert IsDigit(s[i]);
    }
  }

  /** The value of the longest run of decimal digits at the start of `u`,
      `None` when it has none. */
  function LeadingDigitsValue(u: string): (r: Option<nat>)
    ensures r.None? <==> |u| == 0 || !IsDigit(u[0])
  {
    var d := DigitPrefix(u);
    if |d| == 0 then None
    else
      AllDigitsInDecimal(d);
      Some(DigitsValue(d, 10))
  }

  /** An optional sign, then the leading digits, negated after '-'. */
  function SignedLeadingValue(t: string): (r: Option<int>)
  {
    if |t| > 0 && t[0] == '-' then
      match LeadingDigitsValue(t[1..])
      case None => None
      case Some(v) => Some(0 - v)
    else
      var u := if |t| > 0 && t[0] == '+' then t[1..] else t;
      match LeadingDigitsValue(u)
      case None => None
      case Some(v) => Some(v)
  }

  /** JavaScript `parseInt(s, 10)`: leading white space is skipped, then an
      optional sign, then the longest run of decimal digits; with no digit
      the result is NaN (`None`). */
  function JsParseInt(s: string): (r: Option<int>)
  {
    SignedLeadingValue(TrimStartWith(s, IsJsWhitespace))
  }

  /** `parseInt` reads back any rendered integer, and ignores whatever
      follows the digits ("12abc" reads as 12). */
  lemma JsParseIntOfIntToString(n: int, rest: string)
    requires rest == [] || !IsDigit(rest[0])
    ensures JsParseInt(IntToString(n) + rest) == Some(n)
  {
    if n >= 0 {
      JsParseIntOfDigits(n, rest);
    } else {
      JsParseIntOfNegative(n, rest);
    }
  }

  lemma JsParseIntOfDigits(n: nat, rest: string)
    requires rest == [] || !IsDigit(rest[0])
    ensures JsParseInt(NatToString(n) + rest) == Some(n)
  {
    LeadingDigitsOfNat(n, rest);
    assert (NatToString(n) + rest)[0] == NatToString(n)[0];
    JsParseIntOfUnsigned(NatToString(n) + rest);
  }

  lemma JsParseIntOfNegative(n: int, rest: string)
    requires n < 0
    requires rest == [] || !IsDigit(rest[0])
    ensures JsParseInt(IntToString(n) + rest) == Some(n)
  {
    JsParseIntOfMinusDigits(-n, rest);
    assert IntToString(n) + rest == "-" + NatToString(-n) + rest;
  }

  /** A minus sign, a magnitude's digits and a non-digit read as the
      negated magnitude. */
  lemma JsParseIntOfMinusDigits(m: nat, rest: string)
    requires rest == [] || !IsDigit(rest[0])
    ensures JsParseInt("-" + NatToString(m) + rest) == Some(-(m as int))
  {
    var s := "-" + NatToString(m) + rest;
    SliceAfterMinus(NatToString(m), rest);
    LeadingDigitsOfNat(m, rest);
    JsParseIntOfMinus(s);
  }

  /** A rendered number followed by a non-digit is read as the number. */
  lemma LeadingDigitsOfNat(m: nat, rest: string)
    requires rest == [] || !IsDigit(rest[0])
    ensures LeadingDigitsValue(NatToString(m) + rest) == Some(m)
  {
    DigitsValueOfNatToString(m);
    DigitPrefixOfDigits(NatToString(m), rest);
  }

  lemma SliceAfterMinus(d: string, rest: string)
    ensures |"-" + d + rest| > 0 && ("-" + d + rest)[0] == '-'
    ensures ("-" + d + rest)[1..] == d + rest
  {
  }

  /** After a minus sign, `parseInt` negates the digits that follow. */
  lemma JsParseIntOfMinus(s: string)
    requires |s| > 0 && s[0] == '-'
    ensures LeadingDigitsValue(s[1..]).None? ==> JsParseInt(s).None?
    ensures LeadingDigitsValue(s[1..]).Some? ==> JsParseInt(s) == Some(0 - LeadingDigitsValue(s[1..]).value)
  {
    NoLeadingSpace(s);
  }

  /** Text starting with a digit is read as its leading digits. */
  lemma JsParseIntOfUnsigned(u: string)
    requires |u| > 0 && IsDigit(u[0])
    ensures JsParseInt(u) == Some(LeadingDigitsValue(u).value)
  {
    NoLeadingSpace(u);
  }

  lemma NoLeadingSpace(s: string)
    requires |s| > 0 && (IsDigit(s[0]) || s[0] == '-')
    ensures TrimStartWith(s, IsJsWhitespace) == s
  {
    assert !IsJsWhitespace(s[0]);
  }

  lemma {:induction false} DigitPrefixOfDigits(d: string, rest: string)
    requires AllDigits(d)
    requires rest == [] || !IsDigit(rest[0])
    ensures DigitPrefix(d + rest) == d
  {
    if |d| > 0 {
      assert (d + rest)[1..] == d[1..] + rest;
      DigitPrefixOfDigits(d[1..], rest);
    } else {
      assert d + rest == rest;
    }
  }

  /** `parseInt` reads the decimal text of any integer back. */
  lemma JsParseIntOfNumber(n: int)
    ensures JsParseInt(IntToString(n)) == Some(n)
  {
    JsParseIntOfIntToString(n, "");
    assert IntToString(n) + "" == IntToString(n);
  }

  /** `parseInt("")` is NaN. */
  lemma JsParseIntOfEmpty()
    ensures JsParseInt("").None?
  {
    JsParseIntNaN("");
  }

  /** `parseInt` is NaN exactly when no digit follows the white space and
      the optional sign. */
  lemma JsParseIntNaN(s: string)
    ensures var t := TrimStartWith(s, IsJsWhitespace);
      var u := if |t| > 0 && (t[0] == '-' || t[0] == '+') then t[1..] else t;
      JsParseInt(s).None? <==> (|u| == 0 || !IsDigit(u[0]))
  {
  }

  // ---------------------------------------------------------------------
  // Replacement
  // ---------------------------------------------------------------------

  /** Java `String.replace` with a non-empty target: every occurrence,
      scanning left to right without overlaps, becomes `repl`. */
  function Replace(s: string, target: string, repl: string): (r: string)
    requires |target| > 0
    decreases |s|
  {
    if |s| < |target| then s
    else if s[..|target|] == target then repl + Replace(s[|target|..], target, repl)
    else [s[0]] + Replace(s[1..], target, repl)
  }

  /** `target` occurs in `s` starting at index `i`. */
  predicate OccursAt(s: string, target: string, i: nat) {
    i + |target| <= |s| && s[i..i + |target|] == target
  }

  /** Text that holds no occurrence of the target is returned unchanged. */
  lemma {:induction false} ReplaceAbsent(s: string, target: string, repl: string)
    requires |target| > 0
    requires forall i: nat :: !OccursAt(s, target, i)
    ensures Replace(s, target, repl) == s
    decreases |s|
  {
    if |s| >= |target| {
      assert !OccursAt(s, target, 0);
      forall i: nat ensures !OccursAt(s[1..], target, i) {
        assert !OccursAt(s, target, i + 1);
        if i + |target| <= |s[1..]| {
          assert s[1..][i..i + |target|] == s[i + 1..i + 1 + |target|];
        }
      }
      ReplaceAbsent(s[1..], target, repl);
    }
  }

  /** Every occurrence is replaced: the placeholder alone becomes the
      replacement, and so does each copy of it in a concatenation. */
  lemma {:induction false} ReplaceRepeated(target: string, repl: string, n: nat)
    requires |target| > 0
    ensures Replace(Repeat(target, n), target, repl) == Repeat(repl, n)
  {
    if n > 0 {
      var s := Repeat(target, n);
      assert s[..|target|] == target;
      assert s[|target|..] == Repeat(target, n - 1);
      ReplaceRepeated(target, repl, n - 1);
    }
  }

  function Repeat(s: string, n: nat): (r: string)
    ensures |r| == |s| * n
  {
    if n == 0 then "" else s + Repeat(s, n - 1)
  }
}

=== FILE: translations.dfy ===
/** The message tables of the analytics text report and their look-up:
    an unknown language means English, and a key missing from a language
    falls back to the English text and then to the key itself. */
module Translations {

  const Keys: set<string> := {
    "report_title", "total_revenue", "total_orders", "total_products_sold",
    "best_day", "best_week", "best_month", "top_products_title", "top_product_line"
  }

  const English: map<string, string> := map[
    "report_title" := "📊 Sales Analysis Report",
    "total_revenue" := "Total revenue generated: ₹{total_revenue:,.2f}.",
    "total_orders" := "Total number of orders: {total_orders}.",
    "total_products_sold" := "Total products sold: {total_products_sold}.",
    "best_day" := "Best performing day: {best_day} (₹{total_sales:.2f}).",
    "best_week" := "Best week: {best_week} (₹{revenue:.2f}).",
    "best_month" := "Best month: {best_month} (₹{revenue:.2f}).",
    "top_products_title" := "Top selling products:",
    "top_product_line" := "- {name} ({category}) sold {qty} units, revenue {revenue:.2f}"
  ]

  const Hindi: map<string, string> := map[
    "report_title" := "📊 बिक्री विश्लेषण रिपोर्ट",
    "total_revenue" := "कुल राजस्व उत्पन्न: ₹{total_revenue:,.2f}।",
    "total_orders" := "ऑर्डर की कुल संख्या: {total_orders}।",
    "total_products_sold" := "कुल बिके उत्पाद: {total_products_sold}।",
    "best_day" := "सबसे अच्छा प्रदर्शन करने वाला दिन: {best_day} (₹{total_sales:.2f})।",
    "best_week" := "सबसे अच्छा सप्ताह: {best_week} (₹{revenue:.2f})।",
    "best_month" := "सबसे अच्छा महीना: {best_month} (₹{revenue:.2f})।",
    "top_products_title" := "सबसे ज्यादा बिकने वाले उत्पाद:",
    "top_product_line" := "- {name} ({category}) ने {qty} इकाइयाँ बेचीं, राजस्व {revenue:.2f}"
  ]

  const Marathi: map<string, string> := map[
    "report_title" := "📊 विक्री विश्लेषण अहवाल",
    "total_revenue" := "एकूण महसूल: ₹{total_revenue:,.2f}।",
    "total_orders" := "एकूण ऑर्डरची संख्या: {total_orders}।",
    "total_products_sold" := "एकूण विकलेली उत्पादने: {total_products_sold}।",
    "best_day" := "सर्वोत्तम कामगिरीचा दिवस: {best_day} (₹{total_sales:.2f}).",
    "best_week" := "सर्वोत्तम आठवडा: {best_week} (₹{revenue:.2f}).",
    "best_month" := "सर्वोत्तम महिना: {best_month} (₹{revenue:.2f}).",
    "top_products_title" := " सर्वाधिक विकली जाणारी उत्पादने:",
    "top_product_line" := "- {name} ({category}) ने {qty} युनिट्स विकले, महसूल {revenue:.2f}"
  ]

  const Telugu: map<string, string> := map[
    "report_title" := "📊 అమ్మకాల విశ్లేషణ నివేదిక",
    "total_revenue" := "మొత్తం ఆదాయం: ₹{total_revenue:,.2f}।",
    "total_orders" := "మొత్తం ఆర్డర్ల సంఖ్య: {total_orders}।",
    "total_products_sold" := "మొత్తం అమ్ముడైన ఉత్పత్తులు: {total_products_sold}।",
    "best_day" := "ఉత్తమ పనితీరు కనబరిచిన రోజు: {best_day} (₹{total_sales:.2f}).",
    "best_week" := "ఉత్తమ వారం: {best_week} (₹{revenue:.2f}).",
    "best_month" := "ఉత్తమ నెల: {best_month} (₹{revenue:.2f}).",
    "top_products_title" := "అత్యధికంగా అమ్ముడైన ఉత్పత్తులు:",
    "top_product_line" := "- {name} ({category}) {qty} యూనిట్లు అమ్ముడయ్యాయి, ఆదాయం {revenue:.2f}"
  ]

  const Tables: map<string, map<string, string>> :=
    map["en" := English, "hi" := Hindi, "mr" := Marathi, "te" := Telugu]

  /** `get_translation`. */
  function Translate(lang: string, key: string): (r: string)
    ensures lang in Tables && key in Tables[lang] ==> r == Tables[lang][key]
    ensures lang !in Tables && key in English ==> r == English[key]
    ensures (lang !in Tables || key !in Tables[lang]) && key !in English ==> r == key
    ensures lang in Tables && key !in Tables[lang] && key in English ==> r == English[key]
  {
    var table := if lang in Tables then Tables[lang] else Tables["en"];
    if key in table then table[key]
    else if key in Tables["en"] then Tables["en"][key]
    else key
  }

  /** Every table defines exactly the nine report keys. */
  lemma TablesShareKeys()
    ensures Tables.Keys == {"en", "hi", "mr", "te"}
    ensures forall lang :: lang in Tables ==> Tables[lang].Keys == Keys
  {
    TableCodes();
    EnglishKeys();
    HindiKeys();
    MarathiKeys();
    TeluguKeys();
    TablesAre();
  }

  lemma TableCodes() ensures Tables.Keys == {"en", "hi", "mr", "te"} {}
  lemma TablesAre()
    ensures Tables["en"] == English && Tables["hi"] == Hindi && Tables["mr"] == Marathi && Tables["te"] == Telugu
  {}
  lemma EnglishKeys() ensures English.Keys == Keys {}
  lemma HindiKeys() ensures Hindi.Keys == Keys {}
  lemma MarathiKeys() ensures Marathi.Keys == Keys {}
  lemma TeluguKeys() ensures Telugu.Keys == Keys {}

  /** Since the tables agree on their keys, a report key always comes from
      the chosen language (or English for an unknown code), and any other
      key is echoed back. */
  lemma ReportKeysNeverFallBack(lang: string, key: string)
    ensures key in Keys && lang in Tables ==> Translate(lang, key) == Tables[lang][key]
    ensures key in Keys && lang !in Tables ==> Translate(lang, key) == English[key]
    ensures key !in Keys ==> Translate(lang, key) == key
  {
    TablesShareKeys();
  }

  /** Codes the tables do not know, such as a region-qualified one, read as
      English. */
  lemma UnknownCodeIsEnglish()
    ensures Translate("en-US", "total_orders") == "Total number of orders: {total_orders}."
    ensures Translate("fr", "report_title") == "📊 Sales Analysis Report"
    ensures Translate("hi", "top_products_title") == "सबसे ज्यादा बिकने वाले उत्पाद:"
  {
    RegionCodeIsEnglish();
    OtherCodeIsEnglish();
    KnownCodeIsOwnTable();
  }

  lemma RegionCodeIsEnglish()
    ensures Translate("en-US", "total_orders") == "Total number of orders: {total_orders}."
  {
    assert "en-US" !in Tables;
    assert "total_orders" in English;
  }

  lemma OtherCodeIsEnglish()
    ensures Translate("fr", "report_title") == "📊 Sales Analysis Report"
  {
    assert "fr" !in Tables;
    UnknownCodeTitle("fr");
  }

  /** Any code without a table has the English title. */
  lemma UnknownCodeTitle(lang: string)
    requires lang !in Tables
    ensures Translate(lang, "report_title") == "📊 Sales Analysis Report"
  {
    assert "report_title" in English;
  }

  lemma KnownCodeIsOwnTable()
    ensures Translate("hi", "top_products_title") == "सबसे ज्यादा बिकने वाले उत्पाद:"
  {
    assert Tables["hi"] == Hindi;
  }
}

=== FILE: ui_errors.dfy ===
/** How the browser pages turn a failed request into the text they show:
    the server's `error` field when it is non-empty, else a second message
    (the exception's own, or the body's `message`, as the page chooses),
    else the page's fallback. */
module UiErrors {
  import opened Wrappers
  import opened Text

  /** A rejected request: the body's `error` field and the page's second
      choice of message, each possibly missing. */
  datatype Failure = Failure(serverError: Option<string>, message: Option<string>)

  /** `a || b || fallback` over the three candidates; `None` when all are
      missing or empty. */
  function Describe(f: Failure, fallback: Option<string>): (r: Option<string>)
    ensures Truthy(f.serverError) ==> r == f.serverError
    ensures !Truthy(f.serverError) && Truthy(f.message) ==> r == f.message
    ensures !Truthy(f.serverError) && !Truthy(f.message) ==> r == fallback
  {
    if Truthy(f.serverError) then f.serverError
    else if Truthy(f.message) then f.message
    else fallback
  }
}

=== FILE: wrappers.dfy ===
/** Failure-carrying wrappers shared by every module of the model.
    A Java `null` or a JavaScript `undefined` becomes `None`; a thrown
    exception or an error response becomes `Err` carrying its message or
    message-source key. */
module Wrappers {

  datatype Option<+T> = None | Some(value: T) {
    function GetOr(default: T): T {
      match this
      case Some(v) => v
      case None => default
    }
  }

  datatype Result<+T> = Ok(value: T) | Err(error: string) {
    predicate IsFailure() {
      Err?
    }

    function PropagateFailure<U>(): Result<U>
      requires Err?
    {
      Err(error)
    }

    function Extract(): T
      requires Ok?
    {
      value
    }
  }
}
